=== FILE: README.md ===
# Course platform backend — a Dafny model of its business rules

This project models the business-rule layer of a course marketplace backend. Users
enroll in courses, mark lessons complete and earn certificates. Instructors author
courses made of sections and lessons and attach hosted videos. Payments through Stripe
or PayPal enroll the payer. A notification inbox, watching-progress records and
client-side log batches complete the picture. Access goes through a token gate and a
role gate.

How the model is built:

- **Collections are maps.** Each document collection is an in-memory map from id to
  record, held by a store class (`CourseStore`, `UserStore`, `PaymentStore`,
  `NotificationStore`, `ProgressStore`, `ClientLogStore`) whose methods are the
  database calls. Each call is one atomic step.
- **Routes have a spec and a method.** A route handler is a module-level method that
  calls the stores in the order the controller does. Its contract ties the reply and
  the new collections to a specification function over the old ones. The properties
  the controllers promise are proved as lemmas about those functions.
- **Outside inputs are parameters.** The clock, token verification and signing,
  password hashing and comparison, the random reset token and its digest, the Stripe
  and Vimeo replies, the ids the store draws for new documents and the result of
  running a query filter (an answer or the store's error) are all passed in.
- **Faults are replies.** A controller that would dereference a missing document
  replies 500, as the error handler does for an unexpected exception. The model does
  not turn these into preconditions.

Modules, one per concern:

- `Common`: `Option`, ids and time.
- `Text`: JavaScript string helpers (`\w`, lower-casing, UTF-16 length, `trim`, `split`,
  decimal printing and parsing).
- `Errors`: the error response and the central error handler.
- `CourseModel`: the course schema, slug, average rating, validators and the course
  store.
- `UserModel`: the user schema, its sub-records, validators, reset-token expiry and
  the user store.
- `AuthMiddleware`: `protect` and `authorize`.
- `AuthController`: register, login, logout and account maintenance.
- `EnrollmentEngine`: enrollment, progress, certificates and reviews.
- `CourseAuthoring`: course create, update and delete, and the section/lesson edits.
- `CourseListing`: the public course query and its pagination.
- `Payments`: the Stripe and PayPal routes and payment details.
- `Notifications`: the notification inbox.
- `VideoProgressModel`: watching progress.
- `Videos`: the lesson-video routes.
- `ClientLogs`: client log batches.

## Model

| member | source | states |
|---|---|---|
| Errors.ErrorResponse | src/utils/errorResponse.js:1-10 | an `ErrorResponse` carries exactly the status and message it was raised with, and is neither a cast, validation nor duplicate-key error |
| Errors.FieldMap | src/middleware/error.js:36-40 | the `errors` map of a validation reply has one key per failing path, and no other keys |
| Errors.FieldMapLastWins | src/middleware/error.js:38-40 | a path holds the message of its last failure: later failures overwrite earlier ones |
| Errors.ErrorHandler | src/middleware/error.js:3-51 | the charset check runs first and gives 400 with the fixed JSON-format message; validation errors (and only they) get 422 with the path map; every other reply has a non-empty message and a non-zero status |
| Errors.ErrorResponsePassesThrough | src/middleware/error.js:47-50 | an `ErrorResponse` reaches the client with its own status and message |
| Errors.DuplicateKeyIs400 | src/middleware/error.js:30-33 | store error code 11000 becomes 400 "Duplicate field value entered", whatever status it had |
| Errors.CrashIs500 | src/middleware/error.js:47-50 | an error with no status becomes 500 and keeps its message |
| Errors.CastErrorIs404 | src/middleware/error.js:24-27 | a cast error (malformed id) becomes 404 "Resource not found" |
| CourseModel.LevelViolations | src/models/Course.js:34-38 | `level` is accepted exactly when it is one of the four enum texts; otherwise there is one validation failure, on path `level` |
| CourseModel.EnumNamesRoundTrip | src/models/Course.js:98-114 | each video provider, video status and level is read back from its name as that value |
| CourseModel.CastResources | src/models/Course.js:115-122 | `resources` is an array of texts (the `type` key names the element type): a value casts exactly when every entry is a text, giving those texts in order |
| CourseModel.ResourcesErrors | src/models/Course.js:115-122 | setting `resources` records no failure exactly when they are absent or cast; otherwise exactly one cast failure |
| Text.Utf16Length | src/models/Course.js:8 | the length `maxlength` and `minlength` compare counts UTF-16 code units: between n and 2n for n characters, n when all are in the Basic Multilingual Plane, 2n when none is |
| Text.TrimKeeps | src/models/Course.js:7 | text with no whitespace at either end is its own trim, so trimming twice is trimming once |
| CourseModel.NewLesson | src/controllers/courses.js:645-652 | a new lesson has video status `none`, no provider and no video id; `isPreview` holds only when given true; absent resources give an empty list, and resources that cast (all texts) are kept one for one, in order |
| CourseModel.Slug | src/models/Course.js:161-165 | for every title, non-ASCII ones included, the slug holds only `[a-z0-9_-]` characters and never two dashes in a row |
| CourseModel.SlugContent | src/models/Course.js:162-165 | dropping the dashes from the slug gives exactly the word characters of the title after `toLowerCase`, in order; the lower-casing covers every character whose lower case holds an ASCII letter (the ASCII capitals, KELVIN SIGN and U+0130) |
| CourseModel.KelvinSlug | src/models/Course.js:162-165 | a title made of KELVIN SIGN slugs to "k": `toLowerCase` maps it to a letter that `\w` keeps |
| CourseModel.SlugNotIdempotent | src/models/Course.js:164-165 | slugging is not idempotent: "a b" gives "a-b", but "a-b" gives "ab" |
| CourseModel.DashSpaceRuns | src/models/Course.js:165 | every run of spaces becomes one dash: no space is left, nothing new but dashes appears, and dash-free input yields no double dash |
| CourseModel.KeepWordAndSpace | src/models/Course.js:164 | the result is no longer than the input and holds only word characters and spaces taken from it |
| CourseModel.DashSpaceRunsContent | src/models/Course.js:165 | without dashes, the dashed text equals the input without spaces |
| CourseModel.KeepThenDropSpaces | src/models/Course.js:164 | keeping word characters and spaces, then dropping spaces, leaves exactly the word characters |
| CourseModel.RatingTenthsInRange | src/models/Course.js:179-184 | with at least one review and every rating present and in 1..5 (fractions such as 4.5 included), the `toFixed(1)` average lies between 1.0 and 5.0 |
| CourseModel.RatingTenthsOfEqualRatings | src/models/Course.js:179-184 | when every review gives the same one-decimal rating t/10, the average is exactly t/10 |
| CourseModel.WithAverageRating | src/models/Course.js:172-185 | ratingCount is the number of reviews; no reviews gives rating 0; with every rating present, rating is the rounded mean, and in-range ratings give 1.0..5.0; a review without a rating makes the mean NaN, which fails to cast, so `rating` keeps its value; no other field changes |
| CourseModel.AverageErrors | src/models/Course.js:179-183 | the average records a cast failure exactly when some review has no rating |
| Text.NumberTextOfTenths | src/models/Course.js:183 | a number with one decimal prints as its whole part, a point and that decimal (4.5 prints "4.5") |
| CourseModel.Required | src/models/Course.js:4-51 | a required path reports a failure exactly when its value is missing |
| CourseModel.LessonsViolations | src/models/Course.js:92-95 | no failure exactly when every lesson has a title |
| CourseModel.SectionsViolations | src/models/Course.js:84-130 | no failure exactly when every section has a title and valid lessons |
| CourseModel.RatingViolation | src/models/Course.js:137-142 | a review rating is accepted exactly when it is present and lies in 1..5, fractions included; otherwise there is one failure |
| CourseModel.ReviewsViolations | src/models/Course.js:131-149 | no failure exactly when every review has a rating and it lies in 1..5 |
| CourseModel.CourseViolations | src/models/Course.js:3-158 | a save reports no failure exactly when the course satisfies the schema: the required fields, the 100 and 200 length bounds counted in UTF-16 code units, the level enum, sections, lessons and ratings |
| CourseModel.SaveOutcome | src/models/Course.js:161-169 | save succeeds exactly for a valid course whose new slug no other course holds; on success the slug is that of the current title and updatedAt is now, nothing else changes; an invalid course gives a validation error, a slug clash a duplicate key |
| CourseModel.SaveWithOutcome | src/models/Course.js:161-169 | with no failure recorded while values were set, this is the plain save; with recorded failures the save fails with a validation error that lists them first |
| CourseModel.SavedFields | src/models/Course.js:161-169 | a successful save changes only the slug and updatedAt: title, instructor, reviews, sections, rating, ratingCount, totalEnrollments, createdAt, price and isPublished keep their values |
| CourseModel.SaveKeepsStoreValid | src/models/Course.js:161-169 | a successful save keeps every stored course valid, its slug that of its title, and slugs unique |
| CourseModel.CourseStore.Save | src/models/Course.js:161-169 | the store's save gives `SaveOutcome` and writes the course only on success |
| CourseModel.CourseStore.SaveWith | src/models/Course.js:161-169 | the store's save of a document with recorded failures gives `SaveWithOutcome`, writes only on success and keeps the store valid |
| CourseModel.CourseStore.Remove | src/controllers/courses.js:207 | deleting removes exactly that course and keeps the store valid |
| UserModel.RoleField | src/models/User.js:27-31 | a missing role defaults to `user`; a given role is accepted exactly when it names one of `user`, `instructor`, `admin` |
| UserModel.RoleFieldOfName | src/models/User.js:27-31 | each role's name is accepted as that role |
| UserModel.EnrollmentRefs | src/models/User.js:40-61 | the enrollment references are the entries' course fields, in order |
| UserModel.CertificateRefs | src/models/User.js:66-76 | the certificate references are the entries' course fields, in order |
| UserModel.FindRef | src/controllers/courses.js:236-246 | `some(e => e.course.toString() === id)`: finds the first matching entry, reports a missing id when all entries are non-null and different, and a null reference fault when a null entry comes before any match |
| UserModel.FindRefWithoutNulls | src/controllers/courses.js:236-246 | with no null reference the search never faults and finds the id exactly when it is present |
| UserModel.NameViolations | src/models/User.js:6-11 | a name is accepted exactly when, trimmed of all JavaScript whitespace, it is non-empty and at most 50 UTF-16 code units long |
| UserModel.EmailViolations | src/models/User.js:12-20 | an email is accepted exactly when it is non-empty and matches the email pattern |
| UserModel.PasswordViolations | src/models/User.js:21-26 | a password is accepted exactly when it is at least 8 UTF-16 code units long; the failure is on path `password` |
| UserModel.BioViolations | src/models/User.js:36-39 | a bio is accepted exactly when it is at most 500 UTF-16 code units long |
| UserModel.WideNameRefused | src/models/User.js:6-11 | a name of 26 to 50 characters beyond U+FFFF (emoji) is over 50 code units and is refused with the length message |
| UserModel.WidePasswordAccepted | src/models/User.js:21-26 | a password of four emoji is 8 code units long and passes the minimum length |
| UserModel.WithResetToken | src/models/User.js:112-126 | the reset token is stored hashed and expires 600000 ms after now; nothing else changes |
| UserModel.LiveTokens | src/models/User.js:77-87 | the live blacklist entries are exactly those not older than 86400 s |
| UserModel.TtlSweepAsWritten | src/models/User.js:82-86 | as written, the TTL index removes every user that holds an expired blacklist entry (see Findings) |
| UserModel.TokenSweep | src/models/User.js:77-87 | the intended sweep keeps every user and drops only the expired blacklist entries |
| UserModel.TokenSweepKeepsValid | src/models/User.js:77-87 | the intended sweep keeps emails unique and every user well-formed |
| UserModel.ReplaceKeepsUniqueEmails | src/models/User.js:12-15 | writing a user whose email no other user holds keeps emails unique |
| UserModel.FindsByEmailUnique | src/models/User.js:15 | with unique emails, looking up an email has one answer |
| UserModel.WellFormedFrame | src/models/User.js:40-76 | well-formedness depends only on the enrollments and certificates |
| UserModel.UserStore.Put | src/controllers/auth.js:82 | saving a user under its own email writes exactly that document and keeps emails unique |
| UserModel.UserStore.Replace | src/controllers/auth.js:116-119 | writing a user whose email no one else holds writes exactly that document and keeps emails unique |
| UserModel.UserStore.Insert | src/controllers/auth.js:23-28 | creating a user with a free email adds exactly that document and keeps emails unique |
| UserModel.UserStore.SweepTokens | src/models/User.js:82-86 | the store's sweep is `TokenSweep` and keeps the store valid |
| AuthMiddleware.NonEmpty | src/middleware/auth.js:16-22 | a token is present exactly when it is given and not empty |
| AuthMiddleware.ExtractToken | src/middleware/auth.js:10-19 | a header starting with `Bearer` takes precedence and yields a token with no space in it; otherwise the cookie token is used |
| AuthMiddleware.BearerHeaderRoundTrip | src/middleware/auth.js:10-15 | the token of a `Bearer <token>` header is `<token>`, whatever the cookie holds |
| AuthMiddleware.BareBearerHidesCookie | src/middleware/auth.js:10-16 | a header that is just `Bearer` gives no token even when a cookie token exists |
| AuthMiddleware.Protect | src/middleware/auth.js:7-49 | the request passes exactly when a token is present, verifies, names a stored user and is not on that user's blacklist; the session carries that token and user; every refusal is 401 |
| AuthMiddleware.BlacklistedTokenRefused | src/middleware/auth.js:37-40 | a blacklisted token of an existing user gets 401 "Token is no longer valid" |
| AuthMiddleware.Authorize | src/middleware/auth.js:52-63 | the route passes exactly when a caller with one of the roles is present; otherwise 403 naming the caller's role, or `undefined` |
| AuthMiddleware.AuthoringGate | src/routes/courses.js:37-48 | the instructor-or-admin gate refuses exactly the plain users |
| AuthController.RegisterViolations | src/models/User.js:6-31 | a registration passes validation exactly when the trimmed name is 1..50 UTF-16 code units, the email is given and matches the pattern, the password has at least 8 code units and the role is absent or one of the enum |
| AuthController.NewUser | src/controllers/auth.js:23-28 | a freshly created user is well-formed and has no blacklisted token |
| AuthController.RegisterEffect | src/controllers/auth.js:9-38 | registration succeeds exactly for valid input with an email no user holds; then exactly the new user is added (role `user` by default), emails stay unique, and the reply is 201 with the token signed for the new user; on failure nothing changes |
| AuthController.RegisterSpec | src/controllers/auth.js:9-38 | registration succeeds exactly for input that validates and an email nobody holds; then the reply is 201 and exactly one new well-formed user, with that email, is added; a failure changes nothing |
| AuthController.Register | src/controllers/auth.js:9-38 | the route on the user store computes `RegisterSpec` |
| AuthController.LoginOutcome | src/controllers/auth.js:43-66 | a missing email or password gives 400 before any lookup; otherwise login succeeds exactly when some user has that email and the password matches, with a 200 token for that user; an unknown email and a wrong password give the same 401 "Invalid credentials" |
| AuthController.LoginSpec | src/controllers/auth.js:43-66 | login succeeds exactly when an email and a password are given, a user has that email and the password matches, with a 200 token signed for that user; every failure is a 400 or the 401 "Invalid credentials" |
| AuthController.RegisterThenLogin | src/controllers/auth.js:9-66 | a user just registered logs in with the same email and password and gets a 200 token for the new id |
| AuthController.Login | src/controllers/auth.js:43-66 | the route computes `LoginSpec` and changes nothing |
| AuthController.Blacklisting | src/controllers/auth.js:75-81 | after logout the token is on the user's blacklist, appended as the last entry, and nothing else about the user changes |
| AuthController.LogoutRevokesToken | src/controllers/auth.js:71-93 | after a successful logout, any request that presents the same token gets 401 "Token is no longer valid"; the set of users, unique emails and well-formedness are kept |
| AuthController.LogoutTwiceRefused | src/controllers/auth.js:71-93 | logging out again with the same token is refused with 401 and changes nothing |
| AuthController.LogoutSpec | src/controllers/auth.js:71-93 | every failure is a 401 and changes nothing; a success follows a passing `protect` and puts the presented token on that user's blacklist, changing no other user |
| AuthController.Logout | src/controllers/auth.js:71-93 | the route on the user store computes `LogoutSpec` |
| AuthController.TtlSweepDeletesLoggedOutUser | src/models/User.js:82-86 | as written, one day after logout the TTL sweep has deleted the logged-out user's whole document (see Findings) |
| AuthController.TokenSweepKeepsRevocation | src/models/User.js:77-87 | with the intended sweep every user survives, and the logged-out token is still refused until its entry expires |
| AuthController.DetailViolations | src/controllers/auth.js:111-119 | the update passes the run validators exactly when a given name trims to 1..50 UTF-16 code units and a given email is non-empty and matches the pattern |
| AuthController.WithDetails | src/controllers/auth.js:111-114 | only the name and email of the user can differ |
| AuthController.UpdateDetailsKeepsIndex | src/controllers/auth.js:110-125 | the update keeps the set of users and unique emails, touches no other user, and changes nothing on failure |
| AuthController.UpdateDetailsOnlyNameAndEmail | src/controllers/auth.js:110-125 | the update succeeds exactly when the fields validate and the new email is free; it returns the updated user, whose other fields are unchanged |
| AuthController.UpdateDetailsSpec | src/controllers/auth.js:110-125 | a failure, or an empty reply (fields valid but no caller document), changes nothing; a returned user is written over the caller alone, differs from the stored one only in name and email, and holds an email nobody else holds |
| AuthController.UpdateDetails | src/controllers/auth.js:110-125 | the route on the user store computes `UpdateDetailsSpec` |
| AuthController.UpdatePasswordEffect | src/controllers/auth.js:130-142 | a wrong current password gives 401 "Password is incorrect"; success exactly for an existing user, a matching current password and a new password of at least 8 characters, which stores the hash of the new password and nothing else; every failure changes nothing |
| AuthController.UpdatePasswordSpec | src/controllers/auth.js:130-142 | a success needs an existing user whose current password matches and a new password of at least 8 code units, and stores exactly the hash of the new password; a failure changes nothing |
| AuthController.NewPasswordLogsIn | src/controllers/auth.js:130-142 | after a password change the user logs in with the new password |
| AuthController.UpdatePassword | src/controllers/auth.js:130-142 | the route on the user store computes `UpdatePasswordSpec` |
| AuthController.ForgotPasswordEffect | src/controllers/auth.js:147-170 | an unknown email gives 404 "There is no user with that email" and changes nothing; otherwise only that user's reset token (hashed) and its expiry (now + 600000 ms) change |
| AuthController.ForgotPasswordSpec | src/controllers/auth.js:147-170 | fails exactly for an unknown email, with 404 and no change; otherwise the found user stores the hashed reset token, and no other user changes |
| AuthController.ForgotPassword | src/controllers/auth.js:147-170 | the route on the user store computes `ForgotPasswordSpec` |
| EnrollmentEngine.WithEnrollment | src/controllers/courses.js:249-255 | enrolling appends exactly one entry {course, now, progress 0, not completed, no lessons}; nothing else about the user changes |
| EnrollmentEngine.EnrollCheckOrder | src/controllers/courses.js:219-246 | a missing course gives 404 before a missing user gives 404, and both come before 400 "Already enrolled in course"; each of these changes nothing |
| EnrollmentEngine.EnrollAppendsOne | src/controllers/courses.js:248-261 | a fresh enrollment appends exactly one entry to the caller alone; on success the course's totalEnrollments grows by exactly 1 and its sections are kept |
| EnrollmentEngine.EnrollSucceedsOnValidStore | src/controllers/courses.js:248-266 | on a valid course store a fresh enrollment succeeds and the store stays valid |
| EnrollmentEngine.EnrollKeepsWellFormed | src/controllers/courses.js:236-255 | the duplicate check keeps a user's enrollments one per course |
| EnrollmentEngine.EnrollSpec | src/controllers/courses.js:218-267 | a failure leaves the courses as they were and changes the users at most by the caller's new enrollment; a success needs an existing course and user not yet enrolled, appends the enrollment to the caller and raises that course's totalEnrollments by 1, writing no other course |
| EnrollmentEngine.EnrollCourse | src/controllers/courses.js:218-267 | the route on the user and course stores computes `EnrollSpec` |
| EnrollmentEngine.RemoveAll | src/controllers/courses.js:406-409 | removing a lesson drops every occurrence of it and keeps every other lesson |
| EnrollmentEngine.MarkLesson | src/controllers/courses.js:395-410 | completing adds the lesson only when absent (set-like), un-completing removes every occurrence; no duplicates appear |
| EnrollmentEngine.MarkLessonIdempotent | src/controllers/courses.js:395-410 | marking the same lesson the same way twice is the same as once |
| EnrollmentEngine.TotalLessons | src/controllers/courses.js:420-426 | the lesson total is 0 exactly when every section has no lessons |
| EnrollmentEngine.ProgressPercent | src/controllers/courses.js:433-438 | progress is never negative, at most 100 while completed lessons do not exceed the total, below 100 while fewer, and exactly 100 only when the integer floor of 100·k/n is 100 |
| EnrollmentEngine.PercentBounds | src/controllers/courses.js:436-438 | the progress is the integer floor of 100·k/n, with its bounds |
| EnrollmentEngine.ProgressOverHundred | src/controllers/courses.js:420-438 | progress is not capped: 3 completed lessons of a 2-lesson course give 150 |
| EnrollmentEngine.UpdateProgressErrorsChangeNothing | src/controllers/courses.js:377-431 | updateProgress never writes a course, and every error path leaves the users unchanged |
| EnrollmentEngine.UpdateProgressResult | src/controllers/courses.js:374-474 | on success `completed` holds exactly when progress is 100, progress is computed from the course's current lessons, the lesson is in or out of the completed set as asked, only the caller changes, certificates are only appended, a 100 gives a certificate for the course, and any other progress leaves certificates untouched |
| EnrollmentEngine.UpdateProgressKeepsWellFormed | src/controllers/courses.js:394-463 | a well-formed user stays well-formed (no duplicate lessons, one certificate per course) |
| EnrollmentEngine.ProgressedKeepsWellFormed | src/controllers/courses.js:441-461 | writing progress and issuing a certificate keeps a user well-formed |
| EnrollmentEngine.UpdateProgressIdempotent | src/controllers/courses.js:374-474 | repeating a successful update, even later, returns the same result and changes nothing more |
| EnrollmentEngine.ProgressedStable | src/controllers/courses.js:441-461 | re-applying the progress step to its own result changes nothing |
| EnrollmentEngine.UpdateProgressSpec | src/controllers/courses.js:374-474 | no course is written and a failure changes no user; a success needs a lesson id, the caller and the course, changes only the caller, and reports a non-negative progress that is complete exactly at 100 |
| EnrollmentEngine.UpdateProgress | src/controllers/courses.js:374-474 | the route on the stores computes `UpdateProgressSpec` |
| EnrollmentEngine.EnrolledViews | src/controllers/courses.js:288-298 | every enrollment with an existing course appears as its view; every view names an existing course; at most one view per enrollment |
| EnrollmentEngine.EnrolledViewsConcat | src/controllers/courses.js:288-298 | the listing of two runs of enrollments is the first's listing followed by the second's (filter and map keep order) |
| EnrollmentEngine.EnrolledViewsSingle | src/controllers/courses.js:288-298 | one enrollment lists as exactly its view when its course resolves, and as nothing otherwise |
| EnrollmentEngine.GetEnrolledCourses | src/controllers/courses.js:272-305 | fails with 404 "User not found" exactly when the caller has no user document; otherwise the listing is `EnrolledViews` of the caller's enrollments |
| EnrollmentEngine.AddReviewRating | src/controllers/courses.js:310-369 | users never change; a missing rating or one outside 1..5 (fractions are accepted) fails and changes nothing, with a validation error once the review is allowed; on success the course gains one review, ratingCount grows by 1, the rating stays in 1.0..5.0 and the store stays valid |
| EnrollmentEngine.WithReview | src/controllers/courses.js:353-361 | the review is appended and the count goes up by one; the average stays in 1.0..5.0 for an accepted rating, and the course stays valid exactly when the new rating is present and in 1..5 |
| EnrollmentEngine.RatingsAppend | src/models/Course.js:137-142 | appending a review keeps all ratings in range exactly when the new rating is present and in 1..5 |
| EnrollmentEngine.AddReviewSpec | src/controllers/courses.js:310-369 | users never change and a failure changes no course; a success writes exactly that course, valid, for an accepted rating |
| EnrollmentEngine.ReviewSaved | src/controllers/courses.js:353-363 | the save of a reviewed course fails with a validation error unless the rating is present and in 1..5; when it succeeds, ratingCount is one more than before, the rating lies in 1.0..5.0 and the store stays valid |
| EnrollmentEngine.AddReview | src/controllers/courses.js:310-369 | the route on the course store computes `AddReviewSpec` |
| CourseAuthoring.SectionIndex | src/controllers/courses.js:543 | `sections.id(sid)` finds the first section with that id, or reports that none has it |
| CourseAuthoring.LessonIndex | src/controllers/courses.js:702 | `lessons.id(lid)` finds the first lesson with that id, or reports that none has it |
| CourseAuthoring.PullSections | src/controllers/courses.js:600 | `sections.pull({_id})` leaves no section with that id and adds none |
| CourseAuthoring.PullLessons | src/controllers/courses.js:770 | `lessons.pull({_id})` leaves no lesson with that id and adds none |
| CourseAuthoring.PullSectionsMembers | src/controllers/courses.js:600 | a section is kept by `sections.pull({_id})` exactly when it was there and has another id |
| CourseAuthoring.PullLessonsMembers | src/controllers/courses.js:770 | a lesson is kept by `lessons.pull({_id})` exactly when it was there and has another id |
| CourseAuthoring.PullSectionsUnique | src/controllers/courses.js:600 | with unique ids, pulling removes exactly that section and keeps the others in order |
| CourseAuthoring.PullLessonsUnique | src/controllers/courses.js:770 | with unique ids, pulling removes exactly that lesson and keeps the others in order |
| CourseAuthoring.PatchLesson | src/controllers/courses.js:713 | `Object.assign(lesson, body)` sets every path the body names, `_id` and the video fields included (a known status name sets that status), and keeps every path it does not name |
| CourseAuthoring.PatchLessonIdempotent | src/controllers/courses.js:713 | applying the same patch twice equals applying it once; an empty patch changes nothing |
| CourseAuthoring.LessonPatchErrors | src/models/Course.js:98-122 | setting a lesson body records no failure exactly when its provider name (when not null), its status name and its resources are all accepted by the schema |
| CourseAuthoring.PatchCanMarkReady | src/controllers/courses.js:713 | a body `{videoStatus: "ready", videoId}` marks any lesson ready with that video, whatever its upload state, and records no failure |
| CourseAuthoring.Gate | src/controllers/courses.js:480-499 | passes exactly when the course exists and the caller is its instructor or an admin; otherwise 404 "Course not found with id of …" or 403 "User … is not authorized to … this course" |
| CourseAuthoring.ApplyEdit | src/controllers/courses.js:501-770 | an edit changes only the sections of the course; a missing section or lesson is a 404 |
| CourseAuthoring.EditSpec | src/controllers/courses.js:479-777 | a successful edit was allowed (not a plain user, course exists, caller owns it or is admin) and saved a valid course whose slug is that of its title, stamped now |
| CourseAuthoring.EditChecksInOrder | src/routes/courses.js:37-48 | a plain user gets the route's 403 even for a missing course; then a missing course gives 404; then a non-owner gets 403 |
| CourseAuthoring.EditNeedsOwnership | src/controllers/courses.js:488-499 | a caller who is neither the instructor nor an admin can make no edit |
| CourseAuthoring.EditKeepsStoreValid | src/controllers/courses.js:479-777 | every successful edit keeps the course store valid |
| CourseAuthoring.AddSectionAppends | src/controllers/courses.js:501-510 | `addSection` appends {title, no lessons} as the last section and changes nothing else |
| CourseAuthoring.UpdateSectionRenames | src/controllers/courses.js:543-555 | `updateSection` changes only the title of the section with that id |
| CourseAuthoring.DeleteSectionRemoves | src/controllers/courses.js:588-601 | `deleteSection` removes exactly that section and keeps the others in order |
| CourseAuthoring.AddLessonAppends | src/controllers/courses.js:612-655 | `addLesson` appends the lesson built from the body, with the video fields at their defaults, to the end of that section only; it succeeds only for a body with a title and resources that cast |
| CourseAuthoring.UpdateLessonPatches | src/controllers/courses.js:669-714 | `updateLesson` changes only the found lesson of the found section, to the body applied to it; its id becomes the body's `_id` when one is given; it succeeds only when the body's enum names and resources were accepted |
| CourseAuthoring.DeleteLessonRemoves | src/controllers/courses.js:747-771 | `deleteLesson` removes exactly that lesson and keeps the others in order |
| CourseAuthoring.EditUnknownSection | src/controllers/courses.js:545-552 | an allowed edit of a section that does not exist gives 404 "Section not found with id of …" |
| CourseAuthoring.RecordedFailureRefuses | src/controllers/courses.js:654-655 | a lesson body with a recorded failure makes the edit fail, with a validation error once the course, section and lesson are found and the caller may edit |
| CourseAuthoring.EditCourse | src/controllers/courses.js:479-777 | the six operations on the course store compute `EditSpec` and write only on success |
| CourseAuthoring.ApplyPatch | src/controllers/courses.js:178 | the update body sets every path it names (a given title trimmed; slug, instructor, sections, reviews and updatedAt included) and keeps every path it does not name |
| CourseAuthoring.ApplyPatchIdempotent | src/controllers/courses.js:178 | an empty body changes nothing, and applying a body twice is applying it once |
| CourseAuthoring.Draft | src/controllers/courses.js:145-152 | the new document has the caller as instructor; its reviews, sections, rating, ratingCount, totalEnrollments and createdAt are the body's when given, else the schema defaults; a given title is trimmed |
| CourseAuthoring.CreateSpec | src/controllers/courses.js:143-158 | a created course belongs to the caller, who is not a plain user, under an unused id; it is valid, has the slug of its title and is stamped now; its reviews, sections, enrollment count, rating and createdAt are the body's when given, else none, none, 0, 0 and now |
| CourseAuthoring.Insert | src/controllers/courses.js:152 | the save of a new document succeeds only under an unused id, valid, with the slug of its title and stamped now, keeping the drafted fields; a taken slug fails, as a duplicate key when the draft is valid |
| CourseAuthoring.CreateSlugCollision | src/models/Course.js:10-13 | creating a course whose trimmed title slugs to another course's slug fails; once the gates pass and the draft is valid, the failure is a duplicate key |
| CourseAuthoring.CreateCourse | src/controllers/courses.js:143-158 | the route on the course store computes `CreateSpec` and writes only on success |
| CourseAuthoring.OwnerGate | src/controllers/courses.js:164-205 | update and delete pass exactly when the caller is not a plain user, the course exists and the caller is its instructor or an admin |
| CourseAuthoring.PatchViolationsAccepted | src/controllers/courses.js:178-181 | the run validators report nothing exactly when every path the body sets meets its schema rule (title trimmed 1..100 code units, short description 1..200, level in the enum, required texts non-empty, sections and reviews valid) |
| CourseAuthoring.PatchViolationsExact | src/controllers/courses.js:178-181 | on a valid course, the run validators accept a body exactly when the patched course is valid (lengths in UTF-16 code units) |
| CourseAuthoring.UpdateAsWritten | src/controllers/courses.js:178-181 | as written, `findByIdAndUpdate` applies the whole body and keeps the stored slug unless the body sets one; it succeeds only when the run validators accept the body and a body slug is free (see Findings) |
| CourseAuthoring.UpdateAsWrittenLeavesStaleSlug | src/controllers/courses.js:178-181 | as written, a new title with a different slug leaves a stale slug and breaks the store invariant |
| CourseAuthoring.StaleSlugBlocksTitle | src/controllers/courses.js:178-181 | as written, after renaming course "a" to "b" a new course titled "a" is refused as a duplicate key |
| CourseAuthoring.UpdateSpec | src/controllers/courses.js:163-187 | the corrected update yields a valid course whose slug is that of its current title |
| CourseAuthoring.UpdateKeepsStoreValid | src/controllers/courses.js:163-187 | the corrected update keeps the course store valid |
| CourseAuthoring.UpdateCourse | src/controllers/courses.js:163-187 | the route on the course store computes the corrected `UpdateSpec` and writes only on success |
| CourseAuthoring.DeleteSpec | src/controllers/courses.js:192-213 | a delete removes exactly that course; every refusal is 403 or 404 |
| CourseAuthoring.DeleteCourse | src/controllers/courses.js:192-213 | the route on the course store computes `DeleteSpec` and changes nothing on refusal |
| CourseListing.Lookup | src/controllers/courses.js:11-82 | a query key is found exactly when some field carries it, and the value found is that field's |
| CourseListing.DropReserved | src/controllers/courses.js:19-32 | the filter keeps exactly the fields whose key is not one of select, sort, page, limit, keyword, enrolled |
| CourseListing.EscapeChar | src/controllers/courses.js:35 | `JSON.stringify` leaves a character as it is exactly when it is not a quote, a backslash or a control character |
| CourseListing.WordRunLength | src/controllers/courses.js:38-41 | the word run at the start of the text is the longest prefix of `\w` characters |
| CourseListing.PrefixOperatorsLength | src/controllers/courses.js:38-41 | the rewrite inserts exactly one `$` per whole word gt, gte, lt, lte or in |
| CourseListing.PrefixOperatorsIdentity | src/controllers/courses.js:38-41 | the text is left as it is exactly when it holds no whole operator word |
| CourseListing.PrefixOperatorsOnlyInserts | src/controllers/courses.js:38-41 | the rewrite only inserts `$` signs: dropping them gives back the text without its `$` signs |
| CourseListing.OperatorExamples | src/controllers/courses.js:38-41 | "gte" becomes "$gte", "gtex" is kept (not a whole word), and "$gt" becomes "$$gt" |
| CourseListing.RangeFilter | src/controllers/courses.js:35-41 | a filter `{k: {op: v}}` with an operator word op becomes `{"k":{"$op":"v"}}`; a value that is itself an operator word would be prefixed too |
| CourseListing.RangeFilterExample | src/controllers/courses.js:35-41 | `price[gte]=10` becomes `{"price":{"$gte":"10"}}` |
| CourseListing.PageParam | src/controllers/courses.js:81-82 | `parseInt(v, 10) \|\| fallback`: an absent value gives the fallback, and the result is never 0 when the fallback is not |
| Text.ParseIntOfLetter | src/controllers/courses.js:81-82 | text opening with a letter, such as the `undefined` of a missing query value, is NaN to `parseInt` |
| CourseListing.PageParamOfNumber | src/controllers/courses.js:81-82 | a decimal number parses to itself, and 0 falls back to the default |
| CourseListing.BuildQuery | src/controllers/courses.js:46-55 | a keyword search is added only for a non-empty keyword from the query |
| CourseListing.Window | src/controllers/courses.js:83-89 | `skip(start).limit(n)` returns at most n items, the consecutive ones from `start` |
| CourseListing.Paginate | src/controllers/courses.js:81-106 | fails exactly for a negative skip; otherwise `count` is the number of matches and the page holds at most |limit| of them, all matches |
| CourseListing.PaginateSpec | src/controllers/courses.js:81-113 | a negative skip fails; otherwise count is the unpaged total, `next` is present exactly when page·limit < total, `prev` exactly when (page−1)·limit > 0, and the data is the matching courses from (page−1)·limit on, |limit| of them or as many as remain (none past the end) |
| CourseListing.GetCoursesDefaults | src/controllers/courses.js:78-113 | without page or limit, a filter the store refuses fails the request with the store's error; otherwise the first 10 matching courses are returned, with `next` to page 2 exactly when more than 10 match, and no `prev` |
| CourseListing.GetCourses | src/controllers/courses.js:9-113 | `enrolled=true`, and only it, hands the request on; a filter the store refuses fails the request with the store's error; a page counts every match and shows only matches |
| CourseListing.UncastableFilterIs404 | src/controllers/courses.js:78 | a filter value the store cannot cast to its path's type (`price[gte]=abc`) reaches the client as 404 "Resource not found" |
| CourseListing.EnrolledPassesOn | src/controllers/courses.js:11-16 | `enrolled=true` hands the request on to the next handler |
| Payments.PaymentStore.Insert | src/controllers/payments.js:71-79 | a new payment record is stored exactly when its id is free; otherwise a duplicate-key failure and no change |
| Payments.EnrollmentNotice | src/controllers/payments.js:104-112 | the enrollment notice goes to the paying user, has type `payment` and is unread |
| Payments.Precheck | src/controllers/payments.js:21-39 | the checks pass only for an existing course, an existing user and no enrollment in that course |
| Payments.StripeChecksBeforeGateway | src/controllers/payments.js:21-39 | when the checks fail, the outcome depends on no gateway setting or reply and nothing is written; a missing course is 404; an enrolled user (without null entries) gets 400 "Already enrolled in course …" |
| Payments.FindRefWithoutNullsIfTotal | src/controllers/payments.js:31-33 | without null entries the unguarded search finds an existing enrollment |
| Payments.StripeStatus | src/controllers/payments.js:41-79 | in test mode the payment is completed with id `test_payment_id`; an unconfigured gateway gives 501 and writes nothing; a gateway failure gives 400 "Payment failed: …" and writes nothing; otherwise the recorded payment carries the intent's id and is completed exactly when the intent succeeded |
| Payments.StripeSpec | src/controllers/payments.js:17-127 | a failing precheck returns its error and changes nothing; every success records a payment; a recorded payment is a new record of the caller and the course, for the course price, by credit card |
| Payments.FulfilEffect | src/controllers/payments.js:82-113 | fulfilment appends exactly one enrollment to the payer and, on success, adds 1 to totalEnrollments and creates exactly one payment notice |
| Payments.SettleEffect | src/controllers/payments.js:70-121 | the payment record is always written; a pending payment changes nothing else and returns its receipt; a completed one also fulfils the enrollment |
| Payments.CompletedPaymentEnrolls | src/controllers/payments.js:82-121 | on a valid course store a completed payment succeeds, keeps the store valid and leaves the payer enrolled |
| Payments.ProcessStripePayment | src/controllers/payments.js:17-127 | the route on the four stores computes `StripeSpec` |
| Payments.SettleOnStores | src/controllers/payments.js:70-121 | the store steps compute `Settle` |
| Payments.FulfilOnStores | src/controllers/payments.js:82-113 | the store steps compute `Fulfil` |
| Payments.CountOnStores | src/controllers/payments.js:98-111 | the course is saved with totalEnrollments plus 1, then the payment notice is created; a failing save or insert stops there, with the earlier writes in place |
| Payments.PayPalAlwaysCompletes | src/controllers/payments.js:156-199 | after the checks, a PayPal payment is always recorded completed with the order id, and the payer is always enrolled |
| Payments.PayPalSpec | src/controllers/payments.js:132-208 | a failing precheck returns its error and changes nothing; every success records a payment; a recorded payment is a new completed PayPal record of the caller and the course, for the course price, under the order id |
| Payments.ProcessPayPalPayment | src/controllers/payments.js:132-208 | the route on the four stores computes `PayPalSpec` |
| Payments.NullEntryDivergence | src/controllers/payments.js:31-33 | an enrollment with a null course makes the payment check fault, where `enrollCourse`'s guarded check passes it by |
| Payments.PaymentDetails | src/controllers/payments.js:231-259 | a missing payment gives 404; otherwise it is returned exactly when the caller owns it or is an admin, else 403 |
| Notifications.ParseType | src/controllers/notifications.js:153-157 | a type is accepted exactly when it is course, payment, reminder or system |
| Notifications.ParseTypeName | src/controllers/notifications.js:153 | each type's name is accepted as that type |
| Notifications.NotificationStore.Insert | src/controllers/notifications.js:159 | a notification is stored exactly when its id is free |
| Notifications.NotificationStore.SetRead | src/controllers/notifications.js:80-84 | only that notification's `unread` flag is cleared |
| Notifications.NotificationStore.ReadAllOf | src/controllers/notifications.js:96-99 | the store becomes `ReadAll` of the user |
| Notifications.NotificationStore.Remove | src/controllers/notifications.js:126 | exactly that notification is removed |
| Notifications.InsertOutcome | src/controllers/notifications.js:159 | an insert succeeds exactly when the id is free, else a duplicate key |
| Notifications.PassedFields | src/controllers/notifications.js:10-20 | the filter keeps exactly the query fields that are not select, sort, page or limit (nor `unread` when it is set separately) |
| Notifications.BuildFilter | src/controllers/notifications.js:10-20 | the filter always selects the caller's notifications and passes on no reserved key |
| Notifications.UnreadParameter | src/controllers/notifications.js:18-20 | a non-empty `unread` parameter becomes the boolean (value == "true") |
| Notifications.UserParameterIgnored | src/controllers/notifications.js:10-11 | a `user` query parameter cannot change the filter: line 11 overwrites it |
| Notifications.PageOfSpec | src/controllers/notifications.js:22-57 | a negative skip fails; otherwise `count` is the page length, `next` is present exactly when (page−1)·limit + limit < total, `prev` exactly when (page−1)·limit > 0, and the data is the matches from (page−1)·limit on, |limit| of them or as many as remain (none past the end) |
| Notifications.PageOf | src/controllers/notifications.js:22-57 | fails (with the store's refusal) exactly for a negative skip; otherwise `count` is the page length, at most |limit|, and the page holds only matches |
| Notifications.GetNotifications | src/controllers/notifications.js:8-59 | a filter the store refuses fails the request with the store's error; a page holds only the caller's matches and counts its own length |
| Notifications.GetNotificationsDefaults | src/controllers/notifications.js:8-59 | the filter selects the caller's notifications; without page or limit, a refused filter fails with the store's error, otherwise the first 10 matches are returned with count = their number, `next` to page 2 exactly when more than 10 match, and no `prev` |
| Notifications.UncastableNotificationFilterIs404 | src/controllers/notifications.js:28-31 | a filter value the store cannot cast to its path's type (`createdAt=abc`) reaches the client as 404 "Resource not found" |
| Notifications.SixteenMatches | src/controllers/notifications.js:22-57 | 16 notifications with limit 10 give a first page of 10 with `next` and a second page of 6 with `prev` |
| Notifications.CountsDiffer | src/controllers/notifications.js:55 | for 16 matches and limit 10, the course listing counts 16 where the notification listing counts 10 |
| Notifications.MarkAsReadEffect | src/controllers/notifications.js:64-90 | a missing notification gives 404, someone else's 403, both with no change; otherwise only that notification's `unread` is cleared and it is returned |
| Notifications.MarkAsReadSpec | src/controllers/notifications.js:64-90 | succeeds exactly for an existing notification of the caller, and then only its `unread` flag is cleared; a failure changes nothing |
| Notifications.MarkAsReadIdempotent | src/controllers/notifications.js:64-90 | marking the same notification read twice is the same as once |
| Notifications.MarkAsRead | src/controllers/notifications.js:64-90 | the route on the store computes `MarkAsReadSpec` |
| Notifications.ReadAll | src/controllers/notifications.js:96-99 | marking all as read removes no notification and adds none |
| Notifications.ReadAllEffect | src/controllers/notifications.js:96-99 | every notification of the user is read afterwards and otherwise unchanged; other users' notifications are untouched |
| Notifications.ReadAllIdempotent | src/controllers/notifications.js:96-99 | marking all as read twice is the same as once |
| Notifications.MarkAllAsRead | src/controllers/notifications.js:95-105 | the route always succeeds and leaves `ReadAll` of the caller |
| Notifications.DeleteEffect | src/controllers/notifications.js:110-132 | a missing notification gives 404, someone else's 403, both with no change; otherwise exactly that notification is removed |
| Notifications.DeleteSpec | src/controllers/notifications.js:110-132 | succeeds exactly for an existing notification of the caller, and then removes exactly it; a failure changes nothing |
| Notifications.DeleteNotification | src/controllers/notifications.js:110-132 | the route on the store computes `DeleteSpec` |
| Notifications.CreateChecks | src/controllers/notifications.js:137-165 | a non-admin gets 403 before any validation; a missing title, message, user or type gives 400; an unknown type gives 400; nothing is written on failure; on success exactly the new notification, with the given user, type, title and message, is added |
| Notifications.CreateSpec | src/controllers/notifications.js:137-165 | a failure changes nothing; a success needs an admin and a fresh id, and stores exactly a notification with the body's user, title, message and type, unread unless the body says false, created now |
| Notifications.CreateBehindRoleGate | src/routes/notifications.js:16 | behind the route's admin gate the controller's own admin check never fires |
| Notifications.CreateNotification | src/controllers/notifications.js:137-165 | the route on the store computes `CreateSpec` |
| ClientLogs.ParseLevel | src/models/ClientLog.js:6-10 | a missing level defaults to info; a given level is accepted exactly when it is info, warning, error or debug |
| ClientLogs.ParseLevelName | src/models/ClientLog.js:6-10 | each level's name is accepted as that level |
| ClientLogs.EntryOf | src/models/ClientLog.js:5-23 | a stored entry keeps its message, takes its level or info, and its timestamp or now |
| ClientLogs.Entries | src/models/ClientLog.js:5-42 | the batch's entries are cast exactly when every entry is valid, one stored entry per given entry, in order |
| ClientLogs.LogSweep | src/models/ClientLog.js:49-50 | the TTL sweep keeps exactly the batches younger than 30 days, unchanged |
| ClientLogs.StoredBatchLifetime | src/models/ClientLog.js:50 | a batch stored now survives the sweep exactly until now + 2592000000 ms |
| ClientLogs.ClientLogStore.Create | src/controllers/logs.js:25-30 | a write that succeeds stores the batch; a failed write changes nothing |
| ClientLogs.StoreLogsOutcome | src/controllers/logs.js:10-64 | 400 exactly for a missing sessionId, deviceInfo or logs array, or an empty one, with no change; an invalid entry or a failed write is acknowledged as not stored (202) with no change; a batch past the checks is stored exactly when every entry is valid and the write succeeds; then the reply is 201 with the new id and logCount = number of logs, and only the new batch is added, holding the session id, the device information, the creation time, the user only when authenticated, and each log entry as the schema casts it (level defaulting to `info`, timestamp to now) |
| ClientLogs.StoreLogsSpec | src/controllers/logs.js:10-64 | a 400 changes nothing, and so does a not-stored acknowledgement; a stored batch needed a successful write and is added alone under the new id, with its session id, device information, creation time, the entries as the schema casts them, and the user only when authenticated; with a successful write and every entry valid, a batch past the checks is stored |
| ClientLogs.StoreClientLogs | src/controllers/logs.js:10-64 | the route on the store computes `StoreLogsSpec` |
| ClientLogs.Matching | src/controllers/logs.js:76-101 | the lookup returns exactly the stored batches with that key, unchanged, and counts them |
| ClientLogs.LookupsAreAdminOnly | src/routes/logs.js:26-27 | behind the admin gate a non-admin gets 403; an admin with an empty session id or user id gets 400; otherwise exactly the batches of that session or user are returned |
| ClientLogs.StoredBatchIsFound | src/controllers/logs.js:25-30 | a batch just stored is found by its session id, and by its user id only when the sender was authenticated |
| VideoProgressModel.DefaultProgress | src/models/VideoProgress.js:13-35 | a new record starts at time 0, not completed, stamped now, with no lesson or course |
| VideoProgressModel.PercentTenths | src/controllers/videos.js:331-333 | the percent shown is at most 100.0, and 0 for a non-positive duration |
| VideoProgressModel.PercentTenthsRange | src/controllers/videos.js:331-333 | the percent is never negative for a non-negative time, and is 100.0 once the time reaches the duration |
| VideoProgressModel.ProgressStore.Upsert | src/controllers/videos.js:362-373 | the upsert writes exactly the record under (user, video) and returns it |
| VideoProgressModel.GetVideoProgress | src/controllers/videos.js:308-347 | without a record the reply is zeros, not completed, stamped now; with one it reports that record's times, timestamp and completion |
| VideoProgressModel.UpdateOf | src/controllers/videos.js:364-371 | the timestamp is the given one or now, and `completed` is true only when given true |
| VideoProgressModel.SaveProgressEffect | src/controllers/videos.js:352-390 | without both times the reply is 400 and nothing changes; otherwise exactly the caller's record for the video is written (created when absent) with the given times and completion, the given timestamp (now when absent or 0), and the given lessonId and courseId (the stored ones kept when absent), every record stays under its own (user, video) key, and no other record changes |
| VideoProgressModel.SaveProgressSpec | src/controllers/videos.js:352-390 | fails exactly without both times, changing nothing; otherwise writes exactly the caller's record for the video, holding the times and completion it reports |
| VideoProgressModel.SaveProgressIdempotent | src/controllers/videos.js:362-373 | saving the same body twice leaves what saving it once left |
| VideoProgressModel.SaveThenGet | src/controllers/videos.js:308-390 | a later read returns the saved times and completion, and the same percent |
| VideoProgressModel.SaveVideoProgress | src/controllers/videos.js:352-390 | the route on the store computes `SaveProgressSpec` |
| Videos.CanonicalIndex | src/controllers/videos.js:43-46 | an index parameter names an element only when it is a non-empty run of digits |
| Videos.CanonicalIndexOfNatToString | src/controllers/videos.js:43-46 | the decimal text of a number addresses that number |
| Videos.LeadingZeroNamesNothing | src/controllers/videos.js:43-46 | "01" addresses no element, as `arr["01"]` is undefined |
| Videos.LessonAt | src/controllers/videos.js:43-51 | a lesson is found exactly when both index texts are canonical decimal numbers within the section and lesson bounds (array property names such as `length` are left out) |
| Videos.SetLesson | src/controllers/videos.js:131-136 | replacing one lesson changes that lesson only: every other section and lesson, and the rest of the course, are kept |
| Videos.SetLessonSame | src/controllers/videos.js:74-77 | writing a lesson back unchanged leaves the course as it was |
| Videos.SetLessonBack | src/controllers/videos.js:288 | writing the old lesson back after a replacement restores the sections |
| Videos.SetLessonValid | src/models/Course.js:92-95 | replacing a lesson by one with the same title keeps the course valid |
| Videos.VideoGate | src/controllers/videos.js:19-48 | passes exactly for an instructor or admin who owns the existing course (or is admin) and addresses an existing lesson by canonical indexes, and then yields that lesson's position; otherwise 404 course, then the operation's 403, then 404 "Section or lesson not found" |
| Videos.PlainUserRefusedFirst | src/routes/videos.js:16-35 | a plain user is refused by the route's role gate with 403 before any lookup |
| Videos.EnsureFolder | src/controllers/videos.js:54-63 | a stored folder id is reused and nothing is written; otherwise the new folder id is stored on the course, whose sections and title are kept |
| Videos.Uploading | src/controllers/videos.js:74-76 | the lesson gets provider vimeo, the ticket's video id and status uploading; nothing else changes |
| Videos.StoredFolderReused | src/controllers/videos.js:54-71 | when the course already has a folder, the folder service is never consulted and the ticket request uses the stored folder |
| Videos.TicketStepMarks | src/controllers/videos.js:66-77 | after the ticket, exactly the addressed lesson is marked uploading and the folder is kept |
| Videos.UploadMarksLesson | src/controllers/videos.js:11-87 | a successful ticket keeps or sets the folder as above and marks exactly the addressed lesson uploading with the ticket's video id |
| Videos.UploadTicketSpec | src/controllers/videos.js:11-87 | a failing gate returns its error and changes nothing; no course is added or removed; on success the course stays valid |
| Videos.EnsureFolderOnStore | src/controllers/videos.js:54-63 | the folder step on the course store computes `EnsureFolder` |
| Videos.TicketStepOnStore | src/controllers/videos.js:66-77 | the ticket step on the course store computes `TicketStep` |
| Videos.GenerateUploadTicket | src/controllers/videos.js:11-87 | the route on the course store computes `UploadTicketSpec` |
| Videos.FormatDurationRoundTrip | src/controllers/videos.js:133-135 | a positive duration in seconds printed as `m:ss` reads back as the same number of seconds |
| Videos.Described | src/controllers/videos.js:131-136 | the lesson is ready with the formatted duration; only the video URL, thumbnail, duration and status change |
| Videos.MarkFailedEffect | src/controllers/videos.js:152-158 | the catch path always fails; when its save succeeds the reply is 500 "Error retrieving video: …" and the lesson is marked error |
| Videos.ConfirmWithoutVideo | src/controllers/videos.js:122-124 | a lesson with no video id gives 404 "No video found for this lesson" and changes nothing |
| Videos.ConfirmReady | src/controllers/videos.js:127-151 | success needs the host's details and its acceptance of the privacy update sent with the lesson's own video id and `isPreview`; the lesson is then ready with the host's details and the formatted duration, and no other lesson changes |
| Videos.ConfirmHostFailure | src/controllers/videos.js:127-158 | a host failure always fails the request; when the course is written it is with the lesson marked error and the 500 message |
| Videos.ConfirmSpec | src/controllers/videos.js:92-159 | a failing gate returns its error and changes nothing; a success needs the host's details and its acceptance of the privacy update for the addressed lesson's video id and `isPreview` |
| Videos.ConfirmPrivacyRefused | src/controllers/videos.js:138-158 | when the host refuses the privacy update for the lesson's video id and `isPreview`, the request fails; when the course is written it is with the described lesson marked error and the 500 message naming that refusal |
| Videos.MarkFailedOnStore | src/controllers/videos.js:152-158 | the catch step on the course store computes `MarkFailed` |
| Videos.ReadyStepOnStore | src/controllers/videos.js:131-141 | the ready step on the course store computes `ReadyStep` |
| Videos.ConfirmVideoUpload | src/controllers/videos.js:92-159 | the route on the course store computes `ConfirmSpec` |
| Videos.PlaybackAccess | src/controllers/videos.js:164-253 | playback succeeds exactly for a ready lesson with a video, a host reply, and a caller who may watch it (preview, instructor, admin, or enrolled); a lesson without a ready video gives 404 "Video not available" before access is checked; an existing user who may not watch gets 403 "Not enrolled in this course" |
| Videos.PlaybackSpec | src/controllers/videos.js:164-253 | a served playback is of the addressed lesson of an existing course, whose video id is given and status ready, for a caller it is open to or who is enrolled, after a host reply; it reports that video id, the host's embed URL and the host's embed HTML (`embed.html`, absent when the host gives none) |
| Videos.PlaybackShowsSavedProgress | src/controllers/videos.js:215-241 | the playback reply shows the progress last saved under `vimeo_<videoId>` |
| Videos.Flipped | src/controllers/videos.js:288 | only `isPreview` changes, to its negation |
| Videos.TogglePrivacyAsksNewFlag | src/controllers/videos.js:288-293 | the host is consulted only for a vimeo video, and only about that video id with the new `isPreview`: hosts that agree on that one update give the same outcome |
| Videos.ToggleHostRefusal | src/controllers/videos.js:288-293 | a host refusal of the update (video id, new `isPreview`) fails the toggle with that error and changes nothing |
| Videos.ToggleAtFlips | src/controllers/videos.js:285-303 | on a valid store, with the host accepting the update of the video id to the new `isPreview` (or no vimeo video), the toggle returns the new flag, flips only that lesson, and keeps the store valid |
| Videos.ToggleFlips | src/controllers/videos.js:258-303 | an allowed toggle whose privacy update (video id, new `isPreview`) the host accepts returns the negated flag, flips exactly the addressed lesson, and keeps the store valid |
| Videos.ToggleTwiceRestores | src/controllers/videos.js:258-303 | with a host that accepts every privacy update, toggling twice restores the course's sections |
| Videos.ToggleSpec | src/controllers/videos.js:258-303 | a failing gate returns its error and a failure changes nothing; a success returns the negation of the addressed lesson's `isPreview` |
| Videos.ToggleAtOnStore | src/controllers/videos.js:285-295 | the toggle step on the course store computes `ToggleAt` |
| Videos.TogglePreview | src/controllers/videos.js:258-303 | the route on the course store computes `ToggleSpec` |

## Left out

- `getMe` (`src/controllers/auth.js:98-105`), `getCourse` (`src/controllers/courses.js:119-138`) and `getPaymentHistory` (`src/controllers/payments.js:213-226`) are plain reads of one document or of a filtered list with populate and sort. They hold no rule beyond a 404 and are not modelled.
- `resetPassword` (`src/controllers/auth.js:175-182`) is a stub that only replies. `testConnection` (`src/controllers/auth.js:187-203`) reports database connectivity. Neither is modelled.
- The cookie options of `sendTokenResponse` (expiry, `httpOnly`, `secure`) are response wiring. The model keeps only the status and the signed token.
- The payment and notification schemas (`models/Payment.js`, `models/Notification.js`) are not part of this model. Payments and notifications are records with the fields the controllers set, and a new notification is unread.
- Password hashing and comparison (bcrypt), token signing and verification (JSON Web Tokens, RFC 7519), the random reset token and its SHA-256 digest, Stripe, PayPal, the Vimeo service and uuid are oracles passed in as parameters. Their internals are not modelled.
- The pre-save hook at `src/models/User.js:97-104` calls `next()` without returning, so it re-hashes an unmodified password. Hashing is an oracle here, so this behaviour is not modelled.
- UserModel.EmailViolations: the email pattern of `src/models/User.js:17` is an opaque boolean parameter, not the regular expression.
- EnrollmentEngine.ProgressPercent: integer floor of 100·k/n. The source computes `Math.floor((k/n)*100)` in floating point, which can be one lower (29 of 100 gives 28).
- CourseModel.RatingTenthsInRange: the average rating is kept in tenths as round-half-up of the exact mean. The source uses `toFixed(1)` on a float, whose rounding at exact halves can differ.
- VideoProgressModel.PercentTenths: times and percentages are exact reals, not IEEE doubles.
- The Stripe amount `Math.round(price*100)` is not modelled: the gateway's reply is a parameter and the amount sent is not recorded.
- Concurrency is not modelled: lost updates between interleaved requests cannot occur in a model where each request runs to completion.
- Populate, select, sort and projection are not modelled. The order of the course listing and the notification inbox is that of the `find` oracle's answer (newest first for notifications). A reference to a deleted course is dropped, as populate-to-null does.
- A field left `undefined` in an update body is treated as absent, as the store strips it.
- `forgotPassword` takes the email as text. A body without an email, which the store would look up as `undefined`, is not modelled.
- The client-log `sessionId` and `userId` lookups take text. A non-string parameter and the free-form `metadata` field are not modelled.
- An id parameter that is not a well-formed ObjectId makes `findById` (and the client-log `userId` lookup) fail with a cast error, which the handler turns into 404 "Resource not found". The routes take ids as plain keys and answer an unknown id with their own 404 message; the malformed-id reply is not modelled.
- CourseListing.GetCourses: whether the store refuses a filter is decided by the query parameter, not computed. A value that does not cast to its path's type (`price[gte]=abc`) is a cast error and gives 404, and an invalid regular expression (`keyword=(`) gives 500; the model covers both through the failure the parameter returns, and `UncastableFilterIs404` states the first.
- Videos.LessonAt: only canonical decimal indexes are modelled. The source checks `course.sections[si]` and `.lessons[li]` by plain property access (`src/controllers/videos.js:43-46`, `112-115`, `176-179`, `278-281`), so a name every array has also passes: a lesson index `length` on a section with lessons, or a method name such as `push`. On that input the upload route replies 200 with a ticket named "… - undefined" and marks nothing, the toggle replies 200, the confirm route replies 404 "No video found for this lesson" and playback 404 "Video not available". A section index `length` on a course with sections throws a TypeError, which gives 500. The model answers 404 "Section or lesson not found" to all of these.
- Request bodies are modelled over the schema paths the model keeps. The paths `discountPrice`, `tags`, `highlights`, `requirements`, `isNew` and `isFeatured` (`src/models/Course.js:27-29`, `52-66`) are not modelled, nor are keys outside the schema, which strict mode drops.
- A body value of the wrong JSON type (a number for a text path, text for a number path, an object for either) and its cast failure are not modelled. Text paths take text, number paths take numbers, and `resources` entries are text or an object; of the `null` values, only those for `vimeoFolderId`, `videoProvider` and `videoId` are modelled.
- Enum names inside the `sections` of a course body (a nested lesson's `videoStatus` or `videoProvider`) are taken as valid values. Only a lesson body's names are checked against the enums.
- Subdocument ids are taken as the body or the store gives them; the ids Mongoose draws for sections and lessons without one, and the cast of a body `_id`, are not modelled.
- An update body naming `_id`, which the store refuses as a change to an immutable path, is not modelled: the course body has no `_id` path.
- Cast failures carry fixed messages; Mongoose's exact wording, which quotes the value and its type, is not reproduced.
- Text.NumberText: prints numbers whose decimal expansion ends within 20 places; the exponent form JavaScript uses for very large and very small numbers is not modelled.
- Text.ToLower: maps the ASCII capitals, KELVIN SIGN and U+0130 only, and keeps every other character. That is exact for the slug, which drops every other non-ASCII character either way, but not for `toLowerCase` in general.
- The public log route never runs `protect`, so the caller is unknown there and `userId` is never recorded by that route. The model keeps the controller's rule that records it only for an authenticated caller.
- Validation on `save` runs the validators of the fields each route changes. The documents already stored are assumed to pass validation.
- `logout` treats the blacklist as always present. The source creates it when absent, and the schema default makes it an empty list.
- Logging, request tracking, the server and route wiring are not modelled, except the role gates composed with the controllers.
- The expiry of client-log batches and of blacklist entries is a sweep taken at a given time. The store's background expiry job is not modelled.

## Findings

| source | as written | input that shows it | evidently intended | confidence | as-written member | corrected member |
|---|---|---|---|---|---|---|
| src/controllers/courses.js:178-181 | `updateCourse` uses `findByIdAndUpdate`, which skips the pre-save hook of `src/models/Course.js:161-169`, so the slug keeps the old title | rename course "a" to "b", then create a new course titled "a": its slug "a" collides with the stale slug and the create fails with a duplicate key | the slug follows the current title after every update | not executed | CourseAuthoring.StaleSlugBlocksTitle | CourseAuthoring.UpdateKeepsStoreValid |
| src/models/User.js:82-86 | `expires: 86400` on the blacklist entry's `createdAt` creates a TTL index on the user collection, which deletes the whole user document a day after that user's first logout | a user logs out once; a day later the expiry job removes the user, so their account is gone | only the expired blacklist entry is dropped, and the user stays | not executed | AuthController.TtlSweepDeletesLoggedOutUser | AuthController.TokenSweepKeepsRevocation |

=== FILE: auth_controller.dfy ===
/**
 * The account routes of `controllers/auth.js`: register, login, logout, updateDetails,
 * updatePassword and forgotPassword. Password hashing and comparison, token signing,
 * the random reset token and its digest are oracles passed in as functions; the
 * answer of `findOne({ email })` is passed in as the id it finds.
 */
module AuthController {
  import opened Common
  import opened Text
  import opened Errors
  import opened UserModel
  import opened AuthMiddleware

  /** `sendTokenResponse`: the status and the signed token (also set as the `token` cookie). */
  datatype TokenReply = TokenReply(status: int, token: string)

  /** An absent body field, as the validators see it. */
  function OrEmpty(s: Option<string>): string
  {
    if s.Some? then s.value else ""
  }

  // ---------------------------------------------------------------- register

  datatype RegisterInput = RegisterInput(name: Option<string>, email: Option<string>, password: Option<string>,
                                         role: Option<string>)

  /** The validation failures of a new user, path by path in schema order: name, email, password, role. */
  function RegisterViolations(b: RegisterInput, emailPattern: bool): (errs: seq<FieldError>)
    ensures errs == [] <==> && Trim(OrEmpty(b.name)) != "" && Utf16Length(Trim(OrEmpty(b.name))) <= 50
                            && OrEmpty(b.email) != "" && emailPattern
                            && Utf16Length(OrEmpty(b.password)) >= 8
                            && RoleField(b.role).Ok?
  {
    NameViolations(OrEmpty(b.name)) + EmailViolations(OrEmpty(b.email), emailPattern)
    + PasswordViolations(OrEmpty(b.password)) + (if RoleField(b.role).Fail? then RoleField(b.role).error.errors else [])
  }

  /** The stored document of a valid registration: the name trimmed, the password hashed, every list empty. */
  function NewUser(b: RegisterInput, role: Role, hash: string -> string, now: Time): (u: User)
    ensures WellFormed(u) && !IsBlacklisted(u, "")
  {
    User(Trim(OrEmpty(b.name)), OrEmpty(b.email), hash(OrEmpty(b.password)), role, DefaultProfileImage, "",
         [], [], [], [], None, None, now)
  }

  /**
   * `register`: the validators, then the unique email index; on success the new user
   * under the fresh id and a 201 token reply.
   */
  function RegisterSpec(docs: map<Id, User>, b: RegisterInput, emailPattern: bool, newId: Id,
                        hash: string -> string, sign: (Id, Role) -> string, now: Time): (r: (Result<TokenReply>, map<Id, User>))
    requires newId !in docs
    ensures r.0.Fail? ==> r.1 == docs
    ensures r.0.Ok? <==> RegisterViolations(b, emailPattern) == [] && !EmailTaken(docs, newId, OrEmpty(b.email))
    ensures r.0.Ok? ==> && r.0.value.status == 201 && newId in r.1 && r.1 == docs[newId := r.1[newId]]
                        && r.1[newId].email == OrEmpty(b.email) && WellFormed(r.1[newId])
  {
    var errs := RegisterViolations(b, emailPattern);
    if errs != [] then (Fail(ValidationFailure(errs)), docs)
    else if EmailTaken(docs, newId, OrEmpty(b.email)) then (Fail(DuplicateKey()), docs)
    else
      var role := RoleField(b.role).value;
      (Ok(TokenReply(201, sign(newId, role))), docs[newId := NewUser(b, role, hash, now)])
  }

  /**
   * A registration succeeds exactly for a valid body with an unused email; it adds one
   * consistent user, signed with the requested role (`user` by default), keeps the
   * index unique, and changes no other user.
   */
  lemma RegisterEffect(docs: map<Id, User>, b: RegisterInput, emailPattern: bool, newId: Id,
                       hash: string -> string, sign: (Id, Role) -> string, now: Time)
    requires newId !in docs && UniqueEmails(docs)
    ensures var out := RegisterSpec(docs, b, emailPattern, newId, hash, sign, now); var r := out.0; var docs' := out.1;
      && (r.Ok? <==> RegisterViolations(b, emailPattern) == [] && !EmailTaken(docs, newId, OrEmpty(b.email)))
      && (r.Fail? ==> docs' == docs)
      && (r.Ok? ==> && docs'.Keys == docs.Keys + {newId}
                    && UniqueEmails(docs') && WellFormed(docs'[newId])
                    && docs'[newId].email == OrEmpty(b.email)
                    && (b.role.None? ==> docs'[newId].role == UserRole)
                    && r.value == TokenReply(201, sign(newId, docs'[newId].role))
                    && forall id :: id in docs ==> docs'[id] == docs[id])
  {
    RegisterDecides(docs, b, emailPattern, newId, hash, sign, now);
    if RegisterViolations(b, emailPattern) == [] && !EmailTaken(docs, newId, OrEmpty(b.email)) {
      RegisterAdds(docs, b, emailPattern, newId, hash, sign, now);
    }
  }

  /** Which of the three outcomes a registration has, and that a refusal writes nothing. */
  lemma {:induction false} RegisterDecides(docs: map<Id, User>, b: RegisterInput, emailPattern: bool, newId: Id,
                                           hash: string -> string, sign: (Id, Role) -> string, now: Time)
    requires newId !in docs && UniqueEmails(docs)
    ensures var out := RegisterSpec(docs, b, emailPattern, newId, hash, sign, now);
      && (out.0.Ok? <==> RegisterViolations(b, emailPattern) == [] && !EmailTaken(docs, newId, OrEmpty(b.email)))
      && (out.0.Fail? ==> out.1 == docs)
  {
    if RegisterViolations(b, emailPattern) != [] {
      RegisterRefused(docs, b, emailPattern, newId, hash, sign, now);
    } else if EmailTaken(docs, newId, OrEmpty(b.email)) {
      assert RegisterSpec(docs, b, emailPattern, newId, hash, sign, now) == (Fail(DuplicateKey()), docs);
    } else {
      RegisterCreates(docs, b, emailPattern, newId, hash, sign, now);
    }
  }

  /** What a successful registration writes and answers. */
  lemma {:induction false} RegisterAdds(docs: map<Id, User>, b: RegisterInput, emailPattern: bool, newId: Id,
                                        hash: string -> string, sign: (Id, Role) -> string, now: Time)
    requires newId !in docs && UniqueEmails(docs)
    requires RegisterViolations(b, emailPattern) == [] && !EmailTaken(docs, newId, OrEmpty(b.email))
    ensures var out := RegisterSpec(docs, b, emailPattern, newId, hash, sign, now); var docs' := out.1;
      && out.0.Ok?
      && docs'.Keys == docs.Keys + {newId}
      && UniqueEmails(docs') && WellFormed(docs'[newId])
      && docs'[newId].email == OrEmpty(b.email)
      && (b.role.None? ==> docs'[newId].role == UserRole)
      && out.0.value == TokenReply(201, sign(newId, docs'[newId].role))
      && forall id :: id in docs ==> docs'[id] == docs[id]
  {
    RegisterCreates(docs, b, emailPattern, newId, hash, sign, now);
    var u := NewUser(b, RoleField(b.role).value, hash, now);
    Added(docs, newId, u, RegisterSpec(docs, b, emailPattern, newId, hash, sign, now).1);
  }

  /** Adding a user under a fresh id keeps every other user as it was. */
  lemma {:induction false} Added(docs: map<Id, User>, newId: Id, u: User, docs': map<Id, User>)
    requires newId !in docs && docs' == docs[newId := u]
    ensures docs'.Keys == docs.Keys + {newId} && docs'[newId] == u
    ensures forall id :: id in docs ==> docs'[id] == docs[id]
  {
  }

  /** An invalid body is refused with its violations, and nothing is written. */
  lemma {:induction false} RegisterRefused(docs: map<Id, User>, b: RegisterInput, emailPattern: bool, newId: Id,
                                           hash: string -> string, sign: (Id, Role) -> string, now: Time)
    requires newId !in docs
    requires RegisterViolations(b, emailPattern) != []
    ensures RegisterSpec(docs, b, emailPattern, newId, hash, sign, now)
            == (Fail(ValidationFailure(RegisterViolations(b, emailPattern))), docs)
  {
  }

  /** A valid body with an unused email adds the new user and nothing else, keeping the index unique. */
  lemma {:induction false} RegisterCreates(docs: map<Id, User>, b: RegisterInput, emailPattern: bool, newId: Id,
                                           hash: string -> string, sign: (Id, Role) -> string, now: Time)
    requires newId !in docs && UniqueEmails(docs)
    requires RegisterViolations(b, emailPattern) == [] && !EmailTaken(docs, newId, OrEmpty(b.email))
    ensures RoleField(b.role).Ok?
    ensures var u := NewUser(b, RoleField(b.role).value, hash, now);
      && RegisterSpec(docs, b, emailPattern, newId, hash, sign, now)
         == (Ok(TokenReply(201, sign(newId, u.role))), docs[newId := u])
      && UniqueEmails(docs[newId := u]) && u.email == OrEmpty(b.email)
      && (b.role.None? ==> u.role == UserRole)
  {
    var u := NewUser(b, RoleField(b.role).value, hash, now);
    ReplaceKeepsUniqueEmails(docs, newId, u);
  }

  /** `register` on the store. */
  method Register(store: UserStore, b: RegisterInput, emailPattern: bool, newId: Id,
                  hash: string -> string, sign: (Id, Role) -> string, now: Time) returns (r: Result<TokenReply>)
    requires newId !in store.docs
    modifies store
    ensures RegisterSpec(old(store.docs), b, emailPattern, newId, hash, sign, now) == (r, store.docs)
  {
    var errs := RegisterViolations(b, emailPattern);
    if errs != [] {
      return Fail(ValidationFailure(errs));
    }
    if EmailTaken(store.docs, newId, OrEmpty(b.email)) {
      return Fail(DuplicateKey());
    }
    var role := RoleField(b.role).value;
    store.Insert(newId, NewUser(b, role, hash, now));
    r := Ok(TokenReply(201, sign(newId, role)));
  }

  // ---------------------------------------------------------------- login

  /**
   * `login`: 400 unless both an email and a password are given, before any lookup; the
   * same 401 for an unknown email and for a wrong password; otherwise a 200 token reply.
   */
  function LoginSpec(docs: map<Id, User>, email: Option<string>, password: Option<string>, found: Option<Id>,
                     matches: (string, string) -> bool, sign: (Id, Role) -> string): (r: Result<TokenReply>)
    requires Given(email) ==> FindsByEmail(docs, email.value, found)
    ensures r.Ok? <==> Given(email) && Given(password) && found.Some? && matches(password.value, docs[found.value].password)
    ensures r.Ok? ==> r.value == TokenReply(200, sign(found.value, docs[found.value].role))
    ensures r.Fail? ==> r.error.statusCode == Some(400) || r.error == ErrorResponse("Invalid credentials", 401)
  {
    if !Given(email) || !Given(password) then Fail(ErrorResponse("Please provide an email and password", 400))
    else if found.None? then Fail(ErrorResponse("Invalid credentials", 401))
    else if !matches(password.value, docs[found.value].password) then Fail(ErrorResponse("Invalid credentials", 401))
    else Ok(TokenReply(200, sign(found.value, docs[found.value].role)))
  }

  /**
   * Under the unique index a login succeeds exactly when some user has the email and the
   * password matches that user's hash; every other failure after the input check is the
   * one indistinguishable 401, so the reply does not reveal whether the email exists.
   */
  lemma LoginOutcome(docs: map<Id, User>, email: Option<string>, password: Option<string>, found: Option<Id>,
                     matches: (string, string) -> bool, sign: (Id, Role) -> string)
    requires UniqueEmails(docs) && (Given(email) ==> FindsByEmail(docs, email.value, found))
    ensures var r := LoginSpec(docs, email, password, found, matches, sign);
      && (!Given(email) || !Given(password) ==> r == Fail(ErrorResponse("Please provide an email and password", 400)))
      && (Given(email) && Given(password) ==>
            && (r.Ok? <==> exists id :: id in docs && docs[id].email == email.value && matches(password.value, docs[id].password))
            && (r.Fail? ==> r == Fail(ErrorResponse("Invalid credentials", 401)))
            && (r.Ok? ==> r.value == TokenReply(200, sign(found.value, docs[found.value].role))))
  {
    if Given(email) && Given(password) && found.Some? {
      forall id | id in docs && docs[id].email == email.value
        ensures id == found.value
      {
      }
    }
  }

  /** A user just registered can log in with the same email and password, when the hash oracle verifies its own output. */
  lemma RegisterThenLogin(docs: map<Id, User>, b: RegisterInput, emailPattern: bool, newId: Id, found: Option<Id>,
                          hash: string -> string, matches: (string, string) -> bool, sign: (Id, Role) -> string, now: Time)
    requires newId !in docs && UniqueEmails(docs)
    requires RegisterSpec(docs, b, emailPattern, newId, hash, sign, now).0.Ok?
    requires matches(OrEmpty(b.password), hash(OrEmpty(b.password)))
    requires FindsByEmail(RegisterSpec(docs, b, emailPattern, newId, hash, sign, now).1, OrEmpty(b.email), found)
    ensures var docs' := RegisterSpec(docs, b, emailPattern, newId, hash, sign, now).1;
      LoginSpec(docs', b.email, b.password, found, matches, sign) == Ok(TokenReply(200, sign(newId, docs'[newId].role)))
  {
    RegisterEffect(docs, b, emailPattern, newId, hash, sign, now);
    var docs' := RegisterSpec(docs, b, emailPattern, newId, hash, sign, now).1;
    assert Given(b.email) && Given(b.password);
    FindsByEmailUnique(docs', OrEmpty(b.email), found, Some(newId));
    assert docs'[newId].password == hash(OrEmpty(b.password));
  }

  /** `login`; it reads the collection and changes nothing. */
  method Login(store: UserStore, email: Option<string>, password: Option<string>, found: Option<Id>,
               matches: (string, string) -> bool, sign: (Id, Role) -> string) returns (r: Result<TokenReply>)
    requires Given(email) ==> FindsByEmail(store.docs, email.value, found)
    ensures r == LoginSpec(store.docs, email, password, found, matches, sign)
  {
    if !Given(email) || !Given(password) {
      return Fail(ErrorResponse("Please provide an email and password", 400));
    }
    if found.None? {
      return Fail(ErrorResponse("Invalid credentials", 401));
    }
    var user := store.docs[found.value];
    if !matches(password.value, user.password) {
      return Fail(ErrorResponse("Invalid credentials", 401));
    }
    r := Ok(TokenReply(200, sign(found.value, user.role)));
  }

  // ---------------------------------------------------------------- logout

  /** The user with `{ token }` pushed onto the blacklist, stamped now by the schema default. */
  function Blacklisting(u: User, token: string, now: Time): (r: User)
    ensures IsBlacklisted(r, token)
    ensures r.blacklistedTokens == u.blacklistedTokens + [BlacklistedToken(token, now)]
    ensures r.(blacklistedTokens := u.blacklistedTokens) == u
  {
    var r := u.(blacklistedTokens := u.blacklistedTokens + [BlacklistedToken(token, now)]);
    assert r.blacklistedTokens[|u.blacklistedTokens|].token == token;
    r
  }

  /** `logout` behind `protect`: the presented token is blacklisted on the caller and saved. */
  function LogoutSpec(users: map<Id, User>, authorization: Option<string>, cookie: Option<string>,
                      verify: string -> Option<Id>, now: Time): (r: (Result<Unit>, map<Id, User>))
    ensures r.0.Fail? ==> r.1 == users && r.0.error.statusCode == Some(401)
    ensures r.0.Ok? ==> && Protect(authorization, cookie, verify, users).Ok?
                        && var s := Protect(authorization, cookie, verify, users).value;
                        && s.userId in users && s.userId in r.1
                        && r.1 == users[s.userId := r.1[s.userId]]
                        && IsBlacklisted(r.1[s.userId], s.token)
                        && Some(s.token) == ExtractToken(authorization, cookie)
  {
    match Protect(authorization, cookie, verify, users)
    case Fail(e) => (Fail(e), users)
    case Ok(s) => (Ok(Unit), users[s.userId := Blacklisting(users[s.userId], s.token, now)])
  }

  /**
   * After a logout the same token is refused, whichever way it is presented; the logout
   * changes only the caller's blacklist, so the collection stays consistent.
   */
  lemma LogoutRevokesToken(users: map<Id, User>, authorization: Option<string>, cookie: Option<string>,
                           verify: string -> Option<Id>, now: Time, authorization': Option<string>, cookie': Option<string>)
    requires LogoutSpec(users, authorization, cookie, verify, now).0.Ok?
    requires ExtractToken(authorization', cookie') == ExtractToken(authorization, cookie)
    ensures var users' := LogoutSpec(users, authorization, cookie, verify, now).1;
      && Protect(authorization', cookie', verify, users') == Fail(ErrorResponse("Token is no longer valid", 401))
      && users'.Keys == users.Keys
      && (UniqueEmails(users) ==> UniqueEmails(users'))
      && (forall id :: id in users && WellFormed(users[id]) ==> WellFormed(users'[id]))
  {
    var s := Protect(authorization, cookie, verify, users).value;
    var users' := LogoutSpec(users, authorization, cookie, verify, now).1;
    assert users'[s.userId] == Blacklisting(users[s.userId], s.token, now);
    BlacklistedTokenRefused(authorization', cookie', verify, users');
    forall id | id in users && WellFormed(users[id]) ensures WellFormed(users'[id]) {
      WellFormedFrame(users[id], users'[id]);
    }
  }

  /** A second logout with the same token is refused and changes nothing. */
  lemma LogoutTwiceRefused(users: map<Id, User>, authorization: Option<string>, cookie: Option<string>,
                           verify: string -> Option<Id>, now: Time, later: Time)
    requires LogoutSpec(users, authorization, cookie, verify, now).0.Ok?
    ensures var users' := LogoutSpec(users, authorization, cookie, verify, now).1;
      LogoutSpec(users', authorization, cookie, verify, later) == (Fail(ErrorResponse("Token is no longer valid", 401)), users')
  {
    LogoutRevokesToken(users, authorization, cookie, verify, now, authorization, cookie);
  }

  /** `logout` on the store. */
  method Logout(store: UserStore, authorization: Option<string>, cookie: Option<string>, verify: string -> Option<Id>,
                now: Time) returns (r: Result<Unit>)
    modifies store
    ensures LogoutSpec(old(store.docs), authorization, cookie, verify, now) == (r, store.docs)
  {
    var session := Protect(authorization, cookie, verify, store.docs);
    if session.Fail? {
      return Fail(session.error);
    }
    var s := session.value;
    store.Put(s.userId, Blacklisting(store.docs[s.userId], s.token, now));
    r := Ok(Unit);
  }

  // ---------------------------------------------------------------- blacklist expiry

  /**
   * The expiry AS WRITTEN deletes a logged-out user outright: one day after the logout
   * the time-to-live sweep removes the whole document, and `protect` then refuses every
   * token of that user as belonging to nobody.
   */
  lemma TtlSweepDeletesLoggedOutUser(users: map<Id, User>, authorization: Option<string>, cookie: Option<string>,
                                     verify: string -> Option<Id>, now: Time)
    requires LogoutSpec(users, authorization, cookie, verify, now).0.Ok?
    ensures var s := Protect(authorization, cookie, verify, users).value;
      var swept := TtlSweepAsWritten(LogoutSpec(users, authorization, cookie, verify, now).1, now + BlacklistTtlMs);
      && s.userId in users
      && s.userId !in swept
  {
    var s := Protect(authorization, cookie, verify, users).value;
    var users' := LogoutSpec(users, authorization, cookie, verify, now).1;
    var entry := BlacklistedToken(s.token, now);
    assert entry in users'[s.userId].blacklistedTokens by {
      assert users'[s.userId].blacklistedTokens[|users[s.userId].blacklistedTokens|] == entry;
    }
    assert EntryExpired(entry, now + BlacklistTtlMs);
  }

  /**
   * The intended expiry keeps every user, and until the entry's day is over the
   * logged-out token is still refused.
   */
  lemma TokenSweepKeepsRevocation(users: map<Id, User>, authorization: Option<string>, cookie: Option<string>,
                                  verify: string -> Option<Id>, now: Time, t: Time)
    requires LogoutSpec(users, authorization, cookie, verify, now).0.Ok?
    ensures var swept := TokenSweep(LogoutSpec(users, authorization, cookie, verify, now).1, t);
      && swept.Keys == users.Keys
      && (t < now + BlacklistTtlMs ==>
            Protect(authorization, cookie, verify, swept) == Fail(ErrorResponse("Token is no longer valid", 401)))
  {
    var s := Protect(authorization, cookie, verify, users).value;
    var users' := LogoutSpec(users, authorization, cookie, verify, now).1;
    var swept := TokenSweep(users', t);
    if t < now + BlacklistTtlMs {
      var entry := BlacklistedToken(s.token, now);
      assert entry in users'[s.userId].blacklistedTokens by {
        assert users'[s.userId].blacklistedTokens[|users[s.userId].blacklistedTokens|] == entry;
      }
      var live := swept[s.userId].blacklistedTokens;
      assert entry in live;
      var k :| 0 <= k < |live| && live[k] == entry;
      assert IsBlacklisted(swept[s.userId], s.token);
      BlacklistedTokenRefused(authorization, cookie, verify, swept);
    }
  }

  // ---------------------------------------------------------------- updateDetails

  /** The update validators on the given paths only: a `name` or an `email` that is absent is not checked. */
  function DetailViolations(name: Option<string>, email: Option<string>, emailPattern: bool): (errs: seq<FieldError>)
    ensures errs == [] <==> (name.Some? ==> Trim(name.value) != "" && Utf16Length(Trim(name.value)) <= 50)
                            && (email.Some? ==> email.value != "" && emailPattern)
  {
    (if name.Some? then NameViolations(name.value) else []) + (if email.Some? then EmailViolations(email.value, emailPattern) else [])
  }

  /** The user with the given name (trimmed) and email; an absent field keeps its value. */
  function WithDetails(u: User, name: Option<string>, email: Option<string>): (r: User)
    ensures r.(name := u.name, email := u.email) == u
  {
    u.(name := if name.Some? then Trim(name.value) else u.name, email := if email.Some? then email.value else u.email)
  }

  /**
   * `updateDetails`: `findByIdAndUpdate` with `{ name, email }` and the validators; the
   * reply carries the updated user, or `null` when the caller's document is gone.
   */
  function UpdateDetailsSpec(users: map<Id, User>, caller: Caller, name: Option<string>, email: Option<string>,
                             emailPattern: bool): (r: (Result<Option<User>>, map<Id, User>))
    ensures r.0.Fail? || r.0.value.None? ==> r.1 == users
    ensures r.0.Ok? && r.0.value.None? <==> DetailViolations(name, email, emailPattern) == [] && caller.id !in users
    ensures r.0.Ok? && r.0.value.Some? ==>
      && caller.id in users && r.1 == users[caller.id := r.0.value.value]
      && !EmailTaken(users, caller.id, r.0.value.value.email)
      && r.0.value.value.(name := users[caller.id].name, email := users[caller.id].email) == users[caller.id]
  {
    var errs := DetailViolations(name, email, emailPattern);
    if errs != [] then (Fail(ValidationFailure(errs)), users)
    else if caller.id !in users then (Ok(None), users)
    else
      var u := WithDetails(users[caller.id], name, email);
      if EmailTaken(users, caller.id, u.email) then (Fail(DuplicateKey()), users)
      else (Ok(Some(u)), users[caller.id := u])
  }

  /**
   * `updateDetails` touches no other user and keeps the email index unique; a refused
   * update changes nothing.
   */
  lemma UpdateDetailsKeepsIndex(users: map<Id, User>, caller: Caller, name: Option<string>, email: Option<string>,
                                emailPattern: bool)
    requires UniqueEmails(users)
    ensures var (r, users') := UpdateDetailsSpec(users, caller, name, email, emailPattern);
      && users'.Keys == users.Keys
      && UniqueEmails(users')
      && (forall id :: id in users && id != caller.id ==> users'[id] == users[id])
      && (r.Fail? ==> users' == users)
  {
    if DetailViolations(name, email, emailPattern) != [] || caller.id !in users {
      assert UpdateDetailsSpec(users, caller, name, email, emailPattern).1 == users;
    } else {
      var u := WithDetails(users[caller.id], name, email);
      if EmailTaken(users, caller.id, u.email) {
        assert UpdateDetailsSpec(users, caller, name, email, emailPattern) == (Fail(DuplicateKey()), users);
      } else {
        assert UpdateDetailsSpec(users, caller, name, email, emailPattern) == (Ok(Some(u)), users[caller.id := u]);
        ReplaceKeepsUniqueEmails(users, caller.id, u);
        Replaced(users, caller.id, u);
      }
    }
  }

  /** Replacing one user keeps the ids and every other user. */
  lemma {:induction false} Replaced(docs: map<Id, User>, id: Id, u: User)
    requires id in docs
    ensures docs[id := u].Keys == docs.Keys
    ensures forall other :: other in docs && other != id ==> docs[id := u][other] == docs[other]
  {
  }

  /**
   * `updateDetails` succeeds exactly for valid fields whose email nobody else holds, and
   * then changes at most the caller's name and email: the role, the password, the
   * enrollments and every other field stay, and the caller stays consistent.
   */
  lemma UpdateDetailsOnlyNameAndEmail(users: map<Id, User>, caller: Caller, name: Option<string>, email: Option<string>,
                                      emailPattern: bool)
    ensures var (r, users') := UpdateDetailsSpec(users, caller, name, email, emailPattern);
      && (r.Ok? && caller.id in users ==>
            && r.value == Some(users'[caller.id])
            && users'[caller.id].(name := users[caller.id].name, email := users[caller.id].email) == users[caller.id]
            && (WellFormed(users[caller.id]) ==> WellFormed(users'[caller.id])))
      && (r.Ok? <==> DetailViolations(name, email, emailPattern) == []
                     && (caller.id in users ==> !EmailTaken(users, caller.id, WithDetails(users[caller.id], name, email).email)))
  {
    if DetailViolations(name, email, emailPattern) == [] && caller.id in users {
      var u := WithDetails(users[caller.id], name, email);
      if !EmailTaken(users, caller.id, u.email) {
        assert UpdateDetailsSpec(users, caller, name, email, emailPattern) == (Ok(Some(u)), users[caller.id := u]);
        if WellFormed(users[caller.id]) {
          WellFormedFrame(users[caller.id], u);
        }
      }
    }
  }

  /** `updateDetails` on the store. */
  method UpdateDetails(store: UserStore, caller: Caller, name: Option<string>, email: Option<string>, emailPattern: bool)
    returns (r: Result<Option<User>>)
    modifies store
    ensures UpdateDetailsSpec(old(store.docs), caller, name, email, emailPattern) == (r, store.docs)
  {
    var errs := DetailViolations(name, email, emailPattern);
    if errs != [] {
      return Fail(ValidationFailure(errs));
    }
    if caller.id !in store.docs {
      return Ok(None);
    }
    var u := WithDetails(store.docs[caller.id], name, email);
    if EmailTaken(store.docs, caller.id, u.email) {
      return Fail(DuplicateKey());
    }
    store.Replace(caller.id, u);
    r := Ok(Some(u));
  }

  // ---------------------------------------------------------------- updatePassword

  /** What the hash comparison throws when no current password is given. */
  function IllegalArguments(): (e: Error)
    ensures e.statusCode == None && e.name != "ValidationError"
  {
    Error("Error", "Illegal arguments: undefined, string", None, None, [])
  }

  /** The user with a new stored password hash. */
  function WithPassword(u: User, hashed: string): (r: User)
    ensures r.password == hashed && r.(password := u.password) == u
  {
    u.(password := hashed)
  }

  /**
   * `updatePassword`: a fault when the caller's document is gone, the comparison's error
   * without a current password, 401 when it does not match, the password validators on
   * the new one, and otherwise the new password hashed and a 200 token reply.
   */
  function UpdatePasswordSpec(users: map<Id, User>, caller: Caller, current: Option<string>, newPassword: Option<string>,
                              matches: (string, string) -> bool, hash: string -> string, sign: (Id, Role) -> string)
    : (r: (Result<TokenReply>, map<Id, User>))
    ensures r.0.Fail? ==> r.1 == users
    ensures r.0.Ok? ==> && caller.id in users && current.Some? && matches(current.value, users[caller.id].password)
                        && PasswordViolations(OrEmpty(newPassword)) == []
                        && r.1 == users[caller.id := users[caller.id].(password := hash(OrEmpty(newPassword)))]
  {
    if caller.id !in users then (Fail(Crash("Cannot read properties of null (reading 'matchPassword')")), users)
    else
      var u := users[caller.id];
      if current.None? then (Fail(IllegalArguments()), users)
      else if !matches(current.value, u.password) then (Fail(ErrorResponse("Password is incorrect", 401)), users)
      else
        var errs := PasswordViolations(OrEmpty(newPassword));
        if errs != [] then (Fail(ValidationFailure(errs)), users)
        else (Ok(TokenReply(200, sign(caller.id, u.role))), users[caller.id := WithPassword(u, hash(OrEmpty(newPassword)))])
  }

  /**
   * A password changes only when the current one matches and the new one has at least
   * eight characters; then only the caller's stored hash changes, to the hash of the new
   * password. A wrong current password is 401 and changes nothing.
   */
  lemma UpdatePasswordEffect(users: map<Id, User>, caller: Caller, current: Option<string>, newPassword: Option<string>,
                             matches: (string, string) -> bool, hash: string -> string, sign: (Id, Role) -> string)
    ensures var (r, users') := UpdatePasswordSpec(users, caller, current, newPassword, matches, hash, sign);
      && (r.Fail? ==> users' == users)
      && (caller.id in users && current.Some? && !matches(current.value, users[caller.id].password) ==>
            r == Fail(ErrorResponse("Password is incorrect", 401)))
      && (r.Ok? <==> caller.id in users && current.Some? && matches(current.value, users[caller.id].password)
                     && Utf16Length(OrEmpty(newPassword)) >= 8)
      && (r.Ok? ==> users' == users[caller.id := WithPassword(users[caller.id], hash(newPassword.value))])
  {
    if caller.id in users && current.Some? && matches(current.value, users[caller.id].password)
       && Utf16Length(OrEmpty(newPassword)) >= 8
    {
      var u := users[caller.id];
      assert UpdatePasswordSpec(users, caller, current, newPassword, matches, hash, sign)
             == (Ok(TokenReply(200, sign(caller.id, u.role))), users[caller.id := WithPassword(u, hash(newPassword.value))]);
    } else {
      var (r, users') := UpdatePasswordSpec(users, caller, current, newPassword, matches, hash, sign);
      assert r.Fail? && users' == users;
    }
  }

  /** After a password change the new password logs in, when the hash oracle verifies its own output. */
  lemma NewPasswordLogsIn(users: map<Id, User>, caller: Caller, current: Option<string>, newPassword: Option<string>,
                          found: Option<Id>, matches: (string, string) -> bool, hash: string -> string,
                          sign: (Id, Role) -> string)
    requires UniqueEmails(users)
    requires UpdatePasswordSpec(users, caller, current, newPassword, matches, hash, sign).0.Ok?
    requires matches(newPassword.value, hash(newPassword.value))
    requires var users' := UpdatePasswordSpec(users, caller, current, newPassword, matches, hash, sign).1;
             users[caller.id].email != "" && FindsByEmail(users', users[caller.id].email, found)
    ensures var users' := UpdatePasswordSpec(users, caller, current, newPassword, matches, hash, sign).1;
      LoginSpec(users', Some(users[caller.id].email), newPassword, found, matches, sign)
      == Ok(TokenReply(200, sign(caller.id, users[caller.id].role)))
  {
    var users' := UpdatePasswordSpec(users, caller, current, newPassword, matches, hash, sign).1;
    assert UniqueEmails(users');
    FindsByEmailUnique(users', users[caller.id].email, found, Some(caller.id));
  }

  /** `updatePassword` on the store. */
  method UpdatePassword(store: UserStore, caller: Caller, current: Option<string>, newPassword: Option<string>,
                        matches: (string, string) -> bool, hash: string -> string, sign: (Id, Role) -> string)
    returns (r: Result<TokenReply>)
    modifies store
    ensures UpdatePasswordSpec(old(store.docs), caller, current, newPassword, matches, hash, sign) == (r, store.docs)
  {
    if caller.id !in store.docs {
      return Fail(Crash("Cannot read properties of null (reading 'matchPassword')"));
    }
    var u := store.docs[caller.id];
    if current.None? {
      return Fail(IllegalArguments());
    }
    if !matches(current.value, u.password) {
      return Fail(ErrorResponse("Password is incorrect", 401));
    }
    var errs := PasswordViolations(OrEmpty(newPassword));
    if errs != [] {
      return Fail(ValidationFailure(errs));
    }
    store.Put(caller.id, WithPassword(u, hash(OrEmpty(newPassword))));
    r := Ok(TokenReply(200, sign(caller.id, u.role)));
  }

  // ---------------------------------------------------------------- forgotPassword

  /**
   * `forgotPassword`: 404 for an unknown email; otherwise the digest of a fresh random
   * token and a ten-minute expiry are saved on the user, and the reply is `Email sent`.
   */
  function ForgotPasswordSpec(users: map<Id, User>, email: string, found: Option<Id>, resetToken: string,
                              sha256: string -> string, now: Time): (r: (Result<string>, map<Id, User>))
    requires FindsByEmail(users, email, found)
    ensures r.0.Fail? <==> found.None?
    ensures r.0.Fail? ==> r.1 == users && r.0.error.statusCode == Some(404)
    ensures r.0.Ok? ==> && found.value in users && r.1.Keys == users.Keys
                        && r.1[found.value].resetPasswordToken == Some(sha256(resetToken))
                        && (forall id :: id in users && id != found.value ==> r.1[id] == users[id])
  {
    match found
    case None => (Fail(ErrorResponse("There is no user with that email", 404)), users)
    case Some(id) => (Ok("Email sent"), users[id := WithResetToken(users[id], sha256(resetToken), now)])
  }

  /**
   * An unknown email is 404 and changes nothing; a known one gets the digest of the
   * token, valid for ten minutes, and nothing else about any user changes.
   */
  lemma ForgotPasswordEffect(users: map<Id, User>, email: string, found: Option<Id>, resetToken: string,
                             sha256: string -> string, now: Time)
    requires FindsByEmail(users, email, found)
    ensures var (r, users') := ForgotPasswordSpec(users, email, found, resetToken, sha256, now);
      && users'.Keys == users.Keys
      && (r.Fail? <==> forall id :: id in users ==> users[id].email != email)
      && (r.Fail? ==> r.error == ErrorResponse("There is no user with that email", 404) && users' == users)
      && (r.Ok? ==> && users'[found.value].resetPasswordToken == Some(sha256(resetToken))
                    && users'[found.value].resetPasswordExpire == Some(now + ResetTokenLifetimeMs)
                    && users'[found.value].(resetPasswordToken := users[found.value].resetPasswordToken,
                                            resetPasswordExpire := users[found.value].resetPasswordExpire)
                       == users[found.value]
                    && forall id :: id in users && id != found.value ==> users'[id] == users[id])
  {
  }

  /** `forgotPassword` on the store (saved without validation). */
  method ForgotPassword(store: UserStore, email: string, found: Option<Id>, resetToken: string,
                        sha256: string -> string, now: Time) returns (r: Result<string>)
    requires FindsByEmail(store.docs, email, found)
    modifies store
    ensures ForgotPasswordSpec(old(store.docs), email, found, resetToken, sha256, now) == (r, store.docs)
  {
    if found.None? {
      return Fail(ErrorResponse("There is no user with that email", 404));
    }
    var id := found.value;
    store.Put(id, WithResetToken(store.docs[id], sha256(resetToken), now));
    r := Ok("Email sent");
  }
}

=== FILE: auth_middleware.dfy ===
/**
 * The authentication gate (`protect`) and the role gate (`authorize`). Token
 * verification is an oracle: a function from token text to the id it was signed
 * for, or `None` when verification throws.
 */
module AuthMiddleware {
  import opened Common
  import opened Text
  import opened Errors
  import opened UserModel

  /** The header is present and starts with `Bearer` (the scheme of section 2.1 of RFC 6750, matched loosely). */
  predicate HasBearer(authorization: Option<string>)
  {
    authorization.Some? && StartsWith(authorization.value, "Bearer")
  }

  /** A present, non-empty value (the truthiness test on the cookie). */
  function NonEmpty(s: Option<string>): (r: Option<string>)
    ensures r.Some? <==> s.Some? && s.value != ""
    ensures r.Some? ==> r == s
  {
    if s.Some? && s.value != "" then s else None
  }

  /**
   * The token `protect` uses: with a `Bearer` header, the second space-separated word
   * of the header (absent when there is none), otherwise the cookie when it is non-empty.
   */
  function ExtractToken(authorization: Option<string>, cookie: Option<string>): (t: Option<string>)
    ensures HasBearer(authorization) && t.Some? ==> ' ' !in t.value
    ensures !HasBearer(authorization) ==> t == NonEmpty(cookie)
  {
    if HasBearer(authorization) then
      var parts := Split(authorization.value, ' ');
      if |parts| > 1 then Some(parts[1]) else None
    else NonEmpty(cookie)
  }

  /** The header a client sends, `Bearer <token>`, yields that token, whatever the cookie holds. */
  lemma BearerHeaderRoundTrip(token: string, cookie: Option<string>)
    requires ' ' !in token
    ensures ExtractToken(Some("Bearer " + token), cookie) == Some(token)
  {
    var parts := ["Bearer", token];
    assert Join(parts[1..], ' ') == token;
    assert Join(parts, ' ') == "Bearer " + token;
    SplitJoin(parts, ' ');
    assert StartsWith("Bearer " + token, "Bearer") by {
      assert ("Bearer " + token)[..6] == "Bearer";
    }
  }

  /** A header that starts with `Bearer` but has no second word yields no token even when the cookie holds one. */
  lemma BareBearerHidesCookie(cookie: string)
    ensures ExtractToken(Some("Bearer"), Some(cookie)) == None
  {
    assert Split("Bearer", ' ') == ["Bearer"];
    assert StartsWith("Bearer", "Bearer") by {
      assert "Bearer"[..6] == "Bearer";
    }
  }

  /** What `protect` attaches to the request: the user's id (`req.user`) and the token (`req.token`). */
  datatype Session = Session(userId: Id, token: string)

  const NotAuthorized := "Not authorized to access this route"

  /**
   * `protect`: 401 when there is no token, when verification fails, when no user has the
   * decoded id, or when the token is on that user's blacklist; otherwise the session.
   * It reads the user collection and changes nothing.
   */
  function Protect(authorization: Option<string>, cookie: Option<string>, verify: string -> Option<Id>,
                   users: map<Id, User>): (r: Result<Session>)
    ensures r.Ok? <==> (var t := ExtractToken(authorization, cookie);
                        && t.Some? && t.value != ""
                        && verify(t.value).Some? && verify(t.value).value in users
                        && !IsBlacklisted(users[verify(t.value).value], t.value))
    ensures r.Ok? ==> Some(r.value.token) == ExtractToken(authorization, cookie)
                      && verify(r.value.token) == Some(r.value.userId)
    ensures r.Fail? ==> r.error.statusCode == Some(401)
  {
    var t := ExtractToken(authorization, cookie);
    if t.None? || t.value == "" then Fail(ErrorResponse(NotAuthorized, 401))
    else
      match verify(t.value)
      case None => Fail(ErrorResponse(NotAuthorized, 401))
      case Some(id) =>
        if id !in users then Fail(ErrorResponse("No user found with this id", 401))
        else if IsBlacklisted(users[id], t.value) then Fail(ErrorResponse("Token is no longer valid", 401))
        else Ok(Session(id, t.value))
  }

  /** A blacklisted token is refused whichever way it is presented. */
  lemma BlacklistedTokenRefused(authorization: Option<string>, cookie: Option<string>,
                                verify: string -> Option<Id>, users: map<Id, User>)
    requires var t := ExtractToken(authorization, cookie);
             t.Some? && t.value != "" && verify(t.value).Some? && verify(t.value).value in users
             && IsBlacklisted(users[verify(t.value).value], t.value)
    ensures Protect(authorization, cookie, verify, users) == Fail(ErrorResponse("Token is no longer valid", 401))
  {
  }

  /** The caller a session stands for, with the role stored on the user. */
  function CallerOf(users: map<Id, User>, s: Session): Caller
    requires s.userId in users
  {
    Caller(s.userId, users[s.userId].role)
  }

  /**
   * `authorize(...roles)`: 403 naming the caller's role (or `undefined` without a caller)
   * unless the caller's role is one of `roles`.
   */
  function Authorize(roles: seq<Role>, user: Option<Caller>): (r: Result<Unit>)
    ensures r.Ok? <==> user.Some? && user.value.role in roles
    ensures r.Fail? ==> r.error == ErrorResponse("Role " + (if user.Some? then RoleName(user.value.role) else "undefined")
                                                 + " is not authorized to access this route", 403)
  {
    if user.None? || user.value.role !in roles then
      Fail(ErrorResponse("Role " + (if user.Some? then RoleName(user.value.role) else "undefined")
                         + " is not authorized to access this route", 403))
    else Ok(Unit)
  }

  /** The gate in front of every course-authoring route. */
  const InstructorOrAdmin: seq<Role> := [InstructorRole, AdminRole]

  /** A plain user is turned away by the authoring gate, an instructor or admin let through. */
  lemma AuthoringGate(c: Caller)
    ensures Authorize(InstructorOrAdmin, Some(c)).Ok? <==> c.role != UserRole
  {
  }
}

=== FILE: authoring.dfy ===
/**
 * Course authoring: creating, updating and deleting courses, and the six
 * section/lesson edits. Every route passes the instructor-or-admin gate first; the
 * edits then share one protocol — find the course (404), check ownership (403), find
 * the section and lesson (404), change the document, and save it (validation, slug).
 */
module CourseAuthoring {
  import opened Common
  import opened Text
  import opened Errors
  import opened UserModel
  import opened CourseModel
  import opened AuthMiddleware

  // ---------------------------------------------------------------- lookups

  /** `sections.id(x)`: the first section with that id. */
  function SectionIndex(ss: seq<Section>, id: Id): (r: Option<nat>)
    ensures r.Some? ==> r.value < |ss| && ss[r.value].id == id && forall k :: 0 <= k < r.value ==> ss[k].id != id
    ensures r.None? ==> forall k :: 0 <= k < |ss| ==> ss[k].id != id
  {
    if ss == [] then None
    else if ss[0].id == id then Some(0)
    else match SectionIndex(ss[1..], id)
      case None => None
      case Some(k) => Some(k + 1)
  }

  /** `lessons.id(x)`: the first lesson with that id. */
  function LessonIndex(ls: seq<Lesson>, id: Id): (r: Option<nat>)
    ensures r.Some? ==> r.value < |ls| && ls[r.value].id == id && forall k :: 0 <= k < r.value ==> ls[k].id != id
    ensures r.None? ==> forall k :: 0 <= k < |ls| ==> ls[k].id != id
  {
    if ls == [] then None
    else if ls[0].id == id then Some(0)
    else match LessonIndex(ls[1..], id)
      case None => None
      case Some(k) => Some(k + 1)
  }

  /** `sections.pull({ _id })`: every section with that id removed, order kept. */
  function PullSections(ss: seq<Section>, id: Id): (r: seq<Section>)
    ensures |r| <= |ss|
    ensures forall k :: 0 <= k < |r| ==> r[k].id != id
  {
    if ss == [] then []
    else (if ss[0].id == id then [] else [ss[0]]) + PullSections(ss[1..], id)
  }

  /** `lessons.pull({ _id })`: every lesson with that id removed, order kept. */
  function PullLessons(ls: seq<Lesson>, id: Id): (r: seq<Lesson>)
    ensures |r| <= |ls|
    ensures forall k :: 0 <= k < |r| ==> r[k].id != id
  {
    if ls == [] then []
    else (if ls[0].id == id then [] else [ls[0]]) + PullLessons(ls[1..], id)
  }

  predicate UniqueSectionIds(ss: seq<Section>)
  {
    forall i, j :: 0 <= i < j < |ss| ==> ss[i].id != ss[j].id
  }

  predicate UniqueLessonIds(ls: seq<Lesson>)
  {
    forall i, j :: 0 <= i < j < |ls| ==> ls[i].id != ls[j].id
  }

  /** With unique ids, pulling removes exactly the one entry at the found index. */
  lemma {:induction false} PullSectionsUnique(ss: seq<Section>, i: nat)
    requires UniqueSectionIds(ss) && i < |ss|
    ensures PullSections(ss, ss[i].id) == ss[..i] + ss[i + 1..]
  {
    var before, after := ss[..i], ss[i + 1..];
    forall k | 0 <= k < |before| ensures before[k].id != ss[i].id {
      assert before[k] == ss[k];
    }
    forall k | 0 <= k < |after| ensures after[k].id != ss[i].id {
      assert after[k] == ss[i + 1 + k];
    }
    assert ss == before + ([ss[i]] + after);
    PullSectionsAround(before, ss[i], after);
  }

  lemma {:induction false} PullSectionsAround(before: seq<Section>, x: Section, after: seq<Section>)
    requires forall k :: 0 <= k < |before| ==> before[k].id != x.id
    requires forall k :: 0 <= k < |after| ==> after[k].id != x.id
    ensures PullSections(before + ([x] + after), x.id) == before + after
  {
    assert PullSections([x] + after, x.id) == after by {
      PullSectionsAbsent(after, x.id);
      assert [x][1..] == [];
      assert PullSections([x], x.id) == [];
      PullSectionsConcat([x], after, x.id);
    }
    PullSectionsAbsent(before, x.id);
    PullSectionsConcat(before, [x] + after, x.id);
  }

  /** Pulling keeps exactly the entries with another id. */
  lemma {:induction false} PullSectionsMembers(ss: seq<Section>, id: Id)
    ensures forall x :: x in PullSections(ss, id) <==> x in ss && x.id != id
  {
    if ss != [] {
      PullSectionsMembers(ss[1..], id);
      assert ss == [ss[0]] + ss[1..];
    }
  }

  lemma {:induction false} PullSectionsConcat(a: seq<Section>, b: seq<Section>, id: Id)
    ensures PullSections(a + b, id) == PullSections(a, id) + PullSections(b, id)
  {
    if a != [] {
      var head := if a[0].id == id then [] else [a[0]];
      var ab := a + b;
      assert ab[0] == a[0] && ab[1..] == a[1..] + b;
      assert PullSections(ab, id) == head + PullSections(a[1..] + b, id);
      PullSectionsConcat(a[1..], b, id);
      var x, y, z := head, PullSections(a[1..], id), PullSections(b, id);
      assert x + (y + z) == (x + y) + z;
    } else {
      assert a + b == b;
    }
  }

  lemma {:induction false} PullSectionsAbsent(ss: seq<Section>, id: Id)
    requires forall k :: 0 <= k < |ss| ==> ss[k].id != id
    ensures PullSections(ss, id) == ss
  {
    if ss != [] {
      PullSectionsAbsent(ss[1..], id);
    }
  }

  lemma {:induction false} PullLessonsUnique(ls: seq<Lesson>, i: nat)
    requires UniqueLessonIds(ls) && i < |ls|
    ensures PullLessons(ls, ls[i].id) == ls[..i] + ls[i + 1..]
  {
    var before, after := ls[..i], ls[i + 1..];
    forall k | 0 <= k < |before| ensures before[k].id != ls[i].id {
      assert before[k] == ls[k];
    }
    forall k | 0 <= k < |after| ensures after[k].id != ls[i].id {
      assert after[k] == ls[i + 1 + k];
    }
    assert ls == before + ([ls[i]] + after);
    PullLessonsAround(before, ls[i], after);
  }

  lemma {:induction false} PullLessonsAround(before: seq<Lesson>, x: Lesson, after: seq<Lesson>)
    requires forall k :: 0 <= k < |before| ==> before[k].id != x.id
    requires forall k :: 0 <= k < |after| ==> after[k].id != x.id
    ensures PullLessons(before + ([x] + after), x.id) == before + after
  {
    assert PullLessons([x] + after, x.id) == after by {
      PullLessonsAbsent(after, x.id);
      assert [x][1..] == [];
      assert PullLessons([x], x.id) == [];
      PullLessonsConcat([x], after, x.id);
    }
    PullLessonsAbsent(before, x.id);
    PullLessonsConcat(before, [x] + after, x.id);
  }

  /** Pulling keeps exactly the entries with another id. */
  lemma {:induction false} PullLessonsMembers(ls: seq<Lesson>, id: Id)
    ensures forall x :: x in PullLessons(ls, id) <==> x in ls && x.id != id
  {
    if ls != [] {
      PullLessonsMembers(ls[1..], id);
      assert ls == [ls[0]] + ls[1..];
    }
  }

  lemma {:induction false} PullLessonsConcat(a: seq<Lesson>, b: seq<Lesson>, id: Id)
    ensures PullLessons(a + b, id) == PullLessons(a, id) + PullLessons(b, id)
  {
    if a != [] {
      var head := if a[0].id == id then [] else [a[0]];
      var ab := a + b;
      assert ab[0] == a[0] && ab[1..] == a[1..] + b;
      assert PullLessons(ab, id) == head + PullLessons(a[1..] + b, id);
      PullLessonsConcat(a[1..], b, id);
      var x, y, z := head, PullLessons(a[1..], id), PullLessons(b, id);
      assert x + (y + z) == (x + y) + z;
    } else {
      assert a + b == b;
    }
  }

  lemma {:induction false} PullLessonsAbsent(ls: seq<Lesson>, id: Id)
    requires forall k :: 0 <= k < |ls| ==> ls[k].id != id
    ensures PullLessons(ls, id) == ls
  {
    if ls != [] {
      PullLessonsAbsent(ls[1..], id);
    }
  }

  // ---------------------------------------------------------------- lesson patch

  /**
   * A lesson update body as `Object.assign(lesson, req.body)` applies it: every path of the
   * lesson schema, `_id` and the video fields included, `None` where the body does not
   * name it. `videoProvider` and `videoId` may be `null` (the inner `None`); the enum paths
   * arrive as text.
   */
  datatype LessonPatch = LessonPatch(
    id: Option<Id>,
    title: Option<string>,
    description: Option<string>,
    videoProvider: Option<Option<string>>,
    videoId: Option<Option<string>>,
    videoUrl: Option<string>,
    thumbnailUrl: Option<string>,
    duration: Option<string>,
    videoStatus: Option<string>,
    resources: Option<seq<ResourceValue>>,
    isPreview: Option<bool>)

  const EmptyLessonPatch := LessonPatch(None, None, None, None, None, None, None, None, None, None, None)

  function Pick<T>(o: Option<T>, old_: T): T
  {
    if o.Some? then o.value else old_
  }

  /** The provider a body names, when it is `null` or one of the enum names. */
  function ProviderPatch(v: Option<Option<string>>, old_: Option<VideoProvider>): Option<VideoProvider>
  {
    match v
    case None => old_
    case Some(None) => None
    case Some(Some(name)) => if ProviderOf(name).Some? then ProviderOf(name) else old_
  }

  /**
   * The body applied to a lesson. A value an enum or the `resources` cast refuses is not
   * kept; `LessonPatchErrors` records its failure, which makes the save fail.
   */
  function PatchLesson(l: Lesson, p: LessonPatch): (r: Lesson)
    ensures r.id == Pick(p.id, l.id) && r.title == Pick(p.title, l.title)
    ensures p.videoStatus.Some? && StatusOf(p.videoStatus.value).Some? ==> r.videoStatus == StatusOf(p.videoStatus.value).value
    ensures p.videoId.Some? ==> r.videoId == p.videoId.value
    ensures p.videoStatus.None? ==> r.videoStatus == l.videoStatus
    ensures p.videoId.None? ==> r.videoId == l.videoId
    ensures p.videoProvider.None? ==> r.videoProvider == l.videoProvider
  {
    var cast := if p.resources.Some? then CastResources(p.resources.value) else None;
    var status := if p.videoStatus.Some? then StatusOf(p.videoStatus.value) else None;
    Lesson(Pick(p.id, l.id), Pick(p.title, l.title), Pick(p.description, l.description),
           ProviderPatch(p.videoProvider, l.videoProvider), Pick(p.videoId, l.videoId),
           Pick(p.videoUrl, l.videoUrl), Pick(p.thumbnailUrl, l.thumbnailUrl), Pick(p.duration, l.duration),
           Pick(status, l.videoStatus), Pick(cast, l.resources), Pick(p.isPreview, l.isPreview))
  }

  /** The failures recorded while the body is applied: a name outside an enum, resources that do not cast. */
  function LessonPatchErrors(p: LessonPatch): (errs: seq<FieldError>)
    ensures errs == [] <==> && (p.videoProvider.Some? && p.videoProvider.value.Some? ==> ProviderOf(p.videoProvider.value.value).Some?)
                            && (p.videoStatus.Some? ==> StatusOf(p.videoStatus.value).Some?)
                            && (p.resources.Some? ==> CastResources(p.resources.value).Some?)
  {
    (if p.videoProvider.Some? && p.videoProvider.value.Some? && ProviderOf(p.videoProvider.value.value).None?
     then [EnumError("videoProvider", p.videoProvider.value.value)] else [])
    + (if p.videoStatus.Some? && StatusOf(p.videoStatus.value).None? then [EnumError("videoStatus", p.videoStatus.value)] else [])
    + ResourcesErrors(p.resources)
  }

  /** Applying the same update twice is applying it once; an empty update changes nothing. */
  lemma PatchLessonIdempotent(l: Lesson, p: LessonPatch)
    ensures PatchLesson(PatchLesson(l, p), p) == PatchLesson(l, p)
    ensures PatchLesson(l, EmptyLessonPatch) == l
  {
  }

  /**
   * A body naming `videoStatus: "ready"` and a `videoId` marks a lesson ready with that video,
   * whatever its upload state was: the update route does not guard the video fields.
   */
  lemma PatchCanMarkReady(l: Lesson, videoId: string)
    ensures var r := PatchLesson(l, EmptyLessonPatch.(videoStatus := Some("ready"), videoId := Some(Some(videoId))));
      r.videoStatus == Ready && r.videoId == Some(videoId)
    ensures LessonPatchErrors(EmptyLessonPatch.(videoStatus := Some("ready"), videoId := Some(Some(videoId)))) == []
  {
  }

  // ---------------------------------------------------------------- the six edits

  /** The body of `addLesson`: the fields it picks (an absent text is empty). */
  datatype LessonBody = LessonBody(title: string, description: string, videoUrl: string, duration: string,
                                   resources: Option<seq<ResourceValue>>, isPreview: Option<bool>)

  /** The lesson `addLesson` pushes, under the id the store gives it. */
  function AddedLesson(newId: Id, b: LessonBody): Lesson
  {
    NewLesson(newId, b.title, b.description, b.videoUrl, b.duration, b.resources, b.isPreview)
  }

  /** One of the section and lesson endpoints, with its parameters and body. */
  datatype Edit =
    | AddSectionEdit(newId: Id, title: string)
    | UpdateSectionEdit(sectionId: Id, title: string)
    | DeleteSectionEdit(sectionId: Id)
    | AddLessonEdit(sectionId: Id, newId: Id, body: LessonBody)
    | UpdateLessonEdit(sectionId: Id, lessonId: Id, patch: LessonPatch)
    | DeleteLessonEdit(sectionId: Id, lessonId: Id)

  /** The verb phrase of each endpoint's ownership message. */
  function Action(e: Edit): string
  {
    match e
    case AddSectionEdit(_, _) => "add sections to"
    case UpdateSectionEdit(_, _) => "update sections in"
    case DeleteSectionEdit(_) => "delete sections from"
    case AddLessonEdit(_, _, _) => "add lessons to"
    case UpdateLessonEdit(_, _, _) => "update lessons in"
    case DeleteLessonEdit(_, _) => "delete lessons from"
  }

  /** The caller may change the course: its instructor, or any admin. */
  predicate MayEdit(c: Course, caller: Caller)
  {
    c.instructor == caller.id || caller.role == AdminRole
  }

  /** The course-level checks shared by the six edits: 404 for a missing course, then 403 unless owner or admin. */
  function Gate(docs: map<Id, Course>, caller: Caller, courseId: Id, action: string): (r: Result<Course>)
    ensures r.Ok? <==> courseId in docs && MayEdit(docs[courseId], caller)
    ensures r.Ok? ==> r.value == docs[courseId]
    ensures courseId !in docs ==> r.error == ErrorResponse("Course not found with id of " + courseId, 404)
    ensures courseId in docs && !MayEdit(docs[courseId], caller) ==>
              r.error == ErrorResponse("User " + caller.id + " is not authorized to " + action + " this course", 403)
  {
    if courseId !in docs then Fail(ErrorResponse("Course not found with id of " + courseId, 404))
    else if !MayEdit(docs[courseId], caller) then
      Fail(ErrorResponse("User " + caller.id + " is not authorized to " + action + " this course", 403))
    else Ok(docs[courseId])
  }

  function SectionMissing(id: Id): Error { ErrorResponse("Section not found with id of " + id, 404) }
  function LessonMissing(id: Id): Error { ErrorResponse("Lesson not found with id of " + id, 404) }

  /** The edit applied to the fetched document (before it is saved), or the lookup's 404. */
  function ApplyEdit(c: Course, e: Edit): (r: Result<Course>)
    ensures r.Ok? ==> r.value.(sections := c.sections) == c
    ensures r.Fail? ==> r.error.statusCode == Some(404)
  {
    match e
    case AddSectionEdit(newId, title) => Ok(c.(sections := c.sections + [Section(newId, title, [])]))
    case UpdateSectionEdit(sid, title) =>
      (match SectionIndex(c.sections, sid)
       case None => Fail(SectionMissing(sid))
       case Some(i) => Ok(c.(sections := c.sections[i := c.sections[i].(title := title)])))
    case DeleteSectionEdit(sid) =>
      (match SectionIndex(c.sections, sid)
       case None => Fail(SectionMissing(sid))
       case Some(_) => Ok(c.(sections := PullSections(c.sections, sid))))
    case AddLessonEdit(sid, newId, body) =>
      (match SectionIndex(c.sections, sid)
       case None => Fail(SectionMissing(sid))
       case Some(i) =>
         var s := c.sections[i];
         Ok(c.(sections := c.sections[i := s.(lessons := s.lessons + [AddedLesson(newId, body)])])))
    case UpdateLessonEdit(sid, lid, patch) =>
      (match SectionIndex(c.sections, sid)
       case None => Fail(SectionMissing(sid))
       case Some(i) =>
         var s := c.sections[i];
         match LessonIndex(s.lessons, lid)
         case None => Fail(LessonMissing(lid))
         case Some(j) =>
           Ok(c.(sections := c.sections[i := s.(lessons := s.lessons[j := PatchLesson(s.lessons[j], patch)])])))
    case DeleteLessonEdit(sid, lid) =>
      (match SectionIndex(c.sections, sid)
       case None => Fail(SectionMissing(sid))
       case Some(i) =>
         var s := c.sections[i];
         match LessonIndex(s.lessons, lid)
         case None => Fail(LessonMissing(lid))
         case Some(_) => Ok(c.(sections := c.sections[i := s.(lessons := PullLessons(s.lessons, lid))])))
  }

  /** The failures recorded while an edit sets the body's values: only the lesson bodies can hold any. */
  function EditErrors(e: Edit): (errs: seq<FieldError>)
    ensures !e.AddLessonEdit? && !e.UpdateLessonEdit? ==> errs == []
  {
    match e
    case AddLessonEdit(_, _, body) => ResourcesErrors(body.resources)
    case UpdateLessonEdit(_, _, patch) => LessonPatchErrors(patch)
    case _ => []
  }

  /** A whole edit endpoint: the route's role gate, the course gate, the edit, then the save. */
  function EditSpec(docs: map<Id, Course>, caller: Caller, courseId: Id, e: Edit, now: Time): (r: Result<Course>)
    ensures r.Ok? ==> courseId in docs && MayEdit(docs[courseId], caller) && caller.role != UserRole
    ensures r.Ok? ==> CourseValid(r.value) && r.value.slug == Slug(r.value.title) && r.value.updatedAt == now
  {
    match Authorize(InstructorOrAdmin, Some(caller))
    case Fail(err) => Fail(err)
    case Ok(_) =>
      match Gate(docs, caller, courseId, Action(e))
      case Fail(err) => Fail(err)
      case Ok(c) =>
        match ApplyEdit(c, e)
        case Fail(err) => Fail(err)
        case Ok(edited) => SaveWithOutcome(docs, courseId, edited, EditErrors(e), now)
  }

  /**
   * The checks come in order and each names its cause: a plain user is refused by role
   * even for a missing course; then the missing course; then a non-owner.
   */
  lemma EditChecksInOrder(docs: map<Id, Course>, caller: Caller, courseId: Id, e: Edit, now: Time)
    ensures caller.role == UserRole ==>
      EditSpec(docs, caller, courseId, e, now) == Fail(ErrorResponse("Role " + "user" + " is not authorized to access this route", 403))
    ensures caller.role != UserRole && courseId !in docs ==>
      EditSpec(docs, caller, courseId, e, now) == Fail(ErrorResponse("Course not found with id of " + courseId, 404))
    ensures caller.role != UserRole && courseId in docs && !MayEdit(docs[courseId], caller) ==>
      EditSpec(docs, caller, courseId, e, now)
      == Fail(ErrorResponse("User " + caller.id + " is not authorized to " + Action(e) + " this course", 403))
  {
  }

  /** Only the instructor of the course or an admin can change it; everyone else's edit fails. */
  lemma EditNeedsOwnership(docs: map<Id, Course>, caller: Caller, courseId: Id, e: Edit, now: Time)
    requires courseId in docs && docs[courseId].instructor != caller.id && caller.role != AdminRole
    ensures EditSpec(docs, caller, courseId, e, now).Fail?
  {
  }

  /** A saved edit keeps the collection valid (validation, current slug, unique slugs). */
  lemma EditKeepsStoreValid(docs: map<Id, Course>, caller: Caller, courseId: Id, e: Edit, now: Time)
    requires StoreValid(docs) && EditSpec(docs, caller, courseId, e, now).Ok?
    ensures StoreValid(docs[courseId := EditSpec(docs, caller, courseId, e, now).value])
  {
    EditReachesSave(docs, caller, courseId, e, now);
    var edited := ApplyEdit(docs[courseId], e).value;
    SaveKeepsStoreValid(docs, courseId, edited, now);
  }

  /** The saved document differs from the stored one only in sections, slug and timestamp. */
  predicate SameExceptSections(saved: Course, c: Course)
  {
    saved.(sections := c.sections, slug := c.slug, updatedAt := c.updatedAt) == c
  }

  /**
   * A successful edit is the edited document as the save returns it: valid, with the
   * edited sections, and otherwise the stored document.
   */
  lemma {:induction false} EditSaves(docs: map<Id, Course>, caller: Caller, courseId: Id, e: Edit, now: Time)
    requires EditSpec(docs, caller, courseId, e, now).Ok?
    ensures courseId in docs && ApplyEdit(docs[courseId], e).Ok? && EditErrors(e) == []
    ensures EditSpec(docs, caller, courseId, e, now) == SaveOutcome(docs, courseId, ApplyEdit(docs[courseId], e).value, now)
    ensures var saved := EditSpec(docs, caller, courseId, e, now).value;
      && saved.sections == ApplyEdit(docs[courseId], e).value.sections
      && SameExceptSections(saved, docs[courseId])
      && CourseValid(saved)
  {
    EditReachesSave(docs, caller, courseId, e, now);
    var c := docs[courseId];
    var edited := ApplyEdit(c, e).value;
    var saved := SaveOutcome(docs, courseId, edited, now).value;
    assert saved.(slug := edited.slug, updatedAt := edited.updatedAt) == edited;
    assert edited.(sections := c.sections) == c;
  }

  lemma {:induction false} EditReachesSave(docs: map<Id, Course>, caller: Caller, courseId: Id, e: Edit, now: Time)
    requires EditSpec(docs, caller, courseId, e, now).Ok?
    ensures courseId in docs && ApplyEdit(docs[courseId], e).Ok? && EditErrors(e) == []
    ensures EditSpec(docs, caller, courseId, e, now) == SaveOutcome(docs, courseId, ApplyEdit(docs[courseId], e).value, now)
  {
  }

  /**
   * A lesson body whose enum names or resources the schema refuses fails validation
   * (422 through the handler) once the course, section and lesson are found, and saves nothing.
   */
  lemma RecordedFailureRefuses(docs: map<Id, Course>, caller: Caller, courseId: Id, e: Edit, now: Time)
    requires EditErrors(e) != []
    ensures var r := EditSpec(docs, caller, courseId, e, now);
      && r.Fail?
      && (caller.role != UserRole && courseId in docs && MayEdit(docs[courseId], caller) && ApplyEdit(docs[courseId], e).Ok?
          ==> r.error.name == "ValidationError")
  {
  }

  /** `addSection`: the new, empty section is appended and is what the endpoint returns; an empty title is refused. */
  lemma {:induction false} AddSectionAppends(docs: map<Id, Course>, caller: Caller, courseId: Id, newId: Id,
                                             title: string, now: Time)
    requires EditSpec(docs, caller, courseId, AddSectionEdit(newId, title), now).Ok?
    ensures var saved := EditSpec(docs, caller, courseId, AddSectionEdit(newId, title), now).value;
      && saved.sections == docs[courseId].sections + [Section(newId, title, [])]
      && saved.sections[|saved.sections| - 1] == Section(newId, title, [])
      && SameExceptSections(saved, docs[courseId])
      && title != ""
  {
    var e := AddSectionEdit(newId, title);
    EditSaves(docs, caller, courseId, e, now);
    var saved := EditSpec(docs, caller, courseId, e, now).value;
    var added := Section(newId, title, []);
    assert saved.sections == docs[courseId].sections + [added];
    var last := |saved.sections| - 1;
    assert saved.sections[last] == added;
    assert SectionValid(saved.sections[last]);
  }

  /** `updateSection`: only the first section with the id is renamed; an empty title is refused. */
  lemma UpdateSectionRenames(docs: map<Id, Course>, caller: Caller, courseId: Id, sid: Id, title: string, now: Time)
    requires EditSpec(docs, caller, courseId, UpdateSectionEdit(sid, title), now).Ok?
    ensures var saved := EditSpec(docs, caller, courseId, UpdateSectionEdit(sid, title), now).value;
      var ss := docs[courseId].sections;
      && SectionIndex(ss, sid).Some?
      && var i := SectionIndex(ss, sid).value;
      && saved.sections == ss[i := ss[i].(title := title)]
      && SameExceptSections(saved, docs[courseId])
      && title != ""
  {
    var saved := EditSpec(docs, caller, courseId, UpdateSectionEdit(sid, title), now).value;
    var i := SectionIndex(docs[courseId].sections, sid).value;
    assert SectionValid(saved.sections[i]);
  }

  /** `deleteSection`: with unique section ids exactly the found section disappears, the rest keep their order. */
  lemma {:induction false} DeleteSectionRemoves(docs: map<Id, Course>, caller: Caller, courseId: Id, sid: Id, now: Time)
    requires EditSpec(docs, caller, courseId, DeleteSectionEdit(sid), now).Ok?
    requires UniqueSectionIds(docs[courseId].sections)
    ensures var saved := EditSpec(docs, caller, courseId, DeleteSectionEdit(sid), now).value;
      var ss := docs[courseId].sections;
      && SectionIndex(ss, sid).Some?
      && var i := SectionIndex(ss, sid).value;
      && saved.sections == ss[..i] + ss[i + 1..]
      && SameExceptSections(saved, docs[courseId])
  {
    EditSaves(docs, caller, courseId, DeleteSectionEdit(sid), now);
    DeleteSectionApplied(docs[courseId], sid);
  }

  lemma {:induction false} DeleteSectionApplied(c: Course, sid: Id)
    requires ApplyEdit(c, DeleteSectionEdit(sid)).Ok? && UniqueSectionIds(c.sections)
    ensures SectionIndex(c.sections, sid).Some?
    ensures var i := SectionIndex(c.sections, sid).value;
      ApplyEdit(c, DeleteSectionEdit(sid)).value.sections == c.sections[..i] + c.sections[i + 1..]
  {
    var i := SectionIndex(c.sections, sid).value;
    assert ApplyEdit(c, DeleteSectionEdit(sid)).value.sections == PullSections(c.sections, sid);
    PullSectionsUnique(c.sections, i);
  }

  /**
   * `addLesson`: the lesson built from the body's picked fields is appended to the found
   * section, with the video fields at their defaults; nothing else changes. A body whose
   * resources do not cast, or without a title, is refused.
   */
  lemma {:induction false} AddLessonAppends(docs: map<Id, Course>, caller: Caller, courseId: Id, sid: Id, newId: Id, b: LessonBody,
                         now: Time)
    requires EditSpec(docs, caller, courseId, AddLessonEdit(sid, newId, b), now).Ok?
    ensures var saved := EditSpec(docs, caller, courseId, AddLessonEdit(sid, newId, b), now).value;
      var ss := docs[courseId].sections;
      && SectionIndex(ss, sid).Some?
      && var i := SectionIndex(ss, sid).value;
      && saved.sections == ss[i := ss[i].(lessons := ss[i].lessons + [AddedLesson(newId, b)])]
      && SameExceptSections(saved, docs[courseId])
      && b.title != "" && ResourcesErrors(b.resources) == []
      && AddedLesson(newId, b).videoStatus == VideoNone
  {
    var e := AddLessonEdit(sid, newId, b);
    var added := AddedLesson(newId, b);
    EditSaves(docs, caller, courseId, e, now);
    AddLessonApplied(docs[courseId], sid, added, e);
    assert EditErrors(e) == ResourcesErrors(b.resources);
    var saved := EditSpec(docs, caller, courseId, e, now).value;
    var ss := docs[courseId].sections;
    var i := SectionIndex(ss, sid).value;
    var lessons := ss[i].lessons + [added];
    assert saved.sections[i].lessons == lessons;
    assert SectionValid(saved.sections[i]);
    assert lessons[|lessons| - 1] == added;
    assert LessonValid(added);
  }

  lemma {:induction false} AddLessonApplied(c: Course, sid: Id, lesson: Lesson, e: Edit)
    requires e.AddLessonEdit? && e.sectionId == sid && lesson == AddedLesson(e.newId, e.body)
    requires ApplyEdit(c, e).Ok?
    ensures SectionIndex(c.sections, sid).Some?
    ensures var i := SectionIndex(c.sections, sid).value;
      ApplyEdit(c, e).value.sections == c.sections[i := c.sections[i].(lessons := c.sections[i].lessons + [lesson])]
  {
  }

  /**
   * `updateLesson`: only the found lesson of the found section changes, to the body applied
   * to it, and the body's enum names and resources were accepted. The body may rename the
   * lesson's id and rewrite its video fields.
   */
  lemma UpdateLessonPatches(docs: map<Id, Course>, caller: Caller, courseId: Id, sid: Id, lid: Id, p: LessonPatch,
                            now: Time)
    requires EditSpec(docs, caller, courseId, UpdateLessonEdit(sid, lid, p), now).Ok?
    ensures var saved := EditSpec(docs, caller, courseId, UpdateLessonEdit(sid, lid, p), now).value;
      var ss := docs[courseId].sections;
      && SectionIndex(ss, sid).Some?
      && var i := SectionIndex(ss, sid).value;
      && LessonIndex(ss[i].lessons, lid).Some?
      && var j := LessonIndex(ss[i].lessons, lid).value;
      && saved.sections == ss[i := ss[i].(lessons := ss[i].lessons[j := PatchLesson(ss[i].lessons[j], p)])]
      && saved.sections[i].lessons[j].id == Pick(p.id, lid)
      && LessonPatchErrors(p) == []
      && SameExceptSections(saved, docs[courseId])
  {
    EditSaves(docs, caller, courseId, UpdateLessonEdit(sid, lid, p), now);
    assert EditErrors(UpdateLessonEdit(sid, lid, p)) == LessonPatchErrors(p);
    UpdateLessonApplied(docs[courseId], sid, lid, p);
  }

  lemma {:induction false} UpdateLessonApplied(c: Course, sid: Id, lid: Id, p: LessonPatch)
    requires ApplyEdit(c, UpdateLessonEdit(sid, lid, p)).Ok?
    ensures SectionIndex(c.sections, sid).Some?
    ensures var i := SectionIndex(c.sections, sid).value;
      && LessonIndex(c.sections[i].lessons, lid).Some?
      && var j := LessonIndex(c.sections[i].lessons, lid).value;
      && ApplyEdit(c, UpdateLessonEdit(sid, lid, p)).value.sections
         == c.sections[i := c.sections[i].(lessons := c.sections[i].lessons[j := PatchLesson(c.sections[i].lessons[j], p)])]
  {
  }

  /** `deleteLesson`: with unique lesson ids exactly the found lesson disappears from its section. */
  lemma {:induction false} DeleteLessonRemoves(docs: map<Id, Course>, caller: Caller, courseId: Id, sid: Id, lid: Id, now: Time)
    requires EditSpec(docs, caller, courseId, DeleteLessonEdit(sid, lid), now).Ok?
    requires forall k :: 0 <= k < |docs[courseId].sections| ==> UniqueLessonIds(docs[courseId].sections[k].lessons)
    ensures var saved := EditSpec(docs, caller, courseId, DeleteLessonEdit(sid, lid), now).value;
      var ss := docs[courseId].sections;
      && SectionIndex(ss, sid).Some?
      && var i := SectionIndex(ss, sid).value;
      && LessonIndex(ss[i].lessons, lid).Some?
      && var j := LessonIndex(ss[i].lessons, lid).value;
      && saved.sections == ss[i := ss[i].(lessons := ss[i].lessons[..j] + ss[i].lessons[j + 1..])]
      && SameExceptSections(saved, docs[courseId])
  {
    EditSaves(docs, caller, courseId, DeleteLessonEdit(sid, lid), now);
    DeleteLessonApplied(docs[courseId], sid, lid);
  }

  lemma {:induction false} DeleteLessonApplied(c: Course, sid: Id, lid: Id)
    requires ApplyEdit(c, DeleteLessonEdit(sid, lid)).Ok?
    requires forall k :: 0 <= k < |c.sections| ==> UniqueLessonIds(c.sections[k].lessons)
    ensures SectionIndex(c.sections, sid).Some?
    ensures var i := SectionIndex(c.sections, sid).value;
      && LessonIndex(c.sections[i].lessons, lid).Some?
      && var j := LessonIndex(c.sections[i].lessons, lid).value;
      && ApplyEdit(c, DeleteLessonEdit(sid, lid)).value.sections
         == c.sections[i := c.sections[i].(lessons := c.sections[i].lessons[..j] + c.sections[i].lessons[j + 1..])]
  {
    var i := SectionIndex(c.sections, sid).value;
    var ls := c.sections[i].lessons;
    var j := LessonIndex(ls, lid).value;
    assert ApplyEdit(c, DeleteLessonEdit(sid, lid)).value.sections == c.sections[i := c.sections[i].(lessons := PullLessons(ls, lid))];
    assert UniqueLessonIds(ls);
    PullLessonsUnique(ls, j);
  }

  /** An edit naming a section the course does not have is a 404 and saves nothing. */
  lemma EditUnknownSection(docs: map<Id, Course>, caller: Caller, courseId: Id, e: Edit, now: Time)
    requires !e.AddSectionEdit? && caller.role != UserRole && courseId in docs && MayEdit(docs[courseId], caller)
    requires forall k :: 0 <= k < |docs[courseId].sections| ==> docs[courseId].sections[k].id != e.sectionId
    ensures EditSpec(docs, caller, courseId, e, now) == Fail(SectionMissing(e.sectionId))
  {
    ApplyUnknownSection(docs[courseId], e);
    assert Gate(docs, caller, courseId, Action(e)) == Ok(docs[courseId]);
  }

  lemma {:induction false} ApplyUnknownSection(c: Course, e: Edit)
    requires !e.AddSectionEdit?
    requires forall k :: 0 <= k < |c.sections| ==> c.sections[k].id != e.sectionId
    ensures ApplyEdit(c, e) == Fail(SectionMissing(e.sectionId))
  {
    assert SectionIndex(c.sections, e.sectionId).None?;
  }

  /** The six section and lesson endpoints on the store: the checks, the change, one save. */
  method EditCourse(store: CourseStore, caller: Caller, courseId: Id, e: Edit, now: Time) returns (r: Result<Course>)
    modifies store
    ensures r == EditSpec(old(store.docs), caller, courseId, e, now)
    ensures store.docs == if r.Ok? then old(store.docs)[courseId := r.value] else old(store.docs)
  {
    var allowed := Authorize(InstructorOrAdmin, Some(caller));
    if allowed.Fail? {
      return Fail(allowed.error);
    }
    var course := Gate(store.docs, caller, courseId, Action(e));
    if course.Fail? {
      return Fail(course.error);
    }
    var edited := ApplyEdit(course.value, e);
    if edited.Fail? {
      return Fail(edited.error);
    }
    r := store.SaveWith(courseId, edited.value, EditErrors(e), now);
  }

  // ---------------------------------------------------------------- create, update, delete

  /**
   * A course body as `Course.create(req.body)` and `findByIdAndUpdate(id, req.body)` take it:
   * every schema path the model keeps, `None` where the body does not name it (keys the
   * schema does not know are dropped). `level` arrives as text; `vimeoFolderId` may be `null`.
   */
  datatype CourseBody = CourseBody(
    title: Option<string>,
    slug: Option<string>,
    description: Option<string>,
    shortDescription: Option<string>,
    price: Option<real>,
    duration: Option<string>,
    level: Option<string>,
    thumbnail: Option<string>,
    instructor: Option<Id>,
    category: Option<string>,
    isPublished: Option<bool>,
    rating: Option<real>,
    ratingCount: Option<real>,
    totalEnrollments: Option<real>,
    vimeoFolderId: Option<Option<string>>,
    sections: Option<seq<Section>>,
    reviews: Option<seq<Review>>,
    createdAt: Option<Time>,
    updatedAt: Option<Time>)

  const EmptyBody := CourseBody(None, None, None, None, None, None, None, None, None, None, None, None, None, None,
                                None, None, None, None, None)

  /** The body applied to a document: each path it names takes its value, the title through the `trim` setter. */
  function ApplyPatch(c: Course, p: CourseBody): (r: Course)
    ensures r.title == if p.title.Some? then Trim(p.title.value) else c.title
    ensures r.slug == Pick(p.slug, c.slug) && r.instructor == Pick(p.instructor, c.instructor)
    ensures r.sections == Pick(p.sections, c.sections) && r.reviews == Pick(p.reviews, c.reviews)
    ensures r.updatedAt == Pick(p.updatedAt, c.updatedAt)
  {
    Course(if p.title.Some? then Trim(p.title.value) else c.title,
           Pick(p.slug, c.slug),
           Pick(p.description, c.description),
           Pick(p.shortDescription, c.shortDescription),
           if p.price.Some? then p.price else c.price,
           Pick(p.duration, c.duration),
           Pick(p.level, c.level),
           Pick(p.thumbnail, c.thumbnail),
           Pick(p.instructor, c.instructor),
           Pick(p.category, c.category),
           Pick(p.isPublished, c.isPublished),
           Pick(p.rating, c.rating),
           Pick(p.ratingCount, c.ratingCount),
           Pick(p.totalEnrollments, c.totalEnrollments),
           Pick(p.vimeoFolderId, c.vimeoFolderId),
           Pick(p.sections, c.sections),
           Pick(p.reviews, c.reviews),
           Pick(p.createdAt, c.createdAt),
           Pick(p.updatedAt, c.updatedAt))
  }

  /** An empty body changes nothing, and applying a body twice is applying it once (the trim is idempotent). */
  lemma ApplyPatchIdempotent(c: Course, p: CourseBody)
    ensures ApplyPatch(c, EmptyBody) == c
    ensures ApplyPatch(ApplyPatch(c, p), p) == ApplyPatch(c, p)
  {
    EmptyBodyKeeps(c);
    ApplyTwice(c, p);
  }

  lemma EmptyBodyKeeps(c: Course)
    ensures ApplyPatch(c, EmptyBody) == c
  {
  }

  lemma ApplyTwice(c: Course, p: CourseBody)
    ensures ApplyPatch(ApplyPatch(c, p), p) == ApplyPatch(c, p)
  {
    var once := ApplyPatch(c, p);
    var twice := ApplyPatch(once, p);
    if p.title.Some? {
      TrimKeeps(Trim(p.title.value));
    }
    assert twice.title == once.title;
    assert twice.slug == once.slug && twice.description == once.description;
    assert twice.shortDescription == once.shortDescription && twice.price == once.price;
    assert twice.duration == once.duration && twice.level == once.level && twice.thumbnail == once.thumbnail;
    assert twice.instructor == once.instructor && twice.category == once.category;
    assert twice.isPublished == once.isPublished && twice.rating == once.rating;
    assert twice.ratingCount == once.ratingCount && twice.totalEnrollments == once.totalEnrollments;
    assert twice.vimeoFolderId == once.vimeoFolderId && twice.sections == once.sections;
    assert twice.reviews == once.reviews && twice.createdAt == once.createdAt && twice.updatedAt == once.updatedAt;
  }

  /** A fresh document with the schema defaults, created at `now`. */
  function BlankCourse(now: Time): Course
  {
    Course("", "", "", "", None, "", "", "", "", "", false, 0.0, 0.0, 0.0, None, [], [], now, now)
  }

  /**
   * `Course.create(req.body)` with the caller as instructor, before it is saved: the
   * schema defaults, overwritten by every path the body names — reviews, rating and
   * enrollment count included — except `instructor`, which the controller sets.
   */
  function Draft(body: CourseBody, instructor: Id, now: Time): (r: Course)
    ensures r.instructor == instructor && r.createdAt == Pick(body.createdAt, now)
    ensures r.reviews == Pick(body.reviews, []) && r.sections == Pick(body.sections, [])
    ensures r.rating == Pick(body.rating, 0.0) && r.ratingCount == Pick(body.ratingCount, 0.0)
    ensures r.totalEnrollments == Pick(body.totalEnrollments, 0.0)
    ensures body.title.Some? ==> r.title == Trim(body.title.value)
  {
    ApplyPatch(BlankCourse(now), body.(instructor := Some(instructor)))
  }

  /**
   * `createCourse`: the role gate, the controller's own role check, then `Course.create`
   * of the body with the caller as instructor. `newId` is the body's `_id` when it names
   * one, else a fresh id; an id already in use is a duplicate key once validation passes.
   */
  function CreateSpec(docs: map<Id, Course>, caller: Caller, body: CourseBody, newId: Id, now: Time): (r: Result<Course>)
    ensures r.Ok? ==> caller.role != UserRole && r.value.instructor == caller.id && newId !in docs
    ensures r.Ok? ==> CourseValid(r.value) && r.value.slug == Slug(r.value.title) && r.value.updatedAt == now
    ensures r.Ok? ==> r.value.createdAt == Pick(body.createdAt, now)
    ensures r.Ok? ==> r.value.reviews == Pick(body.reviews, []) && r.value.sections == Pick(body.sections, [])
                      && r.value.totalEnrollments == Pick(body.totalEnrollments, 0.0)
                      && r.value.rating == Pick(body.rating, 0.0)
  {
    match Authorize(InstructorOrAdmin, Some(caller))
    case Fail(err) => Fail(err)
    case Ok(_) =>
      if caller.role != InstructorRole && caller.role != AdminRole then
        Fail(ErrorResponse("Not authorized to create courses", 403))
      else Insert(docs, newId, Draft(body, caller.id, now), now)
  }

  /** The save of a new document: validation, the hook and the slug index, then the unique `_id`. */
  function Insert(docs: map<Id, Course>, newId: Id, draft: Course, now: Time): (r: Result<Course>)
    ensures r.Ok? ==> newId !in docs && CourseValid(r.value) && r.value.slug == Slug(r.value.title) && r.value.updatedAt == now
    ensures r.Ok? ==> && r.value.instructor == draft.instructor && r.value.createdAt == draft.createdAt
                      && r.value.reviews == draft.reviews && r.value.sections == draft.sections
                      && r.value.totalEnrollments == draft.totalEnrollments && r.value.rating == draft.rating
    ensures SlugTaken(docs, newId, Slug(draft.title)) ==> r.Fail? && (CourseValid(draft) ==> r == Fail(DuplicateKey()))
  {
    var saved := SaveOutcome(docs, newId, draft, now);
    if saved.Fail? then saved
    else
      SavedFields(docs, newId, draft, now);
      if newId in docs then Fail(DuplicateKey()) else saved
  }

  /** Creating with a title whose slug another course holds is refused as a duplicate key. */
  lemma CreateSlugCollision(docs: map<Id, Course>, caller: Caller, body: CourseBody, newId: Id, now: Time, other: Id)
    requires other in docs && other != newId && body.title.Some? && docs[other].slug == Slug(Trim(body.title.value))
    ensures CreateSpec(docs, caller, body, newId, now).Fail?
    ensures (caller.role == InstructorRole || caller.role == AdminRole) && CourseValid(Draft(body, caller.id, now)) ==>
      CreateSpec(docs, caller, body, newId, now) == Fail(DuplicateKey())
  {
  }

  method CreateCourse(store: CourseStore, caller: Caller, body: CourseBody, newId: Id, now: Time) returns (r: Result<Course>)
    modifies store
    ensures r == CreateSpec(old(store.docs), caller, body, newId, now)
    ensures store.docs == if r.Ok? then old(store.docs)[newId := r.value] else old(store.docs)
  {
    var allowed := Authorize(InstructorOrAdmin, Some(caller));
    if allowed.Fail? {
      return Fail(allowed.error);
    }
    var draft := Draft(body, caller.id, now);
    if caller.role != InstructorRole && caller.role != AdminRole {
      return Fail(ErrorResponse("Not authorized to create courses", 403));
    }
    assert CreateSpec(store.docs, caller, body, newId, now) == Insert(store.docs, newId, draft, now);
    if newId in store.docs {
      var attempt := SaveOutcome(store.docs, newId, draft, now);
      return if attempt.Ok? then Fail(DuplicateKey()) else attempt;
    }
    r := store.Save(newId, draft, now);
  }

  /** The course-level checks of `updateCourse` and `deleteCourse`. */
  function OwnerGate(docs: map<Id, Course>, caller: Caller, courseId: Id, verb: string): (r: Result<Course>)
    ensures r.Ok? <==> caller.role != UserRole && courseId in docs && MayEdit(docs[courseId], caller)
    ensures r.Ok? ==> r.value == docs[courseId]
  {
    match Authorize(InstructorOrAdmin, Some(caller))
    case Fail(err) => Fail(err)
    case Ok(_) =>
      if courseId !in docs then Fail(ErrorResponse("Course not found", 404))
      else if !MayEdit(docs[courseId], caller) then Fail(ErrorResponse("Not authorized to " + verb + " this course", 403))
      else Ok(docs[courseId])
  }

  /** What the update validators check: only the paths the body sets, each as the schema declares it. */
  function PatchViolations(p: CourseBody): (errs: seq<FieldError>)
  {
    (if p.title.Some? then
       Required(Trim(p.title.value) != "", "title", "Please provide a course title")
       + Required(Utf16Length(Trim(p.title.value)) <= 100, "title", "Title cannot be more than 100 characters")
     else [])
    + (if p.description.Some? then Required(p.description.value != "", "description", "Please provide a course description") else [])
    + (if p.shortDescription.Some? then
         Required(p.shortDescription.value != "", "shortDescription", "Please provide a short description")
         + Required(Utf16Length(p.shortDescription.value) <= 200, "shortDescription",
                    "Short description cannot be more than 200 characters")
       else [])
    + (if p.duration.Some? then Required(p.duration.value != "", "duration", "Please provide course duration") else [])
    + (if p.level.Some? then LevelViolations(p.level.value) else [])
    + (if p.thumbnail.Some? then Required(p.thumbnail.value != "", "thumbnail", "Please provide a thumbnail image") else [])
    + (if p.instructor.Some? then Required(p.instructor.value != "", "instructor", "Please provide an instructor") else [])
    + (if p.category.Some? then Required(p.category.value != "", "category", "Please provide a category") else [])
    + (if p.sections.Some? then SectionsViolations(p.sections.value) else [])
    + (if p.reviews.Some? then ReviewsViolations(p.reviews.value) else [])
  }

  /** What the update validators demand of each path the body sets. */
  predicate PatchAccepted(p: CourseBody)
  {
    && (p.title.Some? ==> Trim(p.title.value) != "" && Utf16Length(Trim(p.title.value)) <= 100)
    && (p.description.Some? ==> p.description.value != "")
    && (p.shortDescription.Some? ==> p.shortDescription.value != "" && Utf16Length(p.shortDescription.value) <= 200)
    && (p.duration.Some? ==> p.duration.value != "")
    && (p.level.Some? ==> LevelOf(p.level.value).Some?)
    && (p.thumbnail.Some? ==> p.thumbnail.value != "")
    && (p.instructor.Some? ==> p.instructor.value != "")
    && (p.category.Some? ==> p.category.value != "")
    && (p.sections.Some? ==> forall i :: 0 <= i < |p.sections.value| ==> SectionValid(p.sections.value[i]))
    && (p.reviews.Some? ==> RatingsInRange(p.reviews.value))
  }

  /** The update validators report nothing exactly when every path the body sets is acceptable. */
  lemma PatchViolationsAccepted(p: CourseBody)
    ensures PatchViolations(p) == [] <==> PatchAccepted(p)
  {
  }

  /** On a valid course the update validators accept exactly the bodies that leave it valid. */
  lemma PatchViolationsExact(c: Course, p: CourseBody)
    requires CourseValid(c)
    ensures PatchViolations(p) == [] <==> CourseValid(ApplyPatch(c, p))
  {
    PatchViolationsAccepted(p);
    var r := ApplyPatch(c, p);
    assert r.level == Pick(p.level, c.level) && r.price.Some?;
    if PatchAccepted(p) {
      assert CourseValid(r);
    }
  }

  /**
   * `updateCourse` as written: `findByIdAndUpdate` with update validators. It bypasses the
   * pre-save hook, so the slug and `updatedAt` keep their values unless the body sets them;
   * a body slug another course holds is refused by the unique index.
   */
  function UpdateAsWritten(docs: map<Id, Course>, caller: Caller, courseId: Id, p: CourseBody): (r: Result<Course>)
    ensures r.Ok? ==> courseId in docs && r.value.slug == Pick(p.slug, docs[courseId].slug)
    ensures r.Ok? ==> r.value == ApplyPatch(docs[courseId], p) && PatchViolations(p) == []
    ensures r.Ok? && p.slug.Some? ==> !SlugTaken(docs, courseId, p.slug.value)
  {
    match OwnerGate(docs, caller, courseId, "update")
    case Fail(err) => Fail(err)
    case Ok(c) =>
      var errs := PatchViolations(p);
      if errs != [] then Fail(ValidationFailure(errs))
      else if p.slug.Some? && SlugTaken(docs, courseId, p.slug.value) then Fail(DuplicateKey())
      else Ok(ApplyPatch(c, p))
  }

  /** A retitled course keeps its old slug, so the stored slug no longer matches the title. */
  lemma UpdateAsWrittenLeavesStaleSlug(docs: map<Id, Course>, caller: Caller, courseId: Id, p: CourseBody)
    requires UpdateAsWritten(docs, caller, courseId, p).Ok?
    requires p.title.Some? && p.slug.None? && Slug(Trim(p.title.value)) != docs[courseId].slug
    ensures var c := UpdateAsWritten(docs, caller, courseId, p).value;
      c.slug != Slug(c.title) && !StoreValid(docs[courseId := c])
  {
    var c := UpdateAsWritten(docs, caller, courseId, p).value;
    assert courseId in docs[courseId := c];
  }

  /** A valid course titled "a" (so slugged "a"), an admin, and two bodies: a retitle to "b" and a new course titled "a". */
  const SampleCourse := Course("a", "a", "d", "s", Some(19.99), "1h", "Beginner", "t.png", "u1", "dev", false, 0.0, 0.0, 0.0,
                               None, [], [], 0, 0)
  /** The sample course with its title changed to "b" and its slug left at "a". */
  const RetitledCourse := Course("b", "a", "d", "s", Some(19.99), "1h", "Beginner", "t.png", "u1", "dev", false, 0.0, 0.0, 0.0,
                                 None, [], [], 0, 0)
  const SampleAdmin := Caller("u2", AdminRole)
  const Retitle := EmptyBody.(title := Some("b"))
  const SameTitle := EmptyBody.(title := Some("a"), description := Some("d"), shortDescription := Some("s"),
                                price := Some(19.99), duration := Some("1h"), level := Some("Beginner"),
                                thumbnail := Some("t.png"), category := Some("dev"))

  /** The concrete case: retitling "a" to "b" leaves slug "a", which then blocks a new course titled "a". */
  lemma {:induction false} StaleSlugBlocksTitle(now: Time)
    ensures var updated := UpdateAsWritten(map["c1" := SampleCourse], SampleAdmin, "c1", Retitle);
      && updated.Ok? && updated.value.title == "b" && updated.value.slug == "a"
      && CreateSpec(map["c1" := updated.value], SampleAdmin, SameTitle, "c2", now) == Fail(DuplicateKey())
  {
    RetitleAsWritten();
    CreateBlocked(RetitledCourse, now);
  }

  lemma {:induction false} RetitleAsWritten()
    ensures UpdateAsWritten(map["c1" := SampleCourse], SampleAdmin, "c1", Retitle) == Ok(RetitledCourse)
  {
    TrimSingle('b');
    assert PatchViolations(Retitle) == [];
    assert OwnerGate(map["c1" := SampleCourse], SampleAdmin, "c1", "update") == Ok(SampleCourse);
    assert ApplyPatch(SampleCourse, Retitle) == RetitledCourse;
  }

  lemma {:induction false} CreateBlocked(c1: Course, now: Time)
    requires c1.slug == "a"
    ensures CreateSpec(map["c1" := c1], SampleAdmin, SameTitle, "c2", now) == Fail(DuplicateKey())
  {
    SameTitleDraft(now);
    SlugOfA();
    TrimSingle('a');
    assert "c1"[1] != "c2"[1];
    CreateSlugCollision(map["c1" := c1], SampleAdmin, SameTitle, "c2", now, "c1");
  }

  lemma {:induction false} SameTitleDraft(now: Time)
    ensures Draft(SameTitle, SampleAdmin.id, now).title == "a"
    ensures CourseValid(Draft(SameTitle, SampleAdmin.id, now))
  {
    TrimSingle('a');
  }

  lemma {:induction false} TrimSingle(ch: char)
    requires !IsSpace(ch)
    ensures Trim([ch]) == [ch]
  {
    assert [ch][0] == ch && [ch][1..] == [];
    assert TrimStart([ch]) == [ch];
    assert TrimEnd([ch]) == [ch];
  }

  lemma {:induction false} SlugOfA()
    ensures Slug("a") == "a"
  {
    assert "a"[0] == 'a' && "a"[1..] == [];
    assert ToLower("a") == "a";
    assert KeepWordAndSpace("a") == "a";
    assert DashSpaceRuns("a") == "a";
  }

  /** `updateCourse` as intended: the body applied to the document and saved through validation and the slug hook. */
  function UpdateSpec(docs: map<Id, Course>, caller: Caller, courseId: Id, p: CourseBody, now: Time): (r: Result<Course>)
    ensures r.Ok? ==> courseId in docs && r.value.slug == Slug(r.value.title) && CourseValid(r.value)
  {
    match OwnerGate(docs, caller, courseId, "update")
    case Fail(err) => Fail(err)
    case Ok(c) => SaveOutcome(docs, courseId, ApplyPatch(c, p), now)
  }

  /** The intended update keeps the collection valid. */
  lemma UpdateKeepsStoreValid(docs: map<Id, Course>, caller: Caller, courseId: Id, p: CourseBody, now: Time)
    requires StoreValid(docs) && UpdateSpec(docs, caller, courseId, p, now).Ok?
    ensures StoreValid(docs[courseId := UpdateSpec(docs, caller, courseId, p, now).value])
  {
    SaveKeepsStoreValid(docs, courseId, ApplyPatch(docs[courseId], p), now);
  }

  method UpdateCourse(store: CourseStore, caller: Caller, courseId: Id, p: CourseBody, now: Time) returns (r: Result<Course>)
    modifies store
    ensures r == UpdateSpec(old(store.docs), caller, courseId, p, now)
    ensures store.docs == if r.Ok? then old(store.docs)[courseId := r.value] else old(store.docs)
  {
    var course := OwnerGate(store.docs, caller, courseId, "update");
    if course.Fail? {
      return Fail(course.error);
    }
    r := store.Save(courseId, ApplyPatch(course.value, p), now);
  }

  /** `deleteCourse`: the gates, then the document is removed. */
  function DeleteSpec(docs: map<Id, Course>, caller: Caller, courseId: Id): (r: Result<map<Id, Course>>)
    ensures r.Ok? ==> r.value == docs - {courseId} && courseId in docs
    ensures r.Fail? ==> r.error.statusCode.Some? && r.error.statusCode.value in {403, 404}
  {
    match OwnerGate(docs, caller, courseId, "delete")
    case Fail(err) => Fail(err)
    case Ok(_) => Ok(docs - {courseId})
  }

  method DeleteCourse(store: CourseStore, caller: Caller, courseId: Id) returns (r: Result<Unit>)
    modifies store
    ensures var spec := DeleteSpec(old(store.docs), caller, courseId);
      && (r.Ok? <==> spec.Ok?)
      && (r.Fail? ==> r.error == spec.error && store.docs == old(store.docs))
      && (r.Ok? ==> store.docs == spec.value)
  {
    var course := OwnerGate(store.docs, caller, courseId, "delete");
    if course.Fail? {
      return Fail(course.error);
    }
    store.Remove(courseId);
    r := Ok(Unit);
  }
}

=== FILE: client_logs.dfy ===
/**
 * Client-side log batches (`models/ClientLog.js`) and the routes that store and read
 * them (`controllers/logs.js`). Storing is public and best-effort: once the input checks
 * pass, a batch the store refuses is still acknowledged, with 202 instead of 201.
 */
module ClientLogs {
  import opened Common
  import opened Errors
  import opened UserModel
  import opened AuthMiddleware

  /** The level of one log entry. */
  datatype LogLevel = InfoLevel | WarningLevel | ErrorLevel | DebugLevel

  function LevelName(l: LogLevel): string
  {
    match l
    case InfoLevel => "info"
    case WarningLevel => "warning"
    case ErrorLevel => "error"
    case DebugLevel => "debug"
  }

  /** The `level` path: absent gives the default `info`; a name outside the enum is refused. */
  function ParseLevel(s: Option<string>): (r: Option<LogLevel>)
    ensures s.None? ==> r == Some(InfoLevel)
    ensures s.Some? ==> (r.Some? <==> s.value in {"info", "warning", "error", "debug"})
    ensures s.Some? && r.Some? ==> LevelName(r.value) == s.value
  {
    match s
    case None => Some(InfoLevel)
    case Some(t) =>
      if t == "info" then Some(InfoLevel)
      else if t == "warning" then Some(WarningLevel)
      else if t == "error" then Some(ErrorLevel)
      else if t == "debug" then Some(DebugLevel)
      else None
  }

  /** Every level's name is read back as that level. */
  lemma ParseLevelName(l: LogLevel)
    ensures ParseLevel(Some(LevelName(l))) == Some(l)
  {
  }

  /** A body value of mixed type, as far as truthiness looks at it (`deviceInfo` is stored as given). */
  datatype Mixed = Null | Flag(b: bool) | Number(n: int) | Text(s: string) | Object(entries: seq<(string, string)>)

  /** JavaScript truthiness: `null`, `false`, `0` and `""` are falsy; every object is truthy. */
  predicate Truthy(v: Mixed)
  {
    match v
    case Null => false
    case Flag(b) => b
    case Number(n) => n != 0
    case Text(s) => s != ""
    case Object(_) => true
  }

  /** One entry as sent; an absent field is `None`. */
  datatype EntryInput = EntryInput(level: Option<string>, message: Option<string>, timestamp: Option<Time>)

  datatype LogEntry = LogEntry(level: LogLevel, message: string, timestamp: Time)

  /** A stored batch; `userId` is absent for an anonymous sender. */
  datatype ClientLog = ClientLog(sessionId: string, userId: Option<Id>, deviceInfo: Mixed, logs: seq<LogEntry>,
                                 createdAt: Time)

  /** An entry passes the schema: a non-empty message and a known level (or none). */
  predicate EntryValid(e: EntryInput)
  {
    Given(e.message) && ParseLevel(e.level).Some?
  }

  /** The stored form of a valid entry: the level defaulted to `info`, the timestamp to now. */
  function EntryOf(e: EntryInput, now: Time): (r: LogEntry)
    requires EntryValid(e)
    ensures r.message == e.message.value && LevelName(r.level) == (if e.level.Some? then e.level.value else "info")
    ensures r.timestamp == (if e.timestamp.Some? then e.timestamp.value else now)
  {
    LogEntry(ParseLevel(e.level).value, e.message.value, if e.timestamp.Some? then e.timestamp.value else now)
  }

  /** The entries of a batch as the schema casts them; one invalid entry makes the whole document invalid. */
  function Entries(es: seq<EntryInput>, now: Time): (r: Option<seq<LogEntry>>)
    ensures r.Some? <==> forall i :: 0 <= i < |es| ==> EntryValid(es[i])
    ensures r.Some? ==> |r.value| == |es| && forall i :: 0 <= i < |es| ==> r.value[i] == EntryOf(es[i], now)
  {
    if forall i :: 0 <= i < |es| ==> EntryValid(es[i]) then Some(seq(|es|, i requires 0 <= i < |es| => EntryOf(es[i], now)))
    else None
  }

  /** `expireAfterSeconds: 30 * 24 * 60 * 60` on `createdAt`, in milliseconds. */
  const LogTtlMs: int := 30 * 24 * 60 * 60 * 1000

  /** The time-to-live sweep of the collection: a batch goes once 30 days have passed since it was created. */
  function LogSweep(docs: map<Id, ClientLog>, now: Time): (r: map<Id, ClientLog>)
    ensures forall id :: id in r <==> id in docs && now < docs[id].createdAt + LogTtlMs
    ensures forall id :: id in r ==> r[id] == docs[id]
  {
    map id | id in docs && now < docs[id].createdAt + LogTtlMs :: docs[id]
  }

  /** A batch stored now survives every sweep of the next 30 days and none after. */
  lemma StoredBatchLifetime(docs: map<Id, ClientLog>, id: Id, now: Time, t: Time)
    requires id in docs && docs[id].createdAt == now
    ensures id in LogSweep(docs, t) <==> t < now + 2592000000
  {
  }

  /** The client-log collection. */
  class ClientLogStore {
    var docs: map<Id, ClientLog>

    constructor ()
      ensures docs == map[]
    {
      docs := map[];
    }

    /** `ClientLog.create` of a checked batch under a fresh id; the write itself may fail (`writeOk`). */
    method Create(id: Id, doc: ClientLog, writeOk: bool) returns (ok: bool)
      requires id !in docs
      modifies this
      ensures ok == writeOk
      ensures docs == if ok then old(docs)[id := doc] else old(docs)
    {
      ok := writeOk;
      if ok {
        docs := docs[id := doc];
      }
    }
  }

  // ---------------------------------------------------------------- storeClientLogs

  /** The request body; `logs` is `None` when it is absent or not an array. */
  datatype BatchInput = BatchInput(sessionId: Option<string>, deviceInfo: Option<Mixed>, logs: Option<seq<EntryInput>>)

  /** 201 with the new batch's id and entry count, or 202 `success: false` when it could not be stored. */
  datatype StoreReply = Stored(id: Id, logCount: nat) | NotStored

  /**
   * `storeClientLogs`: 400 unless a session id, device information and a logs array are
   * given; 400 for an empty array; then the batch is created, tagged with the caller when
   * there is one, and any failure of the creation degrades to 202.
   */
  function StoreLogsSpec(docs: map<Id, ClientLog>, b: BatchInput, user: Option<Caller>, newId: Id, writeOk: bool,
                         now: Time): (r: (Result<StoreReply>, map<Id, ClientLog>))
    requires newId !in docs
    ensures r.0.Fail? ==> r.1 == docs && r.0.error.statusCode == Some(400)
    ensures r.0.Ok? && r.0.value.NotStored? ==> r.1 == docs
    ensures r.0.Ok? && r.0.value.Stored? ==>
      && writeOk && b.logs.Some? && b.sessionId.Some?
      && r.0.value == Stored(newId, |b.logs.value|) && newId in r.1 && r.1 == docs[newId := r.1[newId]]
      && r.1[newId].sessionId == b.sessionId.value && |r.1[newId].logs| == |b.logs.value|
      && r.1[newId].userId == (if user.Some? then Some(user.value.id) else None)
      && Entries(b.logs.value, now).Some? && r.1[newId].logs == Entries(b.logs.value, now).value
      && b.deviceInfo.Some? && r.1[newId].deviceInfo == b.deviceInfo.value && r.1[newId].createdAt == now
    ensures r.0.Ok? ==> b.logs.Some? && b.logs.value != []
    ensures r.0.Ok? && writeOk && (forall i :: 0 <= i < |b.logs.value| ==> EntryValid(b.logs.value[i])) ==>
      r.0.value.Stored?
  {
    if !Given(b.sessionId) || b.deviceInfo.None? || !Truthy(b.deviceInfo.value) || b.logs.None? then
      (Fail(ErrorResponse("Please provide valid sessionId, deviceInfo, and logs array", 400)), docs)
    else if |b.logs.value| == 0 then (Fail(ErrorResponse("Logs array cannot be empty", 400)), docs)
    else match Entries(b.logs.value, now)
      case None => (Ok(NotStored), docs)
      case Some(entries) =>
        if !writeOk then (Ok(NotStored), docs)
        else
          var doc := ClientLog(b.sessionId.value, if user.Some? then Some(user.value.id) else None, b.deviceInfo.value,
                               entries, now);
          (Ok(Stored(newId, |b.logs.value|)), docs[newId := doc])
  }

  /**
   * Only the input checks produce an error reply; every batch past them is acknowledged.
   * A stored batch holds every entry as the schema casts it, the session, the device
   * information, the caller (when there is one) and the creation time, and the reply
   * counts its entries; a batch past the checks is stored exactly when every entry is
   * valid and the write succeeds, and acknowledged without being stored otherwise.
   */
  lemma StoreLogsOutcome(docs: map<Id, ClientLog>, b: BatchInput, user: Option<Caller>, newId: Id, writeOk: bool, now: Time)
    requires newId !in docs
    ensures var (r, docs') := StoreLogsSpec(docs, b, user, newId, writeOk, now);
      && (r.Fail? <==> !Given(b.sessionId) || b.deviceInfo.None? || !Truthy(b.deviceInfo.value) || b.logs.None?
                       || b.logs.value == [])
      && (r.Fail? ==> r.error.statusCode == Some(400) && docs' == docs)
      && (r == Ok(NotStored) ==> docs' == docs)
      && (r.Ok? && r.value.Stored? ==>
            && writeOk && (forall i :: 0 <= i < |b.logs.value| ==> EntryValid(b.logs.value[i]))
            && r.value == Stored(newId, |b.logs.value|)
            && docs' == docs[newId := docs'[newId]]
            && docs'[newId].sessionId == b.sessionId.value
            && docs'[newId].userId == (if user.Some? then Some(user.value.id) else None)
            && docs'[newId].deviceInfo == b.deviceInfo.value
            && docs'[newId].createdAt == now
            && |docs'[newId].logs| == |b.logs.value|
            && (forall i :: 0 <= i < |b.logs.value| ==> docs'[newId].logs[i] == EntryOf(b.logs.value[i], now)))
      && (r.Ok? && writeOk && (forall i :: 0 <= i < |b.logs.value| ==> EntryValid(b.logs.value[i])) ==> r.value.Stored?)
      && (r.Ok? && (!writeOk || exists i :: 0 <= i < |b.logs.value| && !EntryValid(b.logs.value[i])) ==> r == Ok(NotStored))
  {
  }

  /** `storeClientLogs` on the store. */
  method StoreClientLogs(store: ClientLogStore, b: BatchInput, user: Option<Caller>, newId: Id, writeOk: bool, now: Time)
    returns (r: Result<StoreReply>)
    requires newId !in store.docs
    modifies store
    ensures StoreLogsSpec(old(store.docs), b, user, newId, writeOk, now) == (r, store.docs)
  {
    if !Given(b.sessionId) || b.deviceInfo.None? || !Truthy(b.deviceInfo.value) || b.logs.None? {
      return Fail(ErrorResponse("Please provide valid sessionId, deviceInfo, and logs array", 400));
    }
    var logs := b.logs.value;
    if |logs| == 0 {
      return Fail(ErrorResponse("Logs array cannot be empty", 400));
    }
    var entries := Entries(logs, now);
    if entries.None? {
      return Ok(NotStored);
    }
    var doc := ClientLog(b.sessionId.value, if user.Some? then Some(user.value.id) else None, b.deviceInfo.value,
                         entries.value, now);
    assert StoreLogsSpec(store.docs, b, user, newId, writeOk, now)
           == if writeOk then (Ok(Stored(newId, |logs|)), store.docs[newId := doc]) else (Ok(NotStored), store.docs);
    var ok := store.Create(newId, doc, writeOk);
    r := if ok then Ok(Stored(newId, |logs|)) else Ok(NotStored);
  }

  // ---------------------------------------------------------------- lookups

  /** A lookup reply: the number of batches and the batches by id. */
  datatype LogsReply = LogsReply(count: nat, data: map<Id, ClientLog>)

  /** The batches whose `key` field equals the parameter, with their count. */
  function Matching(docs: map<Id, ClientLog>, key: ClientLog -> Option<string>, value: string): (r: LogsReply)
    ensures r.count == |r.data|
    ensures forall id :: id in r.data <==> id in docs && key(docs[id]) == Some(value)
    ensures forall id :: id in r.data ==> r.data[id] == docs[id]
  {
    var m := map id | id in docs && key(docs[id]) == Some(value) :: docs[id];
    LogsReply(|m|, m)
  }

  function SessionOf(l: ClientLog): Option<string>
  {
    Some(l.sessionId)
  }

  function UserOf(l: ClientLog): Option<string>
  {
    l.userId
  }

  /**
   * `getClientLogsBySession` behind the admin gate: 403 for anyone but an admin, 400
   * without a session id, otherwise every batch of that session.
   */
  function LogsBySession(docs: map<Id, ClientLog>, caller: Caller, sessionId: string): Result<LogsReply>
  {
    match Authorize([AdminRole], Some(caller))
    case Fail(e) => Fail(e)
    case Ok(_) =>
      if sessionId == "" then Fail(ErrorResponse("Please provide a session ID", 400))
      else Ok(Matching(docs, SessionOf, sessionId))
  }

  /**
   * `getClientLogsByUser` behind the admin gate: 403 for anyone but an admin, 400
   * without a user id, otherwise every batch tagged with that user.
   */
  function LogsByUser(docs: map<Id, ClientLog>, caller: Caller, userId: string): Result<LogsReply>
  {
    match Authorize([AdminRole], Some(caller))
    case Fail(e) => Fail(e)
    case Ok(_) =>
      if userId == "" then Fail(ErrorResponse("Please provide a user ID", 400))
      else Ok(Matching(docs, UserOf, userId))
  }

  /**
   * Only an admin reads logs, a missing parameter is 400, and an admin's lookup returns
   * exactly the batches of that session (or user).
   */
  lemma LookupsAreAdminOnly(docs: map<Id, ClientLog>, caller: Caller, sessionId: string, userId: string)
    ensures caller.role != AdminRole ==> LogsBySession(docs, caller, sessionId).Fail? && LogsByUser(docs, caller, userId).Fail?
                                         && LogsBySession(docs, caller, sessionId).error.statusCode == Some(403)
    ensures caller.role == AdminRole && sessionId == "" ==>
              LogsBySession(docs, caller, sessionId) == Fail(ErrorResponse("Please provide a session ID", 400))
    ensures caller.role == AdminRole && userId == "" ==>
              LogsByUser(docs, caller, userId) == Fail(ErrorResponse("Please provide a user ID", 400))
    ensures caller.role == AdminRole && sessionId != "" ==>
              var r := LogsBySession(docs, caller, sessionId);
              r.Ok? && forall id :: id in r.value.data <==> id in docs && docs[id].sessionId == sessionId
    ensures caller.role == AdminRole && userId != "" ==>
              var r := LogsByUser(docs, caller, userId);
              r.Ok? && forall id :: id in r.value.data <==> id in docs && docs[id].userId == Some(userId)
  {
  }

  /** A batch stored by an authenticated caller is found by both lookups; an anonymous one only by its session. */
  lemma StoredBatchIsFound(docs: map<Id, ClientLog>, b: BatchInput, user: Option<Caller>, newId: Id, now: Time, admin: Caller)
    requires newId !in docs && admin.role == AdminRole
    requires StoreLogsSpec(docs, b, user, newId, true, now).0.Ok?
    requires forall i :: 0 <= i < |b.logs.value| ==> EntryValid(b.logs.value[i])
    ensures var docs' := StoreLogsSpec(docs, b, user, newId, true, now).1;
      && newId in LogsBySession(docs', admin, b.sessionId.value).value.data
      && (user.Some? && user.value.id != "" ==> newId in LogsByUser(docs', admin, user.value.id).value.data)
      && (user.None? ==> forall u :: u != "" ==> newId !in LogsByUser(docs', admin, u).value.data)
  {
  }
}

=== FILE: common.dfy ===
/** Shared vocabulary of the course-platform model: optional values, document ids and time. */
module Common {

  /** A value that may be absent (`undefined` or `null` in the source). */
  datatype Option<+T> = None | Some(value: T)

  /** A document id (the hex text of a store ObjectId); compared by its text, as `toString()` does. */
  type Id = string

  /** Milliseconds since the epoch, as returned by `Date.now()`; always passed in as a parameter. */
  type Time = int

  /** JavaScript truthiness of an optional text: present and not empty. */
  predicate Given(s: Option<string>)
  {
    s.Some? && s.value != ""
  }

  /** The unit payload `{}` of responses that carry no data. */
  datatype Unit = Unit
}

=== FILE: course_listing.dfy ===
/**
 * The public course listing (`getCourses`): the query string becomes a filter by
 * dropping the reserved parameters, serialising the rest as JSON and prefixing the
 * comparison words with `$`; a keyword adds a title/description search; `page` and
 * `limit` cut one window out of the matching courses. Running the filter is an oracle:
 * `find` gives the ids of the matching courses in their sort order, or the store's
 * refusal of the filter (a value that does not cast to its path's type, a keyword that
 * is not a valid regular expression), which the request fails with.
 */
module CourseListing {
  import opened Common
  import opened Text
  import opened Errors
  import opened CourseModel

  // ---------------------------------------------------------------- the parsed query string

  /** A query-string value as the parser builds it: text, a repeated parameter, or a bracketed group. */
  datatype QueryValue = QStr(s: string) | QList(items: seq<QueryValue>) | QObj(fields: seq<QueryField>)
  datatype QueryField = QueryField(key: string, value: QueryValue)

  /** The value of the first parameter named `key`. */
  function Lookup(q: seq<QueryField>, key: string): (r: Option<QueryValue>)
    ensures r.Some? <==> exists i :: 0 <= i < |q| && q[i].key == key
    ensures r.Some? ==> exists i :: 0 <= i < |q| && q[i] == QueryField(key, r.value)
  {
    if q == [] then None
    else if q[0].key == key then Some(q[0].value)
    else
      var r := Lookup(q[1..], key);
      assert forall i :: 0 <= i < |q| - 1 ==> q[1..][i] == q[i + 1];
      r
  }

  /** JavaScript truthiness of a present value: only the empty text is falsy. */
  predicate Truthy(v: QueryValue)
  {
    !v.QStr? || v.s != ""
  }

  /** `String(value)`: text as is, a list joined with commas, a group as `[object Object]`. */
  function ToText(v: QueryValue): string
    decreases v
  {
    match v
    case QStr(s) => s
    case QList(items) => Join(seq(|items|, i requires 0 <= i < |items| => ToText(items[i])), ',')
    case QObj(_) => "[object Object]"
  }

  const Reserved: set<string> := {"select", "sort", "page", "limit", "keyword", "enrolled"}

  /** The query with every reserved parameter deleted, order kept. */
  function DropReserved(q: seq<QueryField>): (r: seq<QueryField>)
    ensures forall i :: 0 <= i < |r| ==> r[i].key !in Reserved
    ensures forall f :: f in r <==> f in q && f.key !in Reserved
  {
    if q == [] then []
    else (if q[0].key in Reserved then [] else [q[0]]) + DropReserved(q[1..])
  }

  // ---------------------------------------------------------------- JSON text

  const HexDigits := "0123456789abcdef"

  /** One character inside a JSON string literal, escaped as `JSON.stringify` does. */
  function EscapeChar(c: char): (r: string)
    ensures |r| >= 1
    ensures r == [c] <==> c != '"' && c != '\\' && c >= ' '
  {
    if c == '"' then "\\\""
    else if c == '\\' then "\\\\"
    else if c == '\n' then "\\n"
    else if c == '\r' then "\\r"
    else if c == '\t' then "\\t"
    else if c == '\U{0008}' then "\\b"
    else if c == '\U{000C}' then "\\f"
    else if c < ' ' then "\\u00" + [HexDigits[c as int / 16], HexDigits[c as int % 16]]
    else [c]
  }

  function Escape(s: string): (r: string)
    ensures |r| >= |s|
  {
    if s == [] then [] else EscapeChar(s[0]) + Escape(s[1..])
  }

  function Quote(s: string): string
  {
    "\"" + Escape(s) + "\""
  }

  /** `JSON.stringify` of a query value. */
  function Stringify(v: QueryValue): string
    decreases v
  {
    match v
    case QStr(s) => Quote(s)
    case QList(items) => "[" + Join(seq(|items|, i requires 0 <= i < |items| => Stringify(items[i])), ',') + "]"
    case QObj(fields) =>
      "{" + Join(seq(|fields|, i requires 0 <= i < |fields| => Quote(fields[i].key) + ":" + Stringify(fields[i].value)), ',')
      + "}"
  }

  // ---------------------------------------------------------------- operator prefixing

  predicate IsOperator(w: string)
  {
    w == "gt" || w == "gte" || w == "lt" || w == "lte" || w == "in"
  }

  /** The length of the run of word characters `s` starts with. */
  function WordRunLength(s: string): (n: nat)
    ensures n <= |s|
    ensures forall i :: 0 <= i < n ==> IsWordChar(s[i])
    ensures n < |s| ==> !IsWordChar(s[n])
  {
    if s != [] && IsWordChar(s[0]) then 1 + WordRunLength(s[1..]) else 0
  }

  /**
   * `replace(/\b(gt|gte|lt|lte|in)\b/g, "$$&")`: every maximal run of word characters
   * that is one of the five operator words gets a `$` in front; nothing else changes.
   */
  function PrefixOperators(t: string): (r: string)
    ensures |r| >= |t|
    decreases |t|
  {
    if t == [] then []
    else if IsWordChar(t[0]) then
      var n := WordRunLength(t);
      (if IsOperator(t[..n]) then "$" + t[..n] else t[..n]) + PrefixOperators(t[n..])
    else [t[0]] + PrefixOperators(t[1..])
  }

  /** The number of operator words in `t`, counted as `PrefixOperators` finds them. */
  function OperatorWords(t: string): nat
    decreases |t|
  {
    if t == [] then 0
    else if IsWordChar(t[0]) then
      var n := WordRunLength(t);
      (if IsOperator(t[..n]) then 1 else 0) + OperatorWords(t[n..])
    else OperatorWords(t[1..])
  }

  /** The rewrite adds exactly one `$` per operator word. */
  lemma {:induction false} PrefixOperatorsLength(t: string)
    ensures |PrefixOperators(t)| == |t| + OperatorWords(t)
    decreases |t|
  {
    if t != [] {
      if IsWordChar(t[0]) {
        PrefixOperatorsLength(t[WordRunLength(t)..]);
      } else {
        PrefixOperatorsLength(t[1..]);
      }
    }
  }

  /** The rewrite leaves a text alone exactly when it has no operator word. */
  lemma {:induction false} PrefixOperatorsIdentity(t: string)
    ensures PrefixOperators(t) == t <==> OperatorWords(t) == 0
  {
    PrefixOperatorsLength(t);
    if OperatorWords(t) == 0 {
      NoOperatorUnchanged(t);
    }
  }

  lemma {:induction false} NoOperatorUnchanged(t: string)
    requires OperatorWords(t) == 0
    ensures PrefixOperators(t) == t
    decreases |t|
  {
    if t != [] {
      if IsWordChar(t[0]) {
        var n := WordRunLength(t);
        var w, rest := t[..n], t[n..];
        assert OperatorWords(t) == (if IsOperator(w) then 1 else 0) + OperatorWords(rest);
        assert !IsOperator(w) && OperatorWords(rest) == 0;
        assert PrefixOperators(t) == w + PrefixOperators(rest);
        NoOperatorUnchanged(rest);
        assert t == w + rest;
      } else {
        assert OperatorWords(t[1..]) == 0;
        assert PrefixOperators(t) == [t[0]] + PrefixOperators(t[1..]);
        NoOperatorUnchanged(t[1..]);
        assert t == [t[0]] + t[1..];
      }
    }
  }

  /** The rewrite only inserts `$`: removing every `$` from before and after gives the same text. */
  lemma {:induction false} PrefixOperatorsOnlyInserts(t: string)
    ensures Without(PrefixOperators(t), '$') == Without(t, '$')
    decreases |t|
  {
    if t != [] {
      var n := if IsWordChar(t[0]) then WordRunLength(t) else 1;
      var w, rest := t[..n], t[n..];
      var head := if IsWordChar(t[0]) && IsOperator(w) then "$" + w else w;
      assert PrefixOperators(t) == head + PrefixOperators(rest);
      PrefixOperatorsOnlyInserts(rest);
      assert Without(t, '$') == Without(w, '$') + Without(rest, '$') by {
        assert t == w + rest;
        WithoutConcat(w, rest, '$');
      }
      assert Without(head, '$') == Without(w, '$') by {
        if head != w {
          WithoutConcat("$", w, '$');
          assert Without("$", '$') == [];
        }
      }
      WithoutConcat(head, PrefixOperators(rest), '$');
    }
  }

  /** Operator words are whole words only, and the rewrite is not idempotent: an existing `$gt` becomes `$$gt`. */
  lemma OperatorExamples()
    ensures PrefixOperators("gte") == "$gte"
    ensures PrefixOperators("gtex") == "gtex"
    ensures PrefixOperators("$gt") == "$$gt"
  {
    assert WordRunLength("gte") == 3;
    assert "gte"[..3] == "gte";
    assert WordRunLength("gtex") == 4;
    assert "gtex"[..4] == "gtex";
    assert "$gt"[1..] == "gt";
    assert WordRunLength("gt") == 2;
    assert "gt"[..2] == "gt";
  }

  /**
   * A range filter such as `price[gte]=10`: the object `{k: {op: v}}` with plain words
   * becomes the filter text `{"k":{"$op":"v"}}`.
   */
  lemma {:induction false} RangeFilter(k: string, op: string, v: string)
    requires Word(k) && !IsOperator(k) && Word(op) && IsOperator(op) && Word(v) && !IsOperator(v)
    ensures PrefixOperators(Stringify(QObj([QueryField(k, QObj([QueryField(op, QStr(v))]))])))
            == "{\"" + (k + ("\":{\"" + ("$" + op + ("\":\"" + (v + "\"}}")))))
  {
    WordPlain(k);
    WordPlain(op);
    WordPlain(v);
    NestedField(k, op, v);
    assert Separators("{\"") && Separators("\":{\"") && Separators("\":\"") && Separators("\"}}");
    OperatorTail(op, "\":\"", v, "\"}}");
    PlainPrefix("{\"", k, "\":{\"", op + ("\":\"" + (v + "\"}}")));
  }

  /** The example from the listing route: `price[gte]=10` filters on `{"price":{"$gte":"10"}}`. */
  lemma RangeFilterExample()
    ensures PrefixOperators(Stringify(QObj([QueryField("price", QObj([QueryField("gte", QStr("10"))]))])))
            == "{\"" + ("price" + ("\":{\"" + ("$" + "gte" + ("\":\"" + ("10" + "\"}}")))))
  {
    assert Word("price") && Word("gte") && Word("10");
    assert !IsOperator("price") && IsOperator("gte") && !IsOperator("10");
    RangeFilter("price", "gte", "10");
  }

  /** A word needs no escaping. */
  lemma WordPlain(w: string)
    requires Word(w)
    ensures Escape(w) == w
  {
    EscapePlain(w);
  }

  /** `{k1: {k2: v}}` is written as `{"k1":{"k2":"v"}}` when no part needs escaping. */
  lemma NestedField(k1: string, k2: string, v: string)
    requires Escape(k1) == k1 && Escape(k2) == k2 && Escape(v) == v
    ensures Stringify(QObj([QueryField(k1, QObj([QueryField(k2, QStr(v))]))]))
            == "{\"" + (k1 + ("\":{\"" + (k2 + ("\":\"" + (v + "\"}}")))))
  {
    var inner := QObj([QueryField(k2, QStr(v))]);
    SingleField(k2, QStr(v));
    var sv := "\"" + v + "\"";
    assert Stringify(QStr(v)) == sv;
    var si := "{\"" + (k2 + ("\":" + (sv + "}")));
    assert Stringify(inner) == si;
    SingleField(k1, inner);
    InnerText(k2, v);
  }

  /** The text of the inner object, regrouped as it appears inside the outer one. */
  lemma InnerText(k2: string, v: string)
    ensures "\":" + ("{\"" + (k2 + ("\":" + ("\"" + v + "\"" + "}"))) + "}")
            == "\":{\"" + (k2 + ("\":\"" + (v + "\"}}")))
  {
    var sv := "\"" + v + "\"";
    var si := "{\"" + (k2 + ("\":" + (sv + "}")));
    var t := v + "\"}}";
    assert sv + "}" + "}" == "\"" + t;
    assert "\":" + (sv + "}") + "}" == "\":\"" + t;
    assert k2 + ("\":" + (sv + "}")) + "}" == k2 + ("\":\"" + t);
    assert si + "}" == "{\"" + (k2 + ("\":\"" + t));
  }

  /** An object with one field is written as `{"key":value}`. */
  lemma SingleField(k: string, v: QueryValue)
    ensures Stringify(QObj([QueryField(k, v)])) == "{\"" + (Escape(k) + ("\":" + (Stringify(v) + "}")))
  {
    var fields := [QueryField(k, v)];
    var parts := seq(|fields|, i requires 0 <= i < |fields| => Quote(fields[i].key) + ":" + Stringify(fields[i].value));
    var sv := Stringify(v);
    assert parts == [Quote(k) + ":" + sv];
    assert Stringify(QObj(fields)) == "{" + (Quote(k) + ":" + sv) + "}";
    Regroup("{", "\"", Escape(k), ":", sv, "}");
    assert "{" + "\"" == "{\"" && "\"" + ":" == "\":";
  }

  /** The concatenation of a one-field object, regrouped around its key. */
  lemma {:induction false} Regroup(open: string, quote: string, key: string, colon: string, value: string, close: string)
    ensures open + (quote + key + quote + colon + value) + close == (open + quote) + (key + ((quote + colon) + (value + close)))
  {
  }

  /** Text without quotes, backslashes or control characters is written as it is. */
  lemma {:induction false} EscapePlain(s: string)
    requires forall i :: 0 <= i < |s| ==> s[i] != '"' && s[i] != '\\' && s[i] >= ' '
    ensures Escape(s) == s
    decreases |s|
  {
    if s != [] {
      EscapePlain(s[1..]);
      assert s == [s[0]] + s[1..];
    }
  }

  predicate Separators(s: string) { forall i :: 0 <= i < |s| ==> !IsWordChar(s[i]) }
  predicate Word(s: string) { s != [] && forall i :: 0 <= i < |s| ==> IsWordChar(s[i]) }

  /** Separators, then a word that is not an operator, then separators: only what follows is rewritten. */
  lemma {:induction false} PlainPrefix(a: string, w: string, b: string, rest: string)
    requires Separators(a) && Separators(b) && b != [] && Word(w) && !IsOperator(w)
    ensures PrefixOperators(a + (w + (b + rest))) == a + (w + (b + PrefixOperators(rest)))
  {
    SeparatorsThen(b, rest);
    WordThen(w, b + rest);
    SeparatorsThen(a, w + (b + rest));
  }

  /** An operator word, then separators, then a plain word and closing separators. */
  lemma {:induction false} OperatorTail(op: string, c: string, w: string, d: string)
    requires Separators(c) && Separators(d) && c != [] && d != [] && Word(op) && IsOperator(op) && Word(w) && !IsOperator(w)
    ensures PrefixOperators(op + (c + (w + d))) == "$" + op + (c + (w + d))
  {
    SeparatorsUnchanged(d);
    WordThen(w, d);
    SeparatorsThen(c, w + d);
    WordThen(op, c + (w + d));
  }

  lemma {:induction false} SeparatorsUnchanged(s: string)
    requires forall i :: 0 <= i < |s| ==> !IsWordChar(s[i])
    ensures PrefixOperators(s) == s
    decreases |s|
  {
    if s != [] {
      SeparatorsUnchanged(s[1..]);
    }
  }

  lemma {:induction false} SeparatorsThen(s: string, rest: string)
    requires forall i :: 0 <= i < |s| ==> !IsWordChar(s[i])
    ensures PrefixOperators(s + rest) == s + PrefixOperators(rest)
    decreases |s|
  {
    if s != [] {
      assert (s + rest)[0] == s[0] && (s + rest)[1..] == s[1..] + rest;
      SeparatorsThen(s[1..], rest);
    } else {
      assert s + rest == rest;
    }
  }

  lemma {:induction false} WordThen(w: string, rest: string)
    requires w != [] && (forall i :: 0 <= i < |w| ==> IsWordChar(w[i]))
    requires rest == [] || !IsWordChar(rest[0])
    ensures PrefixOperators(w + rest) == (if IsOperator(w) then "$" + w else w) + PrefixOperators(rest)
  {
    var t := w + rest;
    WordRunOf(w, rest);
    assert t[..|w|] == w && t[|w|..] == rest;
  }

  lemma {:induction false} WordRunOf(w: string, rest: string)
    requires forall i :: 0 <= i < |w| ==> IsWordChar(w[i])
    requires rest == [] || !IsWordChar(rest[0])
    ensures WordRunLength(w + rest) == |w|
    decreases |w|
  {
    if w != [] {
      assert (w + rest)[0] == w[0] && (w + rest)[1..] == w[1..] + rest;
      WordRunOf(w[1..], rest);
    } else {
      assert w + rest == rest;
    }
  }

  // ---------------------------------------------------------------- pagination

  /** `parseInt(value, 10) || fallback`: NaN and 0 both give the fallback. */
  function PageParam(v: Option<QueryValue>, fallback: int): (r: int)
    ensures fallback != 0 ==> r != 0
    ensures v.None? ==> r == fallback
  {
    var text := if v.Some? then ToText(v.value) else "undefined";
    ParseIntOfLetter("undefined");
    var parsed := ParseInt(text);
    if parsed.None? || parsed.value == 0 then fallback else parsed.value
  }

  /** A positive number written as text is read back as itself; `0` falls back to the default. */
  lemma PageParamOfNumber(n: nat, fallback: int)
    ensures PageParam(Some(QStr(NatToString(n))), fallback) == if n == 0 then fallback else n
  {
    ParseIntOfNatToString(n);
  }

  /** The filter `getCourses` hands to the store: the rewritten JSON text and the keyword search, if any. */
  datatype CourseQuery = CourseQuery(filter: string, keyword: Option<QueryValue>)

  datatype PageLink = PageLink(page: int, limit: int)

  /** The reply: passed on to the next handler, or one page of the listing. */
  datatype Listing =
    | PassOn
    | Page(count: nat, next: Option<PageLink>, prev: Option<PageLink>, data: seq<Id>)

  /** The query `getCourses` builds from the query string. */
  function BuildQuery(q: seq<QueryField>): (cq: CourseQuery)
    ensures cq.keyword.Some? ==> Truthy(cq.keyword.value) && Lookup(q, "keyword") == cq.keyword
  {
    var kw := Lookup(q, "keyword");
    CourseQuery(PrefixOperators(Stringify(QObj(DropReserved(q)))), if kw.Some? && Truthy(kw.value) then kw else None)
  }

  /** `n` items from index `start` on (fewer at the end, none past it). */
  function Window(s: seq<Id>, start: nat, n: nat): (r: seq<Id>)
    ensures |r| <= n
    ensures start < |s| ==> r == s[start..if start + n < |s| then start + n else |s|]
  {
    if start >= |s| then [] else s[start..if start + n < |s| then start + n else |s|]
  }

  function Abs(x: int): nat { if x < 0 then -x else x }

  /** The store's refusal of a negative `skip`, which the handler reports as 500. */
  const NegativeSkip := Error("MongoServerError", "BSON field 'skip' value must be >= 0", None, None, [])

  /** One page of `matching` for the given page number and size, with its links; a negative skip is refused. */
  function Paginate(matching: seq<Id>, page: int, limit: int): (r: Result<Listing>)
    ensures r.Fail? <==> (page - 1) * limit < 0
    ensures r.Fail? ==> r.error == NegativeSkip
    ensures r.Ok? ==> r.value.Page? && r.value.count == |matching| && |r.value.data| <= Abs(limit)
    ensures r.Ok? ==> forall k :: 0 <= k < |r.value.data| ==> r.value.data[k] in matching
  {
    var start := (page - 1) * limit;
    var end := page * limit;
    if start < 0 then Fail(NegativeSkip)
    else
      Ok(Page(|matching|,
              if end < |matching| then Some(PageLink(page + 1, limit)) else None,
              if start > 0 then Some(PageLink(page - 1, limit)) else None,
              Window(matching, start, Abs(limit))))
  }

  /**
   * `getCourses`: `enrolled=true` passes the request on; otherwise the store runs the
   * filter and one page of the matches is returned. A filter the store refuses fails the
   * request with the store's error, which the error handler reports (a cast failure as
   * 404 "Resource not found", anything else as 500).
   */
  function GetCourses(q: seq<QueryField>, find: CourseQuery -> Result<seq<Id>>): (r: Result<Listing>)
    ensures r == Ok(PassOn) <==> Lookup(q, "enrolled") == Some(QStr("true"))
    ensures Lookup(q, "enrolled") != Some(QStr("true")) && find(BuildQuery(q)).Fail? ==> r == Fail(find(BuildQuery(q)).error)
    ensures r.Ok? && r.value.Page? ==> && find(BuildQuery(q)).Ok?
                                       && r.value.count == |find(BuildQuery(q)).value|
                                       && forall k :: 0 <= k < |r.value.data| ==> r.value.data[k] in find(BuildQuery(q)).value
  {
    if Lookup(q, "enrolled") == Some(QStr("true")) then Ok(PassOn)
    else
      match find(BuildQuery(q))
      case Fail(err) => Fail(err)
      case Ok(matching) => Paginate(matching, PageParam(Lookup(q, "page"), 1), PageParam(Lookup(q, "limit"), 10))
  }

  /**
   * A page reports the total number of matches (not the page size), links to the next
   * page exactly when matches remain after it and to the previous one exactly when it
   * does not start at the beginning, and holds the matches from `(page - 1) * limit` on:
   * |limit| of them, or as many as remain.
   */
  lemma {:induction false} PaginateSpec(matching: seq<Id>, page: int, limit: int)
    ensures var r := Paginate(matching, page, limit);
      && (r.Fail? <==> (page - 1) * limit < 0)
      && (r.Ok? ==> && r.value.Page?
                    && r.value.count == |matching|
                    && (r.value.next.Some? <==> page * limit < |matching|)
                    && (r.value.next.Some? ==> r.value.next.value == PageLink(page + 1, limit))
                    && (r.value.prev.Some? <==> (page - 1) * limit > 0)
                    && (r.value.prev.Some? ==> r.value.prev.value == PageLink(page - 1, limit))
                    && |r.value.data| == (if (page - 1) * limit >= |matching| then 0
                                          else if (page - 1) * limit + Abs(limit) < |matching| then Abs(limit)
                                          else |matching| - (page - 1) * limit)
                    && (forall k :: 0 <= k < |r.value.data| ==> r.value.data[k] == matching[(page - 1) * limit + k]))
  {
    var start := (page - 1) * limit;
    if start >= 0 {
      var data := Window(matching, start, Abs(limit));
      assert Paginate(matching, page, limit).value.data == data;
      if start < |matching| {
        var stop := if start + Abs(limit) < |matching| then start + Abs(limit) else |matching|;
        assert data == matching[start..stop];
        forall k | 0 <= k < |data| ensures data[k] == matching[start + k] {
        }
      }
    }
  }

  /**
   * Without `page` and `limit` the listing is the first ten matches, with no previous
   * link and a next link exactly when there are more than ten.
   */
  lemma {:induction false} GetCoursesDefaults(q: seq<QueryField>, find: CourseQuery -> Result<seq<Id>>)
    requires Lookup(q, "enrolled") != Some(QStr("true"))
    requires Lookup(q, "page").None? && Lookup(q, "limit").None?
    ensures find(BuildQuery(q)).Fail? ==> GetCourses(q, find) == Fail(find(BuildQuery(q)).error)
    ensures find(BuildQuery(q)).Ok? ==>
      var matching := find(BuildQuery(q)).value;
      GetCourses(q, find) == Ok(Page(|matching|, if 10 < |matching| then Some(PageLink(2, 10)) else None, None,
                                     matching[..if 10 < |matching| then 10 else |matching|]))
  {
    if find(BuildQuery(q)).Ok? {
      var matching := find(BuildQuery(q)).value;
      assert GetCourses(q, find) == Paginate(matching, 1, 10);
      if matching != [] {
        assert Window(matching, 0, 10) == matching[..if 10 < |matching| then 10 else |matching|];
      }
    }
  }

  /**
   * A filter value the store cannot cast to its path's type (`price[gte]=abc` on the
   * number path `price`) reaches the client as 404 "Resource not found".
   */
  lemma {:induction false} UncastableFilterIs404(q: seq<QueryField>, find: CourseQuery -> Result<seq<Id>>)
    requires Lookup(q, "enrolled") != Some(QStr("true"))
    requires find(BuildQuery(q)).Fail? && find(BuildQuery(q)).error.name == "CastError"
    requires find(BuildQuery(q)).error.code != Some(11000) && !Contains(find(BuildQuery(q)).error.message, CharsetMarker)
    ensures GetCourses(q, find).Fail?
    ensures ErrorHandler(GetCourses(q, find).error) == Reply(404, MessageBody("Resource not found"))
  {
    CastErrorIs404(find(BuildQuery(q)).error);
  }

  /** `enrolled=true` hands the request on without touching the store. */
  lemma {:induction false} EnrolledPassesOn(q: seq<QueryField>, find: CourseQuery -> Result<seq<Id>>)
    requires exists i :: 0 <= i < |q| && q[i].key == "enrolled"
    requires forall i :: 0 <= i < |q| && q[i].key == "enrolled" ==> q[i].value == QStr("true")
    ensures GetCourses(q, find) == Ok(PassOn)
  {
  }
}

=== FILE: course_model.dfy ===
/**
 * The course document: nested sections and lessons, reviews, the derived slug and
 * average rating, the schema validators, and the course collection whose `save`
 * runs validation and the pre-save hook.
 */
module CourseModel {
  import opened Common
  import opened Text
  import opened Errors

  datatype VideoProvider = Vimeo | YouTube | S3

  /**
   * A lesson's video life cycle: the video routes move it `none → uploading → ready | error`;
   * a lesson update body can set any of the five names, `processing` included.
   */
  datatype VideoStatus = VideoNone | Uploading | Processing | Ready | VideoFailed

  datatype Level = Beginner | Intermediate | Advanced | AllLevels

  function ProviderName(p: VideoProvider): string
  {
    match p
    case Vimeo => "vimeo"
    case YouTube => "youtube"
    case S3 => "s3"
  }

  function StatusName(s: VideoStatus): string
  {
    match s
    case VideoNone => "none"
    case Uploading => "uploading"
    case Processing => "processing"
    case Ready => "ready"
    case VideoFailed => "error"
  }

  function LevelName(l: Level): string
  {
    match l
    case Beginner => "Beginner"
    case Intermediate => "Intermediate"
    case Advanced => "Advanced"
    case AllLevels => "All Levels"
  }

  /** The `videoProvider` enum: the provider with that name, if any. */
  function ProviderOf(s: string): (r: Option<VideoProvider>)
    ensures r.Some? ==> ProviderName(r.value) == s
    ensures r.None? ==> forall p :: ProviderName(p) != s
  {
    if s == "vimeo" then Some(Vimeo)
    else if s == "youtube" then Some(YouTube)
    else if s == "s3" then Some(S3)
    else None
  }

  /** The `videoStatus` enum: the status with that name, if any. */
  function StatusOf(s: string): (r: Option<VideoStatus>)
    ensures r.Some? ==> StatusName(r.value) == s
    ensures r.None? ==> forall v :: StatusName(v) != s
  {
    if s == "none" then Some(VideoNone)
    else if s == "uploading" then Some(Uploading)
    else if s == "processing" then Some(Processing)
    else if s == "ready" then Some(Ready)
    else if s == "error" then Some(VideoFailed)
    else None
  }

  /** The `level` enum: the level with that name, if any. */
  function LevelOf(s: string): (r: Option<Level>)
    ensures r.Some? ==> LevelName(r.value) == s
    ensures r.None? ==> forall l :: LevelName(l) != s
  {
    if s == "Beginner" then Some(Beginner)
    else if s == "Intermediate" then Some(Intermediate)
    else if s == "Advanced" then Some(Advanced)
    else if s == "All Levels" then Some(AllLevels)
    else None
  }

  /** Each enum value's name is read back as that value. */
  lemma EnumNamesRoundTrip(p: VideoProvider, v: VideoStatus, l: Level)
    ensures ProviderOf(ProviderName(p)) == Some(p)
    ensures StatusOf(StatusName(v)) == Some(v)
    ensures LevelOf(LevelName(l)) == Some(l)
  {
  }

  /** The failure of an enum validator. */
  function EnumError(path: string, value: string): FieldError
  {
    FieldError(path, "`" + value + "` is not a valid enum value for path `" + path + "`.")
  }

  /** The validators of `level`: required (the empty text is missing), then the enum. */
  function LevelViolations(level: string): (errs: seq<FieldError>)
    ensures errs == [] <==> LevelOf(level).Some?
    ensures |errs| <= 1 && forall k :: 0 <= k < |errs| ==> errs[k].path == "level"
  {
    if level == "" then [FieldError("level", "Please provide course level")]
    else if LevelOf(level).None? then [EnumError("level", level)]
    else []
  }

  /**
   * One entry of a `resources` body. The lesson schema's `{ title, type, url, size }` makes
   * `type` the path's type, so `resources` is an array of texts: a text casts, an object does not.
   */
  datatype ResourceValue = ResourceText(text: string) | ResourceObject

  /** Casting a `resources` body to an array of texts: the texts, or nothing when an entry is an object. */
  function CastResources(vs: seq<ResourceValue>): (r: Option<seq<string>>)
    ensures r.Some? <==> forall k :: 0 <= k < |vs| ==> vs[k].ResourceText?
    ensures r.Some? ==> |r.value| == |vs| && forall k :: 0 <= k < |vs| ==> r.value[k] == vs[k].text
  {
    if vs == [] then Some([])
    else if vs[0].ResourceObject? then None
    else match CastResources(vs[1..])
      case None => None
      case Some(rest) => Some([vs[0].text] + rest)
  }

  /** The cast failure recorded on the lesson when a `resources` entry is an object. */
  const ResourcesCastError := FieldError("resources", "Cast to [string] failed at path \"resources\"")

  /** The failures recorded while a `resources` body is set: one cast failure, or none. */
  function ResourcesErrors(resources: Option<seq<ResourceValue>>): (errs: seq<FieldError>)
    ensures errs == [] <==> resources.None? || CastResources(resources.value).Some?
    ensures errs != [] ==> errs == [ResourcesCastError]
  {
    if resources.Some? && CastResources(resources.value).None? then [ResourcesCastError] else []
  }

  /** A lesson; absent optional text fields are the empty string. */
  datatype Lesson = Lesson(
    id: Id,
    title: string,
    description: string,
    videoProvider: Option<VideoProvider>,
    videoId: Option<string>,
    videoUrl: string,
    thumbnailUrl: string,
    duration: string,
    videoStatus: VideoStatus,
    resources: seq<string>,
    isPreview: bool)

  datatype Section = Section(id: Id, title: string, lessons: seq<Lesson>)

  /** A review; its `rating` is a number, absent when the request carried none. */
  datatype Review = Review(user: Option<Id>, rating: Option<real>, text: string, date: Time)

  /**
   * A course. The numeric paths are JavaScript numbers (reals here); `level` is the stored
   * text, which validation checks against the enum; absent text fields are the empty
   * string; `title` is stored trimmed, as its `trim` setter does.
   */
  datatype Course = Course(
    title: string,
    slug: string,
    description: string,
    shortDescription: string,
    price: Option<real>,
    duration: string,
    level: string,
    thumbnail: string,
    instructor: Id,
    category: string,
    isPublished: bool,
    rating: real,
    ratingCount: real,
    totalEnrollments: real,
    vimeoFolderId: Option<string>,
    sections: seq<Section>,
    reviews: seq<Review>,
    createdAt: Time,
    updatedAt: Time)

  /**
   * A lesson as `addLesson` builds it: the given fields, `resources || []`,
   * `isPreview || false`, and the schema defaults for the video fields. Resources that do
   * not cast are left out here; `ResourcesErrors` records their failure for the save.
   */
  function NewLesson(id: Id, title: string, description: string, videoUrl: string, duration: string,
                     resources: Option<seq<ResourceValue>>, isPreview: Option<bool>): (l: Lesson)
    ensures l.id == id && l.title == title
    ensures l.videoStatus == VideoNone && l.videoProvider == None && l.videoId == None
    ensures l.isPreview <==> isPreview == Some(true)
    ensures resources.None? ==> l.resources == []
    ensures resources.Some? && CastResources(resources.value).Some? ==>
              |l.resources| == |resources.value|
              && forall k :: 0 <= k < |l.resources| ==> l.resources[k] == resources.value[k].text
  {
    var cast := if resources.Some? then CastResources(resources.value) else None;
    Lesson(id, title, description, None, None, videoUrl, "", duration, VideoNone,
           if cast.Some? then cast.value else [],
           if isPreview.Some? then isPreview.value else false)
  }

  // ---------------------------------------------------------------- slug

  /** `replace(/[^\w ]+/g, "")`: keep word characters and spaces. */
  function KeepWordAndSpace(s: string): (r: string)
    ensures |r| <= |s|
    ensures forall i :: 0 <= i < |r| ==> (IsWordChar(r[i]) || r[i] == ' ') && r[i] in s
  {
    if s == [] then []
    else (if IsWordChar(s[0]) || s[0] == ' ' then [s[0]] else []) + KeepWordAndSpace(s[1..])
  }

  /** `s` without its leading spaces. */
  function DropSpaces(s: string): (r: string)
    ensures |r| <= |s| && r == s[|s| - |r|..]
    ensures r == [] || r[0] != ' '
  {
    if s != [] && s[0] == ' ' then DropSpaces(s[1..]) else s
  }

  predicate NoDoubleDash(s: string)
  {
    forall i :: 0 <= i < |s| - 1 ==> s[i] != '-' || s[i + 1] != '-'
  }

  /** `replace(/ +/g, "-")`: every maximal run of spaces becomes one dash. */
  function DashSpaceRuns(s: string): (r: string)
    ensures ' ' !in r
    ensures forall i :: 0 <= i < |r| ==> r[i] == '-' || r[i] in s
    ensures r != [] && r[0] == '-' ==> s != [] && (s[0] == ' ' || s[0] == '-')
    ensures '-' !in s ==> NoDoubleDash(r)
    decreases |s|
  {
    if s == [] then []
    else if s[0] == ' ' then
      var rest := DropSpaces(s);
      assert forall c :: c in rest ==> c in s;
      "-" + DashSpaceRuns(rest)
    else
      var rest := DashSpaceRuns(s[1..]);
      [s[0]] + rest
  }

  predicate SlugChar(c: char)
  {
    IsLower(c) || IsDigit(c) || c == '_' || c == '-'
  }

  /** The pre-save slug: lower-case the title, drop every character but `[A-Za-z0-9_]` and space, dash the space runs. */
  function Slug(title: string): (r: string)
    ensures forall i :: 0 <= i < |r| ==> SlugChar(r[i])
    ensures NoDoubleDash(r)
  {
    var lowered := ToLower(title);
    var kept := KeepWordAndSpace(lowered);
    assert forall c :: c in kept ==> c in lowered && (IsWordChar(c) || c == ' ');
    assert forall c :: c in lowered ==> !IsUpper(c);
    DashSpaceRuns(kept)
  }

  /** The characters of `s` that satisfy `\w`, in order. */
  function WordChars(s: string): (r: string)
  {
    if s == [] then [] else (if IsWordChar(s[0]) then [s[0]] else []) + WordChars(s[1..])
  }

  function Without(s: string, c: char): (r: string)
    ensures c !in r
  {
    if s == [] then [] else (if s[0] == c then [] else [s[0]]) + Without(s[1..], c)
  }

  lemma {:induction false} WithoutConcat(a: string, b: string, c: char)
    ensures Without(a + b, c) == Without(a, c) + Without(b, c)
    decreases |a|
  {
    if a != [] {
      assert (a + b)[0] == a[0] && (a + b)[1..] == a[1..] + b;
      WithoutConcat(a[1..], b, c);
    } else {
      assert a + b == b;
    }
  }

  lemma {:induction false} WithoutLeadingSpaces(s: string)
    ensures Without(DropSpaces(s), ' ') == Without(s, ' ')
    decreases |s|
  {
    if s != [] && s[0] == ' ' {
      WithoutLeadingSpaces(s[1..]);
    }
  }

  /** Turning space runs into dashes loses no other character: dropping the dashes gives the text without its spaces. */
  lemma {:induction false} DashSpaceRunsContent(s: string)
    requires '-' !in s
    ensures Without(DashSpaceRuns(s), '-') == Without(s, ' ')
    decreases |s|
  {
    if s != [] {
      if s[0] == ' ' {
        var rest := DropSpaces(s);
        assert '-' !in rest by {
          assert forall i :: 0 <= i < |rest| ==> rest[i] == s[|s| - |rest| + i];
        }
        DashSpaceRunsContent(rest);
        WithoutConcat("-", DashSpaceRuns(rest), '-');
        WithoutLeadingSpaces(s);
        assert DropSpaces(s) == DropSpaces(s[1..]);
        WithoutLeadingSpaces(s[1..]);
      } else {
        DashSpaceRunsContent(s[1..]);
        WithoutConcat([s[0]], DashSpaceRuns(s[1..]), '-');
      }
    }
  }

  lemma {:induction false} KeepThenDropSpaces(s: string)
    ensures Without(KeepWordAndSpace(s), ' ') == WordChars(s)
    decreases |s|
  {
    if s != [] {
      KeepThenDropSpaces(s[1..]);
      var head := if IsWordChar(s[0]) || s[0] == ' ' then [s[0]] else [];
      WithoutConcat(head, KeepWordAndSpace(s[1..]), ' ');
    }
  }

  /** The slug keeps exactly the word characters of the lower-cased title, in order, and adds only dashes. */
  lemma SlugContent(title: string)
    ensures Without(Slug(title), '-') == WordChars(ToLower(title))
  {
    var kept := KeepWordAndSpace(ToLower(title));
    assert '-' !in kept by {
      assert forall i :: 0 <= i < |kept| ==> IsWordChar(kept[i]) || kept[i] == ' ';
    }
    DashSpaceRunsContent(kept);
    KeepThenDropSpaces(ToLower(title));
  }

  /** Slugging is not idempotent: a title that is itself a slug with a dash loses the dash. */
  lemma SlugNotIdempotent()
    ensures Slug("a b") == "a-b"
    ensures Slug("a-b") == "ab"
  {
    SlugOfSpaced();
    SlugOfDashed();
  }

  lemma {:induction false} SlugOfSpaced()
    ensures Slug("a b") == "a-b"
  {
    LowerOfSpaced();
    KeepOfSpaced();
    DashOfSpaced();
  }

  lemma {:induction false} LowerOfSpaced()
    ensures ToLower("a b") == "a b"
  {
    assert "a b"[1..] == " b" && " b"[1..] == "b" && "b"[1..] == [];
    assert ToLower("b") == "b";
    assert ToLower(" b") == " b";
  }

  lemma {:induction false} KeepOfSpaced()
    ensures KeepWordAndSpace("a b") == "a b"
  {
    assert "a b"[1..] == " b" && " b"[1..] == "b" && "b"[1..] == [];
    assert KeepWordAndSpace("b") == "b";
    assert KeepWordAndSpace(" b") == " b";
  }

  lemma {:induction false} DashOfSpaced()
    ensures DashSpaceRuns("a b") == "a-b"
  {
    DashOfSpaceB();
    DashNonSpace('a', " b");
    SpacedLiterals();
  }

  /** A character other than a space is kept, ahead of the rest's runs. */
  lemma {:induction false} DashNonSpace(c: char, s: string)
    requires c != ' '
    ensures DashSpaceRuns([c] + s) == [c] + DashSpaceRuns(s)
  {
    assert ([c] + s)[0] == c && ([c] + s)[1..] == s;
  }

  /** A run of one space ahead of a non-space becomes one dash. */
  lemma {:induction false} DashOneSpace(s: string)
    requires s != [] && s[0] != ' '
    ensures DashSpaceRuns([' '] + s) == ['-'] + DashSpaceRuns(s)
  {
    assert ([' '] + s)[0] == ' ' && ([' '] + s)[1..] == s;
    assert DropSpaces([' '] + s) == DropSpaces(s) == s;
  }

  /** The literals the examples are assembled from, kept apart from the slug functions. */
  lemma SpacedLiterals()
    ensures ['b'] + [] == "b" && [' '] + "b" == " b" && ['-'] + "b" == "-b"
    ensures ['a'] + " b" == "a b" && ['a'] + "-b" == "a-b" && ['a'] + "b" == "ab"
  {
  }

  lemma {:induction false} DashOfB()
    ensures DashSpaceRuns("b") == "b"
  {
    DashNonSpace('b', []);
    assert DashSpaceRuns([]) == [];
    SpacedLiterals();
  }

  lemma {:induction false} DashOfSpaceB()
    ensures DashSpaceRuns(" b") == "-b"
  {
    DashOfB();
    SpacedLiterals();
    DashOneSpace("b");
  }

  lemma {:induction false} SlugOfDashed()
    ensures Slug("a-b") == "ab"
  {
    LowerOfDashed();
    KeepOfDashed();
    DashOfAB();
  }

  lemma {:induction false} LowerOfDashed()
    ensures ToLower("a-b") == "a-b"
  {
    assert "a-b"[1..] == "-b" && "-b"[1..] == "b" && "b"[1..] == [];
    assert ToLower("b") == "b";
    assert ToLower("-b") == "-b";
  }

  lemma {:induction false} KeepOfDashed()
    ensures KeepWordAndSpace("a-b") == "ab"
  {
    assert "a-b"[1..] == "-b" && "-b"[1..] == "b" && "b"[1..] == [];
    assert KeepWordAndSpace("b") == "b";
    assert KeepWordAndSpace("-b") == "b";
  }

  lemma {:induction false} DashOfAB()
    ensures DashSpaceRuns("ab") == "ab"
  {
    DashOfB();
    DashNonSpace('a', "b");
    SpacedLiterals();
  }

  /** KELVIN SIGN lower-cases to the letter `k`, which `\w` keeps: a title of that one sign slugs to "k". */
  lemma {:induction false} KelvinSlug()
    ensures Slug("\U{212A}") == "k"
  {
    assert "\U{212A}"[1..] == [];
    assert ToLower("\U{212A}") == "k";
    assert "k"[0] == 'k' && "k"[1..] == [];
    assert KeepWordAndSpace("k") == "k";
    assert DashSpaceRuns("k") == "k";
  }

  // ---------------------------------------------------------------- rating

  /** The number a review contributes to the sum (an absent rating is 0 here; see `RatingsGiven`). */
  function RatingValue(r: Review): real
  {
    if r.rating.Some? then r.rating.value else 0.0
  }

  function SumRatings(rs: seq<Review>): real
  {
    if rs == [] then 0.0 else SumRatings(rs[..|rs| - 1]) + RatingValue(rs[|rs| - 1])
  }

  /** Every review carries a rating; otherwise the sum is `NaN` in the source. */
  predicate RatingsGiven(rs: seq<Review>)
  {
    forall i :: 0 <= i < |rs| ==> rs[i].rating.Some?
  }

  predicate RatingsInRange(rs: seq<Review>)
  {
    forall i :: 0 <= i < |rs| ==> rs[i].rating.Some? && 1.0 <= rs[i].rating.value <= 5.0
  }

  /** `x.toFixed(1)` read back as a number, counted in tenths: the nearest tenth, halves away from zero. */
  function RoundTenths(x: real): (t: int)
    ensures x >= 0.0 ==> t as real <= 10.0 * x + 0.5 < t as real + 1.0
    ensures x < 0.0 ==> -t as real <= -10.0 * x + 0.5 < -t as real + 1.0
  {
    if x >= 0.0 then (10.0 * x + 0.5).Floor else -((-10.0 * x + 0.5).Floor)
  }

  /** The mean of the ratings. */
  function MeanRating(rs: seq<Review>): real
    requires rs != []
  {
    SumRatings(rs) / (|rs| as real)
  }

  /** `calculateAverageRating`'s `rating` with reviews present, in tenths: the mean through `toFixed(1)`. */
  function RatingTenths(rs: seq<Review>): int
    requires rs != []
  {
    RoundTenths(MeanRating(rs))
  }

  lemma {:induction false} SumRatingsBounds(rs: seq<Review>)
    requires RatingsInRange(rs)
    ensures |rs| as real <= SumRatings(rs) <= 5.0 * |rs| as real
  {
    if rs != [] {
      SumRatingsBounds(rs[..|rs| - 1]);
    }
  }

  /** Ratings between 1 and 5 give an average between 1.0 and 5.0. */
  lemma RatingTenthsInRange(rs: seq<Review>)
    requires rs != [] && RatingsInRange(rs)
    ensures 10 <= RatingTenths(rs) <= 50
  {
    SumRatingsBounds(rs);
    var n, s := |rs| as real, SumRatings(rs);
    var m := MeanRating(rs);
    assert m * n == s;
    MeanBounds(m, n, s);
  }

  lemma MeanBounds(m: real, n: real, s: real)
    requires n > 0.0 && m * n == s && n <= s <= 5.0 * n
    ensures 1.0 <= m <= 5.0
  {
  }

  lemma {:induction false} SumOfEqualRatings(rs: seq<Review>, k: real)
    requires forall i :: 0 <= i < |rs| ==> rs[i].rating == Some(k)
    ensures SumRatings(rs) == k * |rs| as real
  {
    if rs != [] {
      SumOfEqualRatings(rs[..|rs| - 1], k);
    }
  }

  /** When every review gives the same one-decimal rating `t / 10`, the average is exactly that rating. */
  lemma RatingTenthsOfEqualRatings(rs: seq<Review>, t: nat)
    requires rs != [] && forall i :: 0 <= i < |rs| ==> rs[i].rating == Some(t as real / 10.0)
    ensures RatingTenths(rs) == t
  {
    var k := t as real / 10.0;
    SumOfEqualRatings(rs, k);
    assert MeanRating(rs) == k;
  }

  /** The number `calculateAverageRating` writes to `rating` when every review has one. */
  function AverageOf(rs: seq<Review>): real
  {
    if rs == [] then 0.0 else RatingTenths(rs) as real / 10.0
  }

  /**
   * `calculateAverageRating`: `ratingCount` becomes the number of reviews and `rating` the
   * rounded mean (0 without reviews). A review without a rating makes the mean `NaN`,
   * which the `rating` path refuses to cast: `rating` keeps its value and the failure is
   * recorded (`AverageErrors`). Nothing else changes.
   */
  function WithAverageRating(c: Course): (r: Course)
    ensures r.ratingCount == |c.reviews| as real
    ensures RatingsGiven(c.reviews) ==> r.rating == AverageOf(c.reviews)
    ensures !RatingsGiven(c.reviews) ==> r.rating == c.rating
    ensures c.reviews == [] ==> r.rating == 0.0
    ensures c.reviews != [] && RatingsInRange(c.reviews) ==> 1.0 <= r.rating <= 5.0
    ensures r.(rating := c.rating, ratingCount := c.ratingCount) == c
  {
    var r := if RatingsGiven(c.reviews) then c.(rating := AverageOf(c.reviews), ratingCount := |c.reviews| as real)
             else c.(ratingCount := |c.reviews| as real);
    if c.reviews != [] && RatingsInRange(c.reviews) then RatingTenthsInRange(c.reviews); r else r
  }

  /** The cast failure `calculateAverageRating` records when a review has no rating. */
  function AverageErrors(c: Course): (errs: seq<FieldError>)
    ensures errs == [] <==> RatingsGiven(c.reviews)
  {
    if RatingsGiven(c.reviews) then []
    else [FieldError("rating", "Cast to Number failed for value \"NaN\" (type string) at path \"rating\"")]
  }

  // ---------------------------------------------------------------- validation

  predicate LessonValid(l: Lesson) { l.title != "" }

  predicate SectionValid(s: Section)
  {
    s.title != "" && forall j :: 0 <= j < |s.lessons| ==> LessonValid(s.lessons[j])
  }

  /** What the schema demands of a stored course; lengths are counted in UTF-16 code units. */
  predicate CourseValid(c: Course)
  {
    && c.title != "" && Utf16Length(c.title) <= 100
    && c.description != ""
    && c.shortDescription != "" && Utf16Length(c.shortDescription) <= 200
    && c.price.Some?
    && c.duration != ""
    && LevelOf(c.level).Some?
    && c.thumbnail != ""
    && c.instructor != ""
    && c.category != ""
    && (forall i :: 0 <= i < |c.sections| ==> SectionValid(c.sections[i]))
    && RatingsInRange(c.reviews)
  }

  function Required(ok: bool, path: string, message: string): (errs: seq<FieldError>)
    ensures errs == [] <==> ok
  {
    if ok then [] else [FieldError(path, message)]
  }

  const TitleRequired := "Path `title` is required."

  function LessonsViolations(ls: seq<Lesson>): (errs: seq<FieldError>)
    ensures errs == [] <==> forall j :: 0 <= j < |ls| ==> LessonValid(ls[j])
  {
    if ls == [] then []
    else Required(ls[0].title != "", "title", TitleRequired) + LessonsViolations(ls[1..])
  }

  function SectionsViolations(ss: seq<Section>): (errs: seq<FieldError>)
    ensures errs == [] <==> forall i :: 0 <= i < |ss| ==> SectionValid(ss[i])
  {
    if ss == [] then []
    else
      Required(ss[0].title != "", "title", TitleRequired) + LessonsViolations(ss[0].lessons)
      + SectionsViolations(ss[1..])
  }

  /** The validators of a review's `rating`: required, then at least 1, then at most 5. */
  function RatingViolation(rating: Option<real>): (errs: seq<FieldError>)
    ensures errs == [] <==> rating.Some? && 1.0 <= rating.value <= 5.0
    ensures |errs| <= 1
  {
    if rating.None? then [FieldError("rating", "Path `rating` is required.")]
    else if rating.value < 1.0 then
      [FieldError("rating", "Path `rating` (" + NumberText(rating.value) + ") is less than minimum allowed value (1).")]
    else if rating.value > 5.0 then
      [FieldError("rating", "Path `rating` (" + NumberText(rating.value) + ") is more than maximum allowed value (5).")]
    else []
  }

  function ReviewsViolations(rs: seq<Review>): (errs: seq<FieldError>)
    ensures errs == [] <==> RatingsInRange(rs)
  {
    if rs == [] then []
    else
      var rest := ReviewsViolations(rs[1..]);
      assert RatingsInRange(rs) <==> RatingViolation(rs[0].rating) == [] && RatingsInRange(rs[1..]) by {
        assert forall i :: 0 < i < |rs| ==> rs[i] == rs[1..][i - 1];
      }
      RatingViolation(rs[0].rating) + rest
  }

  /** The failures a save reports, path by path; empty exactly for a valid course. */
  function CourseViolations(c: Course): (errs: seq<FieldError>)
    ensures errs == [] <==> CourseValid(c)
  {
    Required(c.title != "", "title", "Please provide a course title")
    + Required(Utf16Length(c.title) <= 100, "title", "Title cannot be more than 100 characters")
    + Required(c.description != "", "description", "Please provide a course description")
    + Required(c.shortDescription != "", "shortDescription", "Please provide a short description")
    + Required(Utf16Length(c.shortDescription) <= 200, "shortDescription", "Short description cannot be more than 200 characters")
    + Required(c.price.Some?, "price", "Please provide a course price")
    + Required(c.duration != "", "duration", "Please provide course duration")
    + LevelViolations(c.level)
    + Required(c.thumbnail != "", "thumbnail", "Please provide a thumbnail image")
    + Required(c.instructor != "", "instructor", "Please provide an instructor")
    + Required(c.category != "", "category", "Please provide a category")
    + SectionsViolations(c.sections)
    + ReviewsViolations(c.reviews)
  }

  // ---------------------------------------------------------------- store

  /** A save changes only the slug and `updatedAt`: every other path keeps the value it was given. */
  lemma SavedFields(docs: map<Id, Course>, id: Id, c: Course, now: Time)
    requires SaveOutcome(docs, id, c, now).Ok?
    ensures var s := SaveOutcome(docs, id, c, now).value;
      && s.title == c.title && s.instructor == c.instructor && s.reviews == c.reviews && s.sections == c.sections
      && s.rating == c.rating && s.ratingCount == c.ratingCount && s.totalEnrollments == c.totalEnrollments
      && s.createdAt == c.createdAt && s.price == c.price && s.isPublished == c.isPublished
  {
  }

  /** Another stored course already has this slug (the unique index on `slug`). */
  predicate SlugTaken(docs: map<Id, Course>, id: Id, slug: string)
  {
    exists other :: other in docs && other != id && docs[other].slug == slug
  }

  /**
   * `course.save()`: validation first, then the pre-save hook recomputes the slug from
   * the title and stamps `updatedAt`, then the unique slug index is checked.
   */
  function SaveOutcome(docs: map<Id, Course>, id: Id, c: Course, now: Time): (r: Result<Course>)
    ensures r.Ok? <==> CourseValid(c) && !SlugTaken(docs, id, Slug(c.title))
    ensures r.Ok? ==> r.value.slug == Slug(r.value.title) && r.value.updatedAt == now
                      && r.value.(slug := c.slug, updatedAt := c.updatedAt) == c
    ensures r.Ok? ==> CourseValid(r.value) && r.value == c.(slug := Slug(c.title), updatedAt := now)
    ensures !CourseValid(c) ==> r.Fail? && r.error.name == "ValidationError" && r.error.errors != []
    ensures CourseValid(c) && r.Fail? ==> r.error == DuplicateKey()
  {
    var errs := CourseViolations(c);
    if errs != [] then Fail(ValidationFailure(errs))
    else
      var saved := c.(slug := Slug(c.title), updatedAt := now);
      if SlugTaken(docs, id, saved.slug) then Fail(DuplicateKey()) else Ok(saved)
  }

  /**
   * `save()` of a document that holds failures recorded while values were set (a cast that
   * failed): validation reports them ahead of the validators' own and the save fails;
   * without them it is the plain save.
   */
  function SaveWithOutcome(docs: map<Id, Course>, id: Id, c: Course, pending: seq<FieldError>, now: Time): (r: Result<Course>)
    ensures pending == [] ==> r == SaveOutcome(docs, id, c, now)
    ensures pending != [] ==> r.Fail? && r.error.name == "ValidationError" && |r.error.errors| >= |pending|
                              && r.error.errors[..|pending|] == pending
  {
    if pending == [] then SaveOutcome(docs, id, c, now)
    else
      var errs := pending + CourseViolations(c);
      assert errs[..|pending|] == pending;
      Fail(ValidationFailure(errs))
  }

  /** Every stored course is valid, carries the slug of its current title, and slugs are unique. */
  predicate StoreValid(docs: map<Id, Course>)
  {
    && (forall id :: id in docs ==> CourseValid(docs[id]) && docs[id].slug == Slug(docs[id].title))
    && (forall a, b :: a in docs && b in docs && a != b ==> docs[a].slug != docs[b].slug)
  }

  /** Replacing a stored course keeps the set of ids. */
  lemma ReplaceKeepsKeys(docs: map<Id, Course>, id: Id, c: Course)
    requires id in docs
    ensures docs[id := c].Keys == docs.Keys && docs[id := c][id] == c
  {
  }

  /** A successful save keeps the collection valid. */
  lemma SaveKeepsStoreValid(docs: map<Id, Course>, id: Id, c: Course, now: Time)
    requires StoreValid(docs) && SaveOutcome(docs, id, c, now).Ok?
    ensures StoreValid(docs[id := SaveOutcome(docs, id, c, now).value])
  {
    var saved := c.(slug := Slug(c.title), updatedAt := now);
    assert SaveOutcome(docs, id, c, now).value == saved;
    ValidIgnoresSlug(c, Slug(c.title), now);
    assert saved.title == c.title;
    var d := docs[id := saved];
    forall a | a in d ensures CourseValid(d[a]) && d[a].slug == Slug(d[a].title) {
      if a == id {
        assert d[a] == saved;
      } else {
        assert d[a] == docs[a];
      }
    }
    SlugsStayUnique(docs, id, saved);
    assert StoreValid(d);
  }

  /** Validation does not read the slug or the update time. */
  lemma ValidIgnoresSlug(c: Course, slug: string, now: Time)
    requires CourseValid(c)
    ensures CourseValid(c.(slug := slug, updatedAt := now))
  {
    var d := c.(slug := slug, updatedAt := now);
    assert d.sections == c.sections && d.reviews == c.reviews;
  }

  /** Writing a document whose slug no other document holds keeps the slugs unique. */
  lemma SlugsStayUnique(docs: map<Id, Course>, id: Id, saved: Course)
    requires forall a, b :: a in docs && b in docs && a != b ==> docs[a].slug != docs[b].slug
    requires !SlugTaken(docs, id, saved.slug)
    ensures var d := docs[id := saved];
      forall a, b :: a in d && b in d && a != b ==> d[a].slug != d[b].slug
  {
    var d := docs[id := saved];
    forall a, b | a in d && b in d && a != b ensures d[a].slug != d[b].slug {
      if a == id {
        assert b in docs && b != id;
      } else if b == id {
        assert a in docs && a != id;
      } else {
        assert d[a] == docs[a] && d[b] == docs[b];
      }
    }
  }

  /** The course collection. */
  class CourseStore {
    var docs: map<Id, Course>

    ghost predicate Valid()
      reads this
    {
      StoreValid(docs)
    }

    constructor ()
      ensures docs == map[] && Valid()
    {
      docs := map[];
    }

    /** `save()` of the course with id `id` (an insert when the id is new). */
    method Save(id: Id, c: Course, now: Time) returns (r: Result<Course>)
      modifies this
      ensures r == SaveOutcome(old(docs), id, c, now)
      ensures docs == if r.Ok? then old(docs)[id := r.value] else old(docs)
      ensures old(Valid()) ==> Valid()
    {
      r := SaveOutcome(docs, id, c, now);
      if r.Ok? {
        if Valid() {
          SaveKeepsStoreValid(docs, id, c, now);
        }
        docs := docs[id := r.value];
      }
    }

    /** `save()` of a document with failures recorded while its values were set. */
    method SaveWith(id: Id, c: Course, pending: seq<FieldError>, now: Time) returns (r: Result<Course>)
      modifies this
      ensures r == SaveWithOutcome(old(docs), id, c, pending, now)
      ensures docs == if r.Ok? then old(docs)[id := r.value] else old(docs)
      ensures old(Valid()) ==> Valid()
    {
      if pending == [] {
        r := Save(id, c, now);
      } else {
        r := SaveWithOutcome(docs, id, c, pending, now);
      }
    }

    /** `deleteOne({ _id: id })`. */
    method Remove(id: Id)
      modifies this
      ensures docs == old(docs) - {id}
      ensures old(Valid()) ==> Valid()
    {
      docs := docs - {id};
    }
  }
}

=== FILE: enrollment.dfy ===
/**
 * The enrollment, progress and certificate engine of the course controller:
 * `enrollCourse`, `updateProgress`, `getEnrolledCourses` and `addReview`. Each
 * operation has a specification function over the two collections and a method that
 * performs the same steps on the stores, one store call at a time.
 */
module EnrollmentEngine {
  import opened Common
  import opened Text
  import opened Errors
  import opened UserModel
  import opened CourseModel

  // ---------------------------------------------------------------- enrollCourse

  /** The user after `enrolledCourses.push(...)` of the default entry for `courseId`. */
  function WithEnrollment(u: User, courseId: Id, now: Time): (r: User)
    ensures r.enrolledCourses == u.enrolledCourses + [NewEnrollment(courseId, now)]
    ensures r.(enrolledCourses := u.enrolledCourses) == u
  {
    u.(enrolledCourses := u.enrolledCourses + [NewEnrollment(courseId, now)])
  }

  /** The course with one more enrollment counted, and nothing else changed. */
  function Bumped(c: Course): (r: Course)
    ensures r.totalEnrollments == c.totalEnrollments + 1.0
    ensures r.(totalEnrollments := c.totalEnrollments) == c
  {
    c.(totalEnrollments := c.totalEnrollments + 1.0)
  }

  /** The outcome of an operation on both collections: its result and the collections afterwards. */
  datatype Outcome<T> = Outcome(result: Result<T>, users: map<Id, User>, courses: map<Id, Course>)

  /**
   * `enrollCourse`: 404 for a missing course, then 404 for a missing user, then 400 when
   * a (non-null) enrollment already names the course; otherwise the default entry is
   * appended and saved, and the course's `totalEnrollments` is incremented and saved.
   */
  function EnrollSpec(users: map<Id, User>, courses: map<Id, Course>, caller: Caller, courseId: Id,
                      now: Time): (o: Outcome<Unit>)
    ensures o.result.Fail? ==> o.courses == courses
    ensures o.users == users || (caller.id in users && o.users == users[caller.id := WithEnrollment(users[caller.id], courseId, now)])
    ensures o.result.Ok? ==>
      && courseId in courses && caller.id in users && !EnrolledIn(users[caller.id], courseId)
      && o.users == users[caller.id := WithEnrollment(users[caller.id], courseId, now)]
      && courseId in o.courses && o.courses == courses[courseId := o.courses[courseId]]
      && o.courses[courseId].totalEnrollments == courses[courseId].totalEnrollments + 1.0
  {
    if courseId !in courses then
      Outcome(Fail(ErrorResponse("Course not found with id of " + courseId, 404)), users, courses)
    else if caller.id !in users then
      Outcome(Fail(ErrorResponse("User not found", 404)), users, courses)
    else if EnrolledIn(users[caller.id], courseId) then
      Outcome(Fail(ErrorResponse("Already enrolled in course " + courseId, 400)), users, courses)
    else
      var users' := users[caller.id := WithEnrollment(users[caller.id], courseId, now)];
      var course := courses[courseId];
      match SaveOutcome(courses, courseId, Bumped(course), now)
      case Fail(e) => Outcome(Fail(e), users', courses)
      case Ok(saved) => Outcome(Ok(Unit), users', courses[courseId := saved])
  }

  /** The checks run in order: course, then user, then duplicate; each failure changes nothing. */
  lemma EnrollCheckOrder(users: map<Id, User>, courses: map<Id, Course>, caller: Caller, courseId: Id, now: Time)
    ensures var o := EnrollSpec(users, courses, caller, courseId, now);
      && (courseId !in courses ==> o == Outcome(Fail(ErrorResponse("Course not found with id of " + courseId, 404)), users, courses))
      && (courseId in courses && caller.id !in users ==> o == Outcome(Fail(ErrorResponse("User not found", 404)), users, courses))
      && (courseId in courses && caller.id in users && EnrolledIn(users[caller.id], courseId) ==>
            o == Outcome(Fail(ErrorResponse("Already enrolled in course " + courseId, 400)), users, courses))
  {
  }

  /**
   * A first enrollment appends exactly one default entry to the caller and touches no
   * other user; when the course saves, its counter goes up by exactly one.
   */
  lemma EnrollAppendsOne(users: map<Id, User>, courses: map<Id, Course>, caller: Caller, courseId: Id, now: Time)
    requires courseId in courses && caller.id in users && !EnrolledIn(users[caller.id], courseId)
    ensures var o := EnrollSpec(users, courses, caller, courseId, now);
      && o.users.Keys == users.Keys
      && o.users[caller.id].enrolledCourses == users[caller.id].enrolledCourses + [NewEnrollment(courseId, now)]
      && (forall id :: id in users && id != caller.id ==> o.users[id] == users[id])
      && (o.result.Ok? ==> o.courses[courseId].totalEnrollments == courses[courseId].totalEnrollments + 1.0
                           && o.courses[courseId].sections == courses[courseId].sections
                           && o.courses.Keys == courses.Keys)
  {
  }

  /** On a valid course collection the course always saves, so a first enrollment succeeds. */
  lemma EnrollSucceedsOnValidStore(users: map<Id, User>, courses: map<Id, Course>, caller: Caller, courseId: Id, now: Time)
    requires StoreValid(courses)
    requires courseId in courses && caller.id in users && !EnrolledIn(users[caller.id], courseId)
    ensures EnrollSpec(users, courses, caller, courseId, now).result == Ok(Unit)
    ensures StoreValid(EnrollSpec(users, courses, caller, courseId, now).courses)
  {
    BumpSaves(courses, courseId, now);
  }

  /** On a valid collection the counted course always saves, and the collection stays valid. */
  lemma BumpSaves(courses: map<Id, Course>, courseId: Id, now: Time)
    requires StoreValid(courses) && courseId in courses
    ensures var saved := SaveOutcome(courses, courseId, Bumped(courses[courseId]), now);
      saved.Ok? && StoreValid(courses[courseId := saved.value])
  {
    var course := courses[courseId];
    var bumped := Bumped(course);
    assert CourseValid(bumped) by {
      assert CourseValid(course);
      assert bumped.sections == course.sections && bumped.reviews == course.reviews;
    }
    assert Slug(bumped.title) == course.slug;
    assert !SlugTaken(courses, courseId, Slug(bumped.title));
    SaveKeepsStoreValid(courses, courseId, bumped, now);
  }

  /** The pushed entry names the course, so the user is enrolled in it afterwards. */
  lemma WithEnrollmentEnrolls(u: User, courseId: Id, now: Time)
    ensures EnrolledIn(WithEnrollment(u, courseId, now), courseId)
  {
    var refs := EnrollmentRefs(WithEnrollment(u, courseId, now).enrolledCourses);
    assert refs[|refs| - 1] == Some(courseId);
  }

  /** Enrolling keeps the user consistent: the new entry is the only one for its course. */
  lemma EnrollKeepsWellFormed(u: User, courseId: Id, now: Time)
    requires WellFormed(u) && !EnrolledIn(u, courseId)
    ensures WellFormed(WithEnrollment(u, courseId, now))
  {
    var r := WithEnrollment(u, courseId, now);
    var refs, refs' := EnrollmentRefs(u.enrolledCourses), EnrollmentRefs(r.enrolledCourses);
    assert refs' == refs + [Some(courseId)];
    assert CertificateRefs(r.certificates) == CertificateRefs(u.certificates);
    forall i | 0 <= i < |r.enrolledCourses| && r.enrolledCourses[i].completed && r.enrolledCourses[i].course.Some?
      ensures HasCertificateFor(r, r.enrolledCourses[i].course.value)
    {
      assert i < |u.enrolledCourses| && r.enrolledCourses[i] == u.enrolledCourses[i];
    }
    forall i | 0 <= i < |r.enrolledCourses| ensures NoDuplicates(r.enrolledCourses[i].completedLessons) {
      if i < |u.enrolledCourses| {
        assert r.enrolledCourses[i] == u.enrolledCourses[i];
      }
    }
  }

  /** `enrollCourse` on the stores: the three checks, then the two saves. */
  method EnrollCourse(users: UserStore, courses: CourseStore, caller: Caller, courseId: Id, now: Time)
    returns (r: Result<Unit>)
    modifies users, courses
    ensures EnrollSpec(old(users.docs), old(courses.docs), caller, courseId, now)
            == Outcome(r, users.docs, courses.docs)
  {
    if courseId !in courses.docs {
      return Fail(ErrorResponse("Course not found with id of " + courseId, 404));
    }
    if caller.id !in users.docs {
      return Fail(ErrorResponse("User not found", 404));
    }
    if EnrolledIn(users.docs[caller.id], courseId) {
      return Fail(ErrorResponse("Already enrolled in course " + courseId, 400));
    }
    ghost var users0, courses0 := users.docs, courses.docs;
    var saved := SaveEnrollment(users, courses, caller, courseId, now);
    r := if saved.Ok? then Ok(Unit) else Fail(saved.error);
    EnrollSaves(users0, courses0, caller, courseId, now, saved);
  }

  /** Past the checks: one user save, then one course save with the counter incremented. */
  method SaveEnrollment(users: UserStore, courses: CourseStore, caller: Caller, courseId: Id, now: Time)
    returns (saved: Result<Course>)
    requires courseId in courses.docs && caller.id in users.docs
    modifies users, courses
    ensures users.docs == old(users.docs)[caller.id := WithEnrollment(old(users.docs)[caller.id], courseId, now)]
    ensures var course := old(courses.docs)[courseId];
            saved == SaveOutcome(old(courses.docs), courseId, Bumped(course), now)
    ensures courses.docs == if saved.Ok? then old(courses.docs)[courseId := saved.value] else old(courses.docs)
  {
    var course := courses.docs[courseId];
    users.Put(caller.id, WithEnrollment(users.docs[caller.id], courseId, now));
    saved := courses.Save(courseId, Bumped(course), now);
  }

  /** Past the three checks, the outcome is the user's new entry and the course's save. */
  lemma {:induction false} EnrollSaves(users: map<Id, User>, courses: map<Id, Course>, caller: Caller, courseId: Id,
                                       now: Time, saved: Result<Course>)
    requires courseId in courses && caller.id in users && !EnrolledIn(users[caller.id], courseId)
    requires saved == SaveOutcome(courses, courseId, Bumped(courses[courseId]), now)
    ensures EnrollSpec(users, courses, caller, courseId, now)
            == Outcome(if saved.Ok? then Ok(Unit) else Fail(saved.error),
                       users[caller.id := WithEnrollment(users[caller.id], courseId, now)],
                       if saved.Ok? then courses[courseId := saved.value] else courses)
  {
  }

  // ---------------------------------------------------------------- updateProgress

  /** `completedLessons` without any occurrence of `x`, order kept. */
  function RemoveAll(s: seq<Id>, x: Id): (r: seq<Id>)
    ensures x !in r
    ensures forall y :: y in r <==> y in s && y != x
    ensures NoDuplicates(s) ==> NoDuplicates(r)
  {
    if s == [] then []
    else
      var rest := RemoveAll(s[1..], x);
      assert forall y :: y in s[1..] ==> y in s;
      if s[0] == x then rest
      else
        assert s[0] !in s[1..] <== NoDuplicates(s);
        [s[0]] + rest
  }

  /**
   * The completed-lesson update: mark adds the lesson only when absent, unmark removes
   * every occurrence; either way the list stays duplicate-free.
   */
  function MarkLesson(done: seq<Id>, lessonId: Id, completed: bool): (r: seq<Id>)
    ensures completed ==> lessonId in r && (forall y :: y in r <==> y in done || y == lessonId)
    ensures completed && lessonId in done ==> r == done
    ensures !completed ==> lessonId !in r && (forall y :: y in r <==> y in done && y != lessonId)
    ensures NoDuplicates(done) ==> NoDuplicates(r)
  {
    if completed then (if lessonId in done then done else done + [lessonId])
    else RemoveAll(done, lessonId)
  }

  /** Repeating a mark or an unmark changes nothing more. */
  lemma MarkLessonIdempotent(done: seq<Id>, lessonId: Id, completed: bool)
    ensures MarkLesson(MarkLesson(done, lessonId, completed), lessonId, completed) == MarkLesson(done, lessonId, completed)
  {
    if !completed {
      RemoveAllAbsent(RemoveAll(done, lessonId), lessonId);
    }
  }

  lemma {:induction false} RemoveAllAbsent(s: seq<Id>, x: Id)
    requires x !in s
    ensures RemoveAll(s, x) == s
  {
    if s != [] {
      RemoveAllAbsent(s[1..], x);
    }
  }

  /** The number of lessons over all sections of a course. */
  function TotalLessons(ss: seq<Section>): (n: nat)
    ensures n == 0 <==> forall i :: 0 <= i < |ss| ==> ss[i].lessons == []
  {
    if ss == [] then 0 else |ss[0].lessons| + TotalLessons(ss[1..])
  }

  /**
   * `floor(100 * completed / total)`: exactly 100 when `total <= completed < 1.01 * total`,
   * at most 100 while no more lessons are marked than the course has, and not capped.
   */
  function ProgressPercent(completed: nat, total: nat): (p: int)
    requires total > 0
    ensures p >= 0
    ensures p == 100 <==> total <= completed && 100 * completed < 101 * total
    ensures completed <= total ==> p <= 100
    ensures completed < total ==> p < 100
  {
    PercentBounds(completed, total);
    (100 * completed) / total
  }

  lemma PercentBounds(k: nat, n: nat)
    requires n > 0
    ensures var p := (100 * k) / n;
      && n * p <= 100 * k < n * (p + 1)
      && p >= 0
      && (k <= n ==> p <= 100)
      && (k < n ==> p < 100)
      && (p == 100 <==> n <= k && 100 * k < 101 * n)
  {
    var p := (100 * k) / n;
    DivBracket(100 * k, n);
    if k <= n {
      DivBounds(100 * k, n, 0, 100);
    }
    if k < n {
      DivBounds(100 * k, n, 0, 99);
    }
    if n <= k && 100 * k < 101 * n {
      DivBounds(100 * k, n, 100, 100);
    }
    if p == 100 {
      assert n * 100 <= 100 * k < n * 101;
    }
  }

  /** Integer division bounded from a bracket of multiples of the divisor. */
  lemma DivBounds(a: int, b: int, lo: int, hi: int)
    requires b > 0 && b * lo <= a < b * (hi + 1)
    ensures lo <= a / b <= hi
  {
    var q := a / b;
    assert a == b * q + a % b && 0 <= a % b < b;
    LessByFactor(b, lo, q + 1);
    LessByFactor(b, q, hi + 1);
  }

  /** The quotient brackets the dividend between consecutive multiples of the divisor. */
  lemma DivBracket(a: nat, b: nat)
    requires b > 0
    ensures a / b >= 0 && b * (a / b) <= a < b * (a / b + 1)
  {
    assert a == b * (a / b) + a % b;
    assert b * (a / b + 1) == b * (a / b) + b;
  }

  lemma LessByFactor(b: int, x: int, y: int)
    requires b > 0 && b * x < b * y
    ensures x < y
  {
    assert b * (y - x) == b * y - b * x;
  }

  /** With lessons deleted after marking, progress passes 100 and the course does not count as completed. */
  lemma ProgressOverHundred()
    ensures ProgressPercent(3, 2) == 150
  {
    DivBounds(300, 2, 150, 150);
  }

  /** The certificate location recorded on completion. */
  function CertificateUrl(courseId: Id, userId: Id): string
  {
    "certificates/" + courseId + "_" + userId + ".pdf"
  }

  /** The response data of `updateProgress`. */
  datatype ProgressView = ProgressView(progress: int, completed: bool, completedLessons: seq<Id>)

  const NullUserFault := "Cannot read properties of null (reading 'enrolledCourses')"
  const NullRefFault := "Cannot read properties of null (reading 'toString')"

  /**
   * The user after the progress step on enrollment `i`, given the new completed list and
   * the course's lesson count: progress, `completed` exactly at 100, and at 100 a
   * certificate when none names the course. `None` when the certificate scan meets a
   * null course reference first.
   */
  function Progressed(u: User, i: nat, courseId: Id, done: seq<Id>, total: nat, now: Time, userId: Id): (r: Option<User>)
    requires i < |u.enrolledCourses| && total > 0
  {
    var p := ProgressPercent(|done|, total);
    var e := u.enrolledCourses[i].(completedLessons := done, progress := p, completed := p == 100);
    var u' := u.(enrolledCourses := u.enrolledCourses[i := e]);
    if p != 100 then Some(u')
    else match FindRef(CertificateRefs(u.certificates), courseId)
      case NullRef => None
      case Found(_) => Some(u')
      case Missing =>
        Some(u'.(certificates := u.certificates + [Certificate(Some(courseId), now, CertificateUrl(courseId, userId))]))
  }

  /**
   * `updateProgress`: 400 without a lesson id; a fault (500) when the user is gone or an
   * enrollment with a null course comes before the match; 404 when not enrolled; 404
   * when the course is gone; 400 when it has no lessons; otherwise the lesson is marked or
   * unmarked, progress recomputed, and the user saved once. Only the user collection changes.
   */
  function UpdateProgressSpec(users: map<Id, User>, courses: map<Id, Course>, caller: Caller, courseId: Id,
                              lessonId: Id, completed: bool, now: Time): (o: Outcome<ProgressView>)
    ensures o.courses == courses
    ensures o.result.Fail? ==> o.users == users
    ensures o.result.Ok? ==>
      && lessonId != "" && caller.id in users && courseId in courses
      && caller.id in o.users && o.users == users[caller.id := o.users[caller.id]]
      && o.result.value.progress >= 0 && o.result.value.completed == (o.result.value.progress == 100)
  {
    if lessonId == "" then Outcome(Fail(ErrorResponse("Please provide a lesson ID", 400)), users, courses)
    else if caller.id !in users then Outcome(Fail(Crash(NullUserFault)), users, courses)
    else
      var u := users[caller.id];
      match FindRef(EnrollmentRefs(u.enrolledCourses), courseId)
      case NullRef => Outcome(Fail(Crash(NullRefFault)), users, courses)
      case Missing => Outcome(Fail(ErrorResponse("Not enrolled in course " + courseId, 404)), users, courses)
      case Found(i) =>
        var done := MarkLesson(u.enrolledCourses[i].completedLessons, lessonId, completed);
        if courseId !in courses then Outcome(Fail(ErrorResponse("Course not found", 404)), users, courses)
        else
          var total := TotalLessons(courses[courseId].sections);
          if total == 0 then Outcome(Fail(ErrorResponse("Course has no lessons", 400)), users, courses)
          else match Progressed(u, i, courseId, done, total, now, caller.id)
            case None => Outcome(Fail(Crash(NullRefFault)), users, courses)
            case Some(u') =>
              var e := u'.enrolledCourses[i];
              Outcome(Ok(ProgressView(e.progress, e.completed, e.completedLessons)), users[caller.id := u'], courses)
  }

  /** Every error path leaves both collections as they were: the only save comes last. */
  lemma UpdateProgressErrorsChangeNothing(users: map<Id, User>, courses: map<Id, Course>, caller: Caller, courseId: Id,
                                          lessonId: Id, completed: bool, now: Time)
    ensures var o := UpdateProgressSpec(users, courses, caller, courseId, lessonId, completed, now);
      o.courses == courses && (o.result.Fail? ==> o.users == users)
  {
  }

  /**
   * On success `completed` holds exactly at progress 100, the reported state is the
   * stored one, the progress is the percentage of the course's current lessons, and
   * certificates are only ever added.
   */
  lemma UpdateProgressResult(users: map<Id, User>, courses: map<Id, Course>, caller: Caller, courseId: Id,
                             lessonId: Id, completed: bool, now: Time)
    requires UpdateProgressSpec(users, courses, caller, courseId, lessonId, completed, now).result.Ok?
    ensures var o := UpdateProgressSpec(users, courses, caller, courseId, lessonId, completed, now);
      var v := o.result.value;
      && caller.id in users && courseId in courses
      && (v.completed <==> v.progress == 100)
      && v.progress == ProgressPercent(|v.completedLessons|, TotalLessons(courses[courseId].sections))
      && (completed ==> lessonId in v.completedLessons)
      && (!completed ==> lessonId !in v.completedLessons)
      && o.users.Keys == users.Keys
      && (forall id :: id in users && id != caller.id ==> o.users[id] == users[id])
      && |users[caller.id].certificates| <= |o.users[caller.id].certificates|
      && o.users[caller.id].certificates[..|users[caller.id].certificates|] == users[caller.id].certificates
      && (v.progress == 100 ==> HasCertificateFor(o.users[caller.id], courseId))
      && (v.progress != 100 ==> o.users[caller.id].certificates == users[caller.id].certificates)
  {
    var u := users[caller.id];
    var i := FindRef(EnrollmentRefs(u.enrolledCourses), courseId).index;
    var done := MarkLesson(u.enrolledCourses[i].completedLessons, lessonId, completed);
    var total := TotalLessons(courses[courseId].sections);
    var u' := Progressed(u, i, courseId, done, total, now, caller.id).value;
    if ProgressPercent(|done|, total) == 100 {
      match FindRef(CertificateRefs(u.certificates), courseId)
      case Found(k) =>
        assert CertificateRefs(u'.certificates)[k] == Some(courseId);
      case Missing =>
        var cs := u'.certificates;
        assert cs[|cs| - 1].course == Some(courseId);
        assert CertificateRefs(cs)[|cs| - 1] == Some(courseId);
    }
  }

  /** The progress step keeps a consistent user consistent. */
  lemma UpdateProgressKeepsWellFormed(users: map<Id, User>, courses: map<Id, Course>, caller: Caller, courseId: Id,
                                      lessonId: Id, completed: bool, now: Time)
    requires caller.id in users && WellFormed(users[caller.id])
    ensures var o := UpdateProgressSpec(users, courses, caller, courseId, lessonId, completed, now);
      caller.id in o.users && WellFormed(o.users[caller.id])
  {
    var o := UpdateProgressSpec(users, courses, caller, courseId, lessonId, completed, now);
    if o.result.Ok? {
      var u := users[caller.id];
      var i := FindRef(EnrollmentRefs(u.enrolledCourses), courseId).index;
      var done := MarkLesson(u.enrolledCourses[i].completedLessons, lessonId, completed);
      var total := TotalLessons(courses[courseId].sections);
      var u' := Progressed(u, i, courseId, done, total, now, caller.id).value;
      assert o.users[caller.id] == u';
      ProgressedKeepsWellFormed(u, i, courseId, done, total, now, caller.id);
    }
  }

  lemma ProgressedKeepsWellFormed(u: User, i: nat, courseId: Id, done: seq<Id>, total: nat, now: Time, userId: Id)
    requires i < |u.enrolledCourses| && total > 0 && WellFormed(u)
    requires u.enrolledCourses[i].course == Some(courseId) && NoDuplicates(done)
    requires Progressed(u, i, courseId, done, total, now, userId).Some?
    ensures WellFormed(Progressed(u, i, courseId, done, total, now, userId).value)
  {
    var r := Progressed(u, i, courseId, done, total, now, userId).value;
    var p := ProgressPercent(|done|, total);
    assert |r.enrolledCourses| == |u.enrolledCourses|;
    assert EnrollmentRefs(r.enrolledCourses) == EnrollmentRefs(u.enrolledCourses);
    var cs, cs' := CertificateRefs(u.certificates), CertificateRefs(r.certificates);
    assert forall k :: 0 <= k < |cs| ==> k < |cs'| && cs'[k] == cs[k];
    assert UniqueRefs(cs') by {
      if p == 100 && FindRef(cs, courseId).Missing? {
        assert cs' == cs + [Some(courseId)];
      } else {
        assert cs' == cs;
      }
    }
    forall j | 0 <= j < |r.enrolledCourses| && r.enrolledCourses[j].completed && r.enrolledCourses[j].course.Some?
      ensures HasCertificateFor(r, r.enrolledCourses[j].course.value)
    {
      if j == i {
        if FindRef(cs, courseId).Missing? {
          assert cs'[|cs'| - 1] == Some(courseId);
        } else {
          var k := FindRef(cs, courseId).index;
          assert cs'[k] == Some(courseId);
        }
      } else {
        assert r.enrolledCourses[j] == u.enrolledCourses[j];
        assert HasCertificateFor(u, u.enrolledCourses[j].course.value);
        var k :| 0 <= k < |cs| && cs[k] == u.enrolledCourses[j].course;
        assert cs'[k] == cs[k];
      }
    }
    forall j | 0 <= j < |r.enrolledCourses| ensures NoDuplicates(r.enrolledCourses[j].completedLessons) {
      if j != i {
        assert r.enrolledCourses[j] == u.enrolledCourses[j];
      }
    }
  }

  /** Repeating the same progress update leaves the user as the first call left it. */
  lemma UpdateProgressIdempotent(users: map<Id, User>, courses: map<Id, Course>, caller: Caller, courseId: Id,
                                 lessonId: Id, completed: bool, now: Time, later: Time)
    requires UpdateProgressSpec(users, courses, caller, courseId, lessonId, completed, now).result.Ok?
    ensures var o := UpdateProgressSpec(users, courses, caller, courseId, lessonId, completed, now);
      var o2 := UpdateProgressSpec(o.users, courses, caller, courseId, lessonId, completed, later);
      o2.result == o.result && o2.users == o.users
  {
    var o := UpdateProgressSpec(users, courses, caller, courseId, lessonId, completed, now);
    var u := users[caller.id];
    var refs := EnrollmentRefs(u.enrolledCourses);
    var i := FindRef(refs, courseId).index;
    var done := MarkLesson(u.enrolledCourses[i].completedLessons, lessonId, completed);
    var total := TotalLessons(courses[courseId].sections);
    var u' := Progressed(u, i, courseId, done, total, now, caller.id).value;
    assert o.users == users[caller.id := u'];
    ProgressedStable(u, i, courseId, done, total, now, later, caller.id);
    MarkLessonIdempotent(u.enrolledCourses[i].completedLessons, lessonId, completed);
    assert u'.enrolledCourses[i].completedLessons == done;
    assert MarkLesson(u'.enrolledCourses[i].completedLessons, lessonId, completed) == done;
    assert o.users[caller.id := u'] == o.users;
  }

  /** Running the progress step again on its own result with the same list reproduces that result. */
  lemma ProgressedStable(u: User, i: nat, courseId: Id, done: seq<Id>, total: nat, now: Time, later: Time, userId: Id)
    requires i < |u.enrolledCourses| && total > 0
    requires Progressed(u, i, courseId, done, total, now, userId).Some?
    ensures var u' := Progressed(u, i, courseId, done, total, now, userId).value;
      && |u'.enrolledCourses| == |u.enrolledCourses|
      && EnrollmentRefs(u'.enrolledCourses) == EnrollmentRefs(u.enrolledCourses)
      && Progressed(u', i, courseId, done, total, later, userId) == Some(u')
  {
    var u' := Progressed(u, i, courseId, done, total, now, userId).value;
    var p := ProgressPercent(|done|, total);
    var e := u.enrolledCourses[i].(completedLessons := done, progress := p, completed := p == 100);
    assert u'.enrolledCourses == u.enrolledCourses[i := e];
    assert u'.enrolledCourses[i := e] == u'.enrolledCourses;
    assert EnrollmentRefs(u'.enrolledCourses) == EnrollmentRefs(u.enrolledCourses);
    if p == 100 {
      var cs := CertificateRefs(u.certificates);
      match FindRef(cs, courseId)
      case Found(k) =>
        assert u'.certificates == u.certificates;
      case Missing =>
        assert CertificateRefs(u'.certificates) == cs + [Some(courseId)];
        FindRefAppend(cs, courseId);
    }
  }

  lemma {:induction false} FindRefAppend(refs: seq<Option<Id>>, id: Id)
    requires FindRef(refs, id).Missing?
    ensures FindRef(refs + [Some(id)], id) == Found(|refs|)
  {
    if refs != [] {
      assert (refs + [Some(id)])[1..] == refs[1..] + [Some(id)];
      FindRefAppend(refs[1..], id);
    }
  }

  /** `updateProgress` on the stores, with the single user save at the end. */
  method UpdateProgress(users: UserStore, courses: CourseStore, caller: Caller, courseId: Id, lessonId: Id,
                        completed: bool, now: Time) returns (r: Result<ProgressView>)
    modifies users
    ensures UpdateProgressSpec(old(users.docs), courses.docs, caller, courseId, lessonId, completed, now)
            == Outcome(r, users.docs, courses.docs)
  {
    if lessonId == "" {
      return Fail(ErrorResponse("Please provide a lesson ID", 400));
    }
    if caller.id !in users.docs {
      return Fail(Crash(NullUserFault));
    }
    var u := users.docs[caller.id];
    var i: nat;
    match FindRef(EnrollmentRefs(u.enrolledCourses), courseId) {
      case NullRef => return Fail(Crash(NullRefFault));
      case Missing => return Fail(ErrorResponse("Not enrolled in course " + courseId, 404));
      case Found(k) => i := k;
    }
    var done := MarkLesson(u.enrolledCourses[i].completedLessons, lessonId, completed);
    if courseId !in courses.docs {
      return Fail(ErrorResponse("Course not found", 404));
    }
    var total := TotalLessons(courses.docs[courseId].sections);
    if total == 0 {
      return Fail(ErrorResponse("Course has no lessons", 400));
    }
    var p := ProgressPercent(|done|, total);
    var e := u.enrolledCourses[i].(completedLessons := done, progress := p, completed := p == 100);
    var u' := u.(enrolledCourses := u.enrolledCourses[i := e]);
    if p == 100 {
      match FindRef(CertificateRefs(u.certificates), courseId) {
        case NullRef => return Fail(Crash(NullRefFault));
        case Found(_) =>
        case Missing =>
          u' := u'.(certificates := u.certificates + [Certificate(Some(courseId), now, CertificateUrl(courseId, caller.id))]);
      }
    }
    users.Put(caller.id, u');
    r := Ok(ProgressView(e.progress, e.completed, e.completedLessons));
  }

  // ---------------------------------------------------------------- getEnrolledCourses

  /** One entry of the enrolled-courses listing: the course with the enrollment's progress fields. */
  datatype EnrolledView = EnrolledView(courseId: Id, course: Course, progress: int, completed: bool,
                                       enrolledAt: Time, completedLessons: seq<Id>)

  /** The enrollment's course reference is set and still names a stored course (it populates to a document). */
  predicate Resolves(e: Enrollment, courses: map<Id, Course>)
  {
    e.course.Some? && e.course.value in courses
  }

  /** `{ ...course, progress, completed, enrolledAt, completedLessons }` for a resolving enrollment. */
  function ViewOf(e: Enrollment, courses: map<Id, Course>): (v: EnrolledView)
    requires Resolves(e, courses)
    ensures v.courseId == e.course.value && v.course == courses[e.course.value]
    ensures v.progress == e.progress && v.completed == e.completed
    ensures v.enrolledAt == e.enrolledAt && v.completedLessons == e.completedLessons
  {
    EnrolledView(e.course.value, courses[e.course.value], e.progress, e.completed, e.enrolledAt, e.completedLessons)
  }

  /**
   * The enrollments whose course reference is set and still resolves, in order, each
   * joined with its course (a reference to a deleted course populates to null and is dropped).
   */
  function EnrolledViews(es: seq<Enrollment>, courses: map<Id, Course>): (r: seq<EnrolledView>)
    ensures |r| <= |es|
    ensures forall k :: 0 <= k < |r| ==> r[k].courseId in courses && r[k].course == courses[r[k].courseId]
    ensures forall j :: 0 <= j < |es| && Resolves(es[j], courses) ==> ViewOf(es[j], courses) in r
  {
    if es == [] then []
    else
      var rest := EnrolledViews(es[1..], courses);
      assert forall j :: 1 <= j < |es| && Resolves(es[j], courses) ==> ViewOf(es[j], courses) in rest by {
        forall j | 1 <= j < |es| && Resolves(es[j], courses) ensures ViewOf(es[j], courses) in rest {
          assert es[1..][j - 1] == es[j];
        }
      }
      if Resolves(es[0], courses) then [ViewOf(es[0], courses)] + rest else rest
  }

  /** The listing of two runs of enrollments is the listing of the first followed by that of the second. */
  lemma {:induction false} EnrolledViewsConcat(a: seq<Enrollment>, b: seq<Enrollment>, courses: map<Id, Course>)
    ensures EnrolledViews(a + b, courses) == EnrolledViews(a, courses) + EnrolledViews(b, courses)
  {
    if a == [] {
      assert a + b == b;
    } else {
      var ab := a + b;
      assert ab[0] == a[0] && ab[1..] == a[1..] + b;
      EnrolledViewsConcat(a[1..], b, courses);
      var head := if Resolves(a[0], courses) then [ViewOf(a[0], courses)] else [];
      var x, y, z := head, EnrolledViews(a[1..], courses), EnrolledViews(b, courses);
      assert EnrolledViews(ab, courses) == x + (y + z);
      assert x + (y + z) == (x + y) + z;
    }
  }

  /** One enrollment lists as its view when its course resolves, and as nothing otherwise. */
  lemma EnrolledViewsSingle(e: Enrollment, courses: map<Id, Course>)
    ensures EnrolledViews([e], courses) == if Resolves(e, courses) then [ViewOf(e, courses)] else []
  {
    assert [e][1..] == [];
  }

  /** `getEnrolledCourses`: 404 without the user, otherwise the listing (whose `count` is its length). */
  function GetEnrolledCourses(users: map<Id, User>, courses: map<Id, Course>, caller: Caller): (r: Result<seq<EnrolledView>>)
    ensures r.Fail? <==> caller.id !in users
    ensures r.Fail? ==> r.error == ErrorResponse("User not found", 404)
    ensures r.Ok? ==> r.value == EnrolledViews(users[caller.id].enrolledCourses, courses)
  {
    if caller.id !in users then Fail(ErrorResponse("User not found", 404))
    else Ok(EnrolledViews(users[caller.id].enrolledCourses, courses))
  }

  // ---------------------------------------------------------------- addReview

  /** Some review already carries the caller's id (the guarded `review.user && ...` test). */
  predicate HasReviewBy(c: Course, userId: Id)
  {
    exists k :: 0 <= k < |c.reviews| && c.reviews[k].user == Some(userId)
  }

  /** The four checks of `addReview` pass: course and user exist, the caller may review, and has not yet. */
  predicate ReviewAllowed(users: map<Id, User>, courses: map<Id, Course>, caller: Caller, courseId: Id)
  {
    && courseId in courses && caller.id in users
    && (EnrolledIn(users[caller.id], courseId) || caller.role == AdminRole)
    && !HasReviewBy(courses[courseId], caller.id)
  }

  /** A rating the review schema accepts: present, and between 1 and 5. */
  predicate RatingAccepted(rating: Option<real>)
  {
    rating.Some? && 1.0 <= rating.value <= 5.0
  }

  /**
   * The course with `review` appended and the average recomputed; valid exactly when the
   * rating is present and in 1..5.
   */
  function WithReview(c: Course, review: Review): (r: Course)
    ensures r.reviews == c.reviews + [review] && r.ratingCount == (|c.reviews| + 1) as real
    ensures r.title == c.title && r.sections == c.sections
    ensures RatingsInRange(c.reviews) && RatingAccepted(review.rating) ==> 1.0 <= r.rating <= 5.0
    ensures CourseValid(r) <==> CourseValid(c) && RatingAccepted(review.rating)
  {
    RatingsAppend(c.reviews, review);
    WithAverageRating(c.(reviews := c.reviews + [review]))
  }

  /**
   * `addReview`: 404 for a missing course or user; 403 unless enrolled or admin; 400 for a
   * second review by the same user; otherwise the review is appended, the average
   * recomputed, and the course saved. A rating outside 1..5 fails validation there; a
   * missing rating also makes the average `NaN`, whose cast failure is reported first.
   */
  function AddReviewSpec(users: map<Id, User>, courses: map<Id, Course>, caller: Caller, courseId: Id,
                         rating: Option<real>, text: string, now: Time): (o: Outcome<Course>)
    ensures o.users == users
    ensures o.result.Fail? ==> o.courses == courses
    ensures o.result.Ok? ==> courseId in courses && o.courses == courses[courseId := o.result.value]
                             && CourseValid(o.result.value) && RatingAccepted(rating)
  {
    if courseId !in courses then
      Outcome(Fail(ErrorResponse("Course not found with id of " + courseId, 404)), users, courses)
    else if caller.id !in users then Outcome(Fail(ErrorResponse("User not found", 404)), users, courses)
    else if !EnrolledIn(users[caller.id], courseId) && caller.role != AdminRole then
      Outcome(Fail(ErrorResponse("You must be enrolled in the course to leave a review", 403)), users, courses)
    else if HasReviewBy(courses[courseId], caller.id) then
      Outcome(Fail(ErrorResponse("You have already reviewed this course", 400)), users, courses)
    else
      var reviewed := WithReview(courses[courseId], Review(Some(caller.id), rating, text, now));
      match SaveWithOutcome(courses, courseId, reviewed, AverageErrors(reviewed), now)
      case Fail(e) => Outcome(Fail(e), users, courses)
      case Ok(saved) => Outcome(Ok(saved), users, courses[courseId := saved])
  }

  /**
   * A stored review always has a rating in 1..5: a missing or out-of-range rating is refused
   * by validation (a 422 through the handler) and changes nothing; an accepted review raises
   * the count by one and keeps the average between 1.0 and 5.0.
   */
  lemma AddReviewRating(users: map<Id, User>, courses: map<Id, Course>, caller: Caller, courseId: Id,
                        rating: Option<real>, text: string, now: Time)
    requires StoreValid(courses)
    ensures var o := AddReviewSpec(users, courses, caller, courseId, rating, text, now);
      && o.users == users
      && (!RatingAccepted(rating) ==> o.result.Fail? && o.courses == courses)
      && (!RatingAccepted(rating) && ReviewAllowed(users, courses, caller, courseId)
          ==> o.result.error.name == "ValidationError")
      && (o.result.Ok? ==> && o.courses == courses[courseId := o.result.value]
                           && o.result.value.ratingCount == (|courses[courseId].reviews| + 1) as real
                           && 1.0 <= o.result.value.rating <= 5.0
                           && StoreValid(o.courses))
  {
    if ReviewAllowed(users, courses, caller, courseId) {
      var c := courses[courseId];
      var reviewed := WithReview(c, Review(Some(caller.id), rating, text, now));
      var saved := SaveWithOutcome(courses, courseId, reviewed, AverageErrors(reviewed), now);
      AddReviewSaves(users, courses, caller, courseId, rating, text, now, saved);
      ReviewSaved(courses, c, courseId, reviewed, saved, rating, Review(Some(caller.id), rating, text, now), now);
    } else {
      AddReviewRefused(users, courses, caller, courseId, rating, text, now);
    }
  }

  /** The save of a reviewed course: refused unless the rating is accepted, and a valid store stays valid. */
  lemma {:induction false} ReviewSaved(courses: map<Id, Course>, c: Course, courseId: Id, reviewed: Course,
                                       saved: Result<Course>, rating: Option<real>, review: Review, now: Time)
    requires StoreValid(courses) && courseId in courses && c == courses[courseId]
    requires review.rating == rating && reviewed == WithReview(c, review)
    requires saved == SaveWithOutcome(courses, courseId, reviewed, AverageErrors(reviewed), now)
    ensures !RatingAccepted(rating) ==> saved.Fail? && saved.error.name == "ValidationError"
    ensures saved.Ok? ==> && saved.value.ratingCount == (|c.reviews| + 1) as real
                          && 1.0 <= saved.value.rating <= 5.0
                          && StoreValid(courses[courseId := saved.value])
  {
    assert CourseValid(c);
    if !RatingAccepted(rating) {
      assert !CourseValid(reviewed);
      if AverageErrors(reviewed) == [] {
        assert saved == SaveOutcome(courses, courseId, reviewed, now);
      }
    } else if saved.Ok? {
      ReviewSavedValid(courses, c, courseId, reviewed, saved, now);
    }
  }

  lemma {:induction false} ReviewSavedValid(courses: map<Id, Course>, c: Course, courseId: Id, reviewed: Course,
                                            saved: Result<Course>, now: Time)
    requires StoreValid(courses) && courseId in courses && c == courses[courseId]
    requires |reviewed.reviews| == |c.reviews| + 1 && reviewed.ratingCount == (|c.reviews| + 1) as real
    requires saved == SaveWithOutcome(courses, courseId, reviewed, AverageErrors(reviewed), now) && saved.Ok?
    ensures && saved.value.ratingCount == (|c.reviews| + 1) as real
            && saved.value.rating == reviewed.rating
            && StoreValid(courses[courseId := saved.value])
  {
    assert saved == SaveOutcome(courses, courseId, reviewed, now);
    SavedFields(courses, courseId, reviewed, now);
    SaveKeepsStoreValid(courses, courseId, reviewed, now);
  }

  /** A request that fails one of the four checks is refused and changes nothing. */
  lemma {:induction false} AddReviewRefused(users: map<Id, User>, courses: map<Id, Course>, caller: Caller, courseId: Id,
                                            rating: Option<real>, text: string, now: Time)
    requires !(courseId in courses && caller.id in users
               && (EnrolledIn(users[caller.id], courseId) || caller.role == AdminRole)
               && !HasReviewBy(courses[courseId], caller.id))
    ensures var o := AddReviewSpec(users, courses, caller, courseId, rating, text, now);
      o.result.Fail? && o.users == users && o.courses == courses
  {
  }

  /** Past the checks, the outcome is the save of the reviewed course. */
  lemma {:induction false} AddReviewSaves(users: map<Id, User>, courses: map<Id, Course>, caller: Caller, courseId: Id,
                                          rating: Option<real>, text: string, now: Time, saved: Result<Course>)
    requires courseId in courses && caller.id in users
    requires EnrolledIn(users[caller.id], courseId) || caller.role == AdminRole
    requires !HasReviewBy(courses[courseId], caller.id)
    requires var reviewed := WithReview(courses[courseId], Review(Some(caller.id), rating, text, now));
      saved == SaveWithOutcome(courses, courseId, reviewed, AverageErrors(reviewed), now)
    ensures AddReviewSpec(users, courses, caller, courseId, rating, text, now)
            == Outcome(saved, users, if saved.Ok? then courses[courseId := saved.value] else courses)
  {
  }

  lemma RatingsAppend(rs: seq<Review>, r: Review)
    ensures RatingsInRange(rs + [r]) <==> RatingsInRange(rs) && RatingAccepted(r.rating)
  {
    var rs' := rs + [r];
    assert rs'[|rs|] == r;
    assert forall k :: 0 <= k < |rs| ==> rs'[k] == rs[k];
  }

  /** `addReview` on the stores. */
  method AddReview(users: UserStore, courses: CourseStore, caller: Caller, courseId: Id, rating: Option<real>, text: string,
                   now: Time) returns (r: Result<Course>)
    modifies courses
    ensures AddReviewSpec(users.docs, old(courses.docs), caller, courseId, rating, text, now)
            == Outcome(r, users.docs, courses.docs)
  {
    if courseId !in courses.docs {
      return Fail(ErrorResponse("Course not found with id of " + courseId, 404));
    }
    var c := courses.docs[courseId];
    if caller.id !in users.docs {
      return Fail(ErrorResponse("User not found", 404));
    }
    if !EnrolledIn(users.docs[caller.id], courseId) && caller.role != AdminRole {
      return Fail(ErrorResponse("You must be enrolled in the course to leave a review", 403));
    }
    if HasReviewBy(c, caller.id) {
      return Fail(ErrorResponse("You have already reviewed this course", 400));
    }
    ghost var courses0 := courses.docs;
    var reviewed := WithReview(c, Review(Some(caller.id), rating, text, now));
    r := courses.SaveWith(courseId, reviewed, AverageErrors(reviewed), now);
    AddReviewSaves(users.docs, courses0, caller, courseId, rating, text, now, r);
  }
}

=== FILE: errors.dfy ===
/**
 * Errors as the controllers raise them and the central error handler that turns
 * them into an HTTP status and a JSON body.
 */
module Errors {
  import opened Common
  import opened Text

  /** One entry of a store validation error: the failing path and its message. */
  datatype FieldError = FieldError(path: string, message: string)

  /**
   * An error object as it reaches the handler: its `name`, `message`, the store's
   * numeric `code`, an explicit `statusCode` (set by `ErrorResponse`) and, for a
   * validation error, the per-path failures in the order `Object.values` lists them.
   */
  datatype Error = Error(name: string, message: string, code: Option<int>, statusCode: Option<int>,
                         errors: seq<FieldError>)

  /** Outcome of an operation: a value, or an error passed on to the error handler. */
  datatype Result<T> = Ok(value: T) | Fail(error: Error)

  /** `new ErrorResponse(message, statusCode)`. */
  function ErrorResponse(message: string, statusCode: int): (e: Error)
    ensures e.statusCode == Some(statusCode) && e.message == message
    ensures e.name != "CastError" && e.name != "ValidationError" && e.code == None
  {
    Error("Error", message, None, Some(statusCode), [])
  }

  /** A store validation failure carrying its field errors. */
  function ValidationFailure(errors: seq<FieldError>): (e: Error)
    ensures e.name == "ValidationError" && e.errors == errors && e.statusCode == None
  {
    Error("ValidationError", "Validation failed", None, None, errors)
  }

  /** The store's unique-index violation. */
  function DuplicateKey(): (e: Error)
    ensures e.code == Some(11000) && e.name != "ValidationError"
  {
    Error("MongoServerError", "E11000 duplicate key error", Some(11000), None, [])
  }

  /** A run-time fault (a property read on `null`), which the handler reports as 500. */
  function Crash(message: string): (e: Error)
    ensures e.statusCode == None && e.code == None
    ensures e.name != "CastError" && e.name != "ValidationError"
  {
    Error("TypeError", message, None, None, [])
  }

  /** The JSON body of an error reply; `success` is always `false`. */
  datatype Body = MessageBody(message: string) | FieldsBody(errors: map<string, string>)
  datatype Reply = Reply(status: int, body: Body)

  const CharsetMarker := "unsupported charset"
  const CharsetMessage := "Invalid request format. Please ensure proper JSON formatting."

  /** The `errors` dictionary of a validation reply: each path mapped to its message, later entries overwriting earlier ones. */
  function FieldMap(errors: seq<FieldError>): (m: map<string, string>)
    ensures forall p :: p in m <==> exists i :: 0 <= i < |errors| && errors[i].path == p
  {
    if errors == [] then map[]
    else
      var last := errors[|errors| - 1];
      var m := FieldMap(errors[..|errors| - 1]);
      assert forall i :: 0 <= i < |errors| - 1 ==> errors[..|errors| - 1][i] == errors[i];
      m[last.path := last.message]
  }

  /** Each path's entry holds the message of the last failure reported for it. */
  lemma {:induction false} FieldMapLastWins(errors: seq<FieldError>, i: nat)
    requires i < |errors|
    requires forall j :: i < j < |errors| ==> errors[j].path != errors[i].path
    ensures errors[i].path in FieldMap(errors)
    ensures FieldMap(errors)[errors[i].path] == errors[i].message
    decreases |errors|
  {
    if i < |errors| - 1 {
      var init := errors[..|errors| - 1];
      assert init[i] == errors[i];
      forall j | i < j < |init| ensures init[j].path != init[i].path {
        assert init[j] == errors[j];
      }
      FieldMapLastWins(init, i);
    }
  }

  /**
   * The error handler: a message mentioning an unsupported charset gives 400 first; a
   * cast error becomes 404, a duplicate key 400 (overriding a cast error); a validation
   * error gives 422 with the field map; anything else keeps its status (500 when it has
   * none or it is 0) and its message ("Server Error" when empty).
   */
  function ErrorHandler(err: Error): (r: Reply)
    ensures Contains(err.message, CharsetMarker) ==> r == Reply(400, MessageBody(CharsetMessage))
    ensures r.body.FieldsBody? <==> !Contains(err.message, CharsetMarker) && err.name == "ValidationError"
    ensures r.body.FieldsBody? ==> r.status == 422 && r.body.errors.Keys == set i | 0 <= i < |err.errors| :: err.errors[i].path
    ensures r.body.MessageBody? ==> r.body.message != ""
    ensures r.status != 0
  {
    if err.message != "" && Contains(err.message, CharsetMarker) then Reply(400, MessageBody(CharsetMessage))
    else
      var e := if err.name == "CastError" then ErrorResponse("Resource not found", 404) else err;
      var e := if err.code == Some(11000) then ErrorResponse("Duplicate field value entered", 400) else e;
      if err.name == "ValidationError" then Reply(422, FieldsBody(FieldMap(err.errors)))
      else
        var status := if e.statusCode.Some? && e.statusCode.value != 0 then e.statusCode.value else 500;
        Reply(status, MessageBody(if e.message != "" then e.message else "Server Error"))
  }

  /** An `ErrorResponse` raised by a controller reaches the client with its own status and message. */
  lemma ErrorResponsePassesThrough(message: string, status: int)
    requires message != "" && status != 0
    requires !Contains(message, CharsetMarker)
    ensures ErrorHandler(ErrorResponse(message, status)) == Reply(status, MessageBody(message))
  {
  }

  /** A duplicate-key error is always reported as 400, whatever else it carries (unless it is a validation or charset error). */
  lemma DuplicateKeyIs400(err: Error)
    requires err.code == Some(11000) && err.name != "ValidationError"
    requires !Contains(err.message, CharsetMarker)
    ensures ErrorHandler(err) == Reply(400, MessageBody("Duplicate field value entered"))
  {
  }

  /** A fault with no status becomes a 500 that keeps its message. */
  lemma CrashIs500(message: string)
    requires message != "" && !Contains(message, CharsetMarker)
    ensures ErrorHandler(Crash(message)) == Reply(500, MessageBody(message))
  {
  }

  /** A cast error (a malformed id) is reported as a missing resource. */
  lemma CastErrorIs404(err: Error)
    requires err.name == "CastError" && err.code != Some(11000)
    requires !Contains(err.message, CharsetMarker)
    ensures ErrorHandler(err) == Reply(404, MessageBody("Resource not found"))
  {
  }
}

=== FILE: notifications.dfy ===
/**
 * The notification inbox (`controllers/notifications.js`): a listing filtered to the
 * caller, with its own page arithmetic, and the owner-checked edits `markAsRead`,
 * `markAllAsRead` and `deleteNotification`, plus the admin-only `createNotification`.
 * The notification collection is a store of records keyed by id; running a filter is an
 * oracle (`find`) that gives the matching ids newest first.
 */
module Notifications {
  import opened Common
  import opened Errors
  import UserModel
  import opened AuthMiddleware
  import opened CourseListing
  import Text

  // ---------------------------------------------------------------- records

  datatype NotificationType = CourseNotice | PaymentNotice | ReminderNotice | SystemNotice

  function TypeName(t: NotificationType): string
  {
    match t
    case CourseNotice => "course"
    case PaymentNotice => "payment"
    case ReminderNotice => "reminder"
    case SystemNotice => "system"
  }

  /** The type named by `s`, if `s` is one of `course`, `payment`, `reminder`, `system`. */
  function ParseType(s: string): (r: Option<NotificationType>)
    ensures r.Some? <==> s in {"course", "payment", "reminder", "system"}
    ensures r.Some? ==> TypeName(r.value) == s
  {
    if s == "course" then Some(CourseNotice)
    else if s == "payment" then Some(PaymentNotice)
    else if s == "reminder" then Some(ReminderNotice)
    else if s == "system" then Some(SystemNotice)
    else None
  }

  /** Every type's name is read back as that type. */
  lemma ParseTypeName(t: NotificationType)
    ensures ParseType(TypeName(t)) == Some(t)
  {
  }

  datatype Notification = Notification(
    user: Id,
    kind: NotificationType,
    title: string,
    message: string,
    details: Option<string>,
    actionLink: Option<string>,
    actionText: Option<string>,
    unread: bool,
    createdAt: Time)

  /** The notification collection. */
  class NotificationStore {
    var docs: map<Id, Notification>

    constructor ()
      ensures docs == map[]
    {
      docs := map[];
    }

    /** `Notification.create(...)` under a freshly drawn id; an id already in use is refused by the `_id` index. */
    method Insert(id: Id, n: Notification) returns (r: Result<Unit>)
      modifies this
      ensures r == InsertOutcome(old(docs), id)
      ensures docs == if r.Ok? then old(docs)[id := n] else old(docs)
    {
      r := InsertOutcome(docs, id);
      if r.Ok? {
        docs := docs[id := n];
      }
    }

    /** `findByIdAndUpdate(id, { unread: false })` on a stored notification. */
    method SetRead(id: Id)
      requires id in docs
      modifies this
      ensures docs == old(docs)[id := old(docs)[id].(unread := false)]
    {
      docs := docs[id := docs[id].(unread := false)];
    }

    /** `updateMany({ user, unread: true }, { unread: false })`. */
    method ReadAllOf(user: Id)
      modifies this
      ensures docs == ReadAll(old(docs), user)
    {
      docs := ReadAll(docs, user);
    }

    /** `deleteOne()` of one notification. */
    method Remove(id: Id)
      modifies this
      ensures docs == old(docs) - {id}
    {
      docs := docs - {id};
    }
  }

  /** An insert succeeds exactly when the id is not taken. */
  function InsertOutcome(docs: map<Id, Notification>, id: Id): (r: Result<Unit>)
    ensures r.Ok? <==> id !in docs
    ensures r.Fail? ==> r.error == DuplicateKey()
  {
    if id in docs then Fail(DuplicateKey()) else Ok(Unit)
  }

  /** The collection after an operation, with the operation's result. */
  datatype NoteOutcome<T> = NoteOutcome(result: Result<T>, docs: map<Id, Notification>)

  // ---------------------------------------------------------------- getNotifications

  /** The filter `getNotifications` runs: always the caller's, optionally by read state, plus the other parameters. */
  datatype NotificationFilter = NotificationFilter(user: Id, unread: Option<bool>, rest: seq<QueryField>)

  const NotificationReserved: set<string> := {"select", "sort", "page", "limit", "user"}

  /**
   * The parameters that stay in the filter as they were given: every one but the reserved
   * ones and `user` (overwritten by the caller's id), and but a truthy `unread`
   * (replaced by a boolean).
   */
  function PassedFields(q: seq<QueryField>, unreadSet: bool): (r: seq<QueryField>)
    ensures forall i :: 0 <= i < |r| ==> r[i].key !in NotificationReserved && (unreadSet ==> r[i].key != "unread")
    ensures forall f :: f in r <==> f in q && f.key !in NotificationReserved && !(unreadSet && f.key == "unread")
  {
    if q == [] then []
    else
      (if q[0].key in NotificationReserved || (unreadSet && q[0].key == "unread") then [] else [q[0]])
      + PassedFields(q[1..], unreadSet)
  }

  /** The filter built from the query string for `caller`. */
  function BuildFilter(q: seq<QueryField>, caller: UserModel.Caller): (f: NotificationFilter)
    ensures f.user == caller.id
    ensures forall i :: 0 <= i < |f.rest| ==> f.rest[i].key !in NotificationReserved
  {
    var unread := Lookup(q, "unread");
    var unreadSet := unread.Some? && Truthy(unread.value);
    NotificationFilter(caller.id, if unreadSet then Some(unread.value == QStr("true")) else None,
                       PassedFields(q, unreadSet))
  }

  /** `unread=true` asks for unread notifications only; any other non-empty value for read ones. */
  lemma UnreadParameter(q: seq<QueryField>, caller: UserModel.Caller, v: string)
    requires Lookup(q, "unread") == Some(QStr(v)) && v != ""
    ensures BuildFilter(q, caller).unread == Some(v == "true")
    ensures forall i :: 0 <= i < |BuildFilter(q, caller).rest| ==> BuildFilter(q, caller).rest[i].key != "unread"
  {
  }

  /** A `user` parameter cannot widen the listing: adding one leaves the filter as it was. */
  lemma {:induction false} UserParameterIgnored(q: seq<QueryField>, caller: UserModel.Caller, v: QueryValue)
    ensures BuildFilter(q + [QueryField("user", v)], caller) == BuildFilter(q, caller)
  {
    LookupAppendOther(q, QueryField("user", v), "unread");
    var unread := Lookup(q, "unread");
    PassedFieldsAppendReserved(q, QueryField("user", v), unread.Some? && Truthy(unread.value));
  }

  lemma {:induction false} LookupAppendOther(q: seq<QueryField>, f: QueryField, key: string)
    requires f.key != key
    ensures Lookup(q + [f], key) == Lookup(q, key)
  {
    if q != [] {
      assert (q + [f])[1..] == q[1..] + [f];
      LookupAppendOther(q[1..], f, key);
    }
  }

  lemma {:induction false} PassedFieldsAppendReserved(q: seq<QueryField>, f: QueryField, unreadSet: bool)
    requires f.key in NotificationReserved
    ensures PassedFields(q + [f], unreadSet) == PassedFields(q, unreadSet)
  {
    if q == [] {
      assert PassedFields([f], unreadSet) == [] + PassedFields([], unreadSet);
    } else {
      assert (q + [f])[1..] == q[1..] + [f];
      PassedFieldsAppendReserved(q[1..], f, unreadSet);
    }
  }

  /** The reply of the listing: the page length (not the total), the links and the page. */
  datatype NotificationPage = NotificationPage(count: nat, next: Option<PageLink>, prev: Option<PageLink>, data: seq<Id>)

  /** One page of the newest-first matches; a negative skip is refused by the store. */
  function PageOf(matching: seq<Id>, page: int, limit: int): (r: Result<NotificationPage>)
    ensures r.Fail? <==> (page - 1) * limit < 0
    ensures r.Fail? ==> r.error == NegativeSkip
    ensures r.Ok? ==> r.value.count == |r.value.data| <= Abs(limit)
    ensures r.Ok? ==> forall k :: 0 <= k < |r.value.data| ==> r.value.data[k] in matching
  {
    var start := (page - 1) * limit;
    if start < 0 then Fail(NegativeSkip)
    else
      var data := Window(matching, start, Abs(limit));
      Ok(NotificationPage(|data|,
                          if start + limit < |matching| then Some(PageLink(page + 1, limit)) else None,
                          if start > 0 then Some(PageLink(page - 1, limit)) else None,
                          data))
  }

  /**
   * `getNotifications`: the store runs the caller's filter and one page of the matches is
   * returned, page and limit defaulting to 1 and 10. A filter the store refuses (a value
   * that does not cast to its path's type) fails the request with the store's error.
   */
  function GetNotifications(q: seq<QueryField>, caller: UserModel.Caller, find: NotificationFilter -> Result<seq<Id>>)
    : (r: Result<NotificationPage>)
    ensures find(BuildFilter(q, caller)).Fail? ==> r == Fail(find(BuildFilter(q, caller)).error)
    ensures r.Ok? ==> && find(BuildFilter(q, caller)).Ok?
                      && r.value.count == |r.value.data|
                      && forall k :: 0 <= k < |r.value.data| ==> r.value.data[k] in find(BuildFilter(q, caller)).value
  {
    match find(BuildFilter(q, caller))
    case Fail(err) => Fail(err)
    case Ok(matching) => PageOf(matching, PageParam(Lookup(q, "page"), 1), PageParam(Lookup(q, "limit"), 10))
  }

  /**
   * Without `page` and `limit` the inbox shows the caller's first ten matches, counting
   * them, with no previous link and a next link exactly when there are more than ten.
   */
  lemma {:induction false} GetNotificationsDefaults(q: seq<QueryField>, caller: UserModel.Caller,
                                                    find: NotificationFilter -> Result<seq<Id>>)
    requires Lookup(q, "page").None? && Lookup(q, "limit").None?
    ensures BuildFilter(q, caller).user == caller.id
    ensures find(BuildFilter(q, caller)).Fail? ==> GetNotifications(q, caller, find) == Fail(find(BuildFilter(q, caller)).error)
    ensures find(BuildFilter(q, caller)).Ok? ==>
      var matching := find(BuildFilter(q, caller)).value;
      var n := if 10 < |matching| then 10 else |matching|;
      GetNotifications(q, caller, find) == Ok(NotificationPage(n, if 10 < |matching| then Some(PageLink(2, 10)) else None,
                                                               None, matching[..n]))
  {
    if find(BuildFilter(q, caller)).Ok? {
      var matching := find(BuildFilter(q, caller)).value;
      assert GetNotifications(q, caller, find) == PageOf(matching, 1, 10);
      if matching != [] {
        assert Window(matching, 0, 10) == matching[..if 10 < |matching| then 10 else |matching|];
      }
    }
  }

  /**
   * A filter value the store cannot cast to its path's type (`createdAt=abc` on the date
   * path `createdAt`) reaches the client as 404 "Resource not found".
   */
  lemma {:induction false} UncastableNotificationFilterIs404(q: seq<QueryField>, caller: UserModel.Caller,
                                                             find: NotificationFilter -> Result<seq<Id>>)
    requires find(BuildFilter(q, caller)).Fail? && find(BuildFilter(q, caller)).error.name == "CastError"
    requires find(BuildFilter(q, caller)).error.code != Some(11000)
    requires !Text.Contains(find(BuildFilter(q, caller)).error.message, CharsetMarker)
    ensures GetNotifications(q, caller, find).Fail?
    ensures ErrorHandler(GetNotifications(q, caller, find).error) == Reply(404, MessageBody("Resource not found"))
  {
    CastErrorIs404(find(BuildFilter(q, caller)).error);
  }

  /**
   * A page counts its own items, links forward exactly when matches remain after it and
   * back exactly when it does not start at the beginning, and holds the matches from
   * `(page - 1) * limit` on: |limit| of them, or as many as remain.
   */
  lemma {:induction false} PageOfSpec(matching: seq<Id>, page: int, limit: int)
    ensures var r := PageOf(matching, page, limit);
      && (r.Fail? <==> (page - 1) * limit < 0)
      && (r.Ok? ==> && r.value.count == |r.value.data|
                    && |r.value.data| == (if (page - 1) * limit >= |matching| then 0
                                          else if (page - 1) * limit + Abs(limit) < |matching| then Abs(limit)
                                          else |matching| - (page - 1) * limit)
                    && (r.value.next.Some? <==> (page - 1) * limit + limit < |matching|)
                    && (r.value.next.Some? ==> r.value.next.value == PageLink(page + 1, limit))
                    && (r.value.prev.Some? <==> (page - 1) * limit > 0)
                    && (r.value.prev.Some? ==> r.value.prev.value == PageLink(page - 1, limit))
                    && (forall k :: 0 <= k < |r.value.data| ==> r.value.data[k] == matching[(page - 1) * limit + k]))
  {
    var start := (page - 1) * limit;
    if start >= 0 && start < |matching| {
      var data := Window(matching, start, Abs(limit));
      assert PageOf(matching, page, limit).value.data == data;
      var stop := if start + Abs(limit) < |matching| then start + Abs(limit) else |matching|;
      assert data == matching[start..stop];
      forall k | 0 <= k < |data| ensures data[k] == matching[start + k] {
      }
    }
  }

  /** Sixteen matches with the default limit: ten on the first page, six on the second. */
  lemma {:induction false} SixteenMatches(matching: seq<Id>)
    requires |matching| == 16
    ensures PageOf(matching, 1, 10) == Ok(NotificationPage(10, Some(PageLink(2, 10)), None, matching[..10]))
    ensures PageOf(matching, 2, 10) == Ok(NotificationPage(6, None, Some(PageLink(1, 10)), matching[10..]))
  {
    assert Window(matching, 0, 10) == matching[..10];
    assert Window(matching, 10, 10) == matching[10..];
  }

  /** The two listings count differently: the course listing reports the total, the inbox the page length. */
  lemma {:induction false} CountsDiffer(matching: seq<Id>)
    requires |matching| == 16
    ensures Paginate(matching, 1, 10).value.count == 16
    ensures PageOf(matching, 1, 10).value.count == 10
  {
    SixteenMatches(matching);
  }

  // ---------------------------------------------------------------- markAsRead, markAllAsRead

  function NotFound(id: Id): Error
  {
    ErrorResponse("Notification not found with id of " + id, 404)
  }

  /** `markAsRead`: 404 when missing, 403 unless the caller owns it; otherwise it is marked read. */
  function MarkAsReadSpec(docs: map<Id, Notification>, caller: UserModel.Caller, id: Id): (o: NoteOutcome<Notification>)
    ensures o.result.Ok? <==> id in docs && docs[id].user == caller.id
    ensures o.result.Fail? ==> o.docs == docs
    ensures o.result.Ok? ==> && o.docs == docs[id := o.result.value] && !o.result.value.unread
                             && o.result.value.(unread := docs[id].unread) == docs[id]
  {
    if id !in docs then NoteOutcome(Fail(NotFound(id)), docs)
    else if docs[id].user != caller.id then
      NoteOutcome(Fail(ErrorResponse("Not authorized to access this notification", 403)), docs)
    else
      var n := docs[id].(unread := false);
      NoteOutcome(Ok(n), docs[id := n])
  }

  /**
   * Only the owner's request succeeds; it clears `unread` on that notification and on
   * nothing else. A refused request changes nothing.
   */
  lemma MarkAsReadEffect(docs: map<Id, Notification>, caller: UserModel.Caller, id: Id)
    ensures var o := MarkAsReadSpec(docs, caller, id);
      && (o.result.Ok? <==> id in docs && docs[id].user == caller.id)
      && (o.result.Fail? ==> o.docs == docs && o.result.error.statusCode == Some(if id in docs then 403 else 404))
      && (o.result.Ok? ==> && o.docs.Keys == docs.Keys
                           && !o.docs[id].unread && o.result.value == o.docs[id]
                           && o.docs[id].(unread := docs[id].unread) == docs[id]
                           && forall other :: other in docs && other != id ==> o.docs[other] == docs[other])
  {
  }

  /** Marking twice is the same as marking once. */
  lemma MarkAsReadIdempotent(docs: map<Id, Notification>, caller: UserModel.Caller, id: Id)
    ensures var once := MarkAsReadSpec(docs, caller, id);
            MarkAsReadSpec(once.docs, caller, id) == once
  {
  }

  /** `markAsRead` on the store. */
  method MarkAsRead(store: NotificationStore, caller: UserModel.Caller, id: Id) returns (r: Result<Notification>)
    modifies store
    ensures MarkAsReadSpec(old(store.docs), caller, id) == NoteOutcome(r, store.docs)
  {
    if id !in store.docs {
      return Fail(NotFound(id));
    }
    if store.docs[id].user != caller.id {
      return Fail(ErrorResponse("Not authorized to access this notification", 403));
    }
    store.SetRead(id);
    r := Ok(store.docs[id]);
  }

  /** The update of `markAllAsRead`: every unread notification of `user` becomes read. */
  function ReadAll(docs: map<Id, Notification>, user: Id): (r: map<Id, Notification>)
    ensures r.Keys == docs.Keys
  {
    map id | id in docs :: if docs[id].user == user && docs[id].unread then docs[id].(unread := false) else docs[id]
  }

  /**
   * Afterwards none of the user's notifications is unread, each of them differs at most
   * in `unread`, and every other user's notifications are as they were.
   */
  lemma ReadAllEffect(docs: map<Id, Notification>, user: Id)
    ensures var r := ReadAll(docs, user);
      && (forall id :: id in r && r[id].user == user ==> !r[id].unread && r[id] == docs[id].(unread := false))
      && (forall id :: id in r && docs[id].user != user ==> r[id] == docs[id])
  {
  }

  /** Marking all read a second time changes nothing. */
  lemma ReadAllIdempotent(docs: map<Id, Notification>, user: Id)
    ensures ReadAll(ReadAll(docs, user), user) == ReadAll(docs, user)
  {
    var once := ReadAll(docs, user);
    assert forall id :: id in once ==> ReadAll(once, user)[id] == once[id];
  }

  /** `markAllAsRead` on the store; it always succeeds. */
  method MarkAllAsRead(store: NotificationStore, caller: UserModel.Caller) returns (r: Result<Unit>)
    modifies store
    ensures r == Ok(Unit) && store.docs == ReadAll(old(store.docs), caller.id)
  {
    store.ReadAllOf(caller.id);
    r := Ok(Unit);
  }

  // ---------------------------------------------------------------- deleteNotification

  /** `deleteNotification`: 404 when missing, 403 unless the caller owns it; otherwise it is removed. */
  function DeleteSpec(docs: map<Id, Notification>, caller: UserModel.Caller, id: Id): (o: NoteOutcome<Unit>)
    ensures o.result.Ok? <==> id in docs && docs[id].user == caller.id
    ensures o.result.Ok? ==> id !in o.docs && o.docs.Keys == docs.Keys - {id}
    ensures o.result.Fail? ==> o.docs == docs
  {
    if id !in docs then NoteOutcome(Fail(NotFound(id)), docs)
    else if docs[id].user != caller.id then
      NoteOutcome(Fail(ErrorResponse("Not authorized to delete this notification", 403)), docs)
    else NoteOutcome(Ok(Unit), docs - {id})
  }

  /** Exactly the owner's notification is removed; every other one stays as it was. */
  lemma DeleteEffect(docs: map<Id, Notification>, caller: UserModel.Caller, id: Id)
    ensures var o := DeleteSpec(docs, caller, id);
      && (o.result.Ok? <==> id in docs && docs[id].user == caller.id)
      && (o.result.Fail? ==> o.docs == docs && o.result.error.statusCode == Some(if id in docs then 403 else 404))
      && (o.result.Ok? ==> o.docs.Keys == docs.Keys - {id}
                           && forall other :: other in o.docs ==> o.docs[other] == docs[other])
  {
  }

  /** `deleteNotification` on the store. */
  method DeleteNotification(store: NotificationStore, caller: UserModel.Caller, id: Id) returns (r: Result<Unit>)
    modifies store
    ensures DeleteSpec(old(store.docs), caller, id) == NoteOutcome(r, store.docs)
  {
    if id !in store.docs {
      return Fail(NotFound(id));
    }
    if store.docs[id].user != caller.id {
      return Fail(ErrorResponse("Not authorized to delete this notification", 403));
    }
    store.Remove(id);
    r := Ok(Unit);
  }

  // ---------------------------------------------------------------- createNotification

  /** The request body of `createNotification`; absent fields are `None`. */
  datatype NotificationInput = NotificationInput(
    title: Option<string>,
    message: Option<string>,
    user: Option<Id>,
    kind: Option<string>,
    details: Option<string>,
    actionLink: Option<string>,
    actionText: Option<string>,
    unread: Option<bool>)

  /** The record stored for a checked body; `unread` defaults to true. */
  function FromInput(b: NotificationInput, kind: NotificationType, now: Time): Notification
    requires b.title.Some? && b.message.Some? && b.user.Some?
  {
    Notification(b.user.value, kind, b.title.value, b.message.value, b.details, b.actionLink, b.actionText,
                 if b.unread.Some? then b.unread.value else true, now)
  }

  /**
   * `createNotification`: 403 for a non-admin before anything else, 400 when a required
   * field is missing, 400 for an unknown type; otherwise the body is stored under `id`.
   */
  function CreateSpec(docs: map<Id, Notification>, caller: UserModel.Caller, b: NotificationInput, id: Id, now: Time)
    : (o: NoteOutcome<Notification>)
    ensures o.result.Fail? ==> o.docs == docs
    ensures o.result.Ok? ==>
      && caller.role == UserModel.AdminRole && id !in docs && o.docs == docs[id := o.result.value]
      && b.user == Some(o.result.value.user) && b.title == Some(o.result.value.title)
      && b.message == Some(o.result.value.message) && b.kind == Some(TypeName(o.result.value.kind))
      && o.result.value.unread == (b.unread != Some(false)) && o.result.value.createdAt == now
  {
    if caller.role != UserModel.AdminRole then NoteOutcome(Fail(ErrorResponse("Only admins can create notifications", 403)), docs)
    else if !Given(b.title) || !Given(b.message) || !Given(b.user) || !Given(b.kind) then
      NoteOutcome(Fail(ErrorResponse("Please provide all required fields", 400)), docs)
    else match ParseType(b.kind.value)
      case None => NoteOutcome(Fail(ErrorResponse("Invalid notification type", 400)), docs)
      case Some(kind) =>
        var n := FromInput(b, kind, now);
        match InsertOutcome(docs, id)
        case Fail(e) => NoteOutcome(Fail(e), docs)
        case Ok(_) => NoteOutcome(Ok(n), docs[id := n])
  }

  /**
   * The checks run in order: admin, required fields, type. A created notification is
   * addressed to the body's user with the body's type, and nothing else is touched.
   */
  lemma CreateChecks(docs: map<Id, Notification>, caller: UserModel.Caller, b: NotificationInput, id: Id, now: Time)
    ensures var o := CreateSpec(docs, caller, b, id, now);
      && (caller.role != UserModel.AdminRole ==> o.result == Fail(ErrorResponse("Only admins can create notifications", 403)))
      && (caller.role == UserModel.AdminRole && (!Given(b.title) || !Given(b.message) || !Given(b.user) || !Given(b.kind)) ==>
            o.result == Fail(ErrorResponse("Please provide all required fields", 400)))
      && (caller.role == UserModel.AdminRole && Given(b.kind) && b.kind.value !in {"course", "payment", "reminder", "system"} ==>
            o.result.Fail? && o.result.error.statusCode == Some(400))
      && (o.result.Fail? ==> o.docs == docs)
      && (o.result.Ok? ==> && caller.role == UserModel.AdminRole && id !in docs
                           && o.docs == docs[id := o.result.value]
                           && o.result.value.user == b.user.value
                           && TypeName(o.result.value.kind) == b.kind.value
                           && o.result.value.title == b.title.value && o.result.value.message == b.message.value)
  {
  }

  /** Behind the route's `authorize('admin')` the controller's own role check never fires. */
  lemma CreateBehindRoleGate(docs: map<Id, Notification>, caller: UserModel.Caller, b: NotificationInput, id: Id, now: Time)
    requires Authorize([UserModel.AdminRole], Some(caller)).Ok?
    ensures CreateSpec(docs, caller, b, id, now).result != Fail(ErrorResponse("Only admins can create notifications", 403))
  {
    assert caller.role == UserModel.AdminRole;
    if Given(b.title) && Given(b.message) && Given(b.user) && Given(b.kind) && ParseType(b.kind.value).Some? {
      var r := CreateSpec(docs, caller, b, id, now).result;
      assert r.Ok? || r.error == DuplicateKey();
    }
  }

  /** `createNotification` on the store. */
  method CreateNotification(store: NotificationStore, caller: UserModel.Caller, b: NotificationInput, id: Id, now: Time)
    returns (r: Result<Notification>)
    modifies store
    ensures CreateSpec(old(store.docs), caller, b, id, now) == NoteOutcome(r, store.docs)
  {
    if caller.role != UserModel.AdminRole {
      return Fail(ErrorResponse("Only admins can create notifications", 403));
    }
    if !Given(b.title) || !Given(b.message) || !Given(b.user) || !Given(b.kind) {
      return Fail(ErrorResponse("Please provide all required fields", 400));
    }
    var kind := ParseType(b.kind.value);
    if kind.None? {
      return Fail(ErrorResponse("Invalid notification type", 400));
    }
    var n := FromInput(b, kind.value, now);
    var inserted := store.Insert(id, n);
    r := if inserted.Ok? then Ok(n) else Fail(inserted.error);
  }
}

=== FILE: payments.dfy ===
/**
 * The payment controller (`controllers/payments.js`): `processStripePayment` and
 * `processPayPalPayment` check the course and the caller's enrollments, record a payment,
 * and only for a completed payment enroll the caller, count the enrollment and notify the
 * caller. The gateway is an oracle: its reply (or the message it throws) is a parameter,
 * as are the ids the store draws for new documents.
 */
module Payments {
  import opened Common
  import opened Errors
  import opened UserModel
  import opened CourseModel
  import opened EnrollmentEngine
  import N = Notifications

  // ---------------------------------------------------------------- records

  datatype PaymentMethod = CreditCard | PayPal
  datatype PaymentStatus = Pending | Completed

  /** `transactionDetails`: the gateway's payment id, or the PayPal order id. */
  datatype Transaction = IntentRef(id: string) | OrderRef(orderId: string)

  datatype Payment = Payment(
    user: Id,
    course: Id,
    amount: Option<real>,
    paymentMethod: PaymentMethod,
    paymentId: string,
    status: PaymentStatus,
    transactionDetails: Transaction,
    createdAt: Time)

  /** The payment collection. */
  class PaymentStore {
    var docs: map<Id, Payment>

    constructor ()
      ensures docs == map[]
    {
      docs := map[];
    }

    /** `Payment.create(...)` under a freshly drawn id; an id already in use is refused. */
    method Insert(id: Id, p: Payment) returns (r: Result<Unit>)
      modifies this
      ensures r.Ok? <==> id !in old(docs)
      ensures r.Fail? ==> r.error == DuplicateKey()
      ensures docs == if r.Ok? then old(docs)[id := p] else old(docs)
    {
      if id in docs {
        return Fail(DuplicateKey());
      }
      docs := docs[id := p];
      r := Ok(Unit);
    }
  }

  /** What the payment routes answer: the stored payment's id and its status. */
  datatype Receipt = Receipt(paymentId: Id, status: PaymentStatus)

  /** All four collections after a payment request, with its result. */
  datatype PaymentOutcome = PaymentOutcome(result: Result<Receipt>, users: map<Id, User>, courses: map<Id, Course>,
                                           payments: map<Id, Payment>, notifications: map<Id, N.Notification>)

  /** The notification sent after an enrollment by payment. */
  function EnrollmentNotice(userId: Id, courseId: Id, courseTitle: string, now: Time): (n: N.Notification)
    ensures n.user == userId && n.kind == N.PaymentNotice && n.unread
  {
    N.Notification(userId, N.PaymentNotice, "Course Enrollment Successful", "Payment successful",
                   Some("You have successfully enrolled in " + courseTitle), Some("/courses/" + courseId),
                   Some("Start Learning"), true, now)
  }

  // ---------------------------------------------------------------- the shared steps

  /**
   * The checks both payment routes make before touching a gateway: 404 for a missing
   * course, a fault for a missing user, a fault for a null course reference met before a
   * match (this scan has no null guard), and 400 when the caller is already enrolled.
   */
  function Precheck(users: map<Id, User>, courses: map<Id, Course>, caller: Caller, courseId: Id): (r: Result<Unit>)
    ensures r.Ok? ==> courseId in courses && caller.id in users && !EnrolledIn(users[caller.id], courseId)
  {
    if courseId !in courses then Fail(ErrorResponse("Course not found with id of " + courseId, 404))
    else if caller.id !in users then Fail(Crash(NullUserFault))
    else match FindRef(EnrollmentRefs(users[caller.id].enrolledCourses), courseId)
      case NullRef => Fail(Crash(NullRefFault))
      case Found(_) => Fail(ErrorResponse("Already enrolled in course " + courseId, 400))
      case Missing => Ok(Unit)
  }

  /** Inside the Stripe route's `try`, a thrown error becomes 400 `Payment failed: <message>`; PayPal has no `try`. */
  function Wrapped(e: Error, wrap: bool): Error
  {
    if wrap then ErrorResponse("Payment failed: " + e.message, 400) else e
  }

  /** The collections an enrollment by payment writes, after it, with its result. */
  datatype Fulfilment = Fulfilment(result: Result<Unit>, users: map<Id, User>, courses: map<Id, Course>,
                                   notes: map<Id, N.Notification>)

  /** The course and notification collections after the counter update and the notice, with the result. */
  datatype Counted = Counted(result: Result<Unit>, courses: map<Id, Course>, notes: map<Id, N.Notification>)

  /**
   * Bump and save the course, then create the notification; a failing step stops with
   * the earlier writes in place.
   */
  function CountAndNotify(courses: map<Id, Course>, notes: map<Id, N.Notification>, caller: Caller, courseId: Id,
                          noteId: Id, now: Time, wrap: bool): Counted
    requires courseId in courses
  {
    var course := courses[courseId];
    var saved := SaveOutcome(courses, courseId, Bumped(course), now);
    if saved.Fail? then Counted(Fail(Wrapped(saved.error, wrap)), courses, notes)
    else if noteId in notes then Counted(Fail(Wrapped(DuplicateKey(), wrap)), courses[courseId := saved.value], notes)
    else
      Counted(Ok(Unit), courses[courseId := saved.value],
              notes[noteId := EnrollmentNotice(caller.id, courseId, course.title, now)])
  }

  /**
   * The enrollment after a completed payment: push the entry and save the user, then
   * count the enrollment and notify the caller.
   */
  function Fulfil(users: map<Id, User>, courses: map<Id, Course>, notes: map<Id, N.Notification>,
                  caller: Caller, courseId: Id, noteId: Id, now: Time, wrap: bool): Fulfilment
    requires courseId in courses && caller.id in users
  {
    var counted := CountAndNotify(courses, notes, caller, courseId, noteId, now, wrap);
    Fulfilment(counted.result, users[caller.id := WithEnrollment(users[caller.id], courseId, now)], counted.courses,
               counted.notes)
  }

  /**
   * The common tail: record the payment; only a completed one goes on to the
   * enrollment. A failure after the payment is recorded leaves the payment in place.
   */
  function Settle(users: map<Id, User>, courses: map<Id, Course>, payments: map<Id, Payment>,
                  notes: map<Id, N.Notification>, caller: Caller, courseId: Id, p: Payment,
                  paymentDocId: Id, noteId: Id, now: Time, wrap: bool): (o: PaymentOutcome)
    requires courseId in courses && caller.id in users
    ensures paymentDocId in payments ==> o.result.Fail? && o.payments == payments
    ensures paymentDocId !in payments ==> o.payments == payments[paymentDocId := p]
  {
    if paymentDocId in payments then PaymentOutcome(Fail(Wrapped(DuplicateKey(), wrap)), users, courses, payments, notes)
    else
      var payments' := payments[paymentDocId := p];
      var receipt := Receipt(paymentDocId, p.status);
      if p.status == Pending then PaymentOutcome(Ok(receipt), users, courses, payments', notes)
      else
        var f := Fulfil(users, courses, notes, caller, courseId, noteId, now, wrap);
        PaymentOutcome(if f.result.Ok? then Ok(receipt) else Fail(f.result.error), f.users, f.courses, payments', f.notes)
  }

  // ---------------------------------------------------------------- processStripePayment

  /** The gateway's reply to creating a confirmed payment intent, or the message it throws. */
  datatype GatewayReply = Intent(id: string, status: string) | GatewayError(message: string)

  /** The environment the route runs in: test mode, and whether a gateway key is configured. */
  datatype StripeSetup = StripeSetup(testMode: bool, configured: bool)

  const TestPaymentId := "test_payment_id"

  /** The status and payment id decided from the setup and the gateway; `None` when Stripe is not configured. */
  function Decide(setup: StripeSetup, gateway: GatewayReply): Option<Result<(PaymentStatus, string)>>
  {
    if setup.testMode then Some(Ok((Completed, TestPaymentId)))
    else if !setup.configured then None
    else match gateway
      case GatewayError(m) => Some(Fail(ErrorResponse("Payment failed: " + m, 400)))
      case Intent(id, status) => Some(Ok((if status == "succeeded" then Completed else Pending, id)))
  }

  function StripeSpec(users: map<Id, User>, courses: map<Id, Course>, payments: map<Id, Payment>,
                      notes: map<Id, N.Notification>, caller: Caller, courseId: Id, setup: StripeSetup,
                      gateway: GatewayReply, paymentDocId: Id, noteId: Id, now: Time): (o: PaymentOutcome)
    ensures Precheck(users, courses, caller, courseId).Fail? ==>
      o == PaymentOutcome(Fail(Precheck(users, courses, caller, courseId).error), users, courses, payments, notes)
    ensures o.result.Ok? ==> o.payments != payments
    ensures o.payments != payments ==>
      && Precheck(users, courses, caller, courseId).Ok? && paymentDocId !in payments && paymentDocId in o.payments
      && o.payments == payments[paymentDocId := o.payments[paymentDocId]]
      && o.payments[paymentDocId].user == caller.id && o.payments[paymentDocId].course == courseId
      && o.payments[paymentDocId].amount == courses[courseId].price
      && o.payments[paymentDocId].paymentMethod == CreditCard
  {
    match Precheck(users, courses, caller, courseId)
    case Fail(e) => PaymentOutcome(Fail(e), users, courses, payments, notes)
    case Ok(_) =>
      match Decide(setup, gateway)
      case None => PaymentOutcome(Fail(ErrorResponse("Stripe payments are not configured", 501)), users, courses, payments, notes)
      case Some(Fail(e)) => PaymentOutcome(Fail(e), users, courses, payments, notes)
      case Some(Ok((status, intentId))) =>
        var p := Payment(caller.id, courseId, courses[courseId].price, CreditCard, intentId, status, IntentRef(intentId), now);
        Settle(users, courses, payments, notes, caller, courseId, p, paymentDocId, noteId, now, true)
  }

  /**
   * A missing course, a missing or already enrolled caller, and a null reference all
   * stop the request before the gateway: the reply does not depend on the setup or the
   * gateway, and nothing is written.
   */
  lemma StripeChecksBeforeGateway(users: map<Id, User>, courses: map<Id, Course>, payments: map<Id, Payment>,
                                  notes: map<Id, N.Notification>, caller: Caller, courseId: Id,
                                  setup: StripeSetup, gateway: GatewayReply, setup': StripeSetup, gateway': GatewayReply,
                                  paymentDocId: Id, noteId: Id, now: Time)
    requires Precheck(users, courses, caller, courseId).Fail?
    ensures var o := StripeSpec(users, courses, payments, notes, caller, courseId, setup, gateway, paymentDocId, noteId, now);
      && o == StripeSpec(users, courses, payments, notes, caller, courseId, setup', gateway', paymentDocId, noteId, now)
      && o == PaymentOutcome(o.result, users, courses, payments, notes)
      && (courseId !in courses ==> o.result.error.statusCode == Some(404))
      && (courseId in courses && caller.id in users && EnrolledIn(users[caller.id], courseId)
          && (forall j :: 0 <= j < |users[caller.id].enrolledCourses| ==> users[caller.id].enrolledCourses[j].course.Some?)
          ==> o.result == Fail(ErrorResponse("Already enrolled in course " + courseId, 400)))
  {
    if courseId in courses && caller.id in users
       && forall j :: 0 <= j < |users[caller.id].enrolledCourses| ==> users[caller.id].enrolledCourses[j].course.Some? {
      FindRefWithoutNullsIfTotal(users[caller.id], courseId);
    }
  }

  lemma FindRefWithoutNullsIfTotal(u: User, courseId: Id)
    requires forall j :: 0 <= j < |u.enrolledCourses| ==> u.enrolledCourses[j].course.Some?
    ensures EnrolledIn(u, courseId) ==> FindRef(EnrollmentRefs(u.enrolledCourses), courseId).Found?
  {
    FindRefWithoutNulls(EnrollmentRefs(u.enrolledCourses), courseId);
  }

  /**
   * How the status is decided: in test mode completed with the fixed test id; otherwise
   * 501 with no gateway key, 400 `Payment failed: ...` when the gateway throws, and
   * completed exactly when the intent reports `succeeded`.
   */
  lemma StripeStatus(users: map<Id, User>, courses: map<Id, Course>, payments: map<Id, Payment>,
                     notes: map<Id, N.Notification>, caller: Caller, courseId: Id, setup: StripeSetup,
                     gateway: GatewayReply, paymentDocId: Id, noteId: Id, now: Time)
    requires Precheck(users, courses, caller, courseId).Ok? && paymentDocId !in payments
    ensures var o := StripeSpec(users, courses, payments, notes, caller, courseId, setup, gateway, paymentDocId, noteId, now);
      && (setup.testMode ==> paymentDocId in o.payments && o.payments[paymentDocId].status == Completed
                             && o.payments[paymentDocId].paymentId == TestPaymentId)
      && (!setup.testMode && !setup.configured ==>
            o == PaymentOutcome(Fail(ErrorResponse("Stripe payments are not configured", 501)), users, courses, payments, notes))
      && (!setup.testMode && setup.configured && gateway.GatewayError? ==>
            o == PaymentOutcome(Fail(ErrorResponse("Payment failed: " + gateway.message, 400)), users, courses, payments, notes))
      && (!setup.testMode && setup.configured && gateway.Intent? ==>
            && paymentDocId in o.payments
            && o.payments[paymentDocId].paymentId == gateway.id
            && (o.payments[paymentDocId].status == Completed <==> gateway.status == "succeeded"))
  {
  }

  /**
   * The enrollment always pushes the caller's entry; when it goes through, the course's
   * counter is up by exactly one and exactly one payment notification is sent.
   */
  lemma FulfilEffect(users: map<Id, User>, courses: map<Id, Course>, notes: map<Id, N.Notification>,
                     caller: Caller, courseId: Id, noteId: Id, now: Time, wrap: bool)
    requires courseId in courses && caller.id in users
    ensures var f := Fulfil(users, courses, notes, caller, courseId, noteId, now, wrap);
      && f.users == users[caller.id := WithEnrollment(users[caller.id], courseId, now)]
      && (f.result.Ok? ==>
            && f.courses.Keys == courses.Keys
            && f.courses[courseId].totalEnrollments == courses[courseId].totalEnrollments + 1.0
            && noteId !in notes
            && f.notes == notes[noteId := EnrollmentNotice(caller.id, courseId, courses[courseId].title, now)])
  {
    CountEffect(courses, notes, caller, courseId, noteId, now, wrap);
  }

  lemma {:induction false} CountEffect(courses: map<Id, Course>, notes: map<Id, N.Notification>, caller: Caller,
                                       courseId: Id, noteId: Id, now: Time, wrap: bool)
    requires courseId in courses
    ensures var c := CountAndNotify(courses, notes, caller, courseId, noteId, now, wrap);
      c.result.Ok? ==>
        && c.courses.Keys == courses.Keys
        && c.courses[courseId].totalEnrollments == courses[courseId].totalEnrollments + 1.0
        && noteId !in notes
        && c.notes == notes[noteId := EnrollmentNotice(caller.id, courseId, courses[courseId].title, now)]
  {
    var course := courses[courseId];
    var saved := SaveOutcome(courses, courseId, Bumped(course), now);
    if saved.Ok? {
      SavedFields(courses, courseId, Bumped(course), now);
      ReplaceKeepsKeys(courses, courseId, saved.value);
    }
  }

  /**
   * The payment is recorded whatever its status. A pending payment writes nothing else;
   * a completed one goes on to the enrollment and reports the receipt when that succeeds.
   */
  lemma SettleEffect(users: map<Id, User>, courses: map<Id, Course>, payments: map<Id, Payment>,
                     notes: map<Id, N.Notification>, caller: Caller, courseId: Id, p: Payment,
                     paymentDocId: Id, noteId: Id, now: Time, wrap: bool)
    requires courseId in courses && caller.id in users && paymentDocId !in payments
    ensures var o := Settle(users, courses, payments, notes, caller, courseId, p, paymentDocId, noteId, now, wrap);
      && o.payments == payments[paymentDocId := p]
      && (p.status == Pending ==> o == PaymentOutcome(Ok(Receipt(paymentDocId, Pending)), users, courses, o.payments, notes))
      && (p.status == Completed ==>
            var f := Fulfil(users, courses, notes, caller, courseId, noteId, now, wrap);
            && o.users == f.users && o.courses == f.courses && o.notifications == f.notes
            && (o.result.Ok? <==> f.result.Ok?)
            && (o.result.Ok? ==> o.result.value == Receipt(paymentDocId, Completed)))
  {
    var payments' := payments[paymentDocId := p];
    if p.status == Pending {
      assert Settle(users, courses, payments, notes, caller, courseId, p, paymentDocId, noteId, now, wrap)
             == PaymentOutcome(Ok(Receipt(paymentDocId, Pending)), users, courses, payments', notes);
    } else {
      var f := Fulfil(users, courses, notes, caller, courseId, noteId, now, wrap);
      assert Settle(users, courses, payments, notes, caller, courseId, p, paymentDocId, noteId, now, wrap)
             == PaymentOutcome(if f.result.Ok? then Ok(Receipt(paymentDocId, p.status)) else Fail(f.result.error),
                               f.users, f.courses, payments', f.notes);
    }
  }

  /**
   * On a valid course collection, with fresh ids, a completed payment always goes
   * through: the collection stays valid and the caller is enrolled.
   */
  lemma CompletedPaymentEnrolls(users: map<Id, User>, courses: map<Id, Course>, payments: map<Id, Payment>,
                                notes: map<Id, N.Notification>, caller: Caller, courseId: Id, p: Payment,
                                paymentDocId: Id, noteId: Id, now: Time, wrap: bool)
    requires StoreValid(courses) && Precheck(users, courses, caller, courseId).Ok?
    requires paymentDocId !in payments && noteId !in notes && p.status == Completed
    ensures var o := Settle(users, courses, payments, notes, caller, courseId, p, paymentDocId, noteId, now, wrap);
      && o.result == Ok(Receipt(paymentDocId, Completed))
      && StoreValid(o.courses)
      && EnrolledIn(o.users[caller.id], courseId)
  {
    CountSucceeds(courses, notes, caller, courseId, noteId, now, wrap);
    SettleEffect(users, courses, payments, notes, caller, courseId, p, paymentDocId, noteId, now, wrap);
    WithEnrollmentEnrolls(users[caller.id], courseId, now);
  }

  /** On a valid collection, with a fresh notification id, counting the enrollment succeeds and keeps the collection valid. */
  lemma CountSucceeds(courses: map<Id, Course>, notes: map<Id, N.Notification>, caller: Caller, courseId: Id,
                      noteId: Id, now: Time, wrap: bool)
    requires StoreValid(courses) && courseId in courses && noteId !in notes
    ensures var c := CountAndNotify(courses, notes, caller, courseId, noteId, now, wrap);
      c.result == Ok(Unit) && StoreValid(c.courses)
  {
    BumpSaves(courses, courseId, now);
  }

  /** `processStripePayment` on the stores. */
  method ProcessStripePayment(users: UserStore, courses: CourseStore, payments: PaymentStore, notes: N.NotificationStore,
                              caller: Caller, courseId: Id, setup: StripeSetup, gateway: GatewayReply,
                              paymentDocId: Id, noteId: Id, now: Time)
    returns (r: Result<Receipt>)
    modifies users, courses, payments, notes
    ensures StripeSpec(old(users.docs), old(courses.docs), old(payments.docs), old(notes.docs), caller, courseId,
                       setup, gateway, paymentDocId, noteId, now)
            == PaymentOutcome(r, users.docs, courses.docs, payments.docs, notes.docs)
  {
    var pre := Precheck(users.docs, courses.docs, caller, courseId);
    if pre.Fail? {
      return Fail(pre.error);
    }
    var decided := Decide(setup, gateway);
    if decided.None? {
      return Fail(ErrorResponse("Stripe payments are not configured", 501));
    }
    if decided.value.Fail? {
      return Fail(decided.value.error);
    }
    var (status, intentId) := decided.value.value;
    var p := Payment(caller.id, courseId, courses.docs[courseId].price, CreditCard, intentId, status, IntentRef(intentId), now);
    r := SettleOnStores(users, courses, payments, notes, caller, courseId, p, paymentDocId, noteId, now, true);
  }

  /** The common tail on the stores. */
  method SettleOnStores(users: UserStore, courses: CourseStore, payments: PaymentStore, notes: N.NotificationStore,
                        caller: Caller, courseId: Id, p: Payment, paymentDocId: Id, noteId: Id, now: Time, wrap: bool)
    returns (r: Result<Receipt>)
    requires courseId in courses.docs && caller.id in users.docs
    modifies users, courses, payments, notes
    ensures Settle(old(users.docs), old(courses.docs), old(payments.docs), old(notes.docs), caller, courseId, p,
                   paymentDocId, noteId, now, wrap)
            == PaymentOutcome(r, users.docs, courses.docs, payments.docs, notes.docs)
  {
    var created := payments.Insert(paymentDocId, p);
    if created.Fail? {
      return Fail(Wrapped(created.error, wrap));
    }
    var receipt := Receipt(paymentDocId, p.status);
    if p.status == Pending {
      return Ok(receipt);
    }
    var done := FulfilOnStores(users, courses, notes, caller, courseId, noteId, now, wrap);
    r := if done.Ok? then Ok(receipt) else Fail(done.error);
  }

  /** The enrollment after a completed payment, on the stores. */
  method FulfilOnStores(users: UserStore, courses: CourseStore, notes: N.NotificationStore,
                        caller: Caller, courseId: Id, noteId: Id, now: Time, wrap: bool)
    returns (r: Result<Unit>)
    requires courseId in courses.docs && caller.id in users.docs
    modifies users, courses, notes
    ensures Fulfil(old(users.docs), old(courses.docs), old(notes.docs), caller, courseId, noteId, now, wrap)
            == Fulfilment(r, users.docs, courses.docs, notes.docs)
  {
    users.Put(caller.id, WithEnrollment(users.docs[caller.id], courseId, now));
    r := CountOnStores(courses, notes, caller, courseId, noteId, now, wrap);
  }

  /** The counter bumped and saved, then the notification created, on the stores. */
  method CountOnStores(courses: CourseStore, notes: N.NotificationStore, caller: Caller, courseId: Id, noteId: Id,
                       now: Time, wrap: bool)
    returns (r: Result<Unit>)
    requires courseId in courses.docs
    modifies courses, notes
    ensures CountAndNotify(old(courses.docs), old(notes.docs), caller, courseId, noteId, now, wrap)
            == Counted(r, courses.docs, notes.docs)
  {
    var course := courses.docs[courseId];
    var saved := courses.Save(courseId, Bumped(course), now);
    if saved.Fail? {
      return Fail(Wrapped(saved.error, wrap));
    }
    var sent := notes.Insert(noteId, EnrollmentNotice(caller.id, courseId, course.title, now));
    r := if sent.Ok? then Ok(Unit) else Fail(Wrapped(sent.error, wrap));
  }

  // ---------------------------------------------------------------- processPayPalPayment

  /** `processPayPalPayment`: the same checks, then a completed payment is recorded unconditionally. */
  function PayPalSpec(users: map<Id, User>, courses: map<Id, Course>, payments: map<Id, Payment>,
                      notes: map<Id, N.Notification>, caller: Caller, courseId: Id, orderId: string,
                      paymentDocId: Id, noteId: Id, now: Time): (o: PaymentOutcome)
    ensures Precheck(users, courses, caller, courseId).Fail? ==>
      o == PaymentOutcome(Fail(Precheck(users, courses, caller, courseId).error), users, courses, payments, notes)
    ensures o.result.Ok? ==> o.payments != payments
    ensures o.payments != payments ==>
      && Precheck(users, courses, caller, courseId).Ok? && paymentDocId !in payments && paymentDocId in o.payments
      && o.payments == payments[paymentDocId := o.payments[paymentDocId]]
      && o.payments[paymentDocId].user == caller.id && o.payments[paymentDocId].course == courseId
      && o.payments[paymentDocId].amount == courses[courseId].price
      && o.payments[paymentDocId].paymentMethod == PayPal && o.payments[paymentDocId].paymentId == orderId
      && o.payments[paymentDocId].status == Completed
  {
    match Precheck(users, courses, caller, courseId)
    case Fail(e) => PaymentOutcome(Fail(e), users, courses, payments, notes)
    case Ok(_) =>
      var p := Payment(caller.id, courseId, courses[courseId].price, PayPal, orderId, Completed, OrderRef(orderId), now);
      Settle(users, courses, payments, notes, caller, courseId, p, paymentDocId, noteId, now, false)
  }

  /**
   * Past the checks, a PayPal payment is always recorded as completed with the order id,
   * and the caller is always enrolled, whatever the order id says.
   */
  lemma PayPalAlwaysCompletes(users: map<Id, User>, courses: map<Id, Course>, payments: map<Id, Payment>,
                              notes: map<Id, N.Notification>, caller: Caller, courseId: Id, orderId: string,
                              paymentDocId: Id, noteId: Id, now: Time)
    requires Precheck(users, courses, caller, courseId).Ok? && paymentDocId !in payments
    ensures var o := PayPalSpec(users, courses, payments, notes, caller, courseId, orderId, paymentDocId, noteId, now);
      && paymentDocId in o.payments
      && o.payments[paymentDocId].status == Completed
      && o.payments[paymentDocId].paymentId == orderId
      && o.payments[paymentDocId].transactionDetails == OrderRef(orderId)
      && o.users == users[caller.id := WithEnrollment(users[caller.id], courseId, now)]
  {
    var p := Payment(caller.id, courseId, courses[courseId].price, PayPal, orderId, Completed, OrderRef(orderId), now);
    SettleEffect(users, courses, payments, notes, caller, courseId, p, paymentDocId, noteId, now, false);
    FulfilEffect(users, courses, notes, caller, courseId, noteId, now, false);
  }

  /** `processPayPalPayment` on the stores. */
  method ProcessPayPalPayment(users: UserStore, courses: CourseStore, payments: PaymentStore, notes: N.NotificationStore,
                              caller: Caller, courseId: Id, orderId: string, paymentDocId: Id, noteId: Id, now: Time)
    returns (r: Result<Receipt>)
    modifies users, courses, payments, notes
    ensures PayPalSpec(old(users.docs), old(courses.docs), old(payments.docs), old(notes.docs), caller, courseId,
                       orderId, paymentDocId, noteId, now)
            == PaymentOutcome(r, users.docs, courses.docs, payments.docs, notes.docs)
  {
    var pre := Precheck(users.docs, courses.docs, caller, courseId);
    if pre.Fail? {
      return Fail(pre.error);
    }
    var p := Payment(caller.id, courseId, courses.docs[courseId].price, PayPal, orderId, Completed, OrderRef(orderId), now);
    r := SettleOnStores(users, courses, payments, notes, caller, courseId, p, paymentDocId, noteId, now, false);
  }

  // ---------------------------------------------------------------- the missing null guard

  /**
   * An enrollment whose course reference is null: `enrollCourse` skips it and enrolls,
   * while the payment routes fault on it.
   */
  lemma NullEntryDivergence(u: User, caller: Caller, courseId: Id, courses: map<Id, Course>, now: Time)
    requires courseId in courses && u.enrolledCourses == [Enrollment(None, 0, 0, false, [])]
    ensures var users := map[caller.id := u];
      && EnrollSpec(users, courses, caller, courseId, now).users[caller.id].enrolledCourses
         == u.enrolledCourses + [NewEnrollment(courseId, now)]
      && Precheck(users, courses, caller, courseId) == Fail(Crash(NullRefFault))
  {
    var users := map[caller.id := u];
    assert EnrollmentRefs(u.enrolledCourses) == [None];
    assert !EnrolledIn(u, courseId);
  }

  // ---------------------------------------------------------------- getPaymentDetails

  /**
   * `getPaymentDetails`: 404 when missing; reading the populated user's id faults when
   * the paying user no longer exists; 403 unless the caller paid or is an admin.
   */
  function PaymentDetails(payments: map<Id, Payment>, users: map<Id, User>, caller: Caller, id: Id): (r: Result<Payment>)
    ensures r.Ok? <==> id in payments && payments[id].user in users
                       && (payments[id].user == caller.id || caller.role == AdminRole)
    ensures r.Ok? ==> r.value == payments[id]
    ensures id !in payments ==> r == Fail(ErrorResponse("Payment not found with id of " + id, 404))
    ensures id in payments && payments[id].user in users && r.Fail? ==>
              r == Fail(ErrorResponse("Not authorized to access this payment", 403))
  {
    if id !in payments then Fail(ErrorResponse("Payment not found with id of " + id, 404))
    else if payments[id].user !in users then Fail(Crash("Cannot read properties of null (reading '_id')"))
    else if payments[id].user != caller.id && caller.role != AdminRole then
      Fail(ErrorResponse("Not authorized to access this payment", 403))
    else Ok(payments[id])
  }
}

=== FILE: text.dfy ===
/**
 * String helpers with JavaScript meaning: the `\w` character class, case mapping, UTF-16
 * length, `trim`, `split` on one character, decimal printing and `parseInt(s, 10)`.
 */
module Text {
  import opened Common

  predicate IsDigit(c: char) { '0' <= c <= '9' }
  predicate IsUpper(c: char) { 'A' <= c <= 'Z' }
  predicate IsLower(c: char) { 'a' <= c <= 'z' }

  /** The regular-expression class `\w`: `[A-Za-z0-9_]`. */
  predicate IsWordChar(c: char) { IsDigit(c) || IsUpper(c) || IsLower(c) || c == '_' }

  /**
   * The characters `trim` and `parseInt` skip: the ECMAScript WhiteSpace (TAB, VT, FF, SP,
   * NBSP, ZWNBSP and the Unicode space separators) and LineTerminator (LF, CR, LS, PS) sets.
   */
  predicate IsSpace(c: char) {
    c == ' ' || c == '\t' || c == '\n' || c == '\r' || c == '\U{000B}' || c == '\U{000C}'
    || c == '\U{00A0}' || c == '\U{1680}' || ('\U{2000}' <= c <= '\U{200A}') || c == '\U{202F}'
    || c == '\U{205F}' || c == '\U{3000}' || c == '\U{2028}' || c == '\U{2029}' || c == '\U{FEFF}'
  }

  function Lower(c: char): (d: char)
    ensures IsWordChar(c) <==> IsWordChar(d)
    ensures !IsUpper(d)
    ensures IsUpper(c) || d == c
  {
    if IsUpper(c) then (c as int + 32) as char else c
  }

  /**
   * `toLowerCase()` of one character, as far as its result can hold an ASCII character: the
   * ASCII capitals, KELVIN SIGN (to `k`) and LATIN CAPITAL LETTER I WITH DOT ABOVE (to `i`
   * and COMBINING DOT ABOVE). Every other character is kept as it is.
   */
  function LowerOf(c: char): (r: string)
    ensures |r| >= 1 && forall d :: d in r ==> !IsUpper(d)
    ensures c as int < 128 ==> r == [Lower(c)]
  {
    if c == '\U{212A}' then "k"
    else if c == '\U{0130}' then "i\U{0307}"
    else [Lower(c)]
  }

  /** `toLowerCase()`: each character's lower case, in order. */
  function ToLower(s: string): (r: string)
    ensures |r| >= |s|
    ensures forall c :: c in r ==> !IsUpper(c)
    ensures (forall i :: 0 <= i < |s| ==> s[i] as int < 128) ==> |r| == |s| && forall i :: 0 <= i < |s| ==> r[i] == Lower(s[i])
  {
    if s == [] then [] else LowerOf(s[0]) + ToLower(s[1..])
  }

  /**
   * `s.length`: the number of UTF-16 code units, which counts a character beyond U+FFFF
   * (an emoji, say) twice. Mongoose's `minlength` and `maxlength` compare this number.
   */
  function Utf16Length(s: string): (n: nat)
    ensures |s| <= n <= 2 * |s|
    ensures (forall i :: 0 <= i < |s| ==> s[i] <= '\U{FFFF}') ==> n == |s|
    ensures (forall i :: 0 <= i < |s| ==> s[i] > '\U{FFFF}') ==> n == 2 * |s|
  {
    if s == [] then 0 else (if s[0] > '\U{FFFF}' then 2 else 1) + Utf16Length(s[1..])
  }

  function TrimStart(s: string): (r: string)
    ensures |r| <= |s| && r == s[|s| - |r|..]
    ensures r == [] || !IsSpace(r[0])
  {
    if s != [] && IsSpace(s[0]) then TrimStart(s[1..]) else s
  }

  function TrimEnd(s: string): (r: string)
    ensures |r| <= |s| && r == s[..|r|]
    ensures r == [] || !IsSpace(r[|r| - 1])
  {
    if s != [] && IsSpace(s[|s| - 1]) then TrimEnd(s[..|s| - 1]) else s
  }

  /** `String.prototype.trim`: the result is a slice of `s` with no surrounding whitespace. */
  function Trim(s: string): (r: string)
    ensures |r| <= |TrimStart(s)| <= |s|
    ensures r == s[|s| - |TrimStart(s)|..|s| - |TrimStart(s)| + |r|]
    ensures r == [] || (!IsSpace(r[0]) && !IsSpace(r[|r| - 1]))
  {
    var t := TrimStart(s);
    var r := TrimEnd(t);
    assert r == t[..|r|];
    SliceOfSuffix(s, |s| - |t|, |r|);
    r
  }

  /** Text with no whitespace at either end is its own trim; in particular trimming twice is trimming once. */
  lemma TrimKeeps(s: string)
    requires s == [] || (!IsSpace(s[0]) && !IsSpace(s[|s| - 1]))
    ensures Trim(s) == s && Trim(Trim(s)) == Trim(s)
  {
    assert TrimStart(s) == s;
    assert TrimEnd(s) == s;
  }

  lemma {:induction false} SliceOfSuffix(s: string, a: nat, k: nat)
    requires a + k <= |s|
    ensures s[a..][..k] == s[a..a + k]
  {
  }

  predicate StartsWith(s: string, prefix: string) {
    |prefix| <= |s| && s[..|prefix|] == prefix
  }

  /** `s.includes(sub)`. */
  predicate Contains(s: string, sub: string) {
    StartsWith(s, sub) || (s != [] && Contains(s[1..], sub))
  }

  function IndexOf(s: string, c: char): (i: nat)
    requires c in s
    ensures i < |s| && s[i] == c && c !in s[..i]
  {
    if s[0] == c then 0 else 1 + IndexOf(s[1..], c)
  }

  /** `s.split(sep)` for a one-character separator: the pieces between separators, empty ones included. */
  function Split(s: string, sep: char): (parts: seq<string>)
    ensures |parts| >= 1
    ensures forall k :: 0 <= k < |parts| ==> sep !in parts[k]
    decreases |s|
  {
    if sep !in s then [s]
    else
      var i := IndexOf(s, sep);
      [s[..i]] + Split(s[i + 1..], sep)
  }

  /** `parts.join(sep)`, the inverse of `Split`. */
  function Join(parts: seq<string>, sep: char): string
  {
    if |parts| <= 1 then (if parts == [] then "" else parts[0])
    else parts[0] + [sep] + Join(parts[1..], sep)
  }

  /** Joining the pieces of a split gives the original text back. */
  lemma {:induction false} JoinSplit(s: string, sep: char)
    ensures Join(Split(s, sep), sep) == s
    decreases |s|
  {
    if sep in s {
      var i := IndexOf(s, sep);
      var rest := Split(s[i + 1..], sep);
      JoinSplit(s[i + 1..], sep);
      var parts := [s[..i]] + rest;
      assert Split(s, sep) == parts;
      assert |parts| > 1 && parts[0] == s[..i] && parts[1..] == rest;
      assert Join(parts, sep) == s[..i] + [sep] + s[i + 1..];
      assert s == s[..i] + [sep] + s[i + 1..];
    }
  }

  /** Splitting a join of separator-free pieces gives the pieces back. */
  lemma {:induction false} SplitJoin(parts: seq<string>, sep: char)
    requires |parts| >= 1
    requires forall k :: 0 <= k < |parts| ==> sep !in parts[k]
    ensures Split(Join(parts, sep), sep) == parts
    decreases |parts|
  {
    if |parts| > 1 {
      var s := Join(parts, sep);
      var tail := Join(parts[1..], sep);
      assert s == parts[0] + [sep] + tail;
      assert s[|parts[0]|] == sep;
      assert s[..|parts[0]|] == parts[0];
      assert sep in s;
      var i := IndexOf(s, sep);
      assert forall j :: 0 <= j < |parts[0]| ==> s[j] == parts[0][j] != sep;
      assert forall j :: 0 <= j < i ==> s[..i][j] == s[j];
      assert i == |parts[0]|;
      assert s[i + 1..] == tail;
      SplitJoin(parts[1..], sep);
    }
  }

  function DigitChar(d: nat): (c: char)
    requires d < 10
    ensures IsDigit(c)
  {
    ('0' as int + d) as char
  }

  function DigitValue(c: char): nat
    requires IsDigit(c)
  {
    c as int - '0' as int
  }

  predicate AllDigits(s: string) { forall i :: 0 <= i < |s| ==> IsDigit(s[i]) }

  /** `String(n)` for a natural number: its decimal digits without leading zeros. */
  function NatToString(n: nat): (s: string)
    ensures |s| >= 1 && AllDigits(s)
    ensures n < 10 <==> |s| == 1
    decreases n
  {
    if n < 10 then [DigitChar(n)] else NatToString(n / 10) + [DigitChar(n % 10)]
  }

  /** The value of a string of decimal digits, most significant first. */
  function DigitsValue(s: string): nat
    requires AllDigits(s)
  {
    if s == [] then 0 else DigitsValue(s[..|s| - 1]) * 10 + DigitValue(s[|s| - 1])
  }

  lemma {:induction false} DigitsValueOfNatToString(n: nat)
    ensures DigitsValue(NatToString(n)) == n
    decreases n
  {
    if n >= 10 {
      var s := NatToString(n);
      assert s[..|s| - 1] == NatToString(n / 10);
      DigitsValueOfNatToString(n / 10);
    }
  }

  /** `n.toString().padStart(2, "0")` for a number below 100. */
  function Pad2(n: nat): (s: string)
    requires n < 100
    ensures |s| == 2 && AllDigits(s)
  {
    if n < 10 then "0" + NatToString(n) else NatToString(n)
  }

  lemma Pad2Value(n: nat)
    requires n < 100
    ensures DigitsValue(Pad2(n)) == n
  {
    DigitsValueOfNatToString(n);
    if n < 10 {
      var s := Pad2(n);
      assert s[..1] == "0";
    }
  }

  /** The length of the longest run of digits at the start of `s`. */
  function DigitRunLength(s: string): (n: nat)
    ensures n <= |s| && AllDigits(s[..n])
    ensures n == |s| || !IsDigit(s[n])
  {
    if s == [] || !IsDigit(s[0]) then 0
    else
      var k := DigitRunLength(s[1..]);
      assert s[..k + 1] == [s[0]] + s[1..][..k];
      k + 1
  }

  /**
   * `parseInt(s, 10)`: skip leading whitespace, read an optional sign and the longest run of
   * digits after it; no digit at all gives NaN, here `None`.
   */
  function ParseInt(s: string): (r: Option<int>)
  {
    var t := TrimStart(s);
    var negative := t != [] && t[0] == '-';
    var body := if t != [] && (t[0] == '-' || t[0] == '+') then t[1..] else t;
    var n := DigitRunLength(body);
    if n == 0 then None
    else if negative then Some(-(DigitsValue(body[..n]) as int))
    else Some(DigitsValue(body[..n]))
  }

  /** Text that opens with a letter is NaN to `parseInt`, as the word `undefined` is. */
  lemma ParseIntOfLetter(s: string)
    requires s != [] && 'a' <= s[0] <= 'z'
    ensures ParseInt(s) == None
  {
    assert !IsSpace(s[0]) && !IsDigit(s[0]);
    assert TrimStart(s) == s;
  }

  /** `parseInt(String(n), 10) == n`: the decimal text of a number parses back to it. */
  lemma {:induction false} ParseIntOfNatToString(n: nat)
    ensures ParseInt(NatToString(n)) == Some(n)
  {
    var s := NatToString(n);
    ParseIntOfDigits(s);
    DigitsValueOfNatToString(n);
  }

  /** A run of digits parses to its value. */
  lemma {:induction false} ParseIntOfDigits(s: string)
    requires s != [] && AllDigits(s)
    ensures ParseInt(s) == Some(DigitsValue(s))
  {
    assert IsDigit(s[0]);
    assert TrimStart(s) == s;
    AllDigitsRun(s);
    assert s[..|s|] == s;
  }

  lemma {:induction false} AllDigitsRun(s: string)
    requires AllDigits(s)
    ensures DigitRunLength(s) == |s|
  {
    if s != [] {
      AllDigitsRun(s[1..]);
    }
  }

  /** Text of a number given as a natural number and a sign, e.g. for messages. */
  function IntToString(i: int): string
  {
    if i < 0 then "-" + NatToString(-i) else NatToString(i)
  }

  /** Up to `n` decimal digits of a fraction `0 <= f < 1`, stopping once it is used up. */
  function FractionDigits(f: real, n: nat): (s: string)
    requires 0.0 <= f < 1.0
    ensures |s| <= n && AllDigits(s)
    decreases n
  {
    if f == 0.0 || n == 0 then ""
    else
      var d := (10.0 * f).Floor;
      [DigitChar(d)] + FractionDigits(10.0 * f - d as real, n - 1)
  }

  /**
   * `String(x)` for a number whose decimal expansion ends within 20 places: the integer
   * part, then a point and the digits of the fraction when there is one.
   */
  function NumberText(x: real): (s: string)
    ensures x == x.Floor as real ==> s == IntToString(x.Floor)
    ensures x != x.Floor as real ==> '.' in s
  {
    if x == x.Floor as real then IntToString(x.Floor)
    else if x < 0.0 then "-" + NatToString((-x).Floor) + "." + FractionDigits(-x - (-x).Floor as real, 20)
    else NatToString(x.Floor) + "." + FractionDigits(x - x.Floor as real, 20)
  }

  /** A number with one decimal prints as its whole part, a point and that decimal (`4.5` is "4.5"). */
  lemma NumberTextOfTenths(w: nat, d: nat)
    requires 0 < d < 10
    ensures NumberText(w as real + d as real / 10.0) == NatToString(w) + "." + [DigitChar(d)]
  {
    var f := d as real / 10.0;
    var x := w as real + f;
    TenthsSplit(w, d);
    PositiveNumberText(x);
    FractionOfTenth(d);
    calc {
      NumberText(x);
      NatToString(x.Floor) + "." + FractionDigits(x - x.Floor as real, 20);
      { assert x.Floor == w && x - x.Floor as real == f; }
      NatToString(w) + "." + FractionDigits(f, 20);
    }
  }

  /** `w + d/10` has whole part `w` and fraction `d/10`. */
  lemma TenthsSplit(w: nat, d: nat)
    requires 0 < d < 10
    ensures var x := w as real + d as real / 10.0;
      && x >= 0.0 && x.Floor == w && x != x.Floor as real && x - x.Floor as real == d as real / 10.0
  {
    var x := w as real + d as real / 10.0;
    FloorIs(x, w);
  }

  lemma PositiveNumberText(x: real)
    requires x >= 0.0 && x != x.Floor as real
    ensures NumberText(x) == NatToString(x.Floor) + "." + FractionDigits(x - x.Floor as real, 20)
  {
  }

  lemma FractionOfTenth(d: nat)
    requires 0 < d < 10
    ensures FractionDigits(d as real / 10.0, 20) == [DigitChar(d)]
  {
    var f := d as real / 10.0;
    assert 10.0 * f == d as real;
    FloorIs(10.0 * f, d);
    assert 10.0 * f - d as real == 0.0;
    assert FractionDigits(0.0, 19) == "";
  }

  lemma FloorIs(x: real, k: int)
    requires k as real <= x < k as real + 1.0
    ensures x.Floor == k
  {
  }
}

=== FILE: user_model.dfy ===
/**
 * The user document: its role enum, the enrollment, certificate and blacklisted-token
 * sub-records with their defaults, the field validators, the reset-token expiry, and
 * the user collection as a store keyed by id.
 */
module UserModel {
  import opened Common
  import opened Text
  import opened Errors

  datatype Role = UserRole | InstructorRole | AdminRole

  function RoleName(r: Role): string
  {
    match r
    case UserRole => "user"
    case InstructorRole => "instructor"
    case AdminRole => "admin"
  }

  /**
   * The `role` path on creation: absent gives the default `user`; a text outside the
   * enum is a validation failure.
   */
  function RoleField(input: Option<string>): (r: Result<Role>)
    ensures input.None? ==> r == Ok(UserRole)
    ensures input.Some? && r.Ok? ==> RoleName(r.value) == input.value
    ensures input.Some? && r.Fail? ==> r.error.name == "ValidationError"
                                       && forall role :: RoleName(role) != input.value
  {
    match input
    case None => Ok(UserRole)
    case Some(s) =>
      if s == "user" then Ok(UserRole)
      else if s == "instructor" then Ok(InstructorRole)
      else if s == "admin" then Ok(AdminRole)
      else Fail(ValidationFailure([FieldError("role", "`" + s + "` is not a valid enum value for path `role`.")]))
  }

  /** Every role's name is accepted back as that role. */
  lemma RoleFieldOfName(r: Role)
    ensures RoleField(Some(RoleName(r))) == Ok(r)
  {
  }

  /** The authenticated caller as the controllers see it: `req.user.id` and `req.user.role`. */
  datatype Caller = Caller(id: Id, role: Role)

  /** One entry of `enrolledCourses`; its course reference may be null. */
  datatype Enrollment = Enrollment(course: Option<Id>, enrolledAt: Time, progress: int, completed: bool,
                                   completedLessons: seq<Id>)

  /** The entry pushed on enrollment: progress 0, not completed, enrolled now, no completed lessons. */
  function NewEnrollment(courseId: Id, now: Time): Enrollment
  {
    Enrollment(Some(courseId), now, 0, false, [])
  }

  datatype Certificate = Certificate(course: Option<Id>, issuedAt: Time, certificateUrl: string)

  datatype BlacklistedToken = BlacklistedToken(token: string, createdAt: Time)

  /** `expires: 86400` on a blacklisted token's `createdAt`, in milliseconds. */
  const BlacklistTtlMs: int := 86400 * 1000

  /** `getResetPasswordToken`: ten minutes, in milliseconds. */
  const ResetTokenLifetimeMs: int := 10 * 60 * 1000

  datatype User = User(
    name: string,
    email: string,
    password: string,
    role: Role,
    profileImage: string,
    bio: string,
    enrolledCourses: seq<Enrollment>,
    wishlist: seq<Id>,
    certificates: seq<Certificate>,
    blacklistedTokens: seq<BlacklistedToken>,
    resetPasswordToken: Option<string>,
    resetPasswordExpire: Option<Time>,
    createdAt: Time)

  const DefaultProfileImage := "default-profile.jpg"

  /** The course references of a user's enrollments, in order. */
  function EnrollmentRefs(es: seq<Enrollment>): (refs: seq<Option<Id>>)
    ensures |refs| == |es| && forall i :: 0 <= i < |es| ==> refs[i] == es[i].course
  {
    seq(|es|, i requires 0 <= i < |es| => es[i].course)
  }

  /** The course references of a user's certificates, in order. */
  function CertificateRefs(cs: seq<Certificate>): (refs: seq<Option<Id>>)
    ensures |refs| == |cs| && forall i :: 0 <= i < |cs| ==> refs[i] == cs[i].course
  {
    seq(|cs|, i requires 0 <= i < |cs| => cs[i].course)
  }

  /**
   * The outcome of scanning references with `ref.toString() === id` and no null guard:
   * the first match, no match, or a fault on a null reference met before any match.
   */
  datatype Lookup = Found(index: nat) | Missing | NullRef

  function FindRef(refs: seq<Option<Id>>, id: Id): (r: Lookup)
    ensures r.Found? ==> r.index < |refs| && refs[r.index] == Some(id)
                         && forall j :: 0 <= j < r.index ==> refs[j].Some? && refs[j] != Some(id)
    ensures r.Missing? <==> forall j :: 0 <= j < |refs| ==> refs[j].Some? && refs[j] != Some(id)
    ensures r.NullRef? ==> exists k :: 0 <= k < |refs| && refs[k] == None
                                       && forall j :: 0 <= j < k ==> refs[j] != Some(id)
  {
    if refs == [] then Missing
    else if refs[0].None? then NullRef
    else if refs[0] == Some(id) then Found(0)
    else match FindRef(refs[1..], id)
      case Found(i) => Found(i + 1)
      case Missing => Missing
      case NullRef => NullRef
  }

  /** With no null reference the unguarded scan never faults, and it finds an entry exactly when one matches. */
  lemma {:induction false} FindRefWithoutNulls(refs: seq<Option<Id>>, id: Id)
    requires forall j :: 0 <= j < |refs| ==> refs[j].Some?
    ensures !FindRef(refs, id).NullRef?
    ensures FindRef(refs, id).Found? <==> Some(id) in refs
  {
    if refs != [] && refs[0] != Some(id) {
      FindRefWithoutNulls(refs[1..], id);
      assert refs == [refs[0]] + refs[1..];
    }
  }

  /** The guarded test `entry.course && entry.course.toString() === id`, over all entries. */
  predicate EnrolledIn(u: User, courseId: Id)
  {
    Some(courseId) in EnrollmentRefs(u.enrolledCourses)
  }

  predicate HasCertificateFor(u: User, courseId: Id)
  {
    Some(courseId) in CertificateRefs(u.certificates)
  }

  predicate NoDuplicates<T(==)>(s: seq<T>)
  {
    forall i, j :: 0 <= i < j < |s| ==> s[i] != s[j]
  }

  /** No two entries name the same (non-null) course. */
  predicate UniqueRefs(refs: seq<Option<Id>>)
  {
    forall i, j :: 0 <= i < j < |refs| && refs[i].Some? ==> refs[i] != refs[j]
  }

  /**
   * The consistency the enrollment engine maintains on a user: one enrollment per
   * course, duplicate-free completed lessons, `completed` exactly at progress 100, a
   * certificate for every completed course, and one certificate per course.
   */
  predicate WellFormed(u: User)
  {
    && UniqueRefs(EnrollmentRefs(u.enrolledCourses))
    && UniqueRefs(CertificateRefs(u.certificates))
    && (forall i :: 0 <= i < |u.enrolledCourses| ==> NoDuplicates(u.enrolledCourses[i].completedLessons))
    && (forall i :: 0 <= i < |u.enrolledCourses| ==>
          (u.enrolledCourses[i].completed <==> u.enrolledCourses[i].progress == 100))
    && (forall i :: (0 <= i < |u.enrolledCourses| && u.enrolledCourses[i].completed
                     && u.enrolledCourses[i].course.Some?) ==> HasCertificateFor(u, u.enrolledCourses[i].course.value))
  }

  /** Consistency depends only on the enrollments and the certificates. */
  lemma WellFormedFrame(u: User, v: User)
    requires WellFormed(u) && v.enrolledCourses == u.enrolledCourses && v.certificates == u.certificates
    ensures WellFormed(v)
  {
    assert EnrollmentRefs(v.enrolledCourses) == EnrollmentRefs(u.enrolledCourses);
    assert CertificateRefs(v.certificates) == CertificateRefs(u.certificates);
  }

  /** A token appears in the user's blacklist (`t.token === token` for some entry). */
  predicate IsBlacklisted(u: User, token: string)
  {
    exists i :: 0 <= i < |u.blacklistedTokens| && u.blacklistedTokens[i].token == token
  }

  /** The validators of `name`: required, at most 50 UTF-16 code units after trimming. */
  function NameViolations(name: string): (errs: seq<FieldError>)
    ensures errs == [] <==> Trim(name) != "" && Utf16Length(Trim(name)) <= 50
    ensures |errs| <= 1
  {
    var t := Trim(name);
    if t == "" then [FieldError("name", "Please provide a name")]
    else if Utf16Length(t) > 50 then [FieldError("name", "Name cannot be more than 50 characters")]
    else []
  }

  /** The validators of `email`: required, and the address pattern (an opaque predicate, passed in as its verdict). */
  function EmailViolations(email: string, matchesPattern: bool): (errs: seq<FieldError>)
    ensures errs == [] <==> email != "" && matchesPattern
    ensures |errs| <= 1
  {
    if email == "" then [FieldError("email", "Please provide an email")]
    else if !matchesPattern then [FieldError("email", "Please provide a valid email")]
    else []
  }

  /** The validators of `password`: required, at least 8 UTF-16 code units. */
  function PasswordViolations(password: string): (errs: seq<FieldError>)
    ensures errs == [] <==> Utf16Length(password) >= 8
    ensures errs != [] ==> errs[0].path == "password"
  {
    if password == "" then [FieldError("password", "Please provide a password")]
    else if Utf16Length(password) < 8 then [FieldError("password", "Password must be at least 8 characters")]
    else []
  }

  /** The validator of `bio`: at most 500 UTF-16 code units. */
  function BioViolations(bio: string): (errs: seq<FieldError>)
    ensures errs == [] <==> Utf16Length(bio) <= 500
  {
    if Utf16Length(bio) > 500 then [FieldError("bio", "Bio cannot be more than 500 characters")] else []
  }

  /** A name of 26 to 50 emoji is within 50 characters yet over 50 code units: it is refused. */
  lemma WideNameRefused(name: string)
    requires 25 < |name| <= 50 && forall i :: 0 <= i < |name| ==> name[i] > '\U{FFFF}'
    ensures NameViolations(name) == [FieldError("name", "Name cannot be more than 50 characters")]
  {
    WideIsNotSpace(name[0]);
    WideIsNotSpace(name[|name| - 1]);
    TrimKeeps(name);
  }

  lemma WideIsNotSpace(c: char)
    requires c > '\U{FFFF}'
    ensures !IsSpace(c)
  {
  }

  /** A password of four emoji is eight code units long: it passes the minimum length. */
  lemma WidePasswordAccepted(password: string)
    requires |password| == 4 && forall i :: 0 <= i < 4 ==> password[i] > '\U{FFFF}'
    ensures PasswordViolations(password) == []
  {
  }

  /**
   * `getResetPasswordToken`: stores the hashed token (its value comes from the hashing
   * oracle) and an expiry ten minutes after `now`; nothing else changes.
   */
  function WithResetToken(u: User, hashedToken: string, now: Time): (r: User)
    ensures r.resetPasswordToken == Some(hashedToken)
    ensures r.resetPasswordExpire.Some? && r.resetPasswordExpire.value - now == ResetTokenLifetimeMs
    ensures r.(resetPasswordToken := u.resetPasswordToken, resetPasswordExpire := u.resetPasswordExpire) == u
  {
    u.(resetPasswordToken := Some(hashedToken), resetPasswordExpire := Some(now + ResetTokenLifetimeMs))
  }

  /** A blacklist entry is due for expiry once 86400 s have passed since its creation. */
  predicate EntryExpired(b: BlacklistedToken, now: Time)
  {
    now >= b.createdAt + BlacklistTtlMs
  }

  /** The blacklist without its expired entries, order kept. */
  function LiveTokens(ts: seq<BlacklistedToken>, now: Time): (r: seq<BlacklistedToken>)
    ensures |r| <= |ts|
    ensures forall i :: 0 <= i < |r| ==> r[i] in ts && !EntryExpired(r[i], now)
    ensures forall b :: b in ts && !EntryExpired(b, now) ==> b in r
  {
    if ts == [] then []
    else (if EntryExpired(ts[0], now) then [] else [ts[0]]) + LiveTokens(ts[1..], now)
  }

  /**
   * The expiry sweep AS WRITTEN: `expires` on a date inside an array of sub-documents
   * puts a time-to-live index on the user collection itself, so the whole user document
   * is removed once its earliest blacklisted token is due.
   */
  function TtlSweepAsWritten(docs: map<Id, User>, now: Time): (r: map<Id, User>)
    ensures forall id :: id in r <==> id in docs && forall b :: b in docs[id].blacklistedTokens ==> !EntryExpired(b, now)
    ensures forall id :: id in r ==> r[id] == docs[id]
  {
    map id | id in docs && (forall b :: b in docs[id].blacklistedTokens ==> !EntryExpired(b, now)) :: docs[id]
  }

  /** The user with only the live blacklist entries kept. */
  function Swept(u: User, now: Time): (r: User)
    ensures r.blacklistedTokens == LiveTokens(u.blacklistedTokens, now)
    ensures r.(blacklistedTokens := u.blacklistedTokens) == u
  {
    u.(blacklistedTokens := LiveTokens(u.blacklistedTokens, now))
  }

  /** The intended sweep: only the expired blacklist entries go; every user stays. */
  function TokenSweep(docs: map<Id, User>, now: Time): (r: map<Id, User>)
    ensures r.Keys == docs.Keys
    ensures forall id :: id in r ==> r[id] == Swept(docs[id], now)
  {
    map id | id in docs :: Swept(docs[id], now)
  }

  /** The sweep touches nothing the engine's consistency or the email index depends on. */
  lemma TokenSweepKeepsValid(docs: map<Id, User>, now: Time)
    requires UniqueEmails(docs) && forall id :: id in docs ==> WellFormed(docs[id])
    ensures UniqueEmails(TokenSweep(docs, now))
    ensures forall id :: id in TokenSweep(docs, now) ==> WellFormed(TokenSweep(docs, now)[id])
  {
    var r := TokenSweep(docs, now);
    forall id | id in r ensures WellFormed(r[id]) {
      var u := docs[id];
      assert r[id].enrolledCourses == u.enrolledCourses && r[id].certificates == u.certificates;
      assert WellFormed(u);
      WellFormedFrame(u, r[id]);
    }
  }

  /** A user's emails are pairwise distinct across the collection (the unique index). */
  predicate UniqueEmails(docs: map<Id, User>)
  {
    forall a, b :: a in docs && b in docs && a != b ==> docs[a].email != docs[b].email
  }

  /** Some user other than `id` already has `email`. */
  predicate EmailTaken(docs: map<Id, User>, id: Id, email: string)
  {
    exists other :: other in docs && other != id && docs[other].email == email
  }

  /** Replacing a user by one whose email nobody else holds keeps the index unique. */
  lemma ReplaceKeepsUniqueEmails(docs: map<Id, User>, id: Id, u: User)
    requires UniqueEmails(docs) && !EmailTaken(docs, id, u.email)
    ensures UniqueEmails(docs[id := u])
  {
    var docs' := docs[id := u];
    forall a, b | a in docs' && b in docs' && a != b ensures docs'[a].email != docs'[b].email {
      if a != id && b != id {
        assert docs'[a] == docs[a] && docs'[b] == docs[b];
      }
    }
  }

  /** What `User.findOne({ email })` may answer: a user with that email, or none when nobody has it. */
  predicate FindsByEmail(docs: map<Id, User>, email: string, found: Option<Id>)
  {
    match found
    case None => forall id :: id in docs ==> docs[id].email != email
    case Some(id) => id in docs && docs[id].email == email
  }

  /** Under the unique index the answer of `findOne({ email })` is determined. */
  lemma FindsByEmailUnique(docs: map<Id, User>, email: string, a: Option<Id>, b: Option<Id>)
    requires UniqueEmails(docs) && FindsByEmail(docs, email, a) && FindsByEmail(docs, email, b)
    ensures a == b
  {
  }

  /** The user collection. */
  class UserStore {
    var docs: map<Id, User>

    ghost predicate Valid()
      reads this
    {
      UniqueEmails(docs) && forall id :: id in docs ==> WellFormed(docs[id])
    }

    constructor ()
      ensures docs == map[]
    {
      docs := map[];
    }

    /** `user.save()` of an existing user whose email is unchanged, so the unique index cannot object. */
    method Put(id: Id, u: User)
      requires id in docs && u.email == docs[id].email
      modifies this
      ensures docs == old(docs)[id := u]
      ensures old(UniqueEmails(docs)) ==> UniqueEmails(docs)
    {
      docs := docs[id := u];
    }

    /** An update of an existing user whose email nobody else holds. */
    method Replace(id: Id, u: User)
      requires id in docs && !EmailTaken(docs, id, u.email)
      modifies this
      ensures docs == old(docs)[id := u]
      ensures old(UniqueEmails(docs)) ==> UniqueEmails(docs)
    {
      if UniqueEmails(docs) {
        ReplaceKeepsUniqueEmails(docs, id, u);
      }
      docs := docs[id := u];
    }

    /** `User.create` of a new document whose email nobody holds. */
    method Insert(id: Id, u: User)
      requires id !in docs && !EmailTaken(docs, id, u.email)
      modifies this
      ensures docs == old(docs)[id := u]
      ensures old(UniqueEmails(docs)) ==> UniqueEmails(docs)
    {
      docs := docs[id := u];
    }

    /** The background expiry of blacklist entries, in its intended form. */
    method SweepTokens(now: Time)
      modifies this
      ensures docs == TokenSweep(old(docs), now)
      ensures old(Valid()) ==> Valid()
    {
      if Valid() {
        TokenSweepKeepsValid(docs, now);
      }
      docs := TokenSweep(docs, now);
    }
  }
}

=== FILE: video_progress.dfy ===
/**
 * Watching progress per user and video (`models/VideoProgress.js`) and the two routes
 * that read and write it (`getVideoProgress`, `saveVideoProgress`). The collection has a
 * unique compound index on (userId, videoId); here it is a store keyed by that pair, each
 * record carrying the pair it is stored under. Times are seconds as exact reals.
 */
module VideoProgressModel {
  import opened Common
  import opened Errors
  import opened UserModel

  /** The unique key of a progress record. */
  datatype ProgressKey = ProgressKey(userId: Id, videoId: string)

  datatype VideoProgress = VideoProgress(
    userId: Id,
    videoId: string,
    currentTime: real,
    duration: real,
    lessonId: Option<string>,
    courseId: Option<string>,
    timestamp: Time,
    completed: bool)

  /** A record as the schema's defaults make it: at time 0, not completed, stamped now. */
  function DefaultProgress(key: ProgressKey, duration: real, now: Time): (p: VideoProgress)
    ensures p.currentTime == 0.0 && !p.completed && p.timestamp == now
    ensures p.lessonId.None? && p.courseId.None?
  {
    VideoProgress(key.userId, key.videoId, 0.0, duration, None, None, now, false)
  }

  /** Every record is stored under its own (userId, videoId). */
  predicate KeysMatch(docs: map<ProgressKey, VideoProgress>)
  {
    forall k :: k in docs ==> docs[k].userId == k.userId && docs[k].videoId == k.videoId
  }

  /**
   * The progress shown to a client, in tenths of a percent: `Math.round(t / d * 1000)`
   * capped at 1000, and 0 for a non-positive duration.
   */
  function PercentTenths(currentTime: real, duration: real): (p: int)
    ensures p <= 1000
    ensures duration <= 0.0 ==> p == 0
  {
    if duration > 0.0 then
      var rounded := (currentTime / duration * 1000.0 + 0.5).Floor;
      if rounded < 1000 then rounded else 1000
    else 0
  }

  /** Progress is never negative for a non-negative time, and full once the time reaches the duration. */
  lemma PercentTenthsRange(currentTime: real, duration: real)
    requires currentTime >= 0.0
    ensures 0 <= PercentTenths(currentTime, duration)
    ensures duration > 0.0 && currentTime >= duration ==> PercentTenths(currentTime, duration) == 1000
  {
    if duration > 0.0 {
      var x := currentTime / duration * 1000.0;
      assert x >= 0.0;
      if currentTime >= duration {
        assert currentTime / duration >= 1.0;
        assert x >= 1000.0;
      }
    }
  }

  /** The progress collection. */
  class ProgressStore {
    var docs: map<ProgressKey, VideoProgress>

    constructor ()
      ensures docs == map[]
    {
      docs := map[];
    }

    /** `findOneAndUpdate({ userId, videoId }, update, { upsert: true, new: true, setDefaultsOnInsert: true })`. */
    method Upsert(key: ProgressKey, u: ProgressUpdate, now: Time) returns (p: VideoProgress)
      modifies this
      ensures p == Upserted(old(docs), key, u, now)
      ensures docs == old(docs)[key := p]
    {
      p := Upserted(docs, key, u, now);
      docs := docs[key := p];
    }
  }

  // ---------------------------------------------------------------- getVideoProgress

  /** The progress reply; `lessonId` and `courseId` are only reported for a stored record. */
  datatype ProgressView = ProgressView(currentTime: real, duration: real, timestamp: Time, completed: bool,
                                       percentTenths: int, lessonId: Option<string>, courseId: Option<string>)

  /** `getVideoProgress`: the caller's record for the video, or zeros stamped now when there is none. */
  function GetVideoProgress(docs: map<ProgressKey, VideoProgress>, caller: Caller, videoId: string, now: Time): (v: ProgressView)
    ensures ProgressKey(caller.id, videoId) !in docs ==> v == ProgressView(0.0, 0.0, now, false, 0, None, None)
    ensures ProgressKey(caller.id, videoId) in docs ==>
              var p := docs[ProgressKey(caller.id, videoId)];
              && v.currentTime == p.currentTime && v.duration == p.duration && v.completed == p.completed
              && v.timestamp == p.timestamp
  {
    var key := ProgressKey(caller.id, videoId);
    if key !in docs then ProgressView(0.0, 0.0, now, false, 0, None, None)
    else
      var p := docs[key];
      ProgressView(p.currentTime, p.duration, p.timestamp, p.completed, PercentTenths(p.currentTime, p.duration),
                   p.lessonId, p.courseId)
  }

  // ---------------------------------------------------------------- saveVideoProgress

  /** The request body; an absent field is `None`. */
  datatype ProgressInput = ProgressInput(currentTime: Option<real>, duration: Option<real>, lessonId: Option<string>,
                                         courseId: Option<string>, timestamp: Option<Time>, completed: Option<bool>)

  /** The update document: the two times, the optional references, and the stamped and defaulted fields. */
  datatype ProgressUpdate = ProgressUpdate(currentTime: real, duration: real, lessonId: Option<string>,
                                           courseId: Option<string>, timestamp: Time, completed: bool)

  /** `timestamp || Date.now()` and `completed || false`. */
  function UpdateOf(b: ProgressInput, now: Time): (u: ProgressUpdate)
    requires b.currentTime.Some? && b.duration.Some?
    ensures u.timestamp == (if b.timestamp.Some? && b.timestamp.value != 0 then b.timestamp.value else now)
    ensures u.completed <==> b.completed == Some(true)
  {
    ProgressUpdate(b.currentTime.value, b.duration.value, b.lessonId, b.courseId,
                   if b.timestamp.Some? && b.timestamp.value != 0 then b.timestamp.value else now,
                   if b.completed.Some? then b.completed.value else false)
  }

  /** An optional update field: set when given, kept as it was when absent. */
  function Keep(given: Option<string>, current: Option<string>): Option<string>
  {
    if given.Some? then given else current
  }

  /** The record after the upsert: the stored one (or a fresh one with the defaults) with the update applied. */
  function Upserted(docs: map<ProgressKey, VideoProgress>, key: ProgressKey, u: ProgressUpdate, now: Time): VideoProgress
  {
    var base := if key in docs then docs[key] else DefaultProgress(key, u.duration, now);
    base.(currentTime := u.currentTime, duration := u.duration, lessonId := Keep(u.lessonId, base.lessonId),
          courseId := Keep(u.courseId, base.courseId), timestamp := u.timestamp, completed := u.completed)
  }

  /** `saveVideoProgress`: 400 unless both times are given; otherwise the upsert and the record it leaves. */
  function SaveProgressSpec(docs: map<ProgressKey, VideoProgress>, caller: Caller, videoId: string, b: ProgressInput,
                            now: Time): (r: (Result<ProgressView>, map<ProgressKey, VideoProgress>))
    ensures r.0.Fail? <==> b.currentTime.None? || b.duration.None?
    ensures r.0.Fail? ==> r.1 == docs
    ensures r.0.Ok? ==>
      var key := ProgressKey(caller.id, videoId);
      && key in r.1 && r.1 == docs[key := r.1[key]]
      && r.1[key].currentTime == r.0.value.currentTime && r.1[key].duration == r.0.value.duration
      && r.1[key].completed == r.0.value.completed
  {
    if b.currentTime.None? || b.duration.None? then
      (Fail(ErrorResponse("Current time and duration are required", 400)), docs)
    else
      var key := ProgressKey(caller.id, videoId);
      var p := Upserted(docs, key, UpdateOf(b, now), now);
      (Ok(ProgressView(p.currentTime, p.duration, p.timestamp, p.completed,
                       PercentTenths(b.currentTime.value, b.duration.value), None, None)),
       docs[key := p])
  }

  /**
   * A save with both times writes exactly the caller's record for that video, creating it
   * when absent, and keeps one record per (user, video); without both it writes nothing.
   */
  lemma SaveProgressEffect(docs: map<ProgressKey, VideoProgress>, caller: Caller, videoId: string, b: ProgressInput,
                           now: Time)
    requires KeysMatch(docs)
    ensures var (r, docs') := SaveProgressSpec(docs, caller, videoId, b, now);
      && (r.Fail? <==> b.currentTime.None? || b.duration.None?)
      && (r.Fail? ==> docs' == docs && r.error.statusCode == Some(400))
      && (r.Ok? ==> var key := ProgressKey(caller.id, videoId);
            && docs'.Keys == docs.Keys + {key}
            && KeysMatch(docs')
            && docs'[key].currentTime == b.currentTime.value && docs'[key].duration == b.duration.value
            && (docs'[key].completed <==> b.completed == Some(true))
            && docs'[key].timestamp == (if b.timestamp.Some? && b.timestamp.value != 0 then b.timestamp.value else now)
            && docs'[key].lessonId == (if b.lessonId.Some? then b.lessonId else if key in docs then docs[key].lessonId else None)
            && docs'[key].courseId == (if b.courseId.Some? then b.courseId else if key in docs then docs[key].courseId else None)
            && (forall k :: k in docs && k != key ==> docs'[k] == docs[k]))
  {
  }

  /** Saving the same body twice leaves what saving it once left. */
  lemma SaveProgressIdempotent(docs: map<ProgressKey, VideoProgress>, caller: Caller, videoId: string, b: ProgressInput,
                               now: Time)
    ensures var once := SaveProgressSpec(docs, caller, videoId, b, now);
            SaveProgressSpec(once.1, caller, videoId, b, now) == once
  {
    if b.currentTime.Some? && b.duration.Some? {
      var key := ProgressKey(caller.id, videoId);
      var u := UpdateOf(b, now);
      var p := Upserted(docs, key, u, now);
      assert Upserted(docs[key := p], key, u, now) == p;
      assert docs[key := p][key := p] == docs[key := p];
    }
  }

  /** A saved position is what a later read reports. */
  lemma SaveThenGet(docs: map<ProgressKey, VideoProgress>, caller: Caller, videoId: string, b: ProgressInput,
                    now: Time, later: Time)
    requires b.currentTime.Some? && b.duration.Some?
    ensures var v := GetVideoProgress(SaveProgressSpec(docs, caller, videoId, b, now).1, caller, videoId, later);
      && v.currentTime == b.currentTime.value && v.duration == b.duration.value
      && (v.completed <==> b.completed == Some(true))
      && v.percentTenths == PercentTenths(b.currentTime.value, b.duration.value)
  {
  }

  /** `saveVideoProgress` on the store. */
  method SaveVideoProgress(store: ProgressStore, caller: Caller, videoId: string, b: ProgressInput, now: Time)
    returns (r: Result<ProgressView>)
    modifies store
    ensures SaveProgressSpec(old(store.docs), caller, videoId, b, now) == (r, store.docs)
  {
    if b.currentTime.None? || b.duration.None? {
      return Fail(ErrorResponse("Current time and duration are required", 400));
    }
    var p := store.Upsert(ProgressKey(caller.id, videoId), UpdateOf(b, now), now);
    r := Ok(ProgressView(p.currentTime, p.duration, p.timestamp, p.completed,
                         PercentTenths(b.currentTime.value, b.duration.value), None, None));
  }
}

=== FILE: videos.dfy ===
/**
 * The lesson-video routes of `controllers/videos.js`: the upload ticket, the upload
 * confirmation, playback access and the preview toggle. Lessons are addressed by the
 * section and lesson positions given in the path. The video host is an oracle: each of
 * its replies (or the error it throws) is a parameter.
 */
module Videos {
  import opened Common
  import opened Text
  import opened Errors
  import opened UserModel
  import opened CourseModel
  import opened AuthMiddleware
  import opened CourseAuthoring
  import opened VideoProgressModel
  import EnrollmentEngine

  // ---------------------------------------------------------------- addressing a lesson

  /**
   * The array position a path segment names: a decimal numeral without leading zeros
   * (`"0"` itself included). Any other text names no element.
   */
  function CanonicalIndex(s: string): (r: Option<nat>)
    ensures r.Some? ==> AllDigits(s) && s != []
  {
    if s != [] && AllDigits(s) && (s[0] != '0' || |s| == 1) then Some(DigitsValue(s)) else None
  }

  /** The text of a position names that position. */
  lemma CanonicalIndexOfNatToString(n: nat)
    ensures CanonicalIndex(NatToString(n)) == Some(n)
  {
    DigitsValueOfNatToString(n);
    NatToStringNoLeadingZero(n);
  }

  lemma {:induction false} NatToStringNoLeadingZero(n: nat)
    ensures NatToString(n)[0] != '0' || n == 0
    decreases n
  {
    if n >= 10 {
      NatToStringNoLeadingZero(n / 10);
      assert NatToString(n)[0] == NatToString(n / 10)[0];
    }
  }

  /** A numeral with a leading zero, such as `"01"`, names no element. */
  lemma LeadingZeroNamesNothing()
    ensures CanonicalIndex("01") == None
  {
  }

  /** The positions of the addressed lesson, when both exist. */
  function LessonAt(c: Course, si: string, li: string): (r: Option<(nat, nat)>)
    ensures r.Some? ==> r.value.0 < |c.sections| && r.value.1 < |c.sections[r.value.0].lessons|
    ensures r.Some? <==> (var i := CanonicalIndex(si); var j := CanonicalIndex(li);
                          i.Some? && j.Some? && i.value < |c.sections| && j.value < |c.sections[i.value].lessons|)
  {
    var i := CanonicalIndex(si);
    var j := CanonicalIndex(li);
    if i.Some? && j.Some? && i.value < |c.sections| && j.value < |c.sections[i.value].lessons| then Some((i.value, j.value))
    else None
  }

  /** The course with lesson `j` of section `i` replaced by `l`. */
  function SetLesson(c: Course, i: nat, j: nat, l: Lesson): (r: Course)
    requires i < |c.sections| && j < |c.sections[i].lessons|
    ensures |r.sections| == |c.sections| && |r.sections[i].lessons| == |c.sections[i].lessons|
    ensures r.sections[i].lessons[j] == l
    ensures forall a :: 0 <= a < |c.sections| && a != i ==> r.sections[a] == c.sections[a]
    ensures r.sections[i].id == c.sections[i].id && r.sections[i].title == c.sections[i].title
    ensures forall b :: 0 <= b < |c.sections[i].lessons| && b != j ==> r.sections[i].lessons[b] == c.sections[i].lessons[b]
    ensures r.(sections := c.sections) == c
  {
    var s := c.sections[i];
    c.(sections := c.sections[i := s.(lessons := s.lessons[j := l])])
  }

  /** Putting back the lesson that was there gives the course back. */
  lemma SetLessonSame(c: Course, i: nat, j: nat)
    requires i < |c.sections| && j < |c.sections[i].lessons|
    ensures SetLesson(c, i, j, c.sections[i].lessons[j]) == c
  {
    var s := c.sections[i];
    assert s.lessons[j := s.lessons[j]] == s.lessons;
    assert c.sections[i := s] == c.sections;
  }

  /** Putting the original lesson back into a course with those sections gives the original sections. */
  lemma SetLessonBack(c: Course, d: Course, i: nat, j: nat, l: Lesson)
    requires i < |c.sections| && j < |c.sections[i].lessons|
    requires d.sections == SetLesson(c, i, j, l).sections
    ensures SetLesson(d, i, j, c.sections[i].lessons[j]).sections == c.sections
  {
    var s := c.sections[i];
    assert s.lessons[j := l][j := s.lessons[j]] == s.lessons;
    assert c.sections[i := s.(lessons := s.lessons[j := l])][i := s] == c.sections;
  }

  /** Replacing a lesson by one with the same title keeps a valid course valid. */
  lemma SetLessonValid(c: Course, i: nat, j: nat, l: Lesson)
    requires i < |c.sections| && j < |c.sections[i].lessons|
    requires CourseValid(c) && l.title == c.sections[i].lessons[j].title
    ensures CourseValid(SetLesson(c, i, j, l))
  {
    var r := SetLesson(c, i, j, l);
    assert SectionValid(c.sections[i]);
    forall a | 0 <= a < |r.sections| ensures SectionValid(r.sections[a]) {
      if a != i {
        assert SectionValid(c.sections[a]);
      }
    }
  }

  /**
   * The checks of the three instructor routes: the route's role gate, then 404 for a
   * missing course, then 403 unless owner or admin, then 404 when the lesson is not there.
   */
  function VideoGate(docs: map<Id, Course>, caller: Caller, courseId: Id, si: string, li: string, denial: string)
    : (r: Result<(nat, nat)>)
    ensures r.Ok? <==> caller.role != UserRole && courseId in docs && MayEdit(docs[courseId], caller)
                       && LessonAt(docs[courseId], si, li).Some?
    ensures r.Ok? ==> Some(r.value) == LessonAt(docs[courseId], si, li)
    ensures caller.role != UserRole && courseId !in docs ==>
              r == Fail(ErrorResponse("Course not found with id of " + courseId, 404))
    ensures caller.role != UserRole && courseId in docs && !MayEdit(docs[courseId], caller) ==> r == Fail(ErrorResponse(denial, 403))
    ensures (caller.role != UserRole && courseId in docs && MayEdit(docs[courseId], caller)
             && LessonAt(docs[courseId], si, li).None?) ==> r == Fail(ErrorResponse("Section or lesson not found", 404))
  {
    match Authorize(InstructorOrAdmin, Some(caller))
    case Fail(e) => Fail(e)
    case Ok(_) =>
      if courseId !in docs then Fail(ErrorResponse("Course not found with id of " + courseId, 404))
      else if !MayEdit(docs[courseId], caller) then Fail(ErrorResponse(denial, 403))
      else match LessonAt(docs[courseId], si, li)
        case None => Fail(ErrorResponse("Section or lesson not found", 404))
        case Some(ij) => Ok(ij)
  }

  /** A plain user is refused by the role gate even for a course that does not exist. */
  lemma PlainUserRefusedFirst(docs: map<Id, Course>, caller: Caller, courseId: Id, si: string, li: string, denial: string)
    requires caller.role == UserRole
    ensures VideoGate(docs, caller, courseId, si, li, denial)
            == Fail(ErrorResponse("Role " + RoleName(caller.role) + " is not authorized to access this route", 403))
  {
  }

  /** The collection after a video route, with its result. */
  datatype VideoOutcome<T> = VideoOutcome(result: Result<T>, courses: map<Id, Course>)

  // ---------------------------------------------------------------- generateUploadTicket

  /** The body of the ticket request. */
  datatype TicketInput = TicketInput(name: Option<string>, description: Option<string>, fileSize: Option<int>)

  /** What is asked of the video host: the video's name and description, its size, and the course folder. */
  datatype TicketRequest = TicketRequest(name: string, description: string, size: Option<int>, folderId: string)

  datatype UploadTicket = UploadTicket(uploadLink: string, videoId: string)

  /** The course with its host folder recorded. */
  function WithFolder(c: Course, folderId: string): (r: Course)
    ensures r.vimeoFolderId == Some(folderId) && r.(vimeoFolderId := c.vimeoFolderId) == c
  {
    c.(vimeoFolderId := Some(folderId))
  }

  /** The course's folder: the stored one, or a new one from the host, saved on the course first. */
  function EnsureFolder(docs: map<Id, Course>, courseId: Id, newFolder: Result<string>, now: Time)
    : (r: Result<(string, map<Id, Course>)>)
    requires courseId in docs
    ensures Given(docs[courseId].vimeoFolderId) ==> r == Ok((docs[courseId].vimeoFolderId.value, docs))
    ensures !Given(docs[courseId].vimeoFolderId) && r.Ok? ==> newFolder.Ok? && r.value.0 == newFolder.value
    ensures r.Ok? ==> courseId in r.value.1 && r.value.1.Keys == docs.Keys
                      && r.value.1[courseId].vimeoFolderId == Some(r.value.0)
                      && r.value.1[courseId].sections == docs[courseId].sections
                      && r.value.1[courseId].title == docs[courseId].title
  {
    var c := docs[courseId];
    if Given(c.vimeoFolderId) then Ok((c.vimeoFolderId.value, docs))
    else match newFolder
      case Fail(e) => Fail(e)
      case Ok(f) =>
        match SaveOutcome(docs, courseId, WithFolder(c, f), now)
        case Fail(e) => Fail(e)
        case Ok(saved) => Ok((f, docs[courseId := saved]))
  }

  /** The request for a lesson: the given name and description, or ones made from the titles. */
  function TicketRequestFor(c: Course, i: nat, j: nat, b: TicketInput, folderId: string): TicketRequest
    requires i < |c.sections| && j < |c.sections[i].lessons|
  {
    var section := c.sections[i];
    var lesson := section.lessons[j];
    TicketRequest(if Given(b.name) then b.name.value else c.title + " - " + section.title + " - " + lesson.title,
                  if Given(b.description) then b.description.value else "Lesson video for " + lesson.title,
                  b.fileSize, folderId)
  }

  /** The lesson once its upload has been requested. */
  function Uploading(l: Lesson, videoId: string): (r: Lesson)
    ensures r.videoProvider == Some(Vimeo) && r.videoId == Some(videoId) && r.videoStatus == VideoStatus.Uploading
    ensures r.(videoProvider := l.videoProvider, videoId := l.videoId, videoStatus := l.videoStatus) == l
  {
    l.(videoProvider := Some(Vimeo), videoId := Some(videoId), videoStatus := VideoStatus.Uploading)
  }

  /** Once the folder is known: the ticket from the host, then the lesson marked as uploading and the course saved. */
  function TicketStep(docs: map<Id, Course>, courseId: Id, i: nat, j: nat, b: TicketInput, folderId: string,
                      ticket: TicketRequest -> Result<UploadTicket>, now: Time): (o: VideoOutcome<UploadTicket>)
    requires courseId in docs && i < |docs[courseId].sections| && j < |docs[courseId].sections[i].lessons|
    ensures o.courses.Keys == docs.Keys
    ensures o.result.Ok? ==> CourseValid(o.courses[courseId])
  {
    var c := docs[courseId];
    match ticket(TicketRequestFor(c, i, j, b, folderId))
    case Fail(e) => VideoOutcome(Fail(e), docs)
    case Ok(t) => MarkUploading(docs, courseId, i, j, t, now)
  }

  /** The addressed lesson marked as uploading under the ticket's video id, and the course saved. */
  function MarkUploading(docs: map<Id, Course>, courseId: Id, i: nat, j: nat, t: UploadTicket, now: Time)
    : (o: VideoOutcome<UploadTicket>)
    requires courseId in docs && i < |docs[courseId].sections| && j < |docs[courseId].sections[i].lessons|
    ensures o.courses.Keys == docs.Keys
    ensures o.result.Ok? ==> o.result.value == t && CourseValid(o.courses[courseId])
  {
    var c := docs[courseId];
    match SaveOutcome(docs, courseId, SetLesson(c, i, j, Uploading(c.sections[i].lessons[j], t.videoId)), now)
    case Fail(e) => VideoOutcome(Fail(e), docs)
    case Ok(saved) => ReplaceKeepsKeys(docs, courseId, saved); VideoOutcome(Ok(t), docs[courseId := saved])
  }

  /** `generateUploadTicket`: the gate, then the course folder, then the ticket step. */
  function UploadTicketSpec(docs: map<Id, Course>, caller: Caller, courseId: Id, si: string, li: string, b: TicketInput,
                            newFolder: Result<string>, ticket: TicketRequest -> Result<UploadTicket>, now: Time)
    : (o: VideoOutcome<UploadTicket>)
    ensures VideoGate(docs, caller, courseId, si, li, "Not authorized to upload videos to this course").Fail? ==>
      o == VideoOutcome(Fail(VideoGate(docs, caller, courseId, si, li, "Not authorized to upload videos to this course").error), docs)
    ensures o.courses.Keys == docs.Keys
    ensures o.result.Ok? ==> courseId in o.courses && CourseValid(o.courses[courseId])
  {
    match VideoGate(docs, caller, courseId, si, li, "Not authorized to upload videos to this course")
    case Fail(e) => VideoOutcome(Fail(e), docs)
    case Ok((i, j)) =>
      match EnsureFolder(docs, courseId, newFolder, now)
      case Fail(e) => VideoOutcome(Fail(e), docs)
      case Ok((folderId, docs1)) => TicketStep(docs1, courseId, i, j, b, folderId, ticket, now)
  }

  /**
   * A course that has a folder keeps it: the host is not asked for a new one (the reply
   * to that request does not matter), and the ticket is requested in the stored folder.
   */
  lemma StoredFolderReused(docs: map<Id, Course>, caller: Caller, courseId: Id, si: string, li: string, b: TicketInput,
                           newFolder: Result<string>, otherFolder: Result<string>,
                           ticket: TicketRequest -> Result<UploadTicket>, now: Time)
    requires courseId in docs && Given(docs[courseId].vimeoFolderId)
    ensures UploadTicketSpec(docs, caller, courseId, si, li, b, newFolder, ticket, now)
            == UploadTicketSpec(docs, caller, courseId, si, li, b, otherFolder, ticket, now)
    ensures var g := VideoGate(docs, caller, courseId, si, li, "Not authorized to upload videos to this course");
            g.Ok? ==> TicketRequestFor(docs[courseId], g.value.0, g.value.1, b, docs[courseId].vimeoFolderId.value).folderId
                      == docs[courseId].vimeoFolderId.value
  {
  }

  /** A successful ticket step leaves the folder alone and marks exactly the addressed lesson. */
  lemma TicketStepMarks(docs: map<Id, Course>, courseId: Id, i: nat, j: nat, b: TicketInput, folderId: string,
                        ticket: TicketRequest -> Result<UploadTicket>, now: Time)
    requires courseId in docs && i < |docs[courseId].sections| && j < |docs[courseId].sections[i].lessons|
    requires TicketStep(docs, courseId, i, j, b, folderId, ticket, now).result.Ok?
    ensures var o := TicketStep(docs, courseId, i, j, b, folderId, ticket, now);
      && o.courses.Keys == docs.Keys
      && o.courses[courseId].vimeoFolderId == docs[courseId].vimeoFolderId
      && o.courses[courseId].sections
         == SetLesson(docs[courseId], i, j, Uploading(docs[courseId].sections[i].lessons[j], o.result.value.videoId)).sections
  {
    var c := docs[courseId];
    var t := ticket(TicketRequestFor(c, i, j, b, folderId)).value;
    var edited := SetLesson(c, i, j, Uploading(c.sections[i].lessons[j], t.videoId));
    var saved := SaveOutcome(docs, courseId, edited, now).value;
    assert saved.sections == edited.sections && saved.vimeoFolderId == edited.vimeoFolderId;
  }

  /**
   * A successful ticket leaves the course with a folder (the one created now, when it
   * had none) and the addressed lesson, and only that one, marked as a host video being
   * uploaded under the ticket's video id.
   */
  lemma UploadMarksLesson(docs: map<Id, Course>, caller: Caller, courseId: Id, si: string, li: string, b: TicketInput,
                          newFolder: Result<string>, ticket: TicketRequest -> Result<UploadTicket>, now: Time)
    requires VideoGate(docs, caller, courseId, si, li, "Not authorized to upload videos to this course").Ok?
    requires UploadTicketSpec(docs, caller, courseId, si, li, b, newFolder, ticket, now).result.Ok?
    ensures var o := UploadTicketSpec(docs, caller, courseId, si, li, b, newFolder, ticket, now);
      var (i, j) := LessonAt(docs[courseId], si, li).value;
      && o.courses.Keys == docs.Keys
      && (Given(docs[courseId].vimeoFolderId) ==> o.courses[courseId].vimeoFolderId == docs[courseId].vimeoFolderId)
      && (!Given(docs[courseId].vimeoFolderId) ==> newFolder.Ok? && o.courses[courseId].vimeoFolderId == Some(newFolder.value))
      && o.courses[courseId].sections
         == SetLesson(docs[courseId], i, j, Uploading(docs[courseId].sections[i].lessons[j], o.result.value.videoId)).sections
  {
    var (i, j) := VideoGate(docs, caller, courseId, si, li, "Not authorized to upload videos to this course").value;
    UploadPassesFolder(docs, caller, courseId, si, li, b, newFolder, ticket, now);
    var (folderId, docs1) := EnsureFolder(docs, courseId, newFolder, now).value;
    TicketStepMarks(docs1, courseId, i, j, b, folderId, ticket, now);
    if Given(docs[courseId].vimeoFolderId) {
      assert docs1 == docs;
    } else {
      assert newFolder.Ok? && folderId == newFolder.value;
    }
  }

  /** A successful ticket went through the folder step and is the ticket step's on the course it left. */
  lemma {:induction false} UploadPassesFolder(docs: map<Id, Course>, caller: Caller, courseId: Id, si: string, li: string,
                                              b: TicketInput, newFolder: Result<string>,
                                              ticket: TicketRequest -> Result<UploadTicket>, now: Time)
    requires VideoGate(docs, caller, courseId, si, li, "Not authorized to upload videos to this course").Ok?
    requires UploadTicketSpec(docs, caller, courseId, si, li, b, newFolder, ticket, now).result.Ok?
    ensures courseId in docs && EnsureFolder(docs, courseId, newFolder, now).Ok?
    ensures var (i, j) := VideoGate(docs, caller, courseId, si, li, "Not authorized to upload videos to this course").value;
      var (folderId, docs1) := EnsureFolder(docs, courseId, newFolder, now).value;
      && i < |docs1[courseId].sections| && j < |docs1[courseId].sections[i].lessons|
      && UploadTicketSpec(docs, caller, courseId, si, li, b, newFolder, ticket, now)
         == TicketStep(docs1, courseId, i, j, b, folderId, ticket, now)
  {
  }

  /** The folder step on the store. */
  method EnsureFolderOnStore(store: CourseStore, courseId: Id, newFolder: Result<string>, now: Time) returns (f: Result<string>)
    requires courseId in store.docs
    modifies store
    ensures var e := EnsureFolder(old(store.docs), courseId, newFolder, now);
      && (e.Ok? <==> f.Ok?)
      && (e.Ok? ==> f.value == e.value.0 && store.docs == e.value.1)
      && (e.Fail? ==> f == Fail(e.error) && store.docs == old(store.docs))
  {
    var course := store.docs[courseId];
    if Given(course.vimeoFolderId) {
      return Ok(course.vimeoFolderId.value);
    }
    if newFolder.Fail? {
      return Fail(newFolder.error);
    }
    var saved := store.Save(courseId, WithFolder(course, newFolder.value), now);
    f := if saved.Ok? then Ok(newFolder.value) else Fail(saved.error);
  }

  /** The ticket step on the store. */
  method TicketStepOnStore(store: CourseStore, courseId: Id, i: nat, j: nat, b: TicketInput, folderId: string,
                           ticket: TicketRequest -> Result<UploadTicket>, now: Time) returns (r: Result<UploadTicket>)
    requires courseId in store.docs && i < |store.docs[courseId].sections| && j < |store.docs[courseId].sections[i].lessons|
    modifies store
    ensures TicketStep(old(store.docs), courseId, i, j, b, folderId, ticket, now) == VideoOutcome(r, store.docs)
  {
    var course := store.docs[courseId];
    var t := ticket(TicketRequestFor(course, i, j, b, folderId));
    if t.Fail? {
      return Fail(t.error);
    }
    var saved := store.Save(courseId, SetLesson(course, i, j, Uploading(course.sections[i].lessons[j], t.value.videoId)), now);
    r := if saved.Ok? then Ok(t.value) else Fail(saved.error);
  }

  /** `generateUploadTicket` on the store. */
  method GenerateUploadTicket(store: CourseStore, caller: Caller, courseId: Id, si: string, li: string, b: TicketInput,
                              newFolder: Result<string>, ticket: TicketRequest -> Result<UploadTicket>, now: Time)
    returns (r: Result<UploadTicket>)
    modifies store
    ensures UploadTicketSpec(old(store.docs), caller, courseId, si, li, b, newFolder, ticket, now)
            == VideoOutcome(r, store.docs)
  {
    var gate := VideoGate(store.docs, caller, courseId, si, li, "Not authorized to upload videos to this course");
    if gate.Fail? {
      return Fail(gate.error);
    }
    var (i, j) := gate.value;
    var folder := EnsureFolderOnStore(store, courseId, newFolder, now);
    if folder.Fail? {
      return Fail(folder.error);
    }
    r := TicketStepOnStore(store, courseId, i, j, b, folder.value, ticket, now);
  }

  // ---------------------------------------------------------------- confirmVideoUpload

  /**
   * The host's description of a video: its player URL, its embed HTML (`embed.html`, absent
   * when the host gives none), thumbnail links by size, and length in seconds.
   */
  datatype VideoDetails = VideoDetails(embedUrl: string, htmlEmbed: Option<string>, thumbnails: seq<string>,
                                       duration: Option<nat>)

  /** `vimeoService.updateVideoPrivacy(videoId, isPreview)`: the host's reply to a privacy update. */
  type PrivacyUpdate = (string, bool) -> Result<Unit>

  /** `pictures.sizes[3].link || ""`. */
  function Thumbnail(d: VideoDetails): string
  {
    if |d.thumbnails| > 3 then d.thumbnails[3] else ""
  }

  /** `m:ss` for a positive length in seconds; `0:00` when there is none. */
  function FormatDuration(d: Option<nat>): (s: string)
  {
    if d.None? || d.value == 0 then "0:00"
    else NatToString(d.value / 60) + ":" + Pad2(d.value % 60)
  }

  /** Reading `m:ss` back: minutes, a colon, and two digits of seconds. */
  function ParseDuration(s: string): Option<nat>
  {
    var parts := Split(s, ':');
    if |parts| == 2 && parts[0] != [] && AllDigits(parts[0]) && |parts[1]| == 2 && AllDigits(parts[1])
    then Some(DigitsValue(parts[0]) * 60 + DigitsValue(parts[1]))
    else None
  }

  /** The formatted length reads back as the length, and its seconds part is below 60. */
  lemma {:induction false} FormatDurationRoundTrip(d: nat)
    requires d > 0
    ensures ParseDuration(FormatDuration(Some(d))) == Some(d)
  {
    FormatDurationSplits(d);
    DigitsValueOfNatToString(d / 60);
    Pad2Value(d % 60);
  }

  /** The formatted length splits at its one colon into the minutes and the two-digit seconds. */
  lemma {:induction false} FormatDurationSplits(d: nat)
    requires d > 0
    ensures Split(FormatDuration(Some(d)), ':') == [NatToString(d / 60), Pad2(d % 60)]
  {
    var m, sec := NatToString(d / 60), Pad2(d % 60);
    var parts := [m, sec];
    assert FormatDuration(Some(d)) == Join(parts, ':') by {
      assert Join(parts[1..], ':') == sec;
    }
    assert ':' !in m by {
      assert forall k :: 0 <= k < |m| ==> IsDigit(m[k]);
    }
    assert ':' !in sec by {
      assert forall k :: 0 <= k < |sec| ==> IsDigit(sec[k]);
    }
    SplitJoin(parts, ':');
  }

  /** The lesson once the host has described the video. */
  function Described(l: Lesson, d: VideoDetails): (r: Lesson)
    ensures r.videoStatus == Ready && r.duration == FormatDuration(d.duration)
    ensures r.(videoUrl := l.videoUrl, thumbnailUrl := l.thumbnailUrl, duration := l.duration, videoStatus := l.videoStatus) == l
  {
    l.(videoUrl := d.embedUrl, thumbnailUrl := Thumbnail(d), duration := FormatDuration(d.duration), videoStatus := Ready)
  }

  /** The reply of a confirmed upload. */
  datatype ConfirmedVideo = ConfirmedVideo(videoId: string, videoUrl: string, thumbnailUrl: string, duration: string)

  /** The lesson marked as failed, as far as it was changed. */
  function MarkedFailed(l: Lesson): (r: Lesson)
    ensures r.videoStatus == VideoFailed && r.(videoStatus := l.videoStatus) == l
  {
    l.(videoStatus := VideoFailed)
  }

  /**
   * The `catch` of the confirmation: the lesson, as far as it was changed, is marked as
   * failed and the course saved; then 500 `Error retrieving video: ...`, or the save's
   * own error when that save fails too.
   */
  function MarkFailed(docs: map<Id, Course>, courseId: Id, i: nat, j: nat, l: Lesson, e: Error, now: Time)
    : (o: VideoOutcome<ConfirmedVideo>)
    requires courseId in docs && i < |docs[courseId].sections| && j < |docs[courseId].sections[i].lessons|
    ensures o.result.Fail?
  {
    match SaveOutcome(docs, courseId, SetLesson(docs[courseId], i, j, MarkedFailed(l)), now)
    case Fail(e2) => VideoOutcome(Fail(e2), docs)
    case Ok(saved) => VideoOutcome(Fail(ErrorResponse("Error retrieving video: " + e.message, 500)), docs[courseId := saved])
  }

  /** When the catch's save goes through, the reply is 500 and the lesson is the failed one. */
  lemma MarkFailedEffect(docs: map<Id, Course>, courseId: Id, i: nat, j: nat, l: Lesson, e: Error, now: Time)
    requires courseId in docs && i < |docs[courseId].sections| && j < |docs[courseId].sections[i].lessons|
    ensures var o := MarkFailed(docs, courseId, i, j, l, e, now);
      && o.result.Fail?
      && (o.courses != docs ==>
            && o.result.error == ErrorResponse("Error retrieving video: " + e.message, 500)
            && o.courses[courseId].sections == SetLesson(docs[courseId], i, j, MarkedFailed(l)).sections)
  {
    var edited := SetLesson(docs[courseId], i, j, MarkedFailed(l));
    var s := SaveOutcome(docs, courseId, edited, now);
    if s.Ok? {
      assert s.value.sections == edited.sections;
    }
  }

  /** With the host's details in hand: the privacy update, then the save of the ready lesson. */
  function ReadyStep(docs: map<Id, Course>, courseId: Id, i: nat, j: nat, videoId: string, ready: Lesson,
                     privacy: PrivacyUpdate, now: Time): (o: VideoOutcome<ConfirmedVideo>)
    requires courseId in docs && i < |docs[courseId].sections| && j < |docs[courseId].sections[i].lessons|
    ensures o.result.Ok? ==> privacy(videoId, ready.isPreview).Ok?
  {
    var sent := privacy(videoId, ready.isPreview);
    if sent.Fail? then MarkFailed(docs, courseId, i, j, ready, sent.error, now)
    else match SaveOutcome(docs, courseId, SetLesson(docs[courseId], i, j, ready), now)
      case Fail(e) => MarkFailed(docs, courseId, i, j, ready, e, now)
      case Ok(saved) =>
        VideoOutcome(Ok(ConfirmedVideo(videoId, ready.videoUrl, ready.thumbnailUrl, ready.duration)), docs[courseId := saved])
  }

  /** The confirmation of an addressed lesson: 404 without a video, then the details, the privacy update and the save. */
  function ConfirmAt(docs: map<Id, Course>, courseId: Id, i: nat, j: nat, details: Result<VideoDetails>,
                     privacy: PrivacyUpdate, now: Time): (o: VideoOutcome<ConfirmedVideo>)
    requires courseId in docs && i < |docs[courseId].sections| && j < |docs[courseId].sections[i].lessons|
    ensures var l := docs[courseId].sections[i].lessons[j];
      o.result.Ok? ==> details.Ok? && Given(l.videoId) && privacy(l.videoId.value, l.isPreview).Ok?
  {
    var lesson := docs[courseId].sections[i].lessons[j];
    if !Given(lesson.videoId) then VideoOutcome(Fail(ErrorResponse("No video found for this lesson", 404)), docs)
    else match details
      case Fail(e) => MarkFailed(docs, courseId, i, j, lesson, e, now)
      case Ok(d) => ReadyStep(docs, courseId, i, j, lesson.videoId.value, Described(lesson, d), privacy, now)
  }

  /** `confirmVideoUpload`: the gate, then the confirmation of the addressed lesson. */
  function ConfirmSpec(docs: map<Id, Course>, caller: Caller, courseId: Id, si: string, li: string,
                       details: Result<VideoDetails>, privacy: PrivacyUpdate, now: Time): (o: VideoOutcome<ConfirmedVideo>)
    ensures VideoGate(docs, caller, courseId, si, li, "Not authorized to update this course").Fail? ==>
      o == VideoOutcome(Fail(VideoGate(docs, caller, courseId, si, li, "Not authorized to update this course").error), docs)
    ensures o.result.Ok? ==>
      && details.Ok? && VideoGate(docs, caller, courseId, si, li, "Not authorized to update this course").Ok?
      && var (i, j) := VideoGate(docs, caller, courseId, si, li, "Not authorized to update this course").value;
         var l := docs[courseId].sections[i].lessons[j];
         Given(l.videoId) && privacy(l.videoId.value, l.isPreview).Ok?
  {
    match VideoGate(docs, caller, courseId, si, li, "Not authorized to update this course")
    case Fail(e) => VideoOutcome(Fail(e), docs)
    case Ok((i, j)) => ConfirmAt(docs, courseId, i, j, details, privacy, now)
  }

  /** Without a video on the lesson the confirmation is refused and nothing changes. */
  lemma ConfirmWithoutVideo(docs: map<Id, Course>, caller: Caller, courseId: Id, si: string, li: string,
                            details: Result<VideoDetails>, privacy: PrivacyUpdate, now: Time)
    requires VideoGate(docs, caller, courseId, si, li, "Not authorized to update this course").Ok?
    requires var (i, j) := LessonAt(docs[courseId], si, li).value; !Given(docs[courseId].sections[i].lessons[j].videoId)
    ensures ConfirmSpec(docs, caller, courseId, si, li, details, privacy, now)
            == VideoOutcome(Fail(ErrorResponse("No video found for this lesson", 404)), docs)
  {
  }

  /**
   * A confirmation succeeds only when the host answered and accepted the privacy update
   * sent with the lesson's own video id and preview flag; the lesson is then ready, with
   * the host's player URL and the formatted length.
   */
  lemma ConfirmReady(docs: map<Id, Course>, caller: Caller, courseId: Id, si: string, li: string, i: nat, j: nat,
                     details: Result<VideoDetails>, privacy: PrivacyUpdate, now: Time)
    requires VideoGate(docs, caller, courseId, si, li, "Not authorized to update this course") == Ok((i, j))
    requires ConfirmSpec(docs, caller, courseId, si, li, details, privacy, now).result.Ok?
    ensures details.Ok?
    ensures courseId in docs && i < |docs[courseId].sections| && j < |docs[courseId].sections[i].lessons|
    ensures var l := docs[courseId].sections[i].lessons[j]; Given(l.videoId) && privacy(l.videoId.value, l.isPreview).Ok?
    ensures var o := ConfirmSpec(docs, caller, courseId, si, li, details, privacy, now);
      && courseId in o.courses
      && o.courses[courseId].sections == SetLesson(docs[courseId], i, j, Described(docs[courseId].sections[i].lessons[j], details.value)).sections
      && o.result.value.duration == FormatDuration(details.value.duration)
  {
    ConfirmPassesGate(docs, caller, courseId, si, li, details, privacy, now);
    ConfirmAtReady(docs, courseId, i, j, details, privacy, now);
  }

  /** The confirmation of one lesson succeeds only with both host replies, and then writes the described lesson. */
  lemma ConfirmAtReady(docs: map<Id, Course>, courseId: Id, i: nat, j: nat,
                       details: Result<VideoDetails>, privacy: PrivacyUpdate, now: Time)
    requires courseId in docs && i < |docs[courseId].sections| && j < |docs[courseId].sections[i].lessons|
    requires ConfirmAt(docs, courseId, i, j, details, privacy, now).result.Ok?
    ensures details.Ok?
    ensures var l := docs[courseId].sections[i].lessons[j]; Given(l.videoId) && privacy(l.videoId.value, l.isPreview).Ok?
    ensures var o := ConfirmAt(docs, courseId, i, j, details, privacy, now);
      && courseId in o.courses
      && o.courses[courseId].sections == SetLesson(docs[courseId], i, j, Described(docs[courseId].sections[i].lessons[j], details.value)).sections
      && o.result.value.duration == FormatDuration(details.value.duration)
  {
    var lesson := docs[courseId].sections[i].lessons[j];
    var ready := Described(lesson, details.value);
    var edited := SetLesson(docs[courseId], i, j, ready);
    var s := SaveOutcome(docs, courseId, edited, now);
    assert s.Ok?;
    assert s.value.sections == edited.sections;
  }

  /** Past the gate, the confirmation is that of the addressed lesson. */
  lemma {:induction false} ConfirmPassesGate(docs: map<Id, Course>, caller: Caller, courseId: Id, si: string, li: string,
                                             details: Result<VideoDetails>, privacy: PrivacyUpdate, now: Time)
    requires VideoGate(docs, caller, courseId, si, li, "Not authorized to update this course").Ok?
    ensures courseId in docs && LessonAt(docs[courseId], si, li).Some?
    ensures var (i, j) := LessonAt(docs[courseId], si, li).value;
      && i < |docs[courseId].sections| && j < |docs[courseId].sections[i].lessons|
      && ConfirmSpec(docs, caller, courseId, si, li, details, privacy, now) == ConfirmAt(docs, courseId, i, j, details, privacy, now)
  {
  }

  /** When the host cannot describe the video, the reply is an error; once saved, 500 with the lesson marked as failed. */
  lemma ConfirmHostFailure(docs: map<Id, Course>, caller: Caller, courseId: Id, si: string, li: string, i: nat, j: nat,
                           details: Result<VideoDetails>, privacy: PrivacyUpdate, now: Time)
    requires VideoGate(docs, caller, courseId, si, li, "Not authorized to update this course") == Ok((i, j)) && details.Fail?
    requires Given(docs[courseId].sections[i].lessons[j].videoId)
    ensures var o := ConfirmSpec(docs, caller, courseId, si, li, details, privacy, now);
      && o.result.Fail?
      && (o.courses != docs ==>
            && o.result.error == ErrorResponse("Error retrieving video: " + details.error.message, 500)
            && courseId in o.courses
            && o.courses[courseId].sections == SetLesson(docs[courseId], i, j, MarkedFailed(docs[courseId].sections[i].lessons[j])).sections)
  {
    ConfirmPassesGate(docs, caller, courseId, si, li, details, privacy, now);
    MarkFailedEffect(docs, courseId, i, j, docs[courseId].sections[i].lessons[j], details.error, now);
  }

  /**
   * When the host refuses the privacy update for the lesson's video and preview flag, the
   * reply is an error; once saved, 500 with the described lesson marked as failed.
   */
  lemma ConfirmPrivacyRefused(docs: map<Id, Course>, caller: Caller, courseId: Id, si: string, li: string, i: nat, j: nat,
                              details: Result<VideoDetails>, privacy: PrivacyUpdate, now: Time)
    requires VideoGate(docs, caller, courseId, si, li, "Not authorized to update this course") == Ok((i, j)) && details.Ok?
    requires var l := docs[courseId].sections[i].lessons[j]; Given(l.videoId) && privacy(l.videoId.value, l.isPreview).Fail?
    ensures var o := ConfirmSpec(docs, caller, courseId, si, li, details, privacy, now);
      var l := docs[courseId].sections[i].lessons[j];
      && o.result.Fail?
      && (o.courses != docs ==>
            && o.result.error == ErrorResponse("Error retrieving video: " + privacy(l.videoId.value, l.isPreview).error.message, 500)
            && courseId in o.courses
            && o.courses[courseId].sections == SetLesson(docs[courseId], i, j, MarkedFailed(Described(l, details.value))).sections)
  {
    ConfirmPassesGate(docs, caller, courseId, si, li, details, privacy, now);
    var l := docs[courseId].sections[i].lessons[j];
    MarkFailedEffect(docs, courseId, i, j, Described(l, details.value), privacy(l.videoId.value, l.isPreview).error, now);
  }

  /** The catch on the store. */
  method MarkFailedOnStore(store: CourseStore, courseId: Id, i: nat, j: nat, l: Lesson, e: Error, now: Time)
    returns (r: Result<ConfirmedVideo>)
    requires courseId in store.docs && i < |store.docs[courseId].sections| && j < |store.docs[courseId].sections[i].lessons|
    modifies store
    ensures MarkFailed(old(store.docs), courseId, i, j, l, e, now) == VideoOutcome(r, store.docs)
  {
    var saved := store.Save(courseId, SetLesson(store.docs[courseId], i, j, MarkedFailed(l)), now);
    r := if saved.Ok? then Fail(ErrorResponse("Error retrieving video: " + e.message, 500)) else Fail(saved.error);
  }

  /** The ready step on the store. */
  method ReadyStepOnStore(store: CourseStore, courseId: Id, i: nat, j: nat, videoId: string, ready: Lesson,
                          privacy: PrivacyUpdate, now: Time) returns (r: Result<ConfirmedVideo>)
    requires courseId in store.docs && i < |store.docs[courseId].sections| && j < |store.docs[courseId].sections[i].lessons|
    modifies store
    ensures ReadyStep(old(store.docs), courseId, i, j, videoId, ready, privacy, now) == VideoOutcome(r, store.docs)
  {
    var sent := privacy(videoId, ready.isPreview);
    if sent.Fail? {
      r := MarkFailedOnStore(store, courseId, i, j, ready, sent.error, now);
      return;
    }
    var saved := store.Save(courseId, SetLesson(store.docs[courseId], i, j, ready), now);
    if saved.Ok? {
      return Ok(ConfirmedVideo(videoId, ready.videoUrl, ready.thumbnailUrl, ready.duration));
    }
    r := MarkFailedOnStore(store, courseId, i, j, ready, saved.error, now);
  }

  /** `confirmVideoUpload` on the store. */
  method ConfirmVideoUpload(store: CourseStore, caller: Caller, courseId: Id, si: string, li: string,
                            details: Result<VideoDetails>, privacy: PrivacyUpdate, now: Time)
    returns (r: Result<ConfirmedVideo>)
    modifies store
    ensures ConfirmSpec(old(store.docs), caller, courseId, si, li, details, privacy, now) == VideoOutcome(r, store.docs)
  {
    var gate := VideoGate(store.docs, caller, courseId, si, li, "Not authorized to update this course");
    if gate.Fail? {
      return Fail(gate.error);
    }
    var (i, j) := gate.value;
    var lesson := store.docs[courseId].sections[i].lessons[j];
    if !Given(lesson.videoId) {
      return Fail(ErrorResponse("No video found for this lesson", 404));
    }
    if details.Fail? {
      r := MarkFailedOnStore(store, courseId, i, j, lesson, details.error, now);
    } else {
      r := ReadyStepOnStore(store, courseId, i, j, lesson.videoId.value, Described(lesson, details.value), privacy, now);
    }
  }

  // ---------------------------------------------------------------- getVideoPlayback

  /** The saved position shown with a playback; `timestamp` is absent without a record. */
  datatype PlaybackProgress = PlaybackProgress(currentTime: real, duration: real, percentTenths: int, completed: bool,
                                               timestamp: Option<Time>)

  datatype Playback = Playback(videoId: string, embedUrl: string, htmlEmbed: Option<string>, title: string,
                               description: string, duration: string,
                               thumbnailUrl: string, progress: PlaybackProgress)

  /** Who may watch without an enrollment: everyone for a preview, the instructor, and admins. */
  predicate OpenTo(c: Course, l: Lesson, caller: Caller)
  {
    l.isPreview || c.instructor == caller.id || caller.role == AdminRole
  }

  /** The progress record kept under the host's prefixed video id. */
  function SavedProgress(progress: map<ProgressKey, VideoProgress>, caller: Caller, videoId: string): PlaybackProgress
  {
    var key := ProgressKey(caller.id, "vimeo_" + videoId);
    if key !in progress then PlaybackProgress(0.0, 0.0, 0, false, None)
    else
      var p := progress[key];
      PlaybackProgress(p.currentTime, p.duration, PercentTenths(p.currentTime, p.duration), p.completed, Some(p.timestamp))
  }

  /**
   * `getVideoPlayback`: 404 for a missing course, a missing lesson, or a lesson whose
   * video is absent or not ready; then 403 for a caller the lesson is not open to and
   * who is not enrolled; then the details from the host (500 when it fails).
   */
  function PlaybackSpec(courses: map<Id, Course>, users: map<Id, User>, progress: map<ProgressKey, VideoProgress>,
                        caller: Caller, courseId: Id, si: string, li: string, details: Result<VideoDetails>)
    : (r: Result<Playback>)
    ensures r.Ok? ==>
      && courseId in courses && LessonAt(courses[courseId], si, li).Some? && details.Ok?
      && var (i, j) := LessonAt(courses[courseId], si, li).value;
         var l := courses[courseId].sections[i].lessons[j];
         && Given(l.videoId) && l.videoStatus == Ready
         && (OpenTo(courses[courseId], l, caller) || (caller.id in users && EnrolledIn(users[caller.id], courseId)))
         && r.value.videoId == l.videoId.value && r.value.embedUrl == details.value.embedUrl
         && r.value.htmlEmbed == details.value.htmlEmbed
  {
    if courseId !in courses then Fail(ErrorResponse("Course not found with id of " + courseId, 404))
    else
      var c := courses[courseId];
      match LessonAt(c, si, li)
      case None => Fail(ErrorResponse("Section or lesson not found", 404))
      case Some((i, j)) =>
        var l := c.sections[i].lessons[j];
        if !Given(l.videoId) || l.videoStatus != Ready then Fail(ErrorResponse("Video not available", 404))
        else if !OpenTo(c, l, caller) && caller.id !in users then Fail(Crash(EnrollmentEngine.NullUserFault))
        else if !OpenTo(c, l, caller) && !EnrolledIn(users[caller.id], courseId) then
          Fail(ErrorResponse("Not enrolled in this course", 403))
        else match details
          case Fail(e) => Fail(ErrorResponse("Error retrieving video: " + e.message, 500))
          case Ok(d) =>
            Ok(Playback(l.videoId.value, d.embedUrl, d.htmlEmbed, l.title, l.description, l.duration, l.thumbnailUrl,
                        SavedProgress(progress, caller, l.videoId.value)))
  }

  /**
   * A playback is served only for a ready video, and only to a caller it is open to or
   * who is enrolled; to such a caller it is always served when the host answers. A
   * video that is not ready is refused even to its instructor.
   */
  lemma PlaybackAccess(courses: map<Id, Course>, users: map<Id, User>, progress: map<ProgressKey, VideoProgress>,
                       caller: Caller, courseId: Id, si: string, li: string, details: Result<VideoDetails>)
    requires courseId in courses && LessonAt(courses[courseId], si, li).Some?
    ensures var r := PlaybackSpec(courses, users, progress, caller, courseId, si, li, details);
      var (i, j) := LessonAt(courses[courseId], si, li).value;
      var c := courses[courseId];
      var l := c.sections[i].lessons[j];
      && (r.Ok? <==> && Given(l.videoId) && l.videoStatus == Ready && details.Ok?
                     && (OpenTo(c, l, caller) || (caller.id in users && EnrolledIn(users[caller.id], courseId))))
      && (!Given(l.videoId) || l.videoStatus != Ready ==> r == Fail(ErrorResponse("Video not available", 404)))
      && ((Given(l.videoId) && l.videoStatus == Ready && !OpenTo(c, l, caller) && caller.id in users
           && !EnrolledIn(users[caller.id], courseId)) ==> r == Fail(ErrorResponse("Not enrolled in this course", 403)))
  {
  }

  /** The position a playback shows is the one last saved for the host's id of the video. */
  lemma PlaybackShowsSavedProgress(progress: map<ProgressKey, VideoProgress>, caller: Caller, videoId: string,
                                   b: ProgressInput, now: Time)
    requires b.currentTime.Some? && b.duration.Some?
    ensures var saved := SaveProgressSpec(progress, caller, "vimeo_" + videoId, b, now).1;
      var p := SavedProgress(saved, caller, videoId);
      p.currentTime == b.currentTime.value && p.duration == b.duration.value
  {
  }

  // ---------------------------------------------------------------- togglePreview

  function Flipped(l: Lesson): (r: Lesson)
    ensures r.isPreview == !l.isPreview && r.(isPreview := l.isPreview) == l
  {
    l.(isPreview := !l.isPreview)
  }

  /** The host's privacy setting is only updated for a host video. */
  predicate HostVideo(l: Lesson)
  {
    Given(l.videoId) && l.videoProvider == Some(Vimeo)
  }

  /** The toggle of an addressed lesson: the flag negated, the privacy update for a host video, then the save. */
  function ToggleAt(docs: map<Id, Course>, courseId: Id, i: nat, j: nat, privacy: PrivacyUpdate, now: Time): (o: VideoOutcome<bool>)
    requires courseId in docs && i < |docs[courseId].sections| && j < |docs[courseId].sections[i].lessons|
    ensures o.result.Fail? ==> o.courses == docs
    ensures o.result.Ok? ==> o.result.value == !docs[courseId].sections[i].lessons[j].isPreview
  {
    var l := Flipped(docs[courseId].sections[i].lessons[j]);
    if HostVideo(l) && privacy(l.videoId.value, l.isPreview).Fail? then
      VideoOutcome(Fail(privacy(l.videoId.value, l.isPreview).error), docs)
    else match SaveOutcome(docs, courseId, SetLesson(docs[courseId], i, j, l), now)
      case Fail(e) => VideoOutcome(Fail(e), docs)
      case Ok(saved) => VideoOutcome(Ok(l.isPreview), docs[courseId := saved])
  }

  /**
   * `togglePreview`: the gate, then the toggle; a failed privacy update stops the
   * request before the save.
   */
  function ToggleSpec(docs: map<Id, Course>, caller: Caller, courseId: Id, si: string, li: string,
                      privacy: PrivacyUpdate, now: Time): (o: VideoOutcome<bool>)
    ensures VideoGate(docs, caller, courseId, si, li, "Not authorized to update this course").Fail? ==>
      o == VideoOutcome(Fail(VideoGate(docs, caller, courseId, si, li, "Not authorized to update this course").error), docs)
    ensures o.result.Fail? ==> o.courses == docs
    ensures o.result.Ok? ==>
      && VideoGate(docs, caller, courseId, si, li, "Not authorized to update this course").Ok?
      && var (i, j) := VideoGate(docs, caller, courseId, si, li, "Not authorized to update this course").value;
         o.result.value == !docs[courseId].sections[i].lessons[j].isPreview
  {
    match VideoGate(docs, caller, courseId, si, li, "Not authorized to update this course")
    case Fail(e) => VideoOutcome(Fail(e), docs)
    case Ok((i, j)) => ToggleAt(docs, courseId, i, j, privacy, now)
  }

  /**
   * The toggle consults the host only for a host video, and then only about that video
   * and its new flag: two hosts that agree on that one update give the same outcome.
   */
  lemma TogglePrivacyAsksNewFlag(docs: map<Id, Course>, caller: Caller, courseId: Id, si: string, li: string,
                                 privacy: PrivacyUpdate, other: PrivacyUpdate, now: Time)
    requires courseId in docs && LessonAt(docs[courseId], si, li).Some?
    requires var (i, j) := LessonAt(docs[courseId], si, li).value;
      var l := docs[courseId].sections[i].lessons[j];
      HostVideo(l) ==> privacy(l.videoId.value, !l.isPreview) == other(l.videoId.value, !l.isPreview)
    ensures ToggleSpec(docs, caller, courseId, si, li, privacy, now) == ToggleSpec(docs, caller, courseId, si, li, other, now)
  {
  }

  /** When the host refuses the update of the video's new flag, the toggle fails with that reply and nothing changes. */
  lemma ToggleHostRefusal(docs: map<Id, Course>, caller: Caller, courseId: Id, si: string, li: string, i: nat, j: nat,
                          privacy: PrivacyUpdate, now: Time)
    requires VideoGate(docs, caller, courseId, si, li, "Not authorized to update this course") == Ok((i, j))
    requires var l := docs[courseId].sections[i].lessons[j];
      HostVideo(l) && privacy(l.videoId.value, !l.isPreview).Fail?
    ensures var l := docs[courseId].sections[i].lessons[j];
      ToggleSpec(docs, caller, courseId, si, li, privacy, now)
      == VideoOutcome(Fail(privacy(l.videoId.value, !l.isPreview).error), docs)
  {
  }

  /** On a valid collection the toggle of a lesson succeeds, negates its flag and nothing else, and keeps the collection valid. */
  lemma ToggleAtFlips(docs: map<Id, Course>, courseId: Id, i: nat, j: nat, privacy: PrivacyUpdate, now: Time)
    requires StoreValid(docs) && courseId in docs && i < |docs[courseId].sections| && j < |docs[courseId].sections[i].lessons|
    requires var l := docs[courseId].sections[i].lessons[j];
      HostVideo(l) ==> privacy(l.videoId.value, !l.isPreview).Ok?
    ensures var o := ToggleAt(docs, courseId, i, j, privacy, now);
      && o.result == Ok(!docs[courseId].sections[i].lessons[j].isPreview)
      && StoreValid(o.courses)
      && o.courses.Keys == docs.Keys
      && o.courses[courseId].instructor == docs[courseId].instructor
      && o.courses[courseId].sections == SetLesson(docs[courseId], i, j, Flipped(docs[courseId].sections[i].lessons[j])).sections
  {
    FlippedSaves(docs, courseId, i, j, now);
    var edited := SetLesson(docs[courseId], i, j, Flipped(docs[courseId].sections[i].lessons[j]));
    ToggleAtSaves(docs, courseId, i, j, privacy, now, SaveOutcome(docs, courseId, edited, now));
  }

  /** On a valid collection the course with one lesson's flag negated always saves, and the collection stays valid. */
  lemma FlippedSaves(docs: map<Id, Course>, courseId: Id, i: nat, j: nat, now: Time)
    requires StoreValid(docs) && courseId in docs && i < |docs[courseId].sections| && j < |docs[courseId].sections[i].lessons|
    ensures var edited := SetLesson(docs[courseId], i, j, Flipped(docs[courseId].sections[i].lessons[j]));
      var saved := SaveOutcome(docs, courseId, edited, now);
      && saved.Ok? && StoreValid(docs[courseId := saved.value])
      && saved.value.instructor == docs[courseId].instructor && saved.value.sections == edited.sections
  {
    var c := docs[courseId];
    var edited := SetLesson(c, i, j, Flipped(c.sections[i].lessons[j]));
    SetLessonValid(c, i, j, Flipped(c.sections[i].lessons[j]));
    assert Slug(edited.title) == c.slug;
    assert !SlugTaken(docs, courseId, Slug(edited.title));
    SaveKeepsStoreValid(docs, courseId, edited, now);
  }

  /** On a valid collection a permitted toggle succeeds and reports the negated flag. */
  lemma ToggleFlips(docs: map<Id, Course>, caller: Caller, courseId: Id, si: string, li: string, i: nat, j: nat,
                    privacy: PrivacyUpdate, now: Time)
    requires StoreValid(docs) && VideoGate(docs, caller, courseId, si, li, "Not authorized to update this course") == Ok((i, j))
    requires var l := docs[courseId].sections[i].lessons[j];
      HostVideo(l) ==> privacy(l.videoId.value, !l.isPreview).Ok?
    ensures courseId in docs && i < |docs[courseId].sections| && j < |docs[courseId].sections[i].lessons|
    ensures var o := ToggleSpec(docs, caller, courseId, si, li, privacy, now);
      && o.result == Ok(!docs[courseId].sections[i].lessons[j].isPreview)
      && StoreValid(o.courses)
      && o.courses.Keys == docs.Keys
      && o.courses[courseId].sections == SetLesson(docs[courseId], i, j, Flipped(docs[courseId].sections[i].lessons[j])).sections
  {
    ToggleAtFlips(docs, courseId, i, j, privacy, now);
  }

  /** Toggling twice on a valid collection gives the course its sections back. */
  lemma ToggleTwiceRestores(docs: map<Id, Course>, caller: Caller, courseId: Id, si: string, li: string,
                            privacy: PrivacyUpdate, now: Time, later: Time)
    requires StoreValid(docs) && VideoGate(docs, caller, courseId, si, li, "Not authorized to update this course").Ok?
    requires forall videoId, isPreview :: privacy(videoId, isPreview).Ok?
    ensures var once := ToggleSpec(docs, caller, courseId, si, li, privacy, now);
      var twice := ToggleSpec(once.courses, caller, courseId, si, li, privacy, later);
      && twice.courses.Keys == docs.Keys
      && twice.courses[courseId].sections == docs[courseId].sections
  {
    var (i, j) := LessonAt(docs[courseId], si, li).value;
    var c := docs[courseId];
    var original := c.sections[i].lessons[j];
    ToggleAtFlips(docs, courseId, i, j, privacy, now);
    var once := ToggleAt(docs, courseId, i, j, privacy, now);
    var c1 := once.courses[courseId];
    assert c1.sections[i].lessons[j] == Flipped(original);
    assert LessonAt(c1, si, li) == Some((i, j));
    assert VideoGate(once.courses, caller, courseId, si, li, "Not authorized to update this course") == Ok((i, j));
    ToggleAtFlips(once.courses, courseId, i, j, privacy, later);
    assert Flipped(Flipped(original)) == original;
    SetLessonBack(c, c1, i, j, Flipped(original));
  }

  /** The toggle on the store. */
  method ToggleAtOnStore(store: CourseStore, courseId: Id, i: nat, j: nat, privacy: PrivacyUpdate, now: Time) returns (r: Result<bool>)
    requires courseId in store.docs && i < |store.docs[courseId].sections| && j < |store.docs[courseId].sections[i].lessons|
    modifies store
    ensures ToggleAt(old(store.docs), courseId, i, j, privacy, now) == VideoOutcome(r, store.docs)
  {
    var course := store.docs[courseId];
    var lesson := Flipped(course.sections[i].lessons[j]);
    if HostVideo(lesson) && privacy(lesson.videoId.value, lesson.isPreview).Fail? {
      return Fail(privacy(lesson.videoId.value, lesson.isPreview).error);
    }
    ghost var docs0 := store.docs;
    var saved := store.Save(courseId, SetLesson(course, i, j, lesson), now);
    r := if saved.Ok? then Ok(lesson.isPreview) else Fail(saved.error);
    ToggleAtSaves(docs0, courseId, i, j, privacy, now, saved);
  }

  /** Past the privacy update, the toggle's outcome is the save of the flipped lesson. */
  lemma {:induction false} ToggleAtSaves(docs: map<Id, Course>, courseId: Id, i: nat, j: nat, privacy: PrivacyUpdate,
                                         now: Time, saved: Result<Course>)
    requires courseId in docs && i < |docs[courseId].sections| && j < |docs[courseId].sections[i].lessons|
    requires var l := Flipped(docs[courseId].sections[i].lessons[j]);
      !(HostVideo(l) && privacy(l.videoId.value, l.isPreview).Fail?)
    requires saved == SaveOutcome(docs, courseId, SetLesson(docs[courseId], i, j, Flipped(docs[courseId].sections[i].lessons[j])), now)
    ensures ToggleAt(docs, courseId, i, j, privacy, now)
            == VideoOutcome(if saved.Ok? then Ok(!docs[courseId].sections[i].lessons[j].isPreview) else Fail(saved.error),
                            if saved.Ok? then docs[courseId := saved.value] else docs)
  {
  }

  /** `togglePreview` on the store. */
  method TogglePreview(store: CourseStore, caller: Caller, courseId: Id, si: string, li: string, privacy: PrivacyUpdate, now: Time)
    returns (r: Result<bool>)
    modifies store
    ensures ToggleSpec(old(store.docs), caller, courseId, si, li, privacy, now) == VideoOutcome(r, store.docs)
  {
    var gate := VideoGate(store.docs, caller, courseId, si, li, "Not authorized to update this course");
    if gate.Fail? {
      return Fail(gate.error);
    }
    r := ToggleAtOnStore(store, courseId, gate.value.0, gate.value.1, privacy, now);
  }
}
